=== FILE: README.md ===
# FishnetUserSystem identity and authorization core, in Dafny

This project models the identity and authorization engine of FishnetUserSystem, a FastAPI
service. It covers:

- accounts, browser sessions, API keys, service keys and SSO authorization codes;
- the four-strategy authenticator chain (session cookie, API key, service key, bearer JWT) and
  the middleware that mirrors it;
- role-based access control: effective permissions as the union over live role assignments, a
  read-through permission cache keyed per account and project (or `global`), the assignment
  state machine, project access, and the default project roles and permissions;
- the guards `require_permission` and `require_roles`, the account guards, the rate limiter and
  pagination;
- the validators of usernames, passwords, project codes and role codes;
- the generic store operations (`get`, `get_multi`, `count`, `update`, `remove`) and the user,
  project and authentication stores;
- the user and project services;
- the HTTP routes for authentication, SSO, users, projects, roles and permissions.

The database is a `Store` of tables held as sequences in storage order. First-match lookups,
`OFFSET`/`LIMIT` windows and `scalar_one_or_none` multiplicity are therefore explicit. Time is
one integer clock, `now`. Hashing, signing and randomness are parameters: a password hasher, a
SHA-256 function, a JWT codec, and oracles for fresh ids and tokens. Each operation is a pure
function from a store (and, for RBAC, a permission cache) to the new store and a result. An
exception the Python code raises is a `Failure` carrying its HTTP status and detail. An exception
a handler catches and reports in the response envelope is a `Success` holding an error envelope.

Most properties are lemmas that relate an operation to its partner. Examples:

- a login's cookie authenticates its account until the session expires;
- a logout ends exactly that session;
- an issued code is exchanged once, for a token bound to its project;
- the permission cache stays coherent with the store under every assignment, revocation and
  guard check;
- every route admits a request exactly when its guards do;
- every creation, update and deletion is read back through the matching lookup.

Where the Python code as written cannot do what it evidently intends, the model defines both
versions. A lemma exhibits the difference, and the rest of the model uses the corrected one (see
"## Findings").

## Model

| member | source | states |
|---|---|---|
| Config.ValidateDatabaseUrl | app/config.py:98-103 | an empty database URL is refused with its message; any other value is accepted unchanged |
| Config.ValidateJwtSecret | app/config.py:105-110 | the signing secret is accepted exactly when it has at least 32 characters, and then unchanged |
| Config.Required | app/config.py:21-37 | a required setting that is missing fails with "Field required"; a present one is taken unchanged |
| Config.LoadSettings | app/config.py:21-110 | settings load exactly when the three required fields (database URL, signing secret, session secret) are present and the database URL and signing secret pass their validators; the loaded values are the given ones; the default project allow-list only names projects that have a URL |
| Config.LoadSettingsRoundTrip | app/config.py:21-110 | loading the fields of loaded settings again yields the same settings |
| DateTimeUtils.MakeAware | app/core/datetime_utils.py:9-15 | a naive value is read as UTC with the same wall time; an aware value and `None` pass through; the instant never changes |
| DateTimeUtils.MakeNaive | app/core/datetime_utils.py:17-23 | an aware value is moved to UTC and loses its zone, keeping its instant; naive values and `None` pass through |
| DateTimeUtils.EnsureAware | app/core/datetime_utils.py:25-27 | nothing stays nothing; anything else comes out timezone-aware at the same instant, a naive value being read as UTC and an aware one kept as it is |
| DateTimeUtils.Less | app/services/rbac_service.py:39 | comparing a naive with an aware datetime raises `TypeError`; two of the same kind compare by their instants |
| DateTimeUtils.MakeAwareMakeNaive | app/core/datetime_utils.py:9-23 | for a UTC value, dropping and re-adding the zone gives the value back |
| DateTimeUtils.MakeNaiveMakeAware | app/core/datetime_utils.py:9-23 | for a naive value, adding and dropping the zone gives the value back |
| DateTimeUtils.ConversionsIdempotent | app/core/datetime_utils.py:9-23 | applying either conversion twice is the same as applying it once |
| DateTimeUtils.RoundTripNormalisesZone | app/core/datetime_utils.py:17-23 | a value in a non-UTC zone comes back from the round trip as the same instant in UTC, not as itself |
| Security.GenerateApiKey | app/core/security.py:31-36 | the raw API key is `ak_` followed by the random token, and the stored value is its SHA-256 digest |
| Security.GenerateServiceKey | app/core/security.py:46-51 | the raw service key is `sk_` followed by the random token, and the stored value is its digest |
| Security.GeneratedApiKeyVerifies | app/core/security.py:31-44 | a freshly generated key verifies against the digest generated with it |
| Security.KeyKindsDisjoint | app/core/security.py:31-51 | no raw API key equals a raw service key, whatever the two random tokens |
| Security.JwtPayload | app/core/security.py:53-62 | the signed payload is the data plus `exp`; a missing or zero lifetime falls back to the configured access-token lifetime |
| Security.CreateJwtToken | app/core/security.py:53-63 | with a faithful codec the token decodes to exactly the payload with its expiry |
| Security.VerifyJwtToken | app/core/security.py:65-72 | a token verifies exactly when it decodes and its `exp` is a number not before now, and then yields its claims |
| Security.JwtRoundTrip | app/core/security.py:53-72 | a token this service signed verifies until its expiry instant, yielding its payload, and is refused after it |
| Cache.Get | app/core/cache.py:44-63 | a read returns the stored value of a live entry, and the default when there is no backend, no live entry or a backend fault |
| Cache.TruncDiv | app/core/cache.py:81-82 | division truncates toward zero, as `int()` does to a float, for either sign |
| Cache.ResolveTtl | app/core/cache.py:78-82 | a missing expiry becomes the default TTL; an integer is kept; a timedelta becomes its whole seconds, truncated toward zero |
| Cache.Set | app/core/cache.py:65-88 | a write succeeds exactly when there is a backend, no fault and a positive expiry; then only that key changes, otherwise nothing does |
| Cache.Delete | app/core/cache.py:90-100 | a delete reports whether a live entry was removed; with a backend and no fault the key is gone |
| Cache.GetAfterSet | app/core/cache.py:44-88 | a successful write is read back unchanged until its expiry |
| Cache.GetAfterDelete | app/core/cache.py:44-100 | after a delete the key reads as the default |
| Cache.OtherKeysUnchanged | app/core/cache.py:44-100 | a write or delete on one key leaves every other key's reading as it was |
| Cache.NoBackendReadsDefault | app/core/cache.py:44-47 | without a backend nothing is ever stored: every read is the default |
| Common.DefaultResponse | app/schemas/common.py:9-16 | the default envelope says success with code 200 and message "Success" |
| Common.ErrorResponse | app/schemas/common.py:9-16 | an error envelope says failure and carries the error's status and detail |
| Common.DefaultPaginationParams | app/schemas/common.py:19-22 | pagination defaults to skip 0 and limit 50 |
| Common.CreatePage | app/schemas/common.py:34-44 | a page keeps its window and total; it has a next page exactly when `skip + limit < total`, a previous one exactly when `skip > 0` |
| Common.NextPageHasPrev | app/schemas/common.py:34-44 | stepping forward from a page that has a next page gives a page that has a previous one |
| Models.EmptyStore | app/models/user.py:16-18 | the empty database satisfies every primary-key and UNIQUE constraint the tables declare |
| Uuids.Text | app/schemas/user.py:82-87 | `str(uuid)` is the 36-character hyphenated form, and dropping its hyphens gives the 32 digits |
| Uuids.Parse | app/services/user_service.py:18 | `uuid.UUID(text)` succeeds exactly when the text, without braces, `urn:uuid:` prefix and hyphens, is 32 hex digits, and it keeps those digits in lower case |
| Uuids.ParseText | app/services/user_service.py:18 | the text of an id parses back to the same id |
| Uuids.TextInjective | app/schemas/user.py:82-87 | two ids with the same text are the same id |
| Uuids.ParseBareHex | app/api/v1/permissions.py:118-126 | the bare 32-digit form parses to the same id as the canonical text, yet is a different string, so a textual comparison can miss that two ids agree |
| Patterns.MatchAsWrittenCharacterised | app/schemas/user.py:22 | a pattern `^[class]+$` as Python's `re.match` runs it accepts every string the intended full match accepts, and the intended match never accepts a newline |
| Patterns.TrailingNewlineAccepted | app/schemas/user.py:22 | a valid value followed by one newline passes the written pattern but not the intended full match |
| UserSchemas.ValidateUsernameAsWritten | app/schemas/user.py:15-24 | the written username validator accepts exactly the 3-to-50-character values its pattern matches, including one trailing newline |
| UserSchemas.ValidateUsername | app/schemas/user.py:15-24 | a username passes exactly when it has 3 to 50 characters, each a letter, digit, `_` or `-`; the two length errors carry their messages |
| UserSchemas.UsernameTrailingNewline | app/schemas/user.py:22 | `"abc\n"` passes the written validator and fails the intended one |
| UserSchemas.UsernameValidatorsAgreeWithoutNewline | app/schemas/user.py:15-24 | on every value without a newline the written and intended validators give the same answer |
| UserSchemas.ValidatePassword | app/schemas/user.py:34-41 | a password passes exactly when it has 8 to 128 characters |
| UserSchemas.MakeUserCreate | app/schemas/user.py:27-41 | a creation request is valid exactly when username and password are; the flags default to active, unverified, not a superuser |
| UserSchemas.MakeUserCreateAgainstSource | app/schemas/user.py:15-41 | every creation request the model accepts passes the validators as written; one they accept and the model refuses has a username of allowed characters followed by exactly one newline |
| UserSchemas.ValidateUserUpdate | app/schemas/user.py:44-64 | an update is refused only for a username it sets that fails validation; an update without a username always passes |
| UserSchemas.ValidateUserUpdateAgainstSource | app/schemas/user.py:44-64 | every update the model accepts passes the validator as written; one it accepts and the model refuses sets a username of allowed characters followed by exactly one newline |
| UserSchemas.ToResponse | app/schemas/user.py:67-87 | the rendered account carries the id as text and the account's own name, email and flags |
| UserSchemas.ToResponseHidesOnlyHash | app/schemas/user.py:67-80 | two accounts render alike exactly when they differ at most in their password hashes |
| RbacSchemas.ValidateProjectCodeAsWritten | app/schemas/rbac.py:15-20 | the written project-code validator accepts what its pattern matches, including one trailing newline |
| RbacSchemas.ValidateProjectCode | app/schemas/rbac.py:15-20 | a project code passes exactly when it is non-empty lower-case letters, digits and hyphens |
| RbacSchemas.ProjectCodeTrailingNewline | app/schemas/rbac.py:18 | `"project-a\n"` passes the written validator and fails the intended one |
| RbacSchemas.ValidateRoleCodeAsWritten | app/schemas/rbac.py:51-56 | the written role-code validator accepts what its pattern matches, including one trailing newline |
| RbacSchemas.ValidateRoleCode | app/schemas/rbac.py:51-56 | a role code passes exactly when it is non-empty lower-case letters, digits and underscores |
| RbacSchemas.RoleCodeTrailingNewline | app/schemas/rbac.py:54 | `"editor\n"` passes the written validator and fails the intended one |
| RbacSchemas.MakeProjectCreate | app/schemas/rbac.py:8-25 | a project request is valid exactly when its code is; a new project is active unless the request says otherwise |
| RbacSchemas.MakeProjectCreateAgainstSource | app/schemas/rbac.py:8-25 | every project request the model accepts passes the code validator as written; one it accepts and the model refuses has a code of allowed characters followed by exactly one newline |
| RbacSchemas.MakeRoleCreate | app/schemas/rbac.py:45-62 | a role request is valid exactly when its code is; a new role is not a system role unless the request says so |
| RbacSchemas.MakeRoleCreateAgainstSource | app/schemas/rbac.py:45-62 | every role request the model accepts passes the code validator as written; one it accepts and the model refuses has a code of allowed characters followed by exactly one newline |
| CrudBase.Get | app/crud/base.py:18-22 | the lookup returns a row with that id, and returns nothing exactly when no row has it |
| CrudBase.Count | app/crud/base.py:47-65 | the count is zero exactly when no row meets every given condition, and never exceeds the table |
| CrudBase.GetMulti | app/crud/base.py:24-45 | a listing holds at most `limit` rows, no more than the count, each one in the table and meeting every condition |
| CrudBase.FilterLength | app/crud/base.py:24-65 | the filtered rows number exactly as many as the count reports |
| CrudBase.EmptyFiltersMatchAll | app/crud/base.py:35-43 | with no condition the count is the table size and the listing is the window `[skip, skip+limit)` of the table |
| CrudBase.Update | app/crud/base.py:76-96 | an update replaces the row with that id by its patched form and leaves every other row as it was |
| CrudBase.UpdateThenGet | app/crud/base.py:18-96 | with unique ids and a patch that keeps the id, ids stay unique and the lookup then finds the patched row |
| CrudBase.UpdateIdempotent | app/crud/base.py:76-96 | applying the same idempotent patch twice is applying it once |
| CrudBase.Remove | app/crud/base.py:98-104 | a removal returns what the lookup finds; afterwards the table holds exactly the rows with other ids; a missing id changes nothing |
| CrudBase.RemovePreservesDistinct | app/crud/base.py:98-104 | a removal keeps every unique column unique |
| CrudBase.ActiveFilter | app/api/v1/users.py:30-33 | the `is_active` condition is present exactly when the request gives one |
| CrudBase.ActiveFilterSelects | app/crud/base.py:35-41 | without an activity condition every row is eligible; with one, only rows whose flag equals it are listed |
| CrudUser.GetUser | app/crud/base.py:18-22 | the account with that id, and nothing exactly when no account has it |
| CrudUser.GetByEmail | app/crud/user.py:14-18 | the account with that email, and nothing exactly when no account has it |
| CrudUser.GetByUsername | app/crud/user.py:20-24 | the account with that username, and nothing exactly when no account has it |
| CrudUser.NewUser | app/crud/user.py:26-44 | a new account stores the hash of the password, never the password, with a fresh id, the requested flags, no logins yet |
| CrudUser.Create | app/crud/user.py:26-44 | a taken email is reported before a taken username, each leaving the store as it was; otherwise exactly the new account is appended |
| CrudUser.CreateAsWritten | app/crud/user.py:26-44 | as written the same refusals come first; for a free email and username the row reaches the commit without `created_at`, a NOT NULL column with no default once app/models/user.py:28 redeclares it, so the commit fails and nothing is ever stored |
| CrudUser.CreateAsWrittenAgainstCreate | app/crud/user.py:26-44 | the written and the intended creation refuse the same requests with the same message, and the written one fails at the commit exactly where the intended one appends an account |
| CrudUser.Authenticate | app/crud/user.py:46-53 | an account is returned exactly when the email names one and the password verifies against its hash |
| CrudUser.UpdateLoginInfo | app/crud/user.py:55-68 | only the account with that id changes: its login count goes up by one and its last login becomes now |
| CrudUser.CreatePreservesConsistency | app/crud/user.py:26-44 | registering with a fresh id keeps id, username and email unique |
| CrudUser.CreateThenAuthenticate | app/crud/user.py:26-53 | after a registration the account authenticates with its email and its password |
| CrudUser.UpdateLoginInfoPreservesConsistency | app/crud/user.py:55-68 | counting a login keeps every unique column unique |
| CrudAuth.GetSessionByToken | app/crud/auth.py:13-22 | only an active session holding that token is found; nothing is found exactly when no active session holds it |
| CrudAuth.GetSessionByRefreshToken | app/crud/auth.py:24-33 | only an active session holding that refresh token is found; nothing exactly when none does |
| CrudAuth.NewSession | app/crud/auth.py:48-58 | a new session is active and holds the given tokens, expiry and project |
| CrudAuth.CreateSession | app/crud/auth.py:35-62 | opening a session appends exactly that session and returns it |
| CrudAuth.Deactivate | app/crud/auth.py:64-72 | only the session with that id changes, and only its active flag, which becomes false |
| CrudAuth.UpdateLastAccessed | app/crud/auth.py:74-84 | only the access stamp of the session with that id changes |
| CrudAuth.DeactivateIdempotent | app/crud/auth.py:64-72 | deactivating twice is deactivating once |
| CrudAuth.DeactivatedTokenNotFound | app/crud/auth.py:13-72 | with unique tokens, once its session is deactivated a session token no longer resolves |
| CrudAuth.CreatedSessionFound | app/crud/auth.py:13-62 | a new active session whose token was unused is found by that token |
| CrudAuth.GetApiKeyByHash | app/crud/auth.py:88-97 | only an active key with that digest is found; nothing exactly when none is |
| CrudAuth.CreateApiKey | app/crud/auth.py:99-128 | a new key is active and stores the digest of the raw key it returns; a zero `expires_days` means no expiry, otherwise now plus that many days |
| CrudAuth.CreatedApiKeyFound | app/crud/auth.py:88-128 | the raw key handed back finds the new key by its digest |
| CrudAuth.UpdateLastUsed | app/crud/auth.py:130-140 | only the use stamp of the key with that id changes |
| CrudAuth.GetServiceKeyByHash | app/crud/auth.py:144-153 | only an active service key with that digest is found; nothing exactly when none is |
| CrudAuth.NewAuthCode | app/crud/auth.py:170-178 | a new authorization code is unused, has no use stamp, and holds the given account, project, redirect and expiry |
| CrudAuth.CreateAuthCode | app/crud/auth.py:159-184 | issuing a code appends exactly that row and returns it |
| CrudAuth.GetAuthCodeByCode | app/crud/auth.py:186-190 | the row with that code is found whether or not it was used; nothing exactly when no row has it |
| CrudAuth.MarkAsUsed | app/crud/auth.py:192-202 | the code with that id becomes used at now whatever its previous state; no other row changes |
| CrudAuth.UsedCodeStillFound | app/crud/auth.py:186-202 | after being marked, a code is still found by its value, now marked used at that time |
| CrudRbac.GetProjectByCode | app/crud/rbac.py:13-17 | the project with that code, and nothing exactly when no project has it |
| CrudRbac.GetRoleByCode | app/crud/rbac.py:21-32 | a role with that code in exactly that scope (no project means global roles only); nothing when none; an error exactly when several match |
| CrudRbac.GetGlobalRoles | app/crud/rbac.py:34-38 | exactly the roles without a project |
| CrudRbac.GetProjectRoles | app/crud/rbac.py:40-44 | exactly the roles of that project |
| CrudRbac.RoleGetUserRoles | app/crud/rbac.py:46-57 | exactly the roles reached through an active assignment of the user, in that project when one is given; expiry is not looked at |
| CrudRbac.GetRolePermissions | app/crud/rbac.py:61-65 | exactly the permissions linked to that role |
| CrudRbac.GetProjectPermissions | app/crud/rbac.py:67-71 | exactly the permissions of that project |
| CrudRbac.PermissionGetUserPermissions | app/crud/rbac.py:73-94 | exactly the permissions reached from an active assignment of the user through its role, in that project or globally when a project is given |
| CrudRbac.GlobalAssignmentScopes | app/crud/rbac.py:46-94 | with a project, a global assignment contributes its permissions to the permission listing but its role not to the role listing |
| CrudRbac.RemoveAllRolePermissions | app/crud/rbac.py:123-128 | afterwards the links are exactly those of other roles, and the count returned is the number removed |
| CrudRbac.NewLinks | app/crud/rbac.py:110-118 | one new link per permission id, in order, each for that role with a fresh id |
| CrudRbac.AssignPermissionsToRole | app/crud/rbac.py:98-121 | the role's old links are removed and committed first; a replacement the store refuses leaves the role with no links at all |
| CrudRbac.AssignPermissionsReplaces | app/crud/rbac.py:98-128 | after a replacement the role is linked to exactly the given permissions and every other role keeps its links |
| CrudRbac.UserRoleGetUserRoles | app/crud/rbac.py:132-151 | exactly the user's assignments in that project (global ones excluded) or in every scope without one, active ones only unless asked |
| CrudRbac.GetUserRoleAssignment | app/crud/rbac.py:195-216 | the assignment of that role to that user in exactly that scope; nothing when none; an error exactly when several match |
| CrudRbac.AssignRoleToUser | app/crud/rbac.py:153-193 | an inactive assignment for the same user, role and scope is reactivated in place with the new grantor, time and expiry; an active one is a conflict; otherwise a new active one is appended |
| CrudRbac.AssignPreservesUniqueness | app/crud/rbac.py:153-216 | from a table with one assignment per user, role and scope, every successful assignment leaves exactly one for its key, and it is active |
| RbacService.CacheKey | app/services/rbac_service.py:22 | every key starts with `user_permissions:`; a project-scoped key and a global key differ in length, so the scope can be read back |
| RbacService.CacheKeyInjective | app/services/rbac_service.py:22 | two different (user, scope) pairs never share a cache key |
| RbacService.Codes | app/services/rbac_service.py:44-45 | the collected codes are exactly the codes of the given permissions |
| RbacService.CollectIsUnion | app/services/rbac_service.py:35-45 | the loop computes the union of what each visited assignment yields |
| RbacService.ComputePermissions | app/services/rbac_service.py:29-45 | the store computation yields exactly the effective permissions: codes of roles of active, unexpired (`expires_at < now` excludes) assignments selected for that scope |
| RbacService.GetUserPermissions | app/services/rbac_service.py:15-54 | a live non-empty cached set is returned as is; an empty or missing one counts as a miss, so the set is computed and written back with the permission TTL |
| RbacService.CoherentAcrossOtherTables | app/services/rbac_service.py:29-45 | the resolution reads only assignments, role links and permissions, so a change to any other table keeps a coherent cache coherent |
| RbacService.GetUserPermissionsCoherent | app/services/rbac_service.py:15-54 | from a cache that agrees with the store, resolution returns the effective permissions and keeps the cache in agreement |
| RbacService.CheckPermission | app/services/rbac_service.py:56-65 | with a coherent cache a permission check holds exactly when the code is an effective permission |
| RbacService.GetUserPermissionsCoherentIfAny | app/services/rbac_service.py:15-54 | any coherent cache yields the effective permissions |
| RbacService.CachedSetOutlivesExpiry | app/services/rbac_service.py:24-27 | a live cached set is served unchanged even after the assignment behind it has expired |
| RbacService.CheckUserProjectAccess | app/services/rbac_service.py:119-151 | a superuser always has access; an unknown project code never; otherwise access needs an active assignment in that project whose expiry is missing or after now (`>`) |
| RbacService.GetUserProjectPermissions | app/services/rbac_service.py:153-173 | an unknown project code gives no permissions; otherwise the resolved set for that project |
| RbacService.ExpiryBoundary | app/services/rbac_service.py:39-148 | an assignment expiring exactly now still yields its permissions but no longer grants project access |
| RbacService.VisitWith | app/services/rbac_service.py:36-45 | one assignment read against a clock raises exactly when the clock is naive and the assignment is active with an expiry; otherwise it contributes what the intended test gives |
| RbacService.CollectWith | app/services/rbac_service.py:35-45 | the loop raises exactly when the clock is naive and some active assignment has an expiry; otherwise it yields the intended union |
| RbacService.ComputePermissionsAsWritten | app/services/rbac_service.py:29-45 | with `utcnow()` the computation raises exactly when an active assignment selected for the scope has an expiry, expired or not; otherwise it yields the effective permissions |
| RbacService.AwareClockComputesPermissions | app/services/rbac_service.py:29-45 | read against an aware clock at the same instant, the loop never raises and yields the effective permissions |
| RbacService.GetUserPermissionsAsWritten | app/services/rbac_service.py:15-54 | a live non-empty cached set is still served; on a miss resolution raises exactly when the computation as written does; any answer equals the intended resolution |
| RbacService.AccessWith | app/services/rbac_service.py:148 | `expires_at > utcnow()` raises exactly when the clock is naive and the assignment is active with an expiry; otherwise it is the intended access test |
| RbacService.AnyAccessWith | app/services/rbac_service.py:146-151 | the comprehension raises exactly when some active assignment has an expiry against a naive clock; otherwise access means some assignment grants it |
| RbacService.CheckUserProjectAccessAsWritten | app/services/rbac_service.py:119-151 | a superuser has access and an unknown code has none, both before any comparison; otherwise the check raises exactly when an active assignment of the user in that project has an expiry, and agrees with the intended check when it does not |
| RbacService.EffectiveOutsideUnchanged | app/services/rbac_service.py:29-45 | a change to one user's assignments in one scope changes only that user's effective permissions in that scope and in the global scope |
| RbacService.InvalidateOne | app/services/rbac_service.py:87-89 | unless the backend fails, the entry of (user, scope) is gone; every other key reads as before |
| RbacService.InvalidateWithGlobal | app/services/rbac_service.py:87-89 | the entries of (user, scope) and of (user, global) are dropped; every other key reads as before |
| RbacService.InvalidateWithGlobalKeepsCoherent | app/services/rbac_service.py:87-89 | after a change confined to (user, scope), dropping both entries keeps the cache coherent |
| RbacService.AssignRoleToUserAsWritten | app/services/rbac_service.py:67-91 | as written the store call raises before anything is written or invalidated |
| RbacService.NewAssignment | app/services/rbac_service.py:77-83 | the assignment the service means to insert is active, for that user, role and scope, granted now |
| RbacService.AssignRoleInvalidatingOne | app/services/rbac_service.py:77-89 | with the store call repaired the assignment is inserted and only the (user, scope) entry is dropped |
| RbacService.AssignRoleToUser | app/services/rbac_service.py:77-89 | the repaired assignment inserts an active assignment of that role and drops both the (user, scope) and the (user, global) entries |
| RbacService.AssignRoleToUserKeepsCoherent | app/services/rbac_service.py:67-91 | the repaired assignment keeps a coherent cache coherent |
| RbacService.AssignInvalidatingOneLeavesGlobalStale | app/services/rbac_service.py:87-89 | dropping only the (user, project) entry leaves a warm global entry stale once a project role adds a permission it lacked |
| RbacService.RevokeRoleFromUserAsWritten | app/services/rbac_service.py:93-108 | the store's revocation result is returned, and only the (user, scope) entry is dropped, only when the revocation reports success |
| RbacService.RevokeRoleFromUser | app/services/rbac_service.py:93-108 | on success both the (user, scope) and the (user, global) entries are dropped; on failure the cache is untouched |
| RbacService.RevokeRoleFromUserKeepsCoherent | app/services/rbac_service.py:93-108 | a successful revocation confined to (user, scope) keeps the cache coherent |
| RbacDefaults.Upper | app/services/rbac_service.py:184 | the display prefix has the code's length, with each lower-case ASCII letter raised and every other character kept |
| RbacDefaults.RolePermissionCodes | app/services/rbac_service.py:258-293 | each default role's list names exactly the default permission codes of its position in the table (viewer two, editor three, admin six) |
| RbacDefaults.DefaultCodesDistinct | app/services/rbac_service.py:182-293 | the six default permission codes of any project are pairwise distinct, and so are the three default role codes |
| RbacDefaults.RolePermissionsNest | app/services/rbac_service.py:258-293 | viewer's permissions are among editor's, editor's among admin's, and admin holds all six |
| RbacDefaults.DefaultPermission | app/services/rbac_service.py:182-231 | the i-th default permission carries the i-th code and belongs to the project |
| RbacDefaults.DefaultRole | app/services/rbac_service.py:258-293 | the k-th default role carries the k-th code, is scoped to the project and is not a system role |
| RbacDefaults.CreateDefaultProjectPermissionsAsWritten | app/services/rbac_service.py:233-243 | as written the first lookup raises, so nothing is written and the step fails |
| RbacDefaults.EnsurePermissionsFrom | app/services/rbac_service.py:233-243 | the loop yields one permission per remaining code, each the first row with that code in the grown table |
| RbacDefaults.CreateDefaultProjectPermissions | app/services/rbac_service.py:175-243 | only the permission table grows, by appending; six permissions come back, the first row with each default code, reusing an existing one when there was one |
| RbacDefaults.CreateDefaultProjectPermissionsIdempotent | app/services/rbac_service.py:175-243 | a second run creates nothing and returns the same six rows |
| RbacDefaults.PermissionMapDistinct | app/services/rbac_service.py:256 | with distinct codes the code-to-permission map sends each code to its own row |
| RbacDefaults.LinkTargets | app/services/rbac_service.py:307-311 | the ids linked for a role are exactly the mapped permissions of its listed codes that the map has |
| RbacDefaults.DefaultRoleTargets | app/services/rbac_service.py:256-311 | a newly created default role is linked to exactly the default permissions on its list |
| RbacDefaults.EnsureRole | app/services/rbac_service.py:297-315 | one role step: an existing role with the code is reused and nothing written; otherwise a role with the code is appended and linked; a failing lookup writes nothing |
| RbacDefaults.EnsureRolesFrom | app/services/rbac_service.py:296-317 | the loop fails exactly when some remaining lookup fails; otherwise it yields one role per remaining code, each then the only one with that code in the project, new ones carrying their grants |
| RbacDefaults.EnsureRolesAllPresent | app/services/rbac_service.py:296-317 | when every remaining default role already exists the loop appends nothing and returns them |
| RbacDefaults.CreateDefaultProjectRolesAsWritten | app/services/rbac_service.py:245-253 | as written the permission step it starts with raises, so nothing is written and the step fails |
| RbacDefaults.CreateDefaultProjectRoles | app/services/rbac_service.py:245-317 | roles and links only grow by appending; the step fails exactly when a role lookup is ambiguous; on success each default code names exactly one role of the project, and every role it had to create holds its default grants |
| RbacDefaults.CreateDefaultProjectRolesReuses | app/services/rbac_service.py:302-315 | a default role the project already had is the one returned, not a duplicate |
| RbacDefaults.CreateDefaultProjectRolesIdempotent | app/services/rbac_service.py:245-317 | running the role step again after it succeeded writes nothing and returns the same roles |
| RbacDefaults.SetupProjectRbacAsWritten | app/services/rbac_service.py:319-327 | as written the first step raises, so nothing is written and the set-up fails |
| RbacDefaults.Summarise | app/services/rbac_service.py:332-339 | the summary counts what each step returned and lists each row's id text, code and name in order |
| RbacDefaults.SetupProjectRbac | app/services/rbac_service.py:319-339 | the set-up fails exactly when the role step does; on success it reports 6 permissions and 3 roles, in default-code order, for that project |
| RbacDefaults.SetupStoreIsRoleStep | app/services/rbac_service.py:319-331 | the set-up leaves the store exactly as the role step alone would, because the repeated permission step adds nothing |
| Authenticators.SessionAuthenticate | app/auth/authenticators.py:23-46 | an empty token changes nothing and names nobody; an account comes back only from an active, unexpired session holding the token; only the sessions table is written |
| Authenticators.SessionLookup | app/crud/auth.py:13-22 | with unique tokens, the lookup of an active session's token finds that session |
| Authenticators.SessionAcceptedUntilExpiry | app/auth/authenticators.py:26-46 | an active session authenticates its account up to and including its expiry instant, and the only write is its access stamp |
| Authenticators.ExpiredSessionStaysRejected | app/auth/authenticators.py:36-40 | an expired session is refused and deactivated, and its token never authenticates again at any later time |
| Authenticators.ApiKeyAuthenticate | app/auth/authenticators.py:49-75 | an empty key names nobody; success needs an active, unexpired key with the presented key's digest, stamps its use and pairs it with its owner, who may be missing; a refusal writes nothing |
| Authenticators.ApiKeyVerificationRedundant | app/auth/authenticators.py:59-69 | the digest check after the lookup never fails, so a key is accepted exactly when an active, unexpired key carries its digest |
| Authenticators.ApiKeyAuthenticateWith | app/auth/authenticators.py:53-75 | against a naive clock a found key with an expiry raises before the digest check; any answer equals the intended check at the clock's instant |
| Authenticators.ApiKeyAuthenticateAsWritten | app/auth/authenticators.py:53-75 | with `utcnow()` the check raises exactly when the presented key is non-empty and the key its digest finds has an expiry; otherwise it is the intended check |
| Authenticators.CreatedApiKeyRaisesAsWritten | app/crud/auth.py:110-128 | every key created with a non-zero lifetime makes the check as written raise when it is presented, at any time |
| Authenticators.ServiceKeyAuthenticate | app/auth/authenticators.py:78-96 | an empty key names nothing; otherwise the result is an active key carrying the presented key's digest, and there is none exactly when no such key exists |
| Authenticators.ServiceKeyIgnoresProject | app/auth/authenticators.py:81-96 | the named project plays no part: a key bound to one project is accepted for any other |
| Authenticators.Subject | app/auth/authenticators.py:110-112 | a `sub` claim names an account id exactly when it is a non-empty string that parses as a UUID |
| Authenticators.SubjectOfText | app/auth/authenticators.py:110-114 | the canonical text of an id, used as `sub`, names that id |
| Authenticators.JwtAuthenticate | app/auth/authenticators.py:99-114 | an empty token names nobody; a result is an existing account whose id the verified token's `sub` names; neither the token type nor any session is consulted |
| Authenticators.IssuedTokenAuthenticates | app/auth/authenticators.py:102-114 | a token this service signed with an account's id as `sub` authenticates that account until its expiry instant and not after |
| Authenticators.JwtIgnoresEverythingButAccounts | app/auth/authenticators.py:102-114 | ending sessions or revoking keys or roles leaves every bearer token exactly as valid as before |
| Dependencies.Get | app/dependencies.py:28 | a mapping lookup yields the value exactly when the key is present |
| Dependencies.AuthenticateRequest | app/dependencies.py:21-67 | no account table write; an anonymous result exactly when no strategy succeeded; an authenticated account exists; each kind of authentication carries the credential that produced it |
| Dependencies.AuthenticateRequestFollowsPriority | app/dependencies.py:21-67 | the request is tried with the session cookie, the API key, the service key and the bearer token in that order, the first success winning and failed attempts' writes kept |
| Dependencies.NoCredentialIsAnonymous | app/dependencies.py:21-67 | a request carrying no credential is anonymous and writes nothing |
| Dependencies.SessionCookieWins | app/dependencies.py:27-32 | a valid session cookie authenticates its account whatever other credentials the request carries |
| Dependencies.GetCurrentUser | app/dependencies.py:82-97 | passes exactly when an account was authenticated, and yields it; otherwise 401 |
| Dependencies.GetCurrentActiveUser | app/dependencies.py:100-109 | passes exactly for an authenticated active account; 401 without one, 403 for a disabled one |
| Dependencies.GetCurrentSuperuser | app/dependencies.py:112-121 | passes exactly for an active superuser; an active non-superuser gets 403, anything else the active-user refusal |
| Dependencies.GetCurrentVerifiedUser | app/dependencies.py:124-133 | passes exactly for an active verified account; an active unverified one gets 403, anything else the active-user refusal |
| Dependencies.ServiceKeyNeverPassesAccountGuards | app/dependencies.py:46-57 | a request authenticated by a service key carries no account, so every account guard answers 401 |
| Dependencies.GetServiceAuthInfo | app/dependencies.py:137-148 | passes exactly when the request was authenticated by a service key; otherwise 401 |
| Dependencies.RequireServicePermission | app/dependencies.py:151-163 | passes exactly when the service key lists the permission; not a service key is 401, an unlisted permission 403, and a key stored with no list fails the membership test itself |
| Dependencies.InfoProjectId | app/dependencies.py:177-180 | only a service-key authentication carries a project id |
| Dependencies.GetProjectIdFromRequest | app/dependencies.py:166-183 | the project header when truthy, else the query parameter when truthy, else the stored authentication's project, if any |
| Dependencies.RequireProjectId | app/dependencies.py:186-196 | passes exactly for a non-empty project id and yields it; otherwise 400 |
| Dependencies.ServiceKeyRequestHasProject | app/dependencies.py:46-57 | a service-key request always resolves to the project it named in its header |
| Dependencies.GetPaginationParams | app/dependencies.py:199-212 | the window is always valid; in-range values pass unchanged; a negative offset becomes 0, a non-positive limit 50, a limit above 100 becomes 100 |
| Dependencies.PaginationIdempotent | app/dependencies.py:199-212 | clamping an already clamped window changes nothing |
| Dependencies.Recent | app/dependencies.py:273-277 | exactly the recorded instants for the key that are still inside the window |
| Dependencies.CheckRateLimit | app/dependencies.py:267-286 | other keys untouched; the request is admitted exactly when fewer than the maximum remain in the window; an admitted instant is recorded after the pruned ones, a refused one is not |
| Dependencies.CheckRateLimitKeepsBound | app/dependencies.py:267-286 | no key ever records more instants than the maximum |
| Dependencies.FullWindowRefuses | app/dependencies.py:280-282 | once the maximum is reached inside a window the next request is refused and records nothing new |
| Dependencies.RateKey | app/dependencies.py:297-300 | requests count under the account when one is authenticated, else under the client host or `unknown` |
| Dependencies.RateKeysSeparate | app/dependencies.py:297-300 | accounts never share a key with each other or with any host |
| Dependencies.CheckRequestRate | app/dependencies.py:292-309 | the request passes exactly when the limiter admits it, otherwise 429 |
| Middleware.ExtractApiKey | app/middleware.py:89-98 | the API-key header when non-empty, else the `api_key` query parameter |
| Middleware.ExtractServiceKey | app/middleware.py:100-104 | the service-key header and the project header, each present exactly when the request carries it |
| Middleware.ExtractJwtToken | app/middleware.py:106-111 | a token exactly when the authorization header starts with `Bearer `, and then the header is that prefix followed by the token |
| Middleware.MiddlewareAuthenticate | app/middleware.py:28-87 | accounts are never written; a caller is always a stored account; a session result names the cookie it came from, a service-key result the project header, a bearer result the authorization header; a request with no credential is anonymous and writes nothing |
| Middleware.MiddlewareFollowsPriority | app/middleware.py:28-87 | the middleware tries the session cookie, the API key, the service key and the bearer token in that order, first success winning |
| Middleware.MiddlewareMatchesDependencies | app/middleware.py:28-87 | the middleware and the route dependency authenticate every request identically: same strategies, same order, same writes, same result |
| PermissionGuards.Normalise | app/auth/permissions.py:37 | a single name is checked as the one-element list, a list as itself |
| PermissionGuards.FirstNotIn | app/auth/permissions.py:39-47 | nothing exactly when every listed name is in the set; otherwise the earliest listed name outside it |
| PermissionGuards.FirstMissingPermission | app/auth/permissions.py:39-47 | a name the loop reports missing is one of the listed names |
| PermissionGuards.FirstMissingIsFirstNotIn | app/auth/permissions.py:39-47 | from a coherent cache the loop reports exactly the first listed name outside the effective permissions, and keeps the cache coherent |
| PermissionGuards.RequirePermission | app/auth/permissions.py:11-53 | 401 without an account or a database session; a superuser passes with no check and the cache untouched; a 403 names a listed permission |
| PermissionGuards.RequirePermissionIsConjunction | app/auth/permissions.py:36-49 | with a coherent cache an ordinary account passes exactly when every listed permission is effective for it, and is otherwise refused naming the first one that is not |
| PermissionGuards.HeldRoleCodes | app/services/rbac_service.py:110-117 | exactly the codes of the roles reached through the account's active assignments in the scope |
| PermissionGuards.RequireRoles | app/auth/permissions.py:56-92 | 401 without an account or a database session; a superuser passes; anyone else passes exactly when one listed role is held, and a 403 names the whole list |
| PermissionGuards.RequireRolesIgnoresExpiry | app/auth/permissions.py:74-80 | an assignment that expired long ago still satisfies the role check while it grants no permission |
| PermissionGuards.EmptyRoleListRefuses | app/auth/permissions.py:77-86 | an empty role list is never satisfied by an ordinary account |
| AuthService.LoginAccount | app/services/auth_service.py:31-34 | the identifier is tried as an email first and as a username only when no email matches; a found account carries one of the two |
| AuthService.Login | app/services/auth_service.py:22-94 | a refusal writes nothing; an unknown account and a wrong password give the same 401, a disabled account a 401 only once its password checked; success opens one active session with the given tokens and the configured lifetime, counts the login and signs a token naming account and session |
| AuthService.LoggedInAccountKept | app/services/auth_service.py:53-64 | after a login the account is still there, with the same id and still active |
| AuthService.LoggedInSessionFound | app/services/auth_service.py:53-61 | a freshly opened session with an unused token is the one its token authenticates afterwards |
| AuthService.LoginThenSessionAuthenticates | app/services/auth_service.py:22-94 | a session opened by login with an unused token authenticates its account until the session's expiry instant |
| AuthService.LoggedInTokenAuthenticates | app/services/auth_service.py:66-71 | the bearer token signed at login authenticates the account after the login until it expires |
| AuthService.LoginAccessTokenAuthenticates | app/services/auth_service.py:22-94 | the access token a login hands out authenticates its account as a bearer token until it expires |
| AuthService.Logout | app/services/auth_service.py:96-102 | reports true exactly when an active session holds the token, and then only that session is deactivated; otherwise nothing changes |
| AuthService.LogoutTwice | app/services/auth_service.py:96-102 | a second logout with the same token finds nothing and changes nothing |
| AuthService.RefreshToken | app/services/auth_service.py:104-156 | an unknown refresh token is a 401 with nothing written; success needs an active, unexpired session of an active account and hands back a new access token with the session's own two tokens; only an expired session is written, by deactivating it |
| AuthService.LoggedInAccountFound | app/services/auth_service.py:53-64 | after a login the account is still found by id, and still active |
| AuthService.LoggedInRefresh | app/services/auth_service.py:104-156 | a login's unused refresh token refreshes the login's session until it expires |
| AuthService.LoginThenRefresh | app/services/auth_service.py:22-156 | refreshing with the refresh token a login handed out, before expiry, returns the same two session tokens and writes nothing, so the session's lifetime is not extended |
| AuthService.GetUserBySession | app/services/auth_service.py:158-174 | an account comes back only from an active, unexpired session, is active, and nothing is written; the only write is deactivating an expired session |
| AuthService.SessionLookupsAgree | app/services/auth_service.py:158-174 | on any non-empty token the service lookup agrees with the session authenticator, except that it refuses a disabled account and stamps no access time |
| AuthService.GenerateAuthCode | app/services/auth_service.py:176-201 | the code handed back is the one appended, as the only new row: unused, bound to the account, project and redirect target, valid for five minutes |
| AuthService.ExchangeAuthCode | app/services/auth_service.py:203-295 | a missing, used, expired or mismatched code is a 400 with nothing written; otherwise the code is burnt before the account is checked; success carries a project-bound token, the account the code was issued to, and that account's permissions and roles in the project looked up by code |
| AuthService.ExchangeAuthCodeSnapshot | app/services/auth_service.py:258-281 | from a coherent permission cache, a successful exchange carries exactly the account's effective permissions and its roles in the project the code names (no scope when no project has that code) |
| AuthService.ExchangeAuthCodeKeepsCoherent | app/services/auth_service.py:203-281 | whatever its outcome, an exchange leaves a coherent permission cache coherent with the store it leaves |
| AuthService.ExchangeIsOneShot | app/services/auth_service.py:214-237 | once an exchange has burnt a code, whether or not the account was active, every later exchange of it is refused |
| AuthService.IssueThenExchange | app/services/auth_service.py:176-295 | a freshly issued code is exchanged successfully within its five minutes for its project and redirect target by an active account |
| AuthService.GetUserByAccessToken | app/services/auth_service.py:297-341 | every failure is a 401 prefixed "token check failed"; success exactly when the token verifies, names an existing active account, is bound to the project and has the single-sign-on type |
| AuthService.ExchangedTokenAccepted | app/services/auth_service.py:247-256 | the token an exchange issues is accepted for its own project until it expires, while the account stays active |
| AuthService.ExchangedTokenBoundToProject | app/services/auth_service.py:311-315 | the same token is refused for every other project |
| AuthService.ExchangedTokenIsAlsoBearer | app/services/auth_service.py:247-256 | the token an exchange issues also authenticates its account as a bearer token on every route of this service |
| Urls.SplitJoin | app/api/v1/sso.py:481 | splitting a query on `&` gives back the pieces it was joined from, as long as no piece holds the separator |
| Urls.ParsePair | app/api/v1/sso.py:481 | an empty piece is skipped, and without blanks kept a pair read back has a non-empty value and came from a piece with `=` |
| Urls.ParsePairOfEncode | app/api/v1/sso.py:481-488 | one encoded `name=value` pair reads back as itself |
| Urls.ParsePiecesOfEncoded | app/api/v1/sso.py:481-488 | encoded pieces read back as the pairs they encode, in order |
| Urls.Lookup | app/api/v1/sso.py:481-485 | a dictionary lookup finds nothing exactly when no entry has the name, and otherwise an entry's own values |
| Urls.Assign | app/api/v1/sso.py:484-485 | after `d[k] = [v]` the name maps to just `v`, every other name is unchanged and keeps its place, a new name goes last, and distinct names stay distinct |
| Urls.LookupAddAll | app/api/v1/sso.py:481 | `parse_qs` lists, under each name, exactly the values the query gives for it, in order, and omits names with none |
| Urls.ParseQsOfUrlEncode | app/api/v1/sso.py:481-488 | reading back an encoded well-formed dictionary gives the same names, values, order and grouping of repeated names |
| Urls.ParseQsWellFormed | app/api/v1/sso.py:481 | what `parse_qs` returns has distinct names and non-empty lists, with no blank values unless blanks are kept |
| Urls.AssignWellFormed | app/api/v1/sso.py:484-485 | assigning a single allowed value keeps a dictionary well formed |
| Urls.QueryParamOfParseQs | app/api/v1/sso.py:84 | a listed name always has a value, and a route's query value is the last one listed under its name |
| Urls.UrlEncodeHasNoHash | app/api/v1/sso.py:488-489 | an encoded query holds no `#`, so nothing in it can be taken for a fragment |
| Sso.LoginParamsRoundTrip | app/api/v1/sso.py:58-65 | the forwarded parameters read back as given: the target, the project, and the state exactly when it was non-empty |
| Sso.SsoLoginRedirect | app/api/v1/sso.py:25-66 | success exactly when the project is allowed, has a URL, and the target is on that URL's host; each refusal is a 400 with its own message; success goes to the login page with the parameters encoded |
| Sso.LoginPageAsWritten | app/api/v1/sso.py:69-85 | with a non-empty session cookie, a target and a project the page redirects to the callback, splicing the three values in unencoded; the session is not looked at |
| Sso.TruncationPieces | app/api/v1/sso.py:84 | for a target `base&n=v` the spliced query is the join of the pieces `redirect_uri=base`, `n=v`, `project=p`, `state=` |
| Sso.TruncationPairs | app/api/v1/sso.py:84 | read back, the target's own second parameter has become a parameter of the callback |
| Sso.LoginPageTruncatesTarget | app/api/v1/sso.py:80-85 | a target carrying its own query loses everything after its first `&`: the callback reads `base` as its target and `n` as a parameter of its own |
| Sso.LoginPageTruncatesExample | app/api/v1/sso.py:80-85 | the target `http://h/?a=1&b=2` arrives at the callback as `http://h/?a=1` |
| Sso.LoginPage | app/api/v1/sso.py:80-85 | the corrected page redirects in exactly the same cases, always to the callback |
| Sso.LoginPageForwardsIntact | app/api/v1/sso.py:80-85 | with every value encoded the callback reads back exactly the target, the project and the state that were given |
| Sso.MergeCallbackParams | app/api/v1/sso.py:472-485 | after merging, `code` and `project` map to the new values, `state` to the new state when non-empty and else to the target's own, and every other parameter and position is kept |
| Sso.MergedRoundTrip | app/api/v1/sso.py:480-488 | the merged parameters are well formed, so they read back from the final query unchanged |
| Sso.Base | app/api/v1/sso.py:489 | the base of a target holds no `#` when its scheme, host and path hold none |
| Sso.FinalRedirectShape | app/api/v1/sso.py:480-489 | the final redirect is the target's scheme, host and path, then `?`, then the merged query |
| Sso.FinalRedirectCarriesCode | app/api/v1/sso.py:472-491 | the client reads back the code, project and state from the final redirect; every other parameter of its target survives, and no fragment follows |
| Sso.SsoCallback | app/api/v1/sso.py:415-499 | only sessions and codes are written; no cookie sends the browser to the login page untouched; no project access is a 403 with nothing written; no redirect clears the cookie, since the invalid-session branch deletes it on the injected response and then returns its own `RedirectResponse`; a code is issued only for a valid session with access, bound to the account, project and target as given |
| Sso.CallbackAcceptsForeignHost | app/api/v1/sso.py:415-491 | a target the login redirect refuses for its host is accepted by the callback, which issues a code for it |
| Sso.ExchangeTokenRoute | app/api/v1/sso.py:502-530 | the exchange's outcome in the envelope, success exactly when data is present; refusals are 400 or 401 envelopes, never raised, and a 400 writes nothing |
| Sso.ExchangeRouteReplayRefused | app/api/v1/sso.py:502-530 | replaying a burnt code through the route gets the invalid-code envelope |
| Sso.BearerToken | app/api/v1/sso.py:545-552 | a token exactly when the header is truthy and starts with `Bearer `, and then the header is the prefix followed by the token |
| Sso.UserInfoRoute | app/api/v1/sso.py:533-582 | no bearer header is a 401 envelope; success exactly when the token is accepted for the project; success reports the account, its permissions in the project, and project access as granted whatever its roles say |
| Sso.UserInfoPermissionsEffective | app/api/v1/sso.py:559-568 | from a coherent cache the reported permissions are the account's effective permissions in the project, or none for an unknown code, and the cache stays coherent |
| Sso.UserInfoForExchangedToken | app/api/v1/sso.py:533-582 | the token an exchange issued for a project gets its account back for that project and a 401 for any other |
| Sso.SsoLogout | app/api/v1/sso.py:585-624 | only sessions are written, and only with a truthy cookie; the cookie is cleared exactly when no target is given, since a returned `RedirectResponse` drops the deletion set on the injected response; the browser goes to the target when one is given, otherwise a success envelope |
| Sso.SsoLogoutEndsSessionOnly | app/api/v1/sso.py:585-612 | after the global logout the cookie's session no longer resolves, while every project-bound token already handed out keeps working |
| Sso.CheckSession | app/api/v1/sso.py:627-675 | 401 envelopes for a missing cookie and for a session that does not resolve; only sessions are written; success reports the account and its project access, and issues no code |
| Sso.CheckSessionPredictsCallback | app/api/v1/sso.py:627-668 | the check reports a valid session with project access exactly when the callback would issue a code on the same store and cookies, and both leave the same sessions |
| UserService.GetUser | app/services/user_service.py:15-21 | a malformed id finds no account; a found account is stored and carries the parsed id; nothing is found only when no account has that id |
| UserService.GetUserByText | app/services/user_service.py:15-21 | every stored account is found again by the text of its id |
| UserService.CreateUser | app/services/user_service.py:27-46 | a taken email is a 400 "Email already registered", else a taken username a 400 "Username already taken", with nothing written; otherwise the account is created |
| UserService.CreateUserAsWritten | app/services/user_service.py:27-46 | as written the refusals become the same 400s, and for a free email and username the commit's integrity error passes through, since only `ValueError` is caught; nothing is stored |
| UserService.CreateUserThenGet | app/services/user_service.py:27-46 | a registered account with a fresh id keeps the store consistent, is found by the text of its id, and signs in with its password |
| UserService.ApplyUserUpdate | app/services/user_service.py:65 | each field the request set takes its new value and every other keeps its old one; id, password hash, superuser flag and login record never change |
| UserService.ApplyUserUpdateIdempotent | app/services/user_service.py:65 | applying the same update twice is applying it once |
| UserService.PatcherIdempotent | app/crud/base.py:76-96 | the update as a row patch keeps the row's id and is idempotent |
| UserService.UpdateUser | app/services/user_service.py:48-65 | 400 for a malformed id and 404 for a missing account, with nothing written; an update that would give the account another account's username or email is an integrity error exactly then, with nothing written; otherwise the requested fields are written to that account and the updated account returned |
| UserService.UpdateUserThenGet | app/services/user_service.py:48-65 | with unique ids the updated account is what a later lookup finds |
| UserService.UpdateUserIdempotent | app/services/user_service.py:48-65 | repeating an update changes nothing more and returns the same account |
| UserService.UpdateUserKeepsConsistent | app/models/user.py:17-18 | a successful update keeps every unique column unique, since a colliding username or email is refused |
| UserService.GetUsers | app/services/user_service.py:67-83 | at most `limit` accounts, all stored and matching the activity filter, and a total between the page size and the table size; without a filter, the window of the table and its size |
| UserService.GetUsersIgnoresSearch | app/services/user_service.py:67-83 | the search text never changes the listing |
| UserService.ChangePassword | app/services/user_service.py:85-109 | 404 for a missing account, 400 for a wrong current password, each writing nothing; otherwise only the account's hash changes, to the hash of the new password |
| UserService.ChangePasswordKeepsConsistent | app/services/user_service.py:85-109 | a password change keeps the store consistent |
| UserService.ChangePasswordThenAuthenticate | app/services/user_service.py:85-109 | after a password change the account signs in with the new password |
| UserService.DeleteUserThenGet | app/api/v1/users.py:137-139 | a deletion that behaves as the router expects keeps the store consistent, and afterwards exactly the other accounts remain and the id finds nothing |
| ProjectService.GetById | app/crud/base.py:18-22 | the project with that id, and nothing exactly when no project has it |
| ProjectService.GetProject | app/services/project_service.py:14-20 | a malformed id finds no project; a found project is stored and carries the parsed id; nothing is found only when no project has that id |
| ProjectService.GetProjectByText | app/services/project_service.py:14-20 | every stored project is found again by the text of its id |
| ProjectService.NewProject | app/crud/base.py:67-74 | the inserted row carries the request's fields, the fresh id and the insertion time |
| ProjectService.CreateProject | app/services/project_service.py:26-36 | a code some project already has is refused with a 400 and nothing inserted, and only then; otherwise the new project is appended |
| ProjectService.CreateProjectThenGet | app/services/project_service.py:26-36 | a created project with a fresh id keeps the store consistent, is found by its code and by its id's text, and a second creation with the same code is refused |
| ProjectService.ApplyProjectUpdate | app/services/project_service.py:55 | each field the request set takes its new value and every other keeps its old one; id, code and creation time never change |
| ProjectService.ApplyProjectUpdateIdempotent | app/services/project_service.py:55 | applying the same update twice is applying it once |
| ProjectService.UpdateProject | app/services/project_service.py:38-55 | 400 for a malformed id and 404 for a missing project, with nothing written; otherwise the requested fields are written to that project and the updated project returned |
| ProjectService.UpdateProjectKeepsConsistent | app/services/project_service.py:38-55 | an update keeps the store consistent, since the code is not editable and stays unique |
| ProjectService.UpdateProjectThenGet | app/services/project_service.py:38-55 | the updated project is what lookups by id and by code find afterwards |
| ProjectService.UpdateProjectIdempotent | app/services/project_service.py:38-55 | repeating an update changes nothing more and returns the same project |
| ProjectService.DeleteProject | app/services/project_service.py:57-69 | false exactly when the id names no project; a project some row refers to raises the foreign-key error; true otherwise, and then exactly that project's row is removed; anything but true writes nothing |
| ProjectService.DeleteProjectThenGet | app/services/project_service.py:57-69 | a successful deletion keeps the store consistent, the project is gone, and deleting it again answers false |
| ProjectService.DeleteProjectKeepsRefs | app/models/rbac.py:32-68 | a successful deletion leaves every foreign key to a project or a role naming a stored row |
| ProjectService.GetProjects | app/services/project_service.py:71-86 | at most `limit` projects, all stored and matching the activity filter, and a total between the page size and the table size; without a filter, the window of the table and its size |
| Routes.Caller | app/dependencies.py:100-121 | the account dependency passes exactly for an authenticated active account, and a superuser when the route asks for one; it refuses with 401 or 403 |
| Routes.Guarded | app/auth/permissions.py:17-53 | an account refusal or an invalid query is answered before anything runs and writes nothing; a route without a permission runs its handler on the caller and leaves the cache alone; a success or a write always comes from the handler |
| Routes.GuardedAdmits | app/auth/permissions.py:17-53 | with a coherent cache the handler runs exactly when the caller is an active account (a superuser where required), the query is valid and the permission is effective or the caller a superuser; otherwise a 401, 403 or 422 with nothing written; the cache stays coherent |
| UsersRouter.ResponsesOf | app/api/v1/users.py:36-41 | every rendered account is a stored account passing the filter, without its password hash |
| UsersRouter.ListUsers | app/api/v1/users.py:28-42 | the listing is a success envelope carrying a page that echoes the query's skip and limit |
| UsersRouter.ListUsersFromStore | app/api/v1/users.py:28-42 | the page holds at most `limit` stored accounts passing the filter, rendered without their hash; the total never exceeds the stored accounts; unfiltered, the page is the stored accounts from `skip` on and the total counts them all |
| UsersRouter.GetUsersRoute | app/api/v1/users.py:17-48 | the listing never writes, and answers only for a query within bounds |
| UsersRouter.GetUsersRouteAdmits | app/api/v1/users.py:17-48 | the listing is answered exactly when the caller is an active account holding `user.read` or a superuser and the page query is within bounds |
| UsersRouter.CreateUserReply | app/api/v1/users.py:51-71 | a taken email or username is a 400 in the envelope with nothing written; otherwise the new account is appended and rendered with every flag the request carried, the superuser flag included |
| UsersRouter.CreateUserRoute | app/api/v1/users.py:51-71 | an answered creation is the handler's; a refused one writes nothing |
| UsersRouter.CreateUserReplyAsWritten | app/api/v1/users.py:51-71 | as written a taken email or username is a 400 envelope and any other request a 500, because only `HTTPException` is caught; nothing is stored |
| UsersRouter.CreateUserRouteAsWrittenNeverCreates | app/models/user.py:28 | as written no admitted creation stores an account: a free email and username give a 500, a taken one the same 400 envelope as the intended route |
| UsersRouter.CreateUserRouteAdmits | app/api/v1/users.py:51-71 | an admitted creation is answered by the handler, one not admitted writes nothing, and the cache stays coherent with the store left behind |
| UsersRouter.CreateUserRouteMintsSuperuser | app/api/v1/users.py:51-71 | any holder of `user.create` can create a superuser account, which then passes every permission check |
| UsersRouter.GetUserReply | app/api/v1/users.py:82-97 | success exactly when the id names an account, and then that account rendered; otherwise a 404 envelope |
| UsersRouter.GetUserRoute | app/api/v1/users.py:74-97 | fetching never writes; an answer is the handler's |
| UsersRouter.GetUserRouteAdmits | app/api/v1/users.py:74-97 | an admitted caller with `user.read` gets the account or a 404 envelope, and nothing is written |
| UsersRouter.CreatedUserFetched | app/api/v1/users.py:51-97 | an account created through the route is fetched through the route by its id's text and comes back as the creation answered it |
| UsersRouter.GetUserRouteMalformedIsNotFound | app/api/v1/users.py:82-85 | a malformed id is the same 404 as an unknown account |
| UsersRouter.UpdateUserReply | app/api/v1/users.py:108-121 | the service's 400 for a malformed id and 404 for an unknown account come back in the envelope with nothing written; a username or email collision escapes as the outer 500 with nothing written; otherwise the updated account is rendered and stored |
| UsersRouter.UpdateUserRoute | app/api/v1/users.py:100-121 | an answered update is the handler's; a refused one writes nothing |
| UsersRouter.UpdateUserRouteThenGet | app/api/v1/users.py:100-121 | an update succeeds exactly when it is admitted and collides with no other account, keeps the store consistent, and fetching the account afterwards shows it applied; an update not admitted writes nothing |
| UsersRouter.DeleteUserReplyAsWritten | app/api/v1/users.py:131-151 | as written nothing is ever written: the caller's own id is refused with 400 in the envelope, and any other id ends in a 500 because the service has no deletion |
| UsersRouter.DeleteUserReply | app/api/v1/users.py:131-151 | always an envelope; the caller's own id is refused before any deletion; for another id the answer succeeds exactly when the id names an account, an unknown or malformed id is a 404, and the store is the deletion's |
| UsersRouter.DeleteUserRouteAsWritten | app/api/v1/users.py:124-151 | as written the route never changes the store |
| UsersRouter.DeleteUserRoute | app/api/v1/users.py:124-151 | an answered deletion is the handler's; a refused one writes nothing |
| UsersRouter.DeleteUserRouteAsWrittenNeverDeletes | app/api/v1/users.py:137 | as written an admitted deletion of another account is a 500 and removes nothing |
| UsersRouter.DeleteUserRouteRemoves | app/api/v1/users.py:124-151 | with the intended deletion, deleting another existing account succeeds, keeps the store consistent and the cache coherent, and afterwards fetching or deleting it again is a 404 |
| UsersRouter.SelfDeletionGuardIsTextual | app/api/v1/users.py:133-137 | the self-check compares texts, so a caller naming their own id in its bare 32-digit form deletes their own account |
| ProjectsRouter.Render | app/api/v1/projects.py:35-43 | a project is rendered with its id's text and its own code, name and flag |
| ProjectsRouter.RenderInjective | app/api/v1/projects.py:35-43 | two projects render alike exactly when they are the same project |
| ProjectsRouter.RenderingsOf | app/api/v1/projects.py:33-43 | every rendering on a page is that of a stored project passing the filter |
| ProjectsRouter.ListProjectsFromStore | app/api/v1/projects.py:25-49 | the page holds at most `limit` stored projects with the flag asked for; unfiltered, it is the stored projects from `skip` on |
| ProjectsRouter.GetProjectsRoute | app/api/v1/projects.py:16-55 | the listing never writes or touches the cache, and answers only for a query within bounds |
| ProjectsRouter.GetProjectsRouteAdmits | app/api/v1/projects.py:16-55 | any active account may list projects given a page query within bounds; no permission is asked |
| ProjectsRouter.CreateProjectReplyAsWritten | app/api/v1/projects.py:64-102 | as written nothing is ever inserted: a taken code is a 400, and any other code a 500 because the generic `create` is handed a plain dictionary |
| ProjectsRouter.CreateProjectReply | app/api/v1/projects.py:64-94 | refused exactly when the code is taken, with a 400 and nothing inserted; otherwise the project is created with the new id and rendered |
| ProjectsRouter.CreateProjectRouteAsWritten | app/api/v1/projects.py:58-102 | as written the route never changes the store or the cache |
| ProjectsRouter.CreateProjectRoute | app/api/v1/projects.py:58-102 | the cache is untouched, and any write is the intended creation's |
| ProjectsRouter.CreateProjectRouteAsWrittenNeverCreates | app/api/v1/projects.py:58-102 | as written no request creates a project: a superuser gets a 400 for a taken code and a 500 for any other |
| ProjectsRouter.CreateProjectRouteThenGet | app/api/v1/projects.py:58-149 | with the intended creation a superuser's project with a new code is created and read back through the route by its id's text as the creation answered; a second creation with the same code is a 400 |
| ProjectsRouter.GetProjectReply | app/api/v1/projects.py:111-149 | 400 for a malformed id, 404 for an unknown one, success exactly when the project exists, and then it is rendered |
| ProjectsRouter.GetProjectRoute | app/api/v1/projects.py:105-149 | any active account is answered by the handler; anyone else gets 401 or 403; nothing is written |
| ProjectsRouter.UpdateProjectReply | app/api/v1/projects.py:159-199 | 400 for a malformed id and 404 for an unknown one, writing nothing; success exactly when the project exists, and then the update is stored and rendered |
| ProjectsRouter.UpdateProjectRoute | app/api/v1/projects.py:152-199 | an active superuser is answered by the handler; anyone else is refused with nothing written |
| ProjectsRouter.UpdateProjectRouteThenGet | app/api/v1/projects.py:152-199 | a superuser's successful update keeps the store consistent and is read back through the route |
| ProjectsRouter.DeleteProjectReply | app/api/v1/projects.py:208-238 | 400 for a malformed id, 404 for an unknown one; a project some row refers to is the catch-all 500 "Failed to delete project" with nothing removed; success exactly when the project exists and nothing refers to it, and then exactly its row is removed |
| ProjectsRouter.DeleteProjectRoute | app/api/v1/projects.py:202-238 | an active superuser is answered by the handler; anyone else is refused with nothing written |
| ProjectsRouter.DeleteProjectRouteThenGet | app/api/v1/projects.py:202-238 | a superuser's deletion of a referenced project is the 500 and the project is still read back; of any other it keeps the store consistent, and reading or deleting the project afterwards is a 404 |
| RolesRouter.Render | app/api/v1/roles.py:43-51 | a role is rendered with its id's text, its code and system flag, and a project exactly when it has one |
| RolesRouter.RenderInjective | app/api/v1/roles.py:43-51 | two roles render alike exactly when they are the same role |
| RolesRouter.GetById | app/crud/base.py:18-22 | the role with that id, and nothing exactly when no role has it |
| RolesRouter.GetByIdFinds | app/crud/base.py:18-22 | with unique ids every stored role is found again by its id |
| RolesRouter.ScopeQuery | app/api/v1/roles.py:28-30 | an absent or empty project id means the global roles; any other text must parse as an id, or the parser's message comes back |
| RolesRouter.ScopeRoles | app/api/v1/roles.py:32-35 | exactly the roles of the scope, never more than the role table holds |
| RolesRouter.ListRolesReply | app/api/v1/roles.py:27-63 | a 500 exactly when the project id is malformed; otherwise a success envelope |
| RolesRouter.ListRolesFromStore | app/api/v1/roles.py:32-51 | a page holds at most `limit` stored roles of the requested scope, and a page from the start as long as the role table lists every role of the scope |
| RolesRouter.RenderedFromScope | app/api/v1/roles.py:41-51 | every rendering on a page is that of a stored role of the scope |
| RolesRouter.GetRolesRoute | app/api/v1/roles.py:18-63 | the listing never writes or touches the cache; an active account with a valid page query gets the handler's answer, anyone else a refusal |
| RolesRouter.NewRole | app/api/v1/roles.py:89-94 | the role meant to be inserted carries the fresh id, the request's code and system flag, in the parsed scope |
| RolesRouter.CreateRoleChecks | app/api/v1/roles.py:73-86 | a malformed project id is a 500; a (code, scope) pair held by several roles makes the lookup raise, a 500; a pair already held is a 400; only otherwise the parsed scope |
| RolesRouter.CreateRoleReplyAsWritten | app/api/v1/roles.py:73-118 | as written nothing is ever inserted: the checks' refusals stand, and past them the generic `create`, handed a plain dictionary, makes it a 500 |
| RolesRouter.CreateRoleReply | app/api/v1/roles.py:73-110 | refused exactly when the checks refuse, writing nothing; otherwise the role is appended and rendered |
| RolesRouter.CreateRoleRouteAsWritten | app/api/v1/roles.py:66-118 | as written the route never changes the store or the cache and never succeeds |
| RolesRouter.CreateRoleRoute | app/api/v1/roles.py:66-118 | an active superuser is answered by the handler; anyone else is refused with nothing written |
| RolesRouter.CreateRoleRouteAsWrittenNeverCreates | app/api/v1/roles.py:88-118 | as written a superuser's creation that passes every check is a 500 and writes nothing |
| RolesRouter.CreateRoleRouteThenGet | app/api/v1/roles.py:66-165 | with the intended creation a role created with a fresh id is read back through the route by its id's text, the store stays consistent, and the same code in the same scope again is a 400 |
| RolesRouter.GetRoleReply | app/api/v1/roles.py:128-165 | 400 for a malformed id, 404 for an unknown one, else that role rendered |
| RolesRouter.GetRoleRoute | app/api/v1/roles.py:121-165 | any active account is answered by the handler; anyone else gets 401 or 403; nothing is written |
| RolesRouter.ApplyRoleUpdate | app/api/v1/roles.py:186 | only the name and the description can change, each to the requested value when one is set |
| RolesRouter.UpdateRoleReply | app/api/v1/roles.py:176-215 | 400 for a malformed id, 404 for an unknown one, writing nothing; success exactly when the role exists, and then the role is patched |
| RolesRouter.UpdateRoleRoute | app/api/v1/roles.py:168-215 | an active superuser is answered by the handler; anyone else is refused with nothing written |
| RolesRouter.UpdateRoleRouteThenGet | app/api/v1/roles.py:168-215 | a superuser's update of an existing role keeps role ids unique, is read back as answered, and keeps the cache coherent |
| RolesRouter.DeleteRoleReply | app/api/v1/roles.py:225-260 | 400 for a malformed id, 404 for an unknown one, 400 for a system role, and the catch-all 500 "Failed to delete role" for a role some link or assignment refers to, each writing nothing; otherwise exactly that role's row is removed |
| RolesRouter.DeleteRoleReplyKeepsRefs | app/models/rbac.py:56-68 | whatever the deletion answers, every foreign key to a role or a project still names a stored row |
| RolesRouter.DeleteRoleRoute | app/api/v1/roles.py:218-260 | an active superuser is answered by the handler; anyone else is refused with nothing written |
| RolesRouter.DeleteRoleRouteKeepsSystemRoles | app/api/v1/roles.py:235-239 | no request removes a system role |
| RolesRouter.DeleteRoleRouteThenGet | app/api/v1/roles.py:218-260 | a superuser's deletion of an existing non-system role that is still referenced is the 500 with nothing removed; of any other it keeps the store consistent, and reading or deleting it afterwards is a 404 |
| RolesRouter.AssignIds | app/api/v1/roles.py:271-275 | the ids are read exactly when the account and role ids parse and the project id, when given and non-empty, parses too |
| RolesRouter.AssignRoleRouteAsWritten | app/api/v1/roles.py:263-301 | as written nothing changes and the route always fails: the caller's refusal, a 400 for malformed ids, or else the service's error |
| RolesRouter.AssignRoleRouteAsWrittenNeverAssigns | app/api/v1/roles.py:277-301 | as written every superuser request with well-formed ids is a 500 and leaves store and cache as they were |
| RolesRouter.AssignRoleRoute | app/api/v1/roles.py:263-301 | with the service repaired, success exactly for a superuser with well-formed ids; the assignment granted by the caller is stored and the account's entries for the scope and the global scope are dropped |
| RolesRouter.AssignRoleRouteGrants | app/api/v1/roles.py:263-301 | with the service repaired, a superuser's assignment keeps the cache coherent, and the account then holds in that scope every permission linked to the role, unless the assignment already expired |
| PermissionsRouter.Render | app/api/v1/permissions.py:38-47 | a permission is rendered with the text of its id, its code and the text of its project id |
| PermissionsRouter.RenderInjective | app/api/v1/permissions.py:38-47 | two permissions render alike exactly when they are the same permission |
| PermissionsRouter.RenderedExactly | app/api/v1/permissions.py:36-47 | the rendered list holds exactly the renderings of the listed permissions |
| PermissionsRouter.ProjectQuery | app/api/v1/permissions.py:26-27 | an absent or empty project id means every project; other text must parse as an id |
| PermissionsRouter.ListPermissionsAsWritten | app/api/v1/permissions.py:26-34 | as written the page holds at most `limit` stored permissions, all of the project when one is given |
| PermissionsRouter.ListPermissions | app/api/v1/permissions.py:26-34 | the intended page: at most `limit` stored permissions of the scope; without a project, exactly the table's entries from `skip` on, and a full page whenever the table holds one |
| PermissionsRouter.ListPermissionsAgreeOnFirstPage | app/api/v1/permissions.py:26-34 | the listing as written and as intended agree for a project, and on the first page |
| PermissionsRouter.ListPermissionsAsWrittenSkipsTwice | app/api/v1/permissions.py:30-34 | without a project, a later page starting at or after its own length lists nothing although the table holds a full page there |
| PermissionsRouter.ListPermissionsReply | app/api/v1/permissions.py:25-64 | a 400 exactly when the project id is malformed; otherwise the page, rendered, in a success envelope |
| PermissionsRouter.GetPermissionsRoute | app/api/v1/permissions.py:16-64 | the listing writes nothing and leaves the cache alone; an active account with a valid page query gets the handler's answer, anyone else a refusal |
| PermissionsRouter.RolePermissionsReply | app/api/v1/permissions.py:74-106 | a 400 exactly when the role id is malformed; otherwise exactly the renderings of the permissions linked to the role, none for an unknown role |
| PermissionsRouter.GetRolePermissionsRoute | app/api/v1/permissions.py:67-106 | any active account gets the handler's answer, anyone else a 401 or 403; nothing is written |
| PermissionsRouter.UserPermissionsReply | app/api/v1/permissions.py:117-164 | a 400 for a malformed account or project id; a 403 when a caller who is not a superuser names any text other than its own printed id; otherwise exactly the permissions that reach that account in that scope |
| PermissionsRouter.GetUserPermissionsRoute | app/api/v1/permissions.py:109-164 | any active account gets the handler's answer, anyone else a 401 or 403; nothing is written |
| PermissionsRouter.UserPermissionsOnlyOwn | app/api/v1/permissions.py:123-128 | an account that is not a superuser is only ever shown its own permissions |
| PermissionsRouter.UserPermissionsSelfByBareHexDenied | app/api/v1/permissions.py:118-128 | the self check compares texts: an account naming itself by the bare 32-digit form of its id, which parses to that id, is refused |
| PermissionsRouter.ParseAll | app/api/v1/permissions.py:176 | the ids come back parsed, in order, exactly when every text parses |
| PermissionsRouter.AssignPermissionsRoute | app/api/v1/permissions.py:167-197 | only a superuser gets through; malformed ids are a 400 with nothing written; otherwise the role's links are replaced, a refused replacement is a 500, and the permission cache is never touched |
| PermissionsRouter.AssignPermissionsRouteReplaces | app/api/v1/permissions.py:175-186 | after a successful replacement the role is linked to exactly the requested permissions and every other role keeps its links |
| PermissionsRouter.AssignPermissionsLeavesCacheStale | app/api/v1/permissions.py:178-180 | an account whose global permissions are cached keeps being served the old set after a permission it lacked is linked to a role it holds |
| AuthRouter.SessionCookieFor | app/api/v1/auth.py:44-51 | the session cookie carries the token under the configured name, lives as long as a session, and is HTTP-only and secure |
| AuthRouter.LoginRoute | app/api/v1/auth.py:25-64 | a login answers in an envelope; the cookie is set exactly when the login succeeds, to the new session's token; a refused login carries its 401 in the envelope and writes nothing |
| AuthRouter.LoginCookieAuthenticates | app/api/v1/auth.py:39-51 | the cookie a successful login sets authenticates the account it names for the cookie's whole lifetime |
| AuthRouter.LogoutRoute | app/api/v1/auth.py:67-93 | the caller must be an active account; a non-empty cookie's session is ended, the cookie is cleared in any case, and the answer is the same whether or not a session was found |
| AuthRouter.LogoutRouteEndsSession | app/api/v1/auth.py:77-87 | after a logout the cookie's token authenticates nobody at any time, and every other session is exactly as it was |
| AuthRouter.RefreshTokenOf | app/api/v1/auth.py:131-134 | a non-empty header wins and the body is not read; otherwise the body's field, and a body that is not an object is a 500 |
| AuthRouter.HeaderWins | app/api/v1/auth.py:131-134 | with a non-empty header the body plays no part |
| AuthRouter.RefreshRoute | app/api/v1/auth.py:123-155 | no token in either place is a 400 in the envelope; a token's refresh or refusal is enveloped; the cookie is never touched |
| AuthRouter.LoginThenRefreshRoute | app/api/v1/auth.py:25-155 | the refresh token a login answered with, sent back in the header while the session lives, refreshes that session: the same session token comes back and nothing is written |
| Common.ApplyPatch | app/crud/base.py:87-92 | a field left out of an update keeps its value; a field that is set takes the requested value |
| ProjectService.UpdateProjectKeepsKeys | app/services/project_service.py:48-55 | an update leaves every project's id and code where they were, row by row |
| ProjectService.UpdatedProjectFound | app/services/project_service.py:48-55 | with unique ids, the project an update returns is what a lookup of its id finds afterwards |
| ProjectsRouter.ListProjects | app/api/v1/projects.py:33-49 | the listing always answers with a success envelope carrying a page |
| RbacDefaults.EnsurePermission | app/services/rbac_service.py:234-241 | one step of the permission loop yields the first row with its code in the grown table, appending nothing when such a row existed and only rows with that code otherwise |
| RbacDefaults.EnsurePermissionsAllPresent | app/services/rbac_service.py:233-243 | when every remaining default code is already present the loop appends nothing |
| RbacDefaults.RolesAllFound | app/services/rbac_service.py:296-317 | when every default role already exists once in the project the role loop appends nothing and yields those roles |
| Urls.GroupPairs | app/api/v1/sso.py:481-488 | grouping the pairs of a dictionary with distinct names and no empty list rebuilds that dictionary |

## Left out

- Cryptography. bcrypt, SHA-256, HS256 signing and `secrets` randomness are function parameters or oracle values. The model states only what the code relies on: verification accepts the hash of the same password, and a codec decodes what it encoded.
- Clocks. Every `utcnow()` and `time.time()` is the integer parameter `now`. Three expiry tests compare a timezone-aware column value with the naive `datetime.utcnow()` (app/services/rbac_service.py:39, app/services/rbac_service.py:148, app/auth/authenticators.py:64), which raises `TypeError` whenever the row has an expiry. The `…AsWritten` members model that exception and are listed under "## Findings"; the rest of the model uses the intended comparison at the same instant.
- RbacService.ComputePermissions: states the intended expiry test; as written (app/services/rbac_service.py:39) the computation raises for every active assignment with an expiry, as `RbacService.ComputePermissionsAsWritten` states.
- RbacService.CheckUserProjectAccess: states the intended expiry test; as written (app/services/rbac_service.py:148) the check raises for every active assignment in the project with an expiry, as `RbacService.CheckUserProjectAccessAsWritten` states.
- RbacService.ExpiryBoundary: describes the intended tests; as written both raise for an assignment with an expiry (app/services/rbac_service.py:39 and 148), so the boundary is never reached.
- Authenticators.ApiKeyAuthenticate: states the intended expiry test; as written (app/auth/authenticators.py:64) every found key with an expiry raises, as `Authenticators.ApiKeyAuthenticateAsWritten` states.
- Authenticators.ApiKeyVerificationRedundant: holds for the intended check; as written a key with an expiry raises before the digest check is reached (app/auth/authenticators.py:64).
- PermissionGuards.RequireRolesIgnoresExpiry: "grants no permission" uses the intended computation; as written the computation for that assignment raises instead (app/services/rbac_service.py:39).
- Config.LoadSettings: reads only the three required fields; every field with a default (ALLOWED_PROJECTS, PROJECT_URLS, token and session lifetimes, cache TTLs, cookie, Redis and server settings, app/config.py:10-96) is fixed at its default rather than read from the environment, and where pydantic reports every failing field at once the model reports only the first in declaration order.
- UserSchemas.MakeUserCreate: uses the intended username validator; as written (app/schemas/user.py:22) a username of allowed characters followed by one newline is also accepted, as UserSchemas.MakeUserCreateAgainstSource states.
- UserSchemas.ValidateUserUpdate: uses the intended username validator; as written (app/schemas/user.py:22) a username of allowed characters followed by one newline is also accepted, as UserSchemas.ValidateUserUpdateAgainstSource states.
- RbacSchemas.MakeProjectCreate: uses the intended project-code validator; as written (app/schemas/rbac.py:18) a code of allowed characters followed by one newline is also accepted, as RbacSchemas.MakeProjectCreateAgainstSource states.
- RbacSchemas.MakeRoleCreate: uses the intended role-code validator; as written (app/schemas/rbac.py:54) a code of allowed characters followed by one newline is also accepted, as RbacSchemas.MakeRoleCreateAgainstSource states.
- Header names: Starlette looks request headers up without regard to case; the model's header maps are keyed by the canonical header name, and `Dependencies.Get`, the middleware's extractors and the refresh route's header read match that name exactly.
- CrudUser.NewUser: gives the row the creation time `now`, as the timestamp mixin's server default would; as written (app/models/user.py:28) the column has no default and `create` never sets it, so the row cannot be inserted, as CrudUser.CreateAsWritten states.
- CrudUser.Create: the intended creation; as written every creation with a free email and username fails at the commit (app/models/user.py:28), as CrudUser.CreateAsWritten states.
- CrudUser.CreateThenAuthenticate: holds for the intended creation; as written no account is ever created (app/models/user.py:28).
- UserService.CreateUser: the intended creation; as written the commit's integrity error escapes instead of a success, as UserService.CreateUserAsWritten states.
- UserService.CreateUserThenGet: holds for the intended creation; as written no account is ever created (app/models/user.py:28).
- UsersRouter.CreateUserReply: the intended handler; as written a creation with a free email and username is a 500, as UsersRouter.CreateUserReplyAsWritten states.
- UsersRouter.CreateUserRouteMintsSuperuser: holds for the intended creation; as written the creation is a 500 and no superuser is stored (app/models/user.py:28).
- UsersRouter.CreatedUserFetched: holds for the intended creation; as written the creation is a 500 (app/models/user.py:28).
- Concurrency. Every request is one sequential step. The code exchange reads the code and then updates it unconditionally, so nothing is claimed about two exchanges that interleave. The rate limiter's shared dictionary is also sequential.
- I/O and wiring: database.py, main.py, exceptions.py, the plain data classes of schemas/auth.py, timestamp.py, the scripts, and the live HTTP test clients. `Routes.ServerError` stands for main.py's outermost handler.
- The HTML, CSS and JavaScript body of the SSO login page. Only its redirect decision is modelled.
- OAuth federation, the fishair proxy, audit logging (`log_user_action`) and cache_service.py.
- `user_role_crud.revoke_user_role`, `user_service.delete_user` and `auth_service.create_login_session` are not defined by the code this model covers:
  - the revocation and the deletion are results the caller receives as parameters, constrained only by what their callers rely on (`UserService.DeletesAccount`);
  - create_login_session belongs to OAuth and is not part of this model.
- URL details. Percent-encoding is a `Quoting` parameter whose only assumed property is that it round-trips. Python's `uuid.UUID` parser is modelled for the forms it accepts here: hyphens, braces and the `urn:uuid:` prefix. The leniency of `int()` is not modelled.
- Pydantic's email validation, the length limits of the string columns, and request-body validation beyond the validators named in the model. FastAPI's 422 answer is abstracted to one fixed error.
- Database integrity errors. The text of an `IntegrityError` is abstracted to one constant. Modelled: a username or email collision in `UserService.UpdateUser`, and the foreign-key refusal when deleting a referenced project or role (no foreign key declares `ondelete`). Explicit JSON nulls are not modelled (lines below).
- UserService.UpdateUser: an update is a `Patch` per field, which cannot carry an explicit JSON null; a null `username`, `email`, `is_active` or `is_verified` survives `model_dump(exclude_unset=True)` and fails the NOT NULL column on commit, which the model does not state.
- UsersRouter.UpdateUserReply: the 500 an explicit null causes (see `UserService.UpdateUser`) is not modelled.
- UsersRouter.UpdateUserRouteThenGet: claims nothing about an explicit null, which the source answers with a 500.
- ProjectService.UpdateProject: an explicit null `name` fails the NOT NULL column (app/models/rbac.py:16) on commit; not modelled.
- ProjectsRouter.UpdateProjectReply: the catch-all 500 for an explicit null `name` (app/api/v1/projects.py:195) is not modelled.
- ProjectsRouter.UpdateProjectRouteThenGet: an update with an explicit null `name` is answered 500 by the source, not read back; not modelled.
- RolesRouter.UpdateRoleReply: the catch-all 500 for an explicit null `name` (app/models/rbac.py:29, app/api/v1/roles.py:211) is not modelled.
- RolesRouter.UpdateRoleRouteThenGet: an update with an explicit null `name` is answered 500 by the source, not read back; not modelled.
- CrudRbac.RoleGetUserRoles: the join returns a role once per matching assignment, in no promised order; the model lists each role once in storage order.
- CrudRbac.GetRolePermissions: the join returns a permission once per link, in no promised order; the model lists each permission once in storage order.
- CrudRbac.PermissionGetUserPermissions: the join returns a permission once per link and assignment reaching it, in no promised order; the model lists each permission once in storage order.
- UsersRouter.DeleteUserRouteRemoves: the intended deletion removes the account's row as the `UserService.DeletesAccount` oracle says; whether rows referring to the account (sessions, keys, codes, assignments) block it is not modelled, since the service that would do it is not defined.
- A role's empty `project_id` text is treated as no project. Creating a role does not check that the project exists, matching the code.
- The free-text `search` parameter of the user listing is ignored, and the listing's generic exception branch is not modelled.
- Outside the three routes named here, the authentication router is not modelled: registration, `/me`, password change and forgotten password. They are thin wrappers over `UserService.CreateUser`, `UserService.ChangePassword` and the account guard.
- The logout route's generic exception branch is not modelled. The refresh route's JSON body is either an object with an optional string field or not an object; a non-string token value is not modelled.
- Members that only delegate are not modelled separately:
  - `rbac_service.get_user_roles` is `CrudRbac.RoleGetUserRoles`;
  - `get_user_by_email` and `get_project_by_code` are `CrudUser.GetByEmail` and `CrudRbac.GetProjectByCode`;
  - `get_current_user_optional` is the account half of `Dependencies.AuthenticateRequest`;
  - `get_search_params` only collects query parameters.
- Sso.SsoLoginRedirect: it sends the browser to `/sso/login-page` as written, but the router is mounted under `/api/v1/sso`. The application's routing table is not part of this model, so the path is kept as text.
- RbacDefaults.CreateDefaultProjectRoles: as written, the role step calls `role_crud.get_by_code(db, code)`, passing the code positionally to a keyword-only parameter and never passing the project. It also calls `permission_crud.assign_permission_to_role`, which is not defined. The corrected model uses the project-scoped lookup and inserts the links directly.
- ProjectsRouter.ListProjects: its own contract states only the envelope. The page's contents are stated by `ProjectsRouter.ListProjectsFromStore`.

## Findings

| source | as written | input that shows it | evidently intended | confidence | as-written member | corrected member |
|---|---|---|---|---|---|---|
| app/services/rbac_service.py:85 | `user_role_crud.create(db, user_role_data)` passes the data positionally, but `CRUDBase.create` takes `obj_in` as keyword-only, so every call raises `TypeError` before anything is written | any superuser `POST /roles/assign` with well-formed ids: a 500, and nothing is assigned | insert an active assignment granted by the caller, then invalidate the cache | not executed | RolesRouter.AssignRoleRouteAsWrittenNeverAssigns | RolesRouter.AssignRoleRouteGrants |
| app/services/rbac_service.py:236 | `permission_crud.get_by_code` is defined neither on the permission store nor on the generic base, so creating the default permissions raises `AttributeError`, and so do the default roles and `setup_project_rbac`, which call it first | any project id and code | look up each default permission by code, create the missing ones, and reuse the rest | not executed | RbacDefaults.SetupProjectRbacAsWritten | RbacDefaults.SetupProjectRbac |
| app/services/rbac_service.py:87-89 | only the `(user, project)` cache entry is dropped after an assignment or revocation, yet the `(user, global)` entry holds permissions from assignments in every project | a warm global entry, then a role granting `p` assigned in project P: the global entry still lacks `p` | drop the global entry as well, which keeps the cache coherent with the store | not executed | RbacService.AssignInvalidatingOneLeavesGlobalStale | RbacService.InvalidateWithGlobalKeepsCoherent |
| app/api/v1/roles.py:94 | `role_crud.create(db, obj_in=dict)` calls `.dict()` on a plain dictionary, which raises `AttributeError`, so no role is ever created (projects.py:78 does the same for projects) | any superuser `POST /roles` whose code is new in its scope: a 500 | insert the role and answer with it | not executed | RolesRouter.CreateRoleRouteAsWrittenNeverCreates | RolesRouter.CreateRoleRouteThenGet |
| app/api/v1/projects.py:78 | as above, for `project_crud.create` | any superuser `POST /projects` with a new code: a 500 | insert the project and answer with it | not executed | ProjectsRouter.CreateProjectRouteAsWrittenNeverCreates | ProjectsRouter.CreateProjectRouteThenGet |
| app/models/user.py:28 | the account table redeclares `created_at` as a non-optional column without the timestamp mixin's server default, so `create_all` makes it NOT NULL with no default, and `create` (app/crud/user.py:36-43) never sets it | any admitted `POST /users` (and any `/register`) with a free email and username: the commit raises an integrity error and the answer is a 500 | keep the mixin's server default, so the row is stored with its creation time | not executed | UsersRouter.CreateUserRouteAsWrittenNeverCreates | UsersRouter.CreatedUserFetched |
| app/schemas/user.py:22 | `re.match(r'^[a-zA-Z0-9_-]+$', v)`: Python's `$` also matches before one final newline (the project-code and role-code validators at app/schemas/rbac.py:18 and app/schemas/rbac.py:54 do the same) | `"abc\n"` is accepted as a username | accept only the characters of the class | not executed | UserSchemas.UsernameTrailingNewline | UserSchemas.ValidateUsername |
| app/api/v1/sso.py:84 | the login page splices `redirect_uri`, `project` and `state` into the callback's query without encoding them | target `http://h/?a=1&b=2`: the callback reads `http://h/?a=1` | encode the three values, as the other two redirects do | not executed | Sso.LoginPageTruncatesTarget | Sso.LoginPageForwardsIntact |
| app/api/v1/users.py:137 | `user_service.delete_user` is not defined on the user service, so every admitted deletion of another account raises `AttributeError`, which `except HTTPException` does not catch | any admitted `DELETE /users/{id}` naming another account: a 500, and nothing removed | remove the account, or answer 404 when there is none | not executed | UsersRouter.DeleteUserRouteAsWrittenNeverDeletes | UsersRouter.DeleteUserRouteRemoves |
| app/api/v1/permissions.py:30-34 | without a project the store already returns the page `[skip, skip+limit)`, and the handler slices that page again with the same bounds | 100 permissions, `skip=50&limit=50`: an empty list instead of the last fifty | slice once | not executed | PermissionsRouter.ListPermissionsAsWrittenSkipsTwice | PermissionsRouter.ListPermissions |
| app/services/rbac_service.py:39 | `user_role.expires_at < datetime.utcnow()` orders the timezone-aware column value against a naive clock, which raises `TypeError` | any active assignment with an expiry, on a cache miss of `get_user_permissions`: a 500 from every permission guard | compare with the aware `utc_now()`, as the session check does | not executed | RbacService.ComputePermissionsAsWritten | RbacService.ComputePermissions |
| app/services/rbac_service.py:148 | `role.expires_at > datetime.utcnow()` makes the same comparison in `check_user_project_access` | a non-superuser with an active assignment in the project that has an expiry: `TypeError` instead of an answer | compare with the aware `utc_now()` | not executed | RbacService.CheckUserProjectAccessAsWritten | RbacService.CheckUserProjectAccess |
| app/auth/authenticators.py:64 | `api_key_obj.expires_at < datetime.utcnow()` makes the same comparison for API keys, and `create_api_key` gives every key an aware expiry unless `expires_days` is zero (365 by default, app/crud/auth.py:120) | any key created with the default lifetime, presented at any time: `TypeError`, a 500 | compare with the aware `utc_now()` | not executed | Authenticators.CreatedApiKeyRaisesAsWritten | Authenticators.ApiKeyAuthenticate |

=== FILE: auth_router.dfy ===
/**
 * The authentication routes (`/api/v1/auth`) that handle the session cookie: login sets it,
 * logout ends its session and clears it, refresh takes its token from a header or from the
 * body. An `HTTPException` from the service is reported in the envelope.
 */
module AuthRouter {
  import opened Wrappers
  import opened Uuids
  import opened Models
  import opened Security
  import opened Common
  import opened Routes
  import Config
  import Dependencies
  import Authenticators
  import AuthService
  import CrudAuth

  const LoginMessage: string := "登录成功"
  const LogoutMessage: string := "登出成功"
  const RefreshMessage: string := "令牌刷新成功"
  const MissingRefreshToken: HttpError := HttpError(BadRequest, "缺少刷新令牌")

  /** What a response does to the session cookie. */
  datatype CookieChange =
    | Unchanged
    | SetCookie(name: string, value: string, maxAge: int, httpOnly: bool, secure: bool, sameSite: string)
    | DeleteCookie(name: string, httpOnly: bool, secure: bool, sameSite: string)

  /** A route's store, its reply or raised error, and what it does to the cookie. */
  datatype CookieOutcome<T> = CookieOutcome(st: Store, result: Result<Reply<T>, HttpError>, cookie: CookieChange)

  /** The session cookie carrying `token`, with the configured attributes and the session's lifetime. */
  function SessionCookieFor(token: string): (c: CookieChange)
    ensures c.SetCookie? && c.name == Dependencies.SessionCookie && c.value == token
    ensures c.maxAge == Config.SessionLifetime && c.httpOnly && c.secure
  {
    SetCookie(Config.SessionCookieName, token, Config.SessionExpireHours * 3600,
              Config.SessionCookieHttpOnly, Config.SessionCookieSecure, Config.SessionCookieSameSite)
  }

  /** The deletion of the session cookie, with the attributes it was set with. */
  const ClearSessionCookie: CookieChange :=
    DeleteCookie(Config.SessionCookieName, Config.SessionCookieHttpOnly, Config.SessionCookieSecure, Config.SessionCookieSameSite)

  // ---------------------------------------------------------------- POST /login

  /**
   * `login`: a successful login answers with the tokens and sets the session cookie to the new
   * session's token for as long as the session lives. A refused login is reported in the
   * envelope with its 401, leaves the store alone and sets no cookie.
   */
  function LoginRoute(st: Store, hasher: PasswordHasher, codec: JwtCodec, identifier: string, password: string,
                      sessionId: Uuid, sessionToken: string, refreshToken: string,
                      ipAddress: Option<string>, userAgent: Option<string>, now: int)
    : (r: CookieOutcome<AuthService.TokenResponse>)
    ensures r.result.Success? && r.result.value.Envelope?
    ensures r.cookie.SetCookie? <==> r.result.value.response.success
    ensures r.cookie.SetCookie? ==>
      && r.result.value.response == BaseResponse(true, 200, LoginMessage)
      && r.result.value.data.Some?
      && r.cookie == SessionCookieFor(r.result.value.data.value.sessionToken)
      && r.cookie.value == sessionToken
    ensures !r.cookie.SetCookie? ==>
      && r.st == st && r.cookie.Unchanged?
      && r.result.value.data.None?
      && r.result.value.response.code == Unauthorized
      && (r.result.value.response.message == AuthService.IncorrectCredentials.detail <==>
            var account := AuthService.LoginAccount(st, identifier);
            account.None? || !hasher.verify(password, account.value.passwordHash))
  {
    var (st', res) := AuthService.Login(st, hasher, codec, identifier, password, sessionId, sessionToken, refreshToken,
                                        ipAddress, userAgent, now);
    match res
    case Failure(e) => CookieOutcome(st, Success(Refusal(e)), Unchanged)
    case Success(tokens) => CookieOutcome(st', Success(Ok(LoginMessage, tokens)), SessionCookieFor(tokens.sessionToken))
  }

  /**
   * The cookie a successful login sets authenticates the account it names for the cookie's
   * whole lifetime, provided the token is new and not empty.
   */
  lemma LoginCookieAuthenticates(st: Store, hasher: PasswordHasher, codec: JwtCodec, identifier: string, password: string,
                                 sessionId: Uuid, sessionToken: string, refreshToken: string,
                                 ipAddress: Option<string>, userAgent: Option<string>, now: int, later: int)
    requires sessionToken != ""
    requires forall t :: t in st.sessions ==> t.sessionToken != sessionToken
    requires LoginRoute(st, hasher, codec, identifier, password, sessionId, sessionToken, refreshToken, ipAddress, userAgent, now).cookie.SetCookie?
    requires later <= now + LoginRoute(st, hasher, codec, identifier, password, sessionId, sessionToken, refreshToken,
                                       ipAddress, userAgent, now).cookie.maxAge
    ensures var r := LoginRoute(st, hasher, codec, identifier, password, sessionId, sessionToken, refreshToken, ipAddress, userAgent, now);
      var found := Authenticators.SessionAuthenticate(r.st, r.cookie.value, later).1;
      found.Some? && found.value.id == r.result.value.data.value.user.id
  {
    AuthService.LoginThenSessionAuthenticates(st, hasher, codec, identifier, password, sessionId, sessionToken, refreshToken,
                                              ipAddress, userAgent, now, later);
  }

  // ---------------------------------------------------------------- POST /logout

  /**
   * `logout`: the caller must be an active account (a refusal is raised). The session named by
   * a non-empty cookie is ended; the cookie is cleared in any case and the answer is the same
   * whether or not a session was found.
   */
  function LogoutRoute(st: Store, auth: Dependencies.Authentication, req: Dependencies.Request): (r: CookieOutcome<string>)
    ensures Caller(auth, ActiveUser).Failure? ==> r == CookieOutcome(st, Failure(Caller(auth, ActiveUser).error), Unchanged)
    ensures Caller(auth, ActiveUser).Success? ==>
      && r.result == Success(Ok(LogoutMessage, "success"))
      && r.cookie == ClearSessionCookie
    ensures r.st != st ==>
      && Caller(auth, ActiveUser).Success?
      && Dependencies.Truthy(Dependencies.Get(req.cookies, Dependencies.SessionCookie))
      && r.st == AuthService.Logout(st, req.cookies[Dependencies.SessionCookie]).0
  {
    match Caller(auth, ActiveUser)
    case Failure(e) => CookieOutcome(st, Failure(e), Unchanged)
    case Success(_) =>
      var token := Dependencies.Get(req.cookies, Dependencies.SessionCookie);
      var st' := if Dependencies.Truthy(token) then AuthService.Logout(st, token.value).0 else st;
      CookieOutcome(st', Success(Ok(LogoutMessage, "success")), ClearSessionCookie)
  }

  /**
   * After a logout the cookie's token no longer authenticates anybody, at any time, and every
   * session holding another token is exactly as it was.
   */
  lemma LogoutRouteEndsSession(st: Store, auth: Dependencies.Authentication, req: Dependencies.Request, later: int)
    requires Consistent(st)
    requires Caller(auth, ActiveUser).Success?
    requires Dependencies.Truthy(Dependencies.Get(req.cookies, Dependencies.SessionCookie))
    ensures var token := req.cookies[Dependencies.SessionCookie];
      var r := LogoutRoute(st, auth, req);
      && Authenticators.SessionAuthenticate(r.st, token, later).1.None?
      && |r.st.sessions| == |st.sessions|
      && (forall i :: 0 <= i < |st.sessions| && st.sessions[i].sessionToken != token ==> r.st.sessions[i] == st.sessions[i])
  {
    var token := req.cookies[Dependencies.SessionCookie];
    var r := LogoutRoute(st, auth, req);
    match CrudAuth.GetSessionByToken(st, token)
    case None =>
      assert r.st == st;
      assert Authenticators.SessionAuthenticate(st, token, later).1.None?;
    case Some(s) =>
      var st' := CrudAuth.Deactivate(st, s.id);
      assert r.st == st';
      CrudAuth.DeactivatedTokenNotFound(st, s);
      assert CrudAuth.GetSessionByToken(st', token).None?;
      assert Authenticators.SessionAuthenticate(st', token, later).1.None?;
      DeactivateKeepsOtherTokens(st, s);
  }

  /** Deactivating a session leaves every session holding another token as it was. */
  lemma DeactivateKeepsOtherTokens(st: Store, s: Session)
    requires Consistent(st)
    requires s in st.sessions
    ensures var st' := CrudAuth.Deactivate(st, s.id);
      forall i :: 0 <= i < |st.sessions| && st.sessions[i].sessionToken != s.sessionToken ==> st'.sessions[i] == st.sessions[i]
  {
    var st' := CrudAuth.Deactivate(st, s.id);
    var j :| 0 <= j < |st.sessions| && st.sessions[j] == s;
    forall i | 0 <= i < |st.sessions| && st.sessions[i].sessionToken != s.sessionToken
      ensures st'.sessions[i] == st.sessions[i]
    {
      if st.sessions[i].id == s.id {
        assert false;
      }
    }
  }

  // ---------------------------------------------------------------- POST /refresh

  /** The request body as the refresh route reads it: a JSON object, or anything else. */
  datatype RefreshBody = JsonObject(refreshToken: Option<string>) | NotAnObject

  /**
   * Where `refresh_token` finds its token: a non-empty `X-Refresh-Token` header wins and the
   * body is not read; otherwise the body's `refresh_token` field. A body that is not a JSON
   * object raises, and the application answers 500.
   */
  function RefreshTokenOf(header: Option<string>, body: RefreshBody): (r: Result<Option<string>, HttpError>)
    ensures Dependencies.Truthy(header) ==> r == Success(header)
    ensures !Dependencies.Truthy(header) ==> (r.Failure? <==> body.NotAnObject?)
    ensures r.Failure? ==> r.error == ServerError
    ensures !Dependencies.Truthy(header) && body.JsonObject? ==> r == Success(body.refreshToken)
  {
    if Dependencies.Truthy(header) then Success(header)
    else match body
      case NotAnObject => Failure(ServerError)
      case JsonObject(t) => Success(t)
  }

  /** With a non-empty header the body plays no part at all. */
  lemma HeaderWins(header: Option<string>, body: RefreshBody, other: RefreshBody)
    requires Dependencies.Truthy(header)
    ensures RefreshTokenOf(header, body) == RefreshTokenOf(header, other) == Success(header)
  {
  }

  /**
   * `refresh_token`: a missing or empty token in both places is a 400 in the envelope; a token
   * goes to the service, whose answer or refusal is enveloped. The cookie is never touched.
   */
  function RefreshRoute(st: Store, codec: JwtCodec, header: Option<string>, body: RefreshBody, now: int)
    : (r: CookieOutcome<AuthService.TokenResponse>)
    ensures r.cookie.Unchanged?
    ensures RefreshTokenOf(header, body).Failure? ==> r == CookieOutcome(st, Failure(ServerError), Unchanged)
    ensures RefreshTokenOf(header, body).Success? && !Dependencies.Truthy(RefreshTokenOf(header, body).value) ==>
      r == CookieOutcome(st, Success(Refusal(MissingRefreshToken)), Unchanged)
    ensures RefreshTokenOf(header, body).Success? && Dependencies.Truthy(RefreshTokenOf(header, body).value) ==>
      var refreshed := AuthService.RefreshToken(st, codec, RefreshTokenOf(header, body).value.value, now);
      && r.st == refreshed.0
      && r.result.Success? && r.result.value.Envelope?
      && (r.result.value.response.success <==> refreshed.1.Success?)
      && (refreshed.1.Failure? ==> r.result.value == Refusal(refreshed.1.error))
      && (refreshed.1.Success? ==> r.result.value == Ok(RefreshMessage, refreshed.1.value))
  {
    match RefreshTokenOf(header, body)
    case Failure(e) => CookieOutcome(st, Failure(e), Unchanged)
    case Success(token) =>
      if !Dependencies.Truthy(token) then CookieOutcome(st, Success(Refusal(MissingRefreshToken)), Unchanged)
      else
        var (st', res) := AuthService.RefreshToken(st, codec, token.value, now);
        match res
        case Failure(e) => CookieOutcome(st', Success(Refusal(e)), Unchanged)
        case Success(tokens) => CookieOutcome(st', Success(Ok(RefreshMessage, tokens)), Unchanged)
  }

  /**
   * The refresh token a login answered with, sent back in the header while the session lives,
   * whatever the body, refreshes that same session: the cookie's token comes back unchanged and
   * nothing is written.
   */
  lemma LoginThenRefreshRoute(st: Store, hasher: PasswordHasher, codec: JwtCodec, identifier: string, password: string,
                              sessionId: Uuid, sessionToken: string, refreshToken: string,
                              ipAddress: Option<string>, userAgent: Option<string>, now: int,
                              body: RefreshBody, later: int)
    requires Consistent(st)
    requires refreshToken != ""
    requires forall t :: t in st.sessions ==> t.refreshToken != Some(refreshToken)
    requires later <= now + Config.SessionLifetime
    requires LoginRoute(st, hasher, codec, identifier, password, sessionId, sessionToken, refreshToken, ipAddress, userAgent, now).cookie.SetCookie?
    ensures var login := LoginRoute(st, hasher, codec, identifier, password, sessionId, sessionToken, refreshToken,
                                    ipAddress, userAgent, now);
      var refreshed := RefreshRoute(login.st, codec, Some(login.result.value.data.value.refreshToken), body, later);
      && refreshed.st == login.st
      && refreshed.result.value.response.success
      && refreshed.result.value.data.value.sessionToken == login.cookie.value
  {
    AuthService.LoginThenRefresh(st, hasher, codec, identifier, password, sessionId, sessionToken, refreshToken,
                                 ipAddress, userAgent, now, later);
  }
}

=== FILE: auth_service.dfy ===
/**
 * The authentication service: password login opening a session, logout, refresh, session
 * lookup, and the single-sign-on authorization codes with the project-bound access tokens they
 * are exchanged for. Random tokens and fresh ids are parameters chosen by the caller.
 */
module AuthService {
  import opened Wrappers
  import opened Uuids
  import opened Seqs
  import opened Models
  import opened Security
  import opened Common
  import Config
  import CrudAuth
  import CrudUser
  import CrudRbac
  import RbacService
  import Authenticators

  /** `TokenResponse`: the access token, the two session tokens and the account. */
  datatype TokenResponse = TokenResponse(
    accessToken: string,
    tokenType: string,
    expiresIn: int,
    refreshToken: string,
    sessionToken: string,
    user: User)

  const BearerType: string := "bearer"

  const IncorrectCredentials: HttpError := HttpError(Unauthorized, "Incorrect email or password")
  const LoginAccountDisabled: HttpError := HttpError(Unauthorized, "Account is disabled")
  const InvalidRefreshToken: HttpError := HttpError(Unauthorized, "Invalid refresh token")
  const RefreshTokenExpired: HttpError := HttpError(Unauthorized, "Refresh token expired")
  const RefreshAccountDisabled: HttpError := HttpError(Unauthorized, "User account is disabled")

  /** The claims of a session's access token: the account and the session. */
  function SessionClaims(userId: Uuid, sessionId: Uuid): Claims {
    map["sub" := Str(Text(userId)), "session" := Str(Text(sessionId))]
  }

  // ---------------------------------------------------------------- login

  /** The account a login names: by email first, else by username. */
  function LoginAccount(st: Store, identifier: string): (r: Option<User>)
    ensures CrudUser.GetByEmail(st, identifier).Some? ==> r == CrudUser.GetByEmail(st, identifier)
    ensures CrudUser.GetByEmail(st, identifier).None? ==> r == CrudUser.GetByUsername(st, identifier)
    ensures r.Some? ==> r.value in st.users && (r.value.email == identifier || r.value.username == identifier)
  {
    match CrudUser.GetByEmail(st, identifier)
    case Some(u) => Some(u)
    case None => CrudUser.GetByUsername(st, identifier)
  }

  /** The session a successful login of `u` opens. */
  function LoginSession(u: User, sessionId: Uuid, sessionToken: string, refreshToken: string,
                        ipAddress: Option<string>, userAgent: Option<string>, now: int): Session {
    CrudAuth.NewSession(sessionId, u.id, sessionToken, refreshToken, now + Config.SessionLifetime,
                        ipAddress, userAgent, None, now)
  }

  /**
   * `AuthService.login`: an unknown account and a wrong password give the same 401; a disabled
   * account is refused only once its password has been checked. On success one active session
   * is opened with the two given tokens and the configured lifetime, the login is counted, and
   * an access token naming the account and the session is signed.
   */
  function Login(st: Store, hasher: PasswordHasher, codec: JwtCodec, identifier: string, password: string,
                 sessionId: Uuid, sessionToken: string, refreshToken: string,
                 ipAddress: Option<string>, userAgent: Option<string>, now: int)
    : (r: (Store, Result<TokenResponse, HttpError>))
    ensures r.1.Failure? ==> r.0 == st
    ensures r.1 == Failure(IncorrectCredentials) <==>
      LoginAccount(st, identifier).None? || !hasher.verify(password, LoginAccount(st, identifier).value.passwordHash)
    ensures r.1 == Failure(LoginAccountDisabled) <==>
      (LoginAccount(st, identifier).Some? && hasher.verify(password, LoginAccount(st, identifier).value.passwordHash)
       && !LoginAccount(st, identifier).value.isActive)
    ensures r.1.Success? ==>
      var u := LoginAccount(st, identifier).value;
      var s := LoginSession(u, sessionId, sessionToken, refreshToken, ipAddress, userAgent, now);
      && u.isActive
      && r.0 == LoggedIn(st, u, s, now)
      && r.1.value.sessionToken == sessionToken && r.1.value.refreshToken == refreshToken
      && r.1.value.tokenType == BearerType && r.1.value.expiresIn == Config.AccessTokenLifetime
      && r.1.value.accessToken == CreateJwtToken(codec, SessionClaims(u.id, sessionId), Some(Config.AccessTokenLifetime), now)
      && r.1.value.user.id == u.id
  {
    var account := LoginAccount(st, identifier);
    if account.None? || !hasher.verify(password, account.value.passwordHash) then (st, Failure(IncorrectCredentials))
    else if !account.value.isActive then (st, Failure(LoginAccountDisabled))
    else
      var u := account.value;
      var s := LoginSession(u, sessionId, sessionToken, refreshToken, ipAddress, userAgent, now);
      var st1 := CrudAuth.CreateSession(st, s).0;
      var st2 := CrudUser.UpdateLoginInfo(st1, u.id, now);
      var access := CreateJwtToken(codec, SessionClaims(u.id, sessionId), Some(Config.AccessTokenLifetime), now);
      var user := CrudUser.GetUser(st2, u.id);
      assert u in st1.users;
      assert user.Some? by {
        var i :| 0 <= i < |st1.users| && st1.users[i] == u;
        assert st2.users[i].id == u.id;
      }
      (st2, Success(TokenResponse(access, BearerType, Config.AccessTokenLifetime, refreshToken, sessionToken, user.value)))
  }

  /** The store after `u` logged in and the session `s` was opened. */
  function LoggedIn(st: Store, u: User, s: Session, now: int): Store {
    CrudUser.UpdateLoginInfo(st.(sessions := st.sessions + [s]), u.id, now)
  }

  /** After a login the account is still there, with the same id and still active. */
  lemma LoggedInAccountKept(st: Store, u: User, s: Session, now: int)
    requires u in st.users && u.isActive
    ensures exists v :: v in LoggedIn(st, u, s, now).users && v.id == u.id && v.isActive
  {
    var st' := LoggedIn(st, u, s, now);
    var i :| 0 <= i < |st.users| && st.users[i] == u;
    assert st'.users[i] in st'.users && st'.users[i].id == u.id && st'.users[i].isActive;
  }

  /** A freshly opened session with an unused token is the one its token finds after the login. */
  lemma LoggedInSessionFound(st: Store, u: User, s: Session, now: int, later: int)
    requires u in st.users && u.isActive
    requires s.isActive && s.userId == u.id && s.sessionToken != "" && later <= s.expiresAt
    requires forall t :: t in st.sessions ==> t.sessionToken != s.sessionToken
    ensures var found := Authenticators.SessionAuthenticate(LoggedIn(st, u, s, now), s.sessionToken, later).1;
      found.Some? && found.value.id == u.id
  {
    var st1 := st.(sessions := st.sessions + [s]);
    CrudAuth.CreatedSessionFound(st, s);
    assert CrudAuth.GetSessionByToken(st1, s.sessionToken) == Some(s);
    assert LoggedIn(st, u, s, now).sessions == st1.sessions;
    assert CrudAuth.GetSessionByToken(LoggedIn(st, u, s, now), s.sessionToken) == Some(s);
    LoggedInAccountKept(st, u, s, now);
  }

  /**
   * A session opened by login, with a session token not already in use, authenticates its
   * account until the session's expiry instant.
   */
  lemma LoginThenSessionAuthenticates(st: Store, hasher: PasswordHasher, codec: JwtCodec, identifier: string,
                                      password: string, sessionId: Uuid, sessionToken: string, refreshToken: string,
                                      ipAddress: Option<string>, userAgent: Option<string>, now: int, later: int)
    requires sessionToken != ""
    requires forall t :: t in st.sessions ==> t.sessionToken != sessionToken
    requires later <= now + Config.SessionLifetime
    requires Login(st, hasher, codec, identifier, password, sessionId, sessionToken, refreshToken, ipAddress, userAgent, now).1.Success?
    ensures var r := Login(st, hasher, codec, identifier, password, sessionId, sessionToken, refreshToken, ipAddress, userAgent, now);
      var found := Authenticators.SessionAuthenticate(r.0, sessionToken, later).1;
      found.Some? && found.value.id == r.1.value.user.id
  {
    var u := LoginAccount(st, identifier).value;
    var s := LoginSession(u, sessionId, sessionToken, refreshToken, ipAddress, userAgent, now);
    LoggedInSessionFound(st, u, s, now, later);
  }

  /** The bearer token signed at login authenticates the account after the login, until it expires. */
  lemma LoggedInTokenAuthenticates(st: Store, codec: JwtCodec, u: User, s: Session, now: int, later: int)
    requires Faithful(codec)
    requires u in st.users && u.isActive
    requires now <= later <= now + Config.AccessTokenLifetime
    requires CreateJwtToken(codec, SessionClaims(u.id, s.id), Some(Config.AccessTokenLifetime), now) != ""
    ensures var token := CreateJwtToken(codec, SessionClaims(u.id, s.id), Some(Config.AccessTokenLifetime), now);
      var found := Authenticators.JwtAuthenticate(LoggedIn(st, u, s, now), codec, token, later);
      found.Some? && found.value.id == u.id
  {
    var claims := SessionClaims(u.id, s.id);
    JwtRoundTrip(codec, claims, Some(Config.AccessTokenLifetime), now, later);
    var payload := JwtPayload(claims, Some(Config.AccessTokenLifetime), now);
    Authenticators.SubjectOfText(payload, u.id);
    LoggedInAccountKept(st, u, s, now);
  }

  /** The access token login hands out authenticates the account as a bearer token until it expires. */
  lemma LoginAccessTokenAuthenticates(st: Store, hasher: PasswordHasher, codec: JwtCodec, identifier: string,
                                      password: string, sessionId: Uuid, sessionToken: string, refreshToken: string,
                                      ipAddress: Option<string>, userAgent: Option<string>, now: int, later: int)
    requires Faithful(codec)
    requires now <= later <= now + Config.AccessTokenLifetime
    requires Login(st, hasher, codec, identifier, password, sessionId, sessionToken, refreshToken, ipAddress, userAgent, now).1.Success?
    requires Login(st, hasher, codec, identifier, password, sessionId, sessionToken, refreshToken, ipAddress, userAgent, now).1.value.accessToken != ""
    ensures var r := Login(st, hasher, codec, identifier, password, sessionId, sessionToken, refreshToken, ipAddress, userAgent, now);
      var found := Authenticators.JwtAuthenticate(r.0, codec, r.1.value.accessToken, later);
      found.Some? && found.value.id == r.1.value.user.id
  {
    var u := LoginAccount(st, identifier).value;
    var s := LoginSession(u, sessionId, sessionToken, refreshToken, ipAddress, userAgent, now);
    LoggedInTokenAuthenticates(st, codec, u, s, now, later);
  }

  // ---------------------------------------------------------------- logout

  /** `AuthService.logout`: the active session holding the token is deactivated; reports whether there was one. */
  function Logout(st: Store, sessionToken: string): (r: (Store, bool))
    ensures r.1 <==> exists s :: s in st.sessions && s.sessionToken == sessionToken && s.isActive
    ensures !r.1 ==> r.0 == st
    ensures r.1 ==> r.0 == CrudAuth.Deactivate(st, CrudAuth.GetSessionByToken(st, sessionToken).value.id)
  {
    match CrudAuth.GetSessionByToken(st, sessionToken)
    case None => (st, false)
    case Some(s) => (CrudAuth.Deactivate(st, s.id), true)
  }

  /** A second logout with the same token finds nothing and changes nothing. */
  lemma LogoutTwice(st: Store, sessionToken: string)
    requires Consistent(st)
    ensures var st' := Logout(st, sessionToken).0; Logout(st', sessionToken) == (st', false)
  {
    match CrudAuth.GetSessionByToken(st, sessionToken)
    case None =>
    case Some(s) => CrudAuth.DeactivatedTokenNotFound(st, s);
  }

  // ---------------------------------------------------------------- refresh

  /**
   * `AuthService.refresh_token`: the active session holding the refresh token, unexpired and
   * belonging to an active account, gets a new access token; the session and refresh tokens
   * handed back are the ones it already had. Only an expired session is written (deactivated).
   */
  function RefreshToken(st: Store, codec: JwtCodec, refreshToken: string, now: int): (r: (Store, Result<TokenResponse, HttpError>))
    ensures CrudAuth.GetSessionByRefreshToken(st, refreshToken).None? ==> r == (st, Failure(InvalidRefreshToken))
    ensures CrudAuth.GetSessionByRefreshToken(st, refreshToken).Some? ==>
      var s := CrudAuth.GetSessionByRefreshToken(st, refreshToken).value;
      && (s.expiresAt < now ==> r == (CrudAuth.Deactivate(st, s.id), Failure(RefreshTokenExpired)))
      && (s.expiresAt >= now ==> r.0 == st)
      && (s.expiresAt >= now && r.1.Failure? ==> r.1.error == RefreshAccountDisabled)
    ensures r.1.Success? ==>
      && r.1.value.refreshToken == refreshToken
      && r.1.value.user in st.users && r.1.value.user.isActive
      && exists s :: s in st.sessions && s.refreshToken == Some(refreshToken) && s.isActive && now <= s.expiresAt
           && s.sessionToken == r.1.value.sessionToken && s.userId == r.1.value.user.id
           && r.1.value.accessToken == CreateJwtToken(codec, SessionClaims(s.userId, s.id), Some(Config.AccessTokenLifetime), now)
  {
    match CrudAuth.GetSessionByRefreshToken(st, refreshToken)
    case None => (st, Failure(InvalidRefreshToken))
    case Some(s) =>
      if s.expiresAt < now then (CrudAuth.Deactivate(st, s.id), Failure(RefreshTokenExpired))
      else
        match CrudUser.GetUser(st, s.userId)
        case None => (st, Failure(RefreshAccountDisabled))
        case Some(u) =>
          if !u.isActive then (st, Failure(RefreshAccountDisabled))
          else
            var access := CreateJwtToken(codec, SessionClaims(u.id, s.id), Some(Config.AccessTokenLifetime), now);
            (st, Success(TokenResponse(access, BearerType, Config.AccessTokenLifetime, refreshToken, s.sessionToken, u)))
  }

  /** After a login the account is still found by id, and still active. */
  lemma LoggedInAccountFound(st: Store, u: User, s: Session, now: int)
    requires DistinctBy(st.users, (x: User) => x.id)
    requires u in st.users && u.isActive
    ensures CrudUser.GetUser(LoggedIn(st, u, s, now), u.id).Some?
    ensures CrudUser.GetUser(LoggedIn(st, u, s, now), u.id).value.isActive
  {
    var st' := LoggedIn(st, u, s, now);
    forall i | 0 <= i < |st.users|
      ensures st'.users[i].id == st.users[i].id && st'.users[i].isActive == st.users[i].isActive
    {
    }
    assert DistinctBy(st'.users, (x: User) => x.id);
    var i :| 0 <= i < |st.users| && st.users[i] == u;
    FindFirstUnique(st'.users, (x: User) => x.id, st'.users[i], (x: User) => x.id == u.id);
  }

  /** A login's refresh token, unused before, refreshes the login's session until it expires. */
  lemma LoggedInRefresh(st: Store, codec: JwtCodec, u: User, s: Session, refreshToken: string, now: int, later: int)
    requires Consistent(st)
    requires u in st.users && u.isActive
    requires s.isActive && s.userId == u.id && s.refreshToken == Some(refreshToken) && later <= s.expiresAt
    requires forall t :: t in st.sessions ==> t.refreshToken != Some(refreshToken)
    ensures var refreshed := RefreshToken(LoggedIn(st, u, s, now), codec, refreshToken, later);
      && refreshed.0 == LoggedIn(st, u, s, now)
      && refreshed.1.Success?
      && refreshed.1.value.sessionToken == s.sessionToken && refreshed.1.value.refreshToken == refreshToken
  {
    var st1 := st.(sessions := st.sessions + [s]);
    var st' := LoggedIn(st, u, s, now);
    FindFirstAppend(st.sessions, s, (x: Session) => x.refreshToken == Some(refreshToken) && x.isActive);
    assert CrudAuth.GetSessionByRefreshToken(st1, refreshToken) == Some(s);
    assert st'.sessions == st1.sessions;
    assert CrudAuth.GetSessionByRefreshToken(st', refreshToken) == Some(s);
    LoggedInAccountFound(st, u, s, now);
  }

  /**
   * Refreshing with the refresh token a login handed out, before the session expires, returns the
   * same two session tokens and leaves the store as it was: the session's lifetime is not extended.
   */
  lemma LoginThenRefresh(st: Store, hasher: PasswordHasher, codec: JwtCodec, identifier: string, password: string,
                         sessionId: Uuid, sessionToken: string, refreshToken: string,
                         ipAddress: Option<string>, userAgent: Option<string>, now: int, later: int)
    requires Consistent(st)
    requires forall t :: t in st.sessions ==> t.refreshToken != Some(refreshToken)
    requires later <= now + Config.SessionLifetime
    requires Login(st, hasher, codec, identifier, password, sessionId, sessionToken, refreshToken, ipAddress, userAgent, now).1.Success?
    ensures var st' := Login(st, hasher, codec, identifier, password, sessionId, sessionToken, refreshToken, ipAddress, userAgent, now).0;
      var refreshed := RefreshToken(st', codec, refreshToken, later);
      && refreshed.0 == st'
      && refreshed.1.Success?
      && refreshed.1.value.sessionToken == sessionToken && refreshed.1.value.refreshToken == refreshToken
  {
    var u := LoginAccount(st, identifier).value;
    var s := LoginSession(u, sessionId, sessionToken, refreshToken, ipAddress, userAgent, now);
    LoggedInRefresh(st, codec, u, s, refreshToken, now, later);
  }

  // ---------------------------------------------------------------- session lookup

  /**
   * `AuthService.get_user_by_session`: the active account behind an active, unexpired session.
   * An expired session is deactivated; the access stamp is not touched.
   */
  function GetUserBySession(st: Store, sessionToken: string, now: int): (r: (Store, Option<User>))
    ensures r.1.Some? ==> (r.1.value in st.users && r.1.value.isActive && r.0 == st &&
      exists s :: s in st.sessions && s.sessionToken == sessionToken && s.isActive && now <= s.expiresAt && s.userId == r.1.value.id)
    ensures r.0 != st ==> (r.1.None? &&
      exists s :: s in st.sessions && s.sessionToken == sessionToken && s.isActive && s.expiresAt < now && r.0 == CrudAuth.Deactivate(st, s.id))
  {
    match CrudAuth.GetSessionByToken(st, sessionToken)
    case None => (st, None)
    case Some(s) =>
      if s.expiresAt < now then (CrudAuth.Deactivate(st, s.id), None)
      else
        match CrudUser.GetUser(st, s.userId)
        case None => (st, None)
        case Some(u) => if !u.isActive then (st, None) else (st, Some(u))
  }

  /**
   * The session lookup agrees with the session authenticator on every non-empty token, except
   * that it refuses a disabled account and does not stamp the access time.
   */
  lemma SessionLookupsAgree(st: Store, sessionToken: string, now: int)
    requires sessionToken != ""
    ensures var viaService := GetUserBySession(st, sessionToken, now).1;
      var viaCookie := Authenticators.SessionAuthenticate(st, sessionToken, now).1;
      viaService == (if viaCookie.Some? && viaCookie.value.isActive then viaCookie else None)
  {
  }

  // ---------------------------------------------------------------- authorization codes

  /** Five minutes. */
  const AuthCodeLifetime: int := 5 * 60

  /** `generate_auth_code`: store a fresh, unused code bound to the account, the project and the redirect target. */
  function GenerateAuthCode(st: Store, userId: Uuid, project: string, redirectUri: string, code: string, id: Uuid,
                            now: int): (r: (Store, string))
    ensures r.1 == code
    ensures r.0 == st.(authCodes := r.0.authCodes) && |r.0.authCodes| == |st.authCodes| + 1
    ensures r.0.authCodes[..|st.authCodes|] == st.authCodes
    ensures var c := r.0.authCodes[|st.authCodes|];
      c.code == code && c.userId == userId && c.project == project && c.redirectUri == redirectUri
      && !c.isUsed && c.expiresAt == now + AuthCodeLifetime
  {
    (CrudAuth.CreateAuthCode(st, CrudAuth.NewAuthCode(id, code, userId, project, redirectUri, now + AuthCodeLifetime, now)).0, code)
  }

  /** What a successful exchange hands to the client project. */
  datatype ExchangeResponse = ExchangeResponse(
    accessToken: string,
    tokenType: string,
    expiresIn: int,
    user: User,
    permissions: set<string>,
    roles: seq<Role>,
    project: string)

  const InvalidCode: HttpError := HttpError(BadRequest, "无效的授权码")
  const CodeExpired: HttpError := HttpError(BadRequest, "授权码已过期")
  const CodeMismatch: HttpError := HttpError(BadRequest, "授权码参数不匹配")
  const SsoAccountDisabled: HttpError := HttpError(Unauthorized, "用户账号已禁用")
  const SsoAccessType: string := "sso_access"

  /** The claims of a project-bound access token. */
  function SsoClaims(userId: Uuid, project: string): Claims {
    map["sub" := Str(Text(userId)), "project" := Str(project), "type" := Str(SsoAccessType)]
  }

  /** The project a code's project code names, if there is one: the scope of an exchange's snapshot. */
  function ProjectIdOfCode(st: Store, project: string): (r: Option<Uuid>)
    ensures r.Some? <==> exists p :: p in st.projects && p.code == project
    ensures r.Some? ==> exists p :: p in st.projects && p.code == project && p.id == r.value
  {
    var row := CrudRbac.GetProjectByCode(st, project);
    if row.Some? then Some(row.value.id) else None
  }

  /**
   * `exchange_auth_code`: refuse, in this order, a missing or used code, an expired one, and one
   * bound to another project or redirect target; each refusal leaves the store alone. Otherwise
   * the code is burnt, and only then is the account checked. The response carries a
   * project-bound token with the account's permissions and roles in the project, looked up by code.
   */
  function ExchangeAuthCode(st: Store, c: RbacService.PermissionCache, codec: JwtCodec, code: string, project: string,
                            redirectUri: string, now: int, faults: RbacService.CacheFaults)
    : (r: (Store, RbacService.PermissionCache, Result<ExchangeResponse, HttpError>))
    ensures r.2.Failure? && r.2.error.status == BadRequest ==> r.0 == st && r.1 == c
    ensures CrudAuth.GetAuthCodeByCode(st, code).None? || CrudAuth.GetAuthCodeByCode(st, code).value.isUsed ==>
      r.2 == Failure(InvalidCode)
    ensures CrudAuth.GetAuthCodeByCode(st, code).Some? ==>
      var ac := CrudAuth.GetAuthCodeByCode(st, code).value;
      && (!ac.isUsed && ac.expiresAt < now ==> r.2 == Failure(CodeExpired))
      && (!ac.isUsed && ac.expiresAt >= now && (ac.project != project || ac.redirectUri != redirectUri) ==> r.2 == Failure(CodeMismatch))
      && (!ac.isUsed && ac.expiresAt >= now && ac.project == project && ac.redirectUri == redirectUri ==>
            && r.0 == CrudAuth.MarkAsUsed(st, ac.id, now)
            && (r.2.Success? <==> CrudUser.GetUser(st, ac.userId).Some? && CrudUser.GetUser(st, ac.userId).value.isActive)
            && (r.2.Success? ==> r.2.value.user == CrudUser.GetUser(st, ac.userId).value)
            && (r.2.Failure? ==> r.2.error == SsoAccountDisabled))
    ensures r.2.Success? ==>
      && r.2.value.user.isActive && r.2.value.project == project
      && r.2.value.accessToken == CreateJwtToken(codec, SsoClaims(r.2.value.user.id, project), Some(Config.AccessTokenLifetime), now)
  {
    match CrudAuth.GetAuthCodeByCode(st, code)
    case None => (st, c, Failure(InvalidCode))
    case Some(ac) =>
      if ac.isUsed then (st, c, Failure(InvalidCode))
      else if ac.expiresAt < now then (st, c, Failure(CodeExpired))
      else if ac.project != project || ac.redirectUri != redirectUri then (st, c, Failure(CodeMismatch))
      else
        var st1 := CrudAuth.MarkAsUsed(st, ac.id, now);
        match CrudUser.GetUser(st1, ac.userId)
        case None => (st1, c, Failure(SsoAccountDisabled))
        case Some(u) =>
          if !u.isActive then (st1, c, Failure(SsoAccountDisabled))
          else
            var access := CreateJwtToken(codec, SsoClaims(u.id, project), Some(Config.AccessTokenLifetime), now);
            var projectId := ProjectIdOfCode(st1, project);
            var (c', permissions) := RbacService.GetUserPermissions(st1, c, u.id, projectId, now, faults);
            var roles := CrudRbac.RoleGetUserRoles(st1, u.id, projectId);
            (st1, c', Success(ExchangeResponse(access, BearerType, Config.AccessTokenLifetime, u, permissions, roles, project)))
  }

  /**
   * The snapshot an exchange hands out: from a coherent permission cache, a successful exchange
   * carries exactly the account's effective permissions and its roles in the project the code
   * names, or with no scope when no project has that code.
   */
  lemma ExchangeAuthCodeSnapshot(st: Store, c: RbacService.PermissionCache, codec: JwtCodec, code: string, project: string,
                                 redirectUri: string, now: int, faults: RbacService.CacheFaults)
    requires RbacService.Coherent(st, c, now)
    ensures var r := ExchangeAuthCode(st, c, codec, code, project, redirectUri, now, faults).2;
      var pid := ProjectIdOfCode(st, project);
      r.Success? ==>
        && r.value.permissions == RbacService.EffectivePermissions(st, r.value.user.id, pid, now)
        && r.value.roles == CrudRbac.RoleGetUserRoles(st, r.value.user.id, pid)
  {
    var r := ExchangeAuthCode(st, c, codec, code, project, redirectUri, now, faults);
    if r.2.Success? {
      var st1 := ExchangedStore(st, c, codec, code, project, redirectUri, now, faults);
      RbacService.CoherentAcrossOtherTables(st, st1, c, now);
      var pid := ProjectIdOfCode(st1, project);
      RbacService.GetUserPermissionsCoherent(st1, c, r.2.value.user.id, pid, now, faults);
      RbacService.CoherentAcrossOtherTables(st1, st, c, now);
      assert RbacService.EffectivePermissions(st1, r.2.value.user.id, pid, now)
          == RbacService.EffectivePermissions(st, r.2.value.user.id, pid, now);
    }
  }

  /** Whatever its outcome, an exchange leaves a coherent permission cache coherent with the store it leaves. */
  lemma ExchangeAuthCodeKeepsCoherent(st: Store, c: RbacService.PermissionCache, codec: JwtCodec, code: string, project: string,
                                      redirectUri: string, now: int, faults: RbacService.CacheFaults)
    requires RbacService.Coherent(st, c, now)
    ensures var r := ExchangeAuthCode(st, c, codec, code, project, redirectUri, now, faults);
      RbacService.Coherent(r.0, r.1, now)
  {
    var r := ExchangeAuthCode(st, c, codec, code, project, redirectUri, now, faults);
    if r.0 != st {
      var st1 := ExchangedStore(st, c, codec, code, project, redirectUri, now, faults);
      RbacService.CoherentAcrossOtherTables(st, st1, c, now);
      if r.2.Success? {
        var pid := ProjectIdOfCode(st1, project);
        RbacService.GetUserPermissionsCoherent(st1, c, r.2.value.user.id, pid, now, faults);
      }
    }
  }

  /**
   * An exchange that writes only burns the code: the store it leaves differs from `st` in the
   * code table alone, and a successful one resolves permissions from that store.
   */
  lemma ExchangedStore(st: Store, c: RbacService.PermissionCache, codec: JwtCodec, code: string, project: string,
                       redirectUri: string, now: int, faults: RbacService.CacheFaults) returns (st1: Store)
    requires ExchangeAuthCode(st, c, codec, code, project, redirectUri, now, faults).0 != st
             || ExchangeAuthCode(st, c, codec, code, project, redirectUri, now, faults).2.Success?
    ensures var r := ExchangeAuthCode(st, c, codec, code, project, redirectUri, now, faults);
      && r.0 == st1
      && st1 == st.(authCodes := st1.authCodes)
      && (r.2.Failure? ==> r.1 == c)
      && (r.2.Success? ==>
            && r.1 == RbacService.GetUserPermissions(st1, c, r.2.value.user.id, ProjectIdOfCode(st1, project), now, faults).0
            && r.2.value.permissions == RbacService.GetUserPermissions(st1, c, r.2.value.user.id, ProjectIdOfCode(st1, project), now, faults).1
            && r.2.value.roles == CrudRbac.RoleGetUserRoles(st1, r.2.value.user.id, ProjectIdOfCode(st1, project)))
  {
    var ac := CrudAuth.GetAuthCodeByCode(st, code).value;
    st1 := CrudAuth.MarkAsUsed(st, ac.id, now);
  }

  /**
   * A code is good for one exchange: once an exchange has burnt it, whether or not the account
   * turned out to be active, every later exchange of it is refused as invalid.
   */
  lemma ExchangeIsOneShot(st: Store, c: RbacService.PermissionCache, codec: JwtCodec, code: string, project: string,
                          redirectUri: string, now: int, faults: RbacService.CacheFaults,
                          c2: RbacService.PermissionCache, project2: string, redirectUri2: string, later: int)
    requires Consistent(st)
    requires ExchangeAuthCode(st, c, codec, code, project, redirectUri, now, faults).0 != st
    ensures var st' := ExchangeAuthCode(st, c, codec, code, project, redirectUri, now, faults).0;
      ExchangeAuthCode(st', c2, codec, code, project2, redirectUri2, later, faults).2 == Failure(InvalidCode)
  {
    var ac := CrudAuth.GetAuthCodeByCode(st, code).value;
    CrudAuth.UsedCodeStillFound(st, ac, now);
  }

  /**
   * A code issued with a fresh value is exchanged successfully within its five minutes, for the
   * project and redirect target it was issued for, by an active account.
   */
  lemma IssueThenExchange(st: Store, c: RbacService.PermissionCache, codec: JwtCodec, u: User, project: string,
                          redirectUri: string, code: string, id: Uuid, now: int, later: int,
                          faults: RbacService.CacheFaults)
    requires Consistent(st)
    requires u in st.users && u.isActive
    requires forall x :: x in st.authCodes ==> x.code != code && x.id != id
    requires now <= later <= now + AuthCodeLifetime
    ensures var st' := GenerateAuthCode(st, u.id, project, redirectUri, code, id, now).0;
      var r := ExchangeAuthCode(st', c, codec, code, project, redirectUri, later, faults);
      r.2.Success? && r.2.value.user.id == u.id
  {
    var ac := CrudAuth.NewAuthCode(id, code, u.id, project, redirectUri, now + AuthCodeLifetime, now);
    var st' := GenerateAuthCode(st, u.id, project, redirectUri, code, id, now).0;
    FindFirstAppend(st.authCodes, ac, (x: AuthCode) => x.code == code);
    assert CrudAuth.GetAuthCodeByCode(st', code) == Some(ac);
    assert !ac.isUsed && ac.expiresAt >= later && ac.project == project && ac.redirectUri == redirectUri;
    assert CrudUser.GetUser(st', u.id) == Some(u) by {
      assert st'.users == st.users;
      FindFirstUnique(st.users, (x: User) => x.id, u, (x: User) => x.id == u.id);
    }
  }

  // ---------------------------------------------------------------- project-bound tokens

  /** Every failure of `get_user_by_access_token` is re-raised as a 401 whose detail carries this prefix. */
  const TokenCheckFailedPrefix: string := "令牌验证失败: "

  /** The message of the `AttributeError` raised when the token did not verify at all. */
  const NoPayloadMessage: string := "'NoneType' object has no attribute 'get'"


  /** `str()` of an `HTTPException`: its status and its detail. */
  function HttpErrorText(e: HttpError): string {
    (if e.status == Unauthorized then "401" else "4xx") + ": " + e.detail
  }

  const InvalidAccessToken: HttpError := HttpError(Unauthorized, "无效的访问令牌")

  /** The claims a project-bound token must carry for `project`. */
  predicate SsoClaimsFor(claims: Claims, project: string) {
    && "sub" in claims && claims["sub"].Str? && claims["sub"].s != ""
    && "project" in claims && claims["project"] == Str(project)
    && "type" in claims && claims["type"] == Str(SsoAccessType)
  }

  /**
   * `get_user_by_access_token`: the token must verify, name an account in `sub`, be bound to
   * `project` and be of the single-sign-on type, and the account must be active. Every failure,
   * whatever raised it, comes out as a 401.
   */
  function GetUserByAccessToken(st: Store, codec: JwtCodec, accessToken: string, project: string, now: int)
    : (r: Result<User, HttpError>)
    ensures r.Failure? ==> r.error.status == Unauthorized && IsPrefix(TokenCheckFailedPrefix, r.error.detail)
    ensures r.Success? <==>
      && VerifyJwtToken(codec, accessToken, now).Some?
      && SsoClaimsFor(VerifyJwtToken(codec, accessToken, now).value, project)
      && Parse(VerifyJwtToken(codec, accessToken, now).value["sub"].s).Some?
      && CrudUser.GetUser(st, Parse(VerifyJwtToken(codec, accessToken, now).value["sub"].s).value).Some?
      && CrudUser.GetUser(st, Parse(VerifyJwtToken(codec, accessToken, now).value["sub"].s).value).value.isActive
    ensures r.Success? ==> r.value in st.users
  {
    match VerifyJwtToken(codec, accessToken, now)
    case None => Failure(HttpError(Unauthorized, TokenCheckFailedPrefix + NoPayloadMessage))
    case Some(claims) =>
      if !SsoClaimsFor(claims, project) then
        Failure(HttpError(Unauthorized, TokenCheckFailedPrefix + HttpErrorText(InvalidAccessToken)))
      else
        match Parse(claims["sub"].s)
        case None => Failure(HttpError(Unauthorized, TokenCheckFailedPrefix + BadUuidMessage))
        case Some(id) =>
          match CrudUser.GetUser(st, id)
          case None => Failure(HttpError(Unauthorized, TokenCheckFailedPrefix + HttpErrorText(SsoAccountDisabled)))
          case Some(u) =>
            if !u.isActive then Failure(HttpError(Unauthorized, TokenCheckFailedPrefix + HttpErrorText(SsoAccountDisabled)))
            else Success(u)
  }

  /**
   * The token an exchange issues is accepted for its own project until it expires, for as long
   * as the account stays active.
   */
  lemma ExchangedTokenAccepted(st: Store, codec: JwtCodec, u: User, project: string, issued: int, now: int)
    requires Faithful(codec)
    requires Consistent(st) && u in st.users && u.isActive
    requires issued <= now <= issued + Config.AccessTokenLifetime
    ensures var token := CreateJwtToken(codec, SsoClaims(u.id, project), Some(Config.AccessTokenLifetime), issued);
      GetUserByAccessToken(st, codec, token, project, now) == Success(u)
  {
    var claims := SsoClaims(u.id, project);
    var token := CreateJwtToken(codec, claims, Some(Config.AccessTokenLifetime), issued);
    var payload := JwtPayload(claims, Some(Config.AccessTokenLifetime), issued);
    assert VerifyJwtToken(codec, token, now) == Some(payload) by {
      JwtRoundTrip(codec, claims, Some(Config.AccessTokenLifetime), issued, now);
    }
    assert payload["sub"] == Str(Text(u.id)) && payload["project"] == Str(project) && payload["type"] == Str(SsoAccessType) by {
      assert "sub" in claims && "project" in claims && "type" in claims;
      assert "sub" != "exp" && "project" != "exp" && "type" != "exp";
    }
    assert |Text(u.id)| > 0 && Parse(Text(u.id)) == Some(u.id) by { ParseText(u.id); }
    assert CrudUser.GetUser(st, u.id) == Some(u) by {
      FindFirstUnique(st.users, (x: User) => x.id, u, (x: User) => x.id == u.id);
    }
  }

  /** The same token is refused for every other project. */
  lemma ExchangedTokenBoundToProject(st: Store, codec: JwtCodec, u: User, project: string, other: string,
                                     issued: int, now: int)
    requires Faithful(codec)
    requires issued <= now <= issued + Config.AccessTokenLifetime
    requires other != project
    ensures var token := CreateJwtToken(codec, SsoClaims(u.id, project), Some(Config.AccessTokenLifetime), issued);
      GetUserByAccessToken(st, codec, token, other, now).Failure?
  {
    JwtRoundTrip(codec, SsoClaims(u.id, project), Some(Config.AccessTokenLifetime), issued, now);
  }

  /**
   * The bearer-token authenticator checks neither the token type nor the project, so the token
   * an exchange issues also authenticates its account on every route of this service.
   */
  lemma ExchangedTokenIsAlsoBearer(st: Store, codec: JwtCodec, u: User, project: string, issued: int, now: int)
    requires Faithful(codec)
    requires Consistent(st) && u in st.users
    requires issued <= now <= issued + Config.AccessTokenLifetime
    requires CreateJwtToken(codec, SsoClaims(u.id, project), Some(Config.AccessTokenLifetime), issued) != ""
    ensures var token := CreateJwtToken(codec, SsoClaims(u.id, project), Some(Config.AccessTokenLifetime), issued);
      Authenticators.JwtAuthenticate(st, codec, token, now) == Some(u)
  {
    Authenticators.IssuedTokenAuthenticates(st, codec, u, SsoClaims(u.id, project), Some(Config.AccessTokenLifetime), issued, now);
  }
}

=== FILE: authenticators.dfy ===
/**
 * The four credential checks a request can pass: a session cookie, a personal API key, a
 * service key and a signed bearer token. Each returns what it authenticated, or nothing; the
 * session and API-key checks also write bookkeeping to the store, so they return it too.
 */
module Authenticators {
  import opened Wrappers
  import opened Uuids
  import opened Seqs
  import opened Models
  import opened Security
  import CrudAuth
  import CrudUser
  import DateTimeUtils

  // ---------------------------------------------------------------- session cookie

  /** A session is expired once its expiry instant lies before `now`; the instant itself is still valid. */
  predicate SessionExpired(s: Session, now: int) {
    s.expiresAt < now
  }

  /**
   * `SessionAuthenticator.authenticate`: the active session holding the token, if unexpired,
   * has its access stamp updated and yields its account, whether or not that account is active.
   * An expired one is deactivated on the spot.
   */
  function SessionAuthenticate(st: Store, token: string, now: int): (r: (Store, Option<User>))
    ensures r.0 == st.(sessions := r.0.sessions) && |r.0.sessions| == |st.sessions|
    ensures token == "" ==> r == (st, None)
    ensures r.1.Some? ==> (r.1.value in st.users &&
      exists s :: s in st.sessions && s.sessionToken == token && s.isActive && !SessionExpired(s, now) && s.userId == r.1.value.id)
  {
    if token == "" then (st, None)
    else match CrudAuth.GetSessionByToken(st, token)
      case None => (st, None)
      case Some(s) =>
        if SessionExpired(s, now) then (CrudAuth.Deactivate(st, s.id), None)
        else (CrudAuth.UpdateLastAccessed(st, s.id, now), CrudUser.GetUser(st, s.userId))
  }

  /** The session holding a token, when the store's unique columns hold. */
  lemma SessionLookup(st: Store, s: Session)
    requires Consistent(st)
    requires s in st.sessions && s.isActive
    ensures CrudAuth.GetSessionByToken(st, s.sessionToken) == Some(s)
  {
    FindFirstUnique(st.sessions, (x: Session) => x.sessionToken, s,
                    (x: Session) => x.sessionToken == s.sessionToken && x.isActive);
  }

  /**
   * An active session authenticates its account up to and including its expiry instant, and the
   * only write is its access stamp.
   */
  lemma SessionAcceptedUntilExpiry(st: Store, s: Session, now: int)
    requires Consistent(st)
    requires s in st.sessions && s.isActive && s.sessionToken != ""
    requires now <= s.expiresAt
    ensures SessionAuthenticate(st, s.sessionToken, now) ==
      (CrudAuth.UpdateLastAccessed(st, s.id, now), CrudUser.GetUser(st, s.userId))
  {
    SessionLookup(st, s);
  }

  /**
   * An expired session is refused and deactivated, and from then on its token never
   * authenticates again, at any later time.
   */
  lemma ExpiredSessionStaysRejected(st: Store, s: Session, now: int, later: int)
    requires Consistent(st)
    requires s in st.sessions && s.isActive && s.sessionToken != ""
    requires SessionExpired(s, now)
    ensures SessionAuthenticate(st, s.sessionToken, now) == (CrudAuth.Deactivate(st, s.id), None)
    ensures SessionAuthenticate(CrudAuth.Deactivate(st, s.id), s.sessionToken, later) == (CrudAuth.Deactivate(st, s.id), None)
  {
    SessionLookup(st, s);
    CrudAuth.DeactivatedTokenNotFound(st, s);
  }

  // ---------------------------------------------------------------- API key

  /** An API key with an expiry instant that lies before `now`; a key without one never expires. */
  predicate ApiKeyExpired(k: ApiKey, now: int) {
    k.expiresAt.Some? && k.expiresAt.value < now
  }

  /**
   * `APIKeyAuthenticator.authenticate`: the active, unexpired key whose stored digest is the
   * digest of the presented key. On success its use stamp is updated and the result pairs the
   * key with the owning account, which may be missing.
   */
  function ApiKeyAuthenticate(st: Store, sha: Digest, key: string, now: int): (r: (Store, Option<(Option<User>, ApiKey)>))
    ensures r.0 == st.(apiKeys := r.0.apiKeys) && |r.0.apiKeys| == |st.apiKeys|
    ensures r.1.None? ==> r.0 == st
    ensures key == "" ==> r.1.None?
    ensures r.1.Some? ==>
      var (user, k) := r.1.value;
      && k in st.apiKeys && k.isActive && k.keyHash == sha(key) && !ApiKeyExpired(k, now)
      && (user.Some? ==> user.value in st.users && user.value.id == k.userId)
      && (user.None? ==> forall u :: u in st.users ==> u.id != k.userId)
  {
    if key == "" then (st, None)
    else match CrudAuth.GetApiKeyByHash(st, sha(key))
      case None => (st, None)
      case Some(k) =>
        if ApiKeyExpired(k, now) then (st, None)
        else if !VerifyApiKey(sha, key, k.keyHash) then (st, None)
        else (CrudAuth.UpdateLastUsed(st, k.id, now), Some((CrudUser.GetUser(st, k.userId), k)))
  }

  /**
   * The digest comparison after the lookup never fails: the lookup already matched the digest.
   * So a presented key is accepted exactly when an active, unexpired key carries its digest.
   */
  lemma ApiKeyVerificationRedundant(st: Store, sha: Digest, key: string, now: int)
    requires Consistent(st)
    ensures ApiKeyAuthenticate(st, sha, key, now).1.Some? <==>
      key != "" && exists k :: k in st.apiKeys && k.isActive && k.keyHash == sha(key) && !ApiKeyExpired(k, now)
  {
    if key != "" {
      if k :| k in st.apiKeys && k.isActive && k.keyHash == sha(key) && !ApiKeyExpired(k, now) {
        FindFirstUnique(st.apiKeys, (x: ApiKey) => x.keyHash, k, (x: ApiKey) => x.keyHash == sha(key) && x.isActive);
      }
    }
  }

  /**
   * The API-key check reading `clock` for its expiry test. The source reads the naive
   * `datetime.utcnow()`, while `expires_at` comes back aware, so with that clock any found key
   * that has an expiry raises `TypeError` before the digest check; an aware reading of the same
   * instant gives `ApiKeyAuthenticate`.
   */
  function ApiKeyAuthenticateWith(st: Store, sha: Digest, key: string, clock: DateTimeUtils.DateTime)
    : (r: Result<(Store, Option<(Option<User>, ApiKey)>), string>)
    ensures r.Failure? <==> clock.Naive? && key != "" && CrudAuth.GetApiKeyByHash(st, sha(key)).Some?
                            && CrudAuth.GetApiKeyByHash(st, sha(key)).value.expiresAt.Some?
    ensures r.Success? ==> r.value == ApiKeyAuthenticate(st, sha, key, DateTimeUtils.Instant(clock))
  {
    if key == "" then Success((st, None))
    else match CrudAuth.GetApiKeyByHash(st, sha(key))
      case None => Success((st, None))
      case Some(k) =>
        var expired := if k.expiresAt.None? then Success(false)
                       else DateTimeUtils.Less(DateTimeUtils.Aware(k.expiresAt.value, 0), clock);
        match expired
        case Failure(e) => Failure(e)
        case Success(true) => Success((st, None))
        case Success(false) =>
          if !VerifyApiKey(sha, key, k.keyHash) then Success((st, None))
          else Success((CrudAuth.UpdateLastUsed(st, k.id, DateTimeUtils.Instant(clock)), Some((CrudUser.GetUser(st, k.userId), k))))
  }

  /** `APIKeyAuthenticator.authenticate` as written, with the naive clock. */
  function ApiKeyAuthenticateAsWritten(st: Store, sha: Digest, key: string, now: int)
    : (r: Result<(Store, Option<(Option<User>, ApiKey)>), string>)
    ensures r.Failure? <==> key != "" && CrudAuth.GetApiKeyByHash(st, sha(key)).Some?
                            && CrudAuth.GetApiKeyByHash(st, sha(key)).value.expiresAt.Some?
    ensures r.Success? ==> r.value == ApiKeyAuthenticate(st, sha, key, now)
  {
    ApiKeyAuthenticateWith(st, sha, key, DateTimeUtils.Naive(now))
  }

  /**
   * Every key `create_api_key` makes with a non-zero lifetime, 365 days by default, makes the
   * check as written raise the first time it is presented, at any time.
   */
  lemma CreatedApiKeyRaisesAsWritten(st: Store, id: Uuid, userId: Uuid, name: string, permissions: Option<set<string>>,
                                     ipWhitelist: Option<seq<string>>, expiresDays: int, token: string, sha: Digest,
                                     now: int, later: int)
    requires forall k :: k in st.apiKeys ==> k.keyHash != sha(GenerateApiKey(token, sha).0)
    requires expiresDays != 0
    ensures var (st', (k, raw)) := CrudAuth.CreateApiKey(st, id, userId, name, permissions, ipWhitelist, expiresDays, token, sha, now);
      ApiKeyAuthenticateAsWritten(st', sha, raw, later).Failure?
  {
    var (st', (k, raw)) := CrudAuth.CreateApiKey(st, id, userId, name, permissions, ipWhitelist, expiresDays, token, sha, now);
    CrudAuth.CreatedApiKeyFound(st, id, userId, name, permissions, ipWhitelist, expiresDays, token, sha, now);
    assert raw[..3] == "ak_";
  }

  // ---------------------------------------------------------------- service key

  /**
   * `ServiceKeyAuthenticator.authenticate`: the active key whose stored digest is the digest of
   * the presented key. The project the caller names is taken as a parameter and never consulted.
   */
  function ServiceKeyAuthenticate(st: Store, sha: Digest, key: string, projectId: string): (r: Option<ServiceKey>)
    ensures key == "" ==> r.None?
    ensures r.Some? ==> r.value in st.serviceKeys && r.value.isActive && r.value.keyHash == sha(key)
    ensures key != "" && r.None? ==> forall k :: k in st.serviceKeys ==> !(k.keyHash == sha(key) && k.isActive)
  {
    if key == "" then None
    else match CrudAuth.GetServiceKeyByHash(st, sha(key))
      case None => None
      case Some(k) => if !VerifyApiKey(sha, key, k.keyHash) then None else Some(k)
  }

  /** The named project plays no part: a key bound to one project is accepted for any other. */
  lemma ServiceKeyIgnoresProject(st: Store, sha: Digest, key: string, p1: string, p2: string)
    ensures ServiceKeyAuthenticate(st, sha, key, p1) == ServiceKeyAuthenticate(st, sha, key, p2)
  {
  }

  // ---------------------------------------------------------------- bearer token

  /**
   * The account id a token's `sub` claim names: a non-empty string that parses as a UUID. A
   * missing, empty or zero `sub` is falsy and names nobody.
   */
  function Subject(claims: Claims): (r: Option<Uuid>)
    ensures r.Some? <==> "sub" in claims && claims["sub"].Str? && claims["sub"].s != "" && Parse(claims["sub"].s).Some?
    ensures r.Some? ==> Parse(claims["sub"].s) == r
  {
    if "sub" in claims && claims["sub"].Str? && claims["sub"].s != "" then Parse(claims["sub"].s) else None
  }

  /** The canonical text of an id, as `sub`, names that id. */
  lemma SubjectOfText(claims: Claims, u: Uuid)
    requires "sub" in claims && claims["sub"] == Str(Text(u))
    ensures Subject(claims) == Some(u)
  {
    ParseText(u);
    assert |Text(u)| > 0;
  }

  /**
   * `JWTAuthenticator.authenticate`: a token that verifies and names an account in `sub`
   * yields that account. Neither the token type nor any session is looked at.
   */
  function JwtAuthenticate(st: Store, codec: JwtCodec, token: string, now: int): (r: Option<User>)
    ensures token == "" ==> r.None?
    ensures r.Some? ==> (r.value in st.users &&
      VerifyJwtToken(codec, token, now).Some? && Subject(VerifyJwtToken(codec, token, now).value) == Some(r.value.id))
  {
    if token == "" then None
    else match VerifyJwtToken(codec, token, now)
      case None => None
      case Some(claims) =>
        match Subject(claims)
        case None => None
        case Some(id) => CrudUser.GetUser(st, id)
  }

  /**
   * A token this service signed for an account, with the account's id as `sub`, authenticates
   * that account until its expiry instant and not after.
   */
  lemma IssuedTokenAuthenticates(st: Store, codec: JwtCodec, u: User, data: Claims, expiresDelta: Option<int>,
                                 issued: int, now: int)
    requires Faithful(codec)
    requires Consistent(st) && u in st.users
    requires "sub" in data && data["sub"] == Str(Text(u.id))
    requires CreateJwtToken(codec, data, expiresDelta, issued) != ""
    ensures var token := CreateJwtToken(codec, data, expiresDelta, issued);
      var exp := JwtPayload(data, expiresDelta, issued)["exp"].n;
      JwtAuthenticate(st, codec, token, now) == if now <= exp then Some(u) else None
  {
    var token := CreateJwtToken(codec, data, expiresDelta, issued);
    var payload := JwtPayload(data, expiresDelta, issued);
    JwtRoundTrip(codec, data, expiresDelta, issued, now);
    if now <= payload["exp"].n {
      SubjectOfText(payload, u.id);
      FindFirstUnique(st.users, (x: User) => x.id, u, (x: User) => x.id == u.id);
    }
  }

  /**
   * Only the account table matters to bearer-token authentication: ending sessions, revoking
   * keys or roles leaves every token as valid as before.
   */
  lemma JwtIgnoresEverythingButAccounts(st: Store, st': Store, codec: JwtCodec, token: string, now: int)
    requires st'.users == st.users
    ensures JwtAuthenticate(st', codec, token, now) == JwtAuthenticate(st, codec, token, now)
  {
  }
}

=== FILE: cache.dfy ===
/**
 * The key-value cache in front of the permission resolver. The backend is either absent (the
 * connection was never made) or a map of entries with an absolute expiry instant. A `fault`
 * argument stands for the backend raising during one call; every call swallows that fault.
 */
module Cache {
  import opened Wrappers
  import Config

  datatype Entry<V> = Entry(value: V, expiresAt: int)

  datatype Store<V> = NoBackend | Backend(entries: map<string, Entry<V>>)

  /** A time to live as passed to `set`: whole seconds, or a duration in microseconds. */
  datatype Ttl = Seconds(n: int) | Delta(micros: int)

  /** An entry is visible strictly before its expiry instant. */
  predicate Live<V>(c: Store<V>, key: string, now: int) {
    c.Backend? && key in c.entries && now < c.entries[key].expiresAt
  }

  /** `get`: the stored value, or `default` when there is no backend, no live entry, or a fault. */
  function Get<V>(c: Store<V>, key: string, default: V, now: int, fault: bool): (r: V)
    ensures !fault && Live(c, key, now) ==> r == c.entries[key].value
    ensures fault || !Live(c, key, now) ==> r == default
  {
    if c.NoBackend? || fault then default
    else if key in c.entries && now < c.entries[key].expiresAt then c.entries[key].value
    else default
  }

  /** Truncation toward zero, as `int()` does to a float. */
  function TruncDiv(a: int, b: int): (q: int)
    requires b > 0
    ensures a >= 0 ==> q == a / b
    ensures a < 0 ==> q == -((-a) / b)
  {
    if a >= 0 then a / b else -((-a) / b)
  }

  /** The expiry in seconds that `set` hands to the backend. */
  function ResolveTtl(ttl: Option<Ttl>): (seconds: int)
    ensures ttl.None? ==> seconds == Config.CacheDefaultTtl
    ensures ttl.Some? && ttl.value.Seconds? ==> seconds == ttl.value.n
    ensures ttl.Some? && ttl.value.Delta? && ttl.value.micros >= 0 ==> seconds * 1000000 <= ttl.value.micros < (seconds + 1) * 1000000
    ensures ttl.Some? && ttl.value.Delta? && ttl.value.micros < 0 ==> (seconds - 1) * 1000000 < ttl.value.micros <= seconds * 1000000
  {
    match ttl
    case None => Config.CacheDefaultTtl
    case Some(Seconds(n)) => n
    case Some(Delta(us)) => TruncDiv(us, 1000000)
  }

  /**
   * `set`: stores the value with the resolved expiry and reports success. A missing backend, a
   * fault, or an expiry the backend refuses (zero or negative seconds) leaves the cache unchanged
   * and reports failure.
   */
  function Set<V>(c: Store<V>, key: string, value: V, ttl: Option<Ttl>, now: int, fault: bool): (r: (Store<V>, bool))
    ensures r.1 <==> c.Backend? && !fault && ResolveTtl(ttl) > 0
    ensures !r.1 ==> r.0 == c
    ensures r.1 ==> r.0 == Backend(c.entries[key := Entry(value, now + ResolveTtl(ttl))])
  {
    if c.NoBackend? || fault then (c, false)
    else
      var seconds := ResolveTtl(ttl);
      if seconds <= 0 then (c, false)
      else (Backend(c.entries[key := Entry(value, now + seconds)]), true)
  }

  /** `delete`: removes the key and reports whether a live entry was there. */
  function Delete<V>(c: Store<V>, key: string, now: int, fault: bool): (r: (Store<V>, bool))
    ensures r.1 <==> !fault && Live(c, key, now)
    ensures c.NoBackend? || fault ==> r.0 == c
    ensures c.Backend? && !fault ==> r.0 == Backend(c.entries - {key})
  {
    if c.NoBackend? || fault then (c, false)
    else (Backend(c.entries - {key}), key in c.entries && now < c.entries[key].expiresAt)
  }

  /** A successful `set` is read back by `get` until it expires. */
  lemma GetAfterSet<V>(c: Store<V>, key: string, value: V, ttl: Option<Ttl>, now: int, later: int, default: V)
    requires Set(c, key, value, ttl, now, false).1
    requires now <= later < now + ResolveTtl(ttl)
    ensures Get(Set(c, key, value, ttl, now, false).0, key, default, later, false) == value
  {
  }

  /** After `delete` (without a fault) the key reads as the default. */
  lemma GetAfterDelete<V>(c: Store<V>, key: string, now: int, later: int, default: V)
    ensures Get(Delete(c, key, now, false).0, key, default, later, false) == default
  {
  }

  /** `set` and `delete` on one key leave every other key's reading unchanged. */
  lemma OtherKeysUnchanged<V>(c: Store<V>, key: string, other: string, value: V, ttl: Option<Ttl>,
                              now: int, later: int, fault: bool, default: V)
    requires other != key
    ensures Get(Set(c, key, value, ttl, now, fault).0, other, default, later, false) == Get(c, other, default, later, false)
    ensures Get(Delete(c, key, now, fault).0, other, default, later, false) == Get(c, other, default, later, false)
  {
  }

  /** Without a backend nothing is ever stored: every read is the default. */
  lemma NoBackendReadsDefault<V>(key: string, value: V, ttl: Option<Ttl>, now: int, later: int, default: V)
    ensures Get(Set(NoBackend, key, value, ttl, now, false).0, key, default, later, false) == default
  {
  }
}

=== FILE: common.dfy ===
/**
 * The shared response envelope, pagination schemas and the HTTP errors that handlers raise.
 */
module Common {
  import opened Wrappers

  /** An `HTTPException`: a status code and a detail message. */
  datatype HttpError = HttpError(status: int, detail: string)

  const BadRequest: int := 400
  const Unauthorized: int := 401
  const Forbidden: int := 403
  const NotFound: int := 404
  const TooManyRequests: int := 429
  const InternalServerError: int := 500

  /** `BaseResponse`; the data payload is left to each handler's own result type. */
  datatype BaseResponse = BaseResponse(success: bool, code: int, message: string)

  /** `BaseResponse()` with every field left at its default. */
  function DefaultResponse(): (r: BaseResponse)
    ensures r.success && r.code == 200 && r.message == "Success"
  {
    BaseResponse(true, 200, "Success")
  }

  /** `BaseResponse(success=False, code=e.status_code, message=e.detail)`: how handlers report an error. */
  function ErrorResponse(e: HttpError): (r: BaseResponse)
    ensures !r.success && r.code == e.status && r.message == e.detail
  {
    BaseResponse(false, e.status, e.detail)
  }

  /** What a route hands back: a redirect, or the response envelope with its optional data. */
  datatype Reply<T> = Redirect(location: string) | Envelope(response: BaseResponse, data: Option<T>)

  /** A field of a partial update: left out of the request, or set to a value. */
  datatype Patch<T> = Unset | Set(value: T)

  /** The field after the update: unchanged when left out. */
  function ApplyPatch<T>(p: Patch<T>, current: T): (r: T)
    ensures p.Unset? ==> r == current
    ensures p.Set? ==> r == p.value
  {
    if p.Set? then p.value else current
  }

  datatype PaginationParams = PaginationParams(skip: int, limit: int)

  function DefaultPaginationParams(): (p: PaginationParams)
    ensures p.skip == 0 && p.limit == 50
  {
    PaginationParams(0, 50)
  }

  datatype PaginationResponse<T> = PaginationResponse(
    items: seq<T>, total: int, skip: int, limit: int, hasNext: bool, hasPrev: bool)

  /** `PaginationResponse.create`: the two flags are derived from the window and the total. */
  function CreatePage<T>(items: seq<T>, total: int, skip: int, limit: int): (r: PaginationResponse<T>)
    ensures r.items == items && r.total == total && r.skip == skip && r.limit == limit
    ensures r.hasNext <==> skip + limit < total
    ensures r.hasPrev <==> skip > 0
  {
    PaginationResponse(items, total, skip, limit, skip + limit < total, skip > 0)
  }

  /** Walking forward by one page: the next page has a previous page exactly when the step is positive. */
  lemma NextPageHasPrev<T>(items: seq<T>, total: int, skip: int, limit: int)
    requires skip >= 0 && limit >= 1
    requires CreatePage(items, total, skip, limit).hasNext
    ensures CreatePage(items, total, skip + limit, limit).hasPrev
    ensures skip + limit < total
  {
  }
}

=== FILE: config.dfy ===
/** Application settings: timing constants, the project allow-list and the two validated fields. */
module Config {
  import opened Wrappers

  /** Lifetime of a login session, in hours; the cookie's max-age is this many hours too. */
  const SessionExpireHours: int := 24
  /** Lifetime of a signed access token, in minutes. */
  const JwtAccessTokenExpireMinutes: int := 30
  /** Time to live of a cache entry written without an explicit one, in seconds. */
  const CacheDefaultTtl: int := 300
  /** Time to live of a cached permission set, in seconds. */
  const CachePermissionTtl: int := 1800
  /** Name of the session cookie. */
  const SessionCookieName: string := "auth_session"
  /** The session cookie's attributes: hidden from scripts, sent over HTTPS only, same-site lax. */
  const SessionCookieHttpOnly: bool := true
  const SessionCookieSecure: bool := true
  const SessionCookieSameSite: string := "lax"

  /** The clock of the model counts seconds. */
  const SessionLifetime: int := SessionExpireHours * 3600
  const AccessTokenLifetime: int := JwtAccessTokenExpireMinutes * 60

  const DefaultAllowedProjects: seq<string> := ["project-a", "project-b", "project-c"]
  const DefaultProjectUrls: map<string, string> := map[
    "project-a" := "http://localhost:8001",
    "project-b" := "http://localhost:8002",
    "project-c" := "http://localhost:8003"
  ]

  /** The settings that vary between deployments and that the core reads. */
  datatype Settings = Settings(
    databaseUrl: string,
    jwtSecretKey: string,
    sessionSecretKey: string,
    allowedProjects: seq<string>,
    projectUrls: map<string, string>)

  /** What the settings loader reports for a required field the environment does not set. */
  const FieldRequired: string := "Field required"

  /** A required field with no default: a missing value is refused before any validator runs. */
  function Required(v: Option<string>): (r: Result<string, string>)
    ensures r.Success? <==> v.Some?
    ensures r.Success? ==> r.value == v.value
  {
    if v.None? then Failure(FieldRequired) else Success(v.value)
  }

  /** `validate_database_url`: an empty URL is refused, any other is kept as given. */
  function ValidateDatabaseUrl(v: string): (r: Result<string, string>)
    ensures r.Success? <==> |v| > 0
    ensures r.Success? ==> r.value == v
  {
    if v == "" then Failure("DATABASE_URL is required") else Success(v)
  }

  /** `validate_jwt_secret`: a secret shorter than 32 characters (empty included) is refused. */
  function ValidateJwtSecret(v: string): (r: Result<string, string>)
    ensures r.Success? <==> |v| >= 32
    ensures r.Success? ==> r.value == v
  {
    if v == "" || |v| < 32 then Failure("JWT_SECRET_KEY must be at least 32 characters") else Success(v)
  }

  /**
   * Loading the settings: the three required fields without a default must be set, and the two
   * validated ones must pass their validators; every other field keeps its default.
   */
  function LoadSettings(databaseUrl: Option<string>, jwtSecretKey: Option<string>, sessionSecretKey: Option<string>)
    : (r: Result<Settings, string>)
    ensures r.Success? <==>
      && databaseUrl.Some? && |databaseUrl.value| > 0
      && jwtSecretKey.Some? && |jwtSecretKey.value| >= 32
      && sessionSecretKey.Some?
    ensures r.Success? ==>
      && r.value.databaseUrl == databaseUrl.value
      && r.value.jwtSecretKey == jwtSecretKey.value
      && r.value.sessionSecretKey == sessionSecretKey.value
    ensures r.Success? ==> forall p :: p in r.value.allowedProjects ==> p in r.value.projectUrls
  {
    var url :- Required(databaseUrl);
    var url :- ValidateDatabaseUrl(url);
    var secret :- Required(jwtSecretKey);
    var secret :- ValidateJwtSecret(secret);
    var session :- Required(sessionSecretKey);
    Success(Settings(url, secret, session, DefaultAllowedProjects, DefaultProjectUrls))
  }

  /** Settings written back to the environment load again as the very same settings. */
  lemma LoadSettingsRoundTrip(databaseUrl: Option<string>, jwtSecretKey: Option<string>, sessionSecretKey: Option<string>)
    requires LoadSettings(databaseUrl, jwtSecretKey, sessionSecretKey).Success?
    ensures var s := LoadSettings(databaseUrl, jwtSecretKey, sessionSecretKey).value;
      LoadSettings(Some(s.databaseUrl), Some(s.jwtSecretKey), Some(s.sessionSecretKey)) == Success(s)
  {
  }
}

=== FILE: crud_auth.dfy ===
/** Credential storage: sessions, API keys, service keys and single-sign-on authorization codes. */
module CrudAuth {
  import opened Wrappers
  import opened Uuids
  import opened Seqs
  import opened Models
  import opened Security

  // ---------------------------------------------------------------- sessions

  /** `get_by_token`: the active session holding that session token. */
  function GetSessionByToken(st: Store, token: string): (r: Option<Session>)
    ensures r.Some? ==> r.value in st.sessions && r.value.sessionToken == token && r.value.isActive
    ensures r.None? <==> forall s :: s in st.sessions ==> !(s.sessionToken == token && s.isActive)
  {
    FindFirst(st.sessions, (s: Session) => s.sessionToken == token && s.isActive)
  }

  /** `get_by_refresh_token`: the active session holding that refresh token. */
  function GetSessionByRefreshToken(st: Store, refreshToken: string): (r: Option<Session>)
    ensures r.Some? ==> r.value in st.sessions && r.value.refreshToken == Some(refreshToken) && r.value.isActive
    ensures r.None? <==> forall s :: s in st.sessions ==> !(s.refreshToken == Some(refreshToken) && s.isActive)
  {
    FindFirst(st.sessions, (s: Session) => s.refreshToken == Some(refreshToken) && s.isActive)
  }

  /** The row `create_session` inserts: active, with the given tokens and expiry, stamped `now`. */
  function NewSession(id: Uuid, userId: Uuid, sessionToken: string, refreshToken: string, expiresAt: int,
                      ipAddress: Option<string>, userAgent: Option<string>, projectId: Option<Uuid>, now: int): (s: Session)
    ensures s.id == id && s.userId == userId && s.isActive
    ensures s.sessionToken == sessionToken && s.refreshToken == Some(refreshToken) && s.expiresAt == expiresAt
    ensures s.projectId == projectId
  {
    Session(id, userId, sessionToken, Some(refreshToken), projectId, ipAddress, userAgent, expiresAt, true, now, now)
  }

  /** `create_session`: appends the new session and returns it. */
  function CreateSession(st: Store, s: Session): (r: (Store, Session))
    ensures r.0 == st.(sessions := st.sessions + [s]) && r.1 == s
  {
    (st.(sessions := st.sessions + [s]), s)
  }

  /** `deactivate`: the session with that id becomes inactive; nothing else changes. */
  function Deactivate(st: Store, sessionId: Uuid): (st': Store)
    ensures st' == st.(sessions := st'.sessions) && |st'.sessions| == |st.sessions|
    ensures forall i :: 0 <= i < |st.sessions| ==>
      st'.sessions[i] == if st.sessions[i].id == sessionId then st.sessions[i].(isActive := false) else st.sessions[i]
  {
    st.(sessions := UpdateWhere(st.sessions, (s: Session) => s.id == sessionId, (s: Session) => s.(isActive := false)))
  }

  /** `update_last_accessed`: only the access stamp of that session changes. */
  function UpdateLastAccessed(st: Store, sessionId: Uuid, now: int): (st': Store)
    ensures st' == st.(sessions := st'.sessions) && |st'.sessions| == |st.sessions|
    ensures forall i :: 0 <= i < |st.sessions| ==>
      st'.sessions[i] == if st.sessions[i].id == sessionId then st.sessions[i].(lastAccessedAt := now) else st.sessions[i]
  {
    st.(sessions := UpdateWhere(st.sessions, (s: Session) => s.id == sessionId, (s: Session) => s.(lastAccessedAt := now)))
  }

  /** Deactivating twice is deactivating once. */
  lemma DeactivateIdempotent(st: Store, sessionId: Uuid)
    ensures Deactivate(Deactivate(st, sessionId), sessionId) == Deactivate(st, sessionId)
  {
    var a := Deactivate(st, sessionId);
    var b := Deactivate(a, sessionId);
    assert b.sessions == a.sessions;
  }

  /** Once its session is deactivated, a session token no longer resolves. */
  lemma DeactivatedTokenNotFound(st: Store, s: Session)
    requires Consistent(st)
    requires s in st.sessions
    ensures GetSessionByToken(Deactivate(st, s.id), s.sessionToken).None?
  {
    var st' := Deactivate(st, s.id);
    var j :| 0 <= j < |st.sessions| && st.sessions[j] == s;
    forall i | 0 <= i < |st'.sessions| ensures !(st'.sessions[i].sessionToken == s.sessionToken && st'.sessions[i].isActive) {
      if st.sessions[i].id != s.id {
        assert i != j;
        assert st.sessions[i].sessionToken != st.sessions[j].sessionToken;
      }
    }
  }

  /** A new session is found by its token when the token was not already in use. */
  lemma CreatedSessionFound(st: Store, s: Session)
    requires s.isActive
    requires forall t :: t in st.sessions ==> t.sessionToken != s.sessionToken
    ensures GetSessionByToken(CreateSession(st, s).0, s.sessionToken) == Some(s)
  {
    FindFirstAppend(st.sessions, s, (t: Session) => t.sessionToken == s.sessionToken && t.isActive);
  }

  // ---------------------------------------------------------------- API keys

  /** `get_by_hash` for API keys: the active key with that digest. */
  function GetApiKeyByHash(st: Store, keyHash: string): (r: Option<ApiKey>)
    ensures r.Some? ==> r.value in st.apiKeys && r.value.keyHash == keyHash && r.value.isActive
    ensures r.None? <==> forall k :: k in st.apiKeys ==> !(k.keyHash == keyHash && k.isActive)
  {
    FindFirst(st.apiKeys, (k: ApiKey) => k.keyHash == keyHash && k.isActive)
  }

  /** Seconds in a day. */
  const Day: int := 86400

  /**
   * `create_api_key`: a new active key whose stored digest is that of a freshly generated raw
   * key; a zero `expires_days` (falsy) means the key never expires. Returns the row and the raw key.
   */
  function CreateApiKey(st: Store, id: Uuid, userId: Uuid, name: string, permissions: Option<set<string>>,
                        ipWhitelist: Option<seq<string>>, expiresDays: int, token: string, sha: Digest,
                        now: int): (r: (Store, (ApiKey, string)))
    ensures var (k, raw) := r.1;
      && raw == GenerateApiKey(token, sha).0
      && k.keyHash == sha(raw)
      && k.id == id && k.userId == userId && k.isActive && k.lastUsedAt.None? && k.rateLimit == 1000
      && (expiresDays == 0 ==> k.expiresAt.None?)
      && (expiresDays != 0 ==> k.expiresAt == Some(now + expiresDays * Day))
      && r.0 == st.(apiKeys := st.apiKeys + [k])
  {
    var (raw, keyHash) := GenerateApiKey(token, sha);
    var expiresAt := if expiresDays != 0 then Some(now + expiresDays * Day) else None;
    var k := ApiKey(id, userId, name, keyHash, permissions, ipWhitelist, 1000, expiresAt, true, None, now);
    (st.(apiKeys := st.apiKeys + [k]), (k, raw))
  }

  /** The raw key a new API key hands back is what later finds that key. */
  lemma CreatedApiKeyFound(st: Store, id: Uuid, userId: Uuid, name: string, permissions: Option<set<string>>,
                           ipWhitelist: Option<seq<string>>, expiresDays: int, token: string, sha: Digest, now: int)
    requires forall k :: k in st.apiKeys ==> k.keyHash != sha(GenerateApiKey(token, sha).0)
    ensures var (st', (k, raw)) := CreateApiKey(st, id, userId, name, permissions, ipWhitelist, expiresDays, token, sha, now);
      GetApiKeyByHash(st', sha(raw)) == Some(k) && VerifyApiKey(sha, raw, k.keyHash)
  {
    var (st', (k, raw)) := CreateApiKey(st, id, userId, name, permissions, ipWhitelist, expiresDays, token, sha, now);
    FindFirstAppend(st.apiKeys, k, (x: ApiKey) => x.keyHash == sha(raw) && x.isActive);
  }

  /** `update_last_used`: only the use stamp of that key changes. */
  function UpdateLastUsed(st: Store, apiKeyId: Uuid, now: int): (st': Store)
    ensures st' == st.(apiKeys := st'.apiKeys) && |st'.apiKeys| == |st.apiKeys|
    ensures forall i :: 0 <= i < |st.apiKeys| ==>
      st'.apiKeys[i] == if st.apiKeys[i].id == apiKeyId then st.apiKeys[i].(lastUsedAt := Some(now)) else st.apiKeys[i]
  {
    st.(apiKeys := UpdateWhere(st.apiKeys, (k: ApiKey) => k.id == apiKeyId, (k: ApiKey) => k.(lastUsedAt := Some(now))))
  }

  // ---------------------------------------------------------------- service keys

  /** `get_by_hash` for service keys: the active key with that digest. */
  function GetServiceKeyByHash(st: Store, keyHash: string): (r: Option<ServiceKey>)
    ensures r.Some? ==> r.value in st.serviceKeys && r.value.keyHash == keyHash && r.value.isActive
    ensures r.None? <==> forall k :: k in st.serviceKeys ==> !(k.keyHash == keyHash && k.isActive)
  {
    FindFirst(st.serviceKeys, (k: ServiceKey) => k.keyHash == keyHash && k.isActive)
  }

  // ---------------------------------------------------------------- authorization codes

  /** The row `create_auth_code` inserts: not yet used, never used. */
  function NewAuthCode(id: Uuid, code: string, userId: Uuid, project: string, redirectUri: string,
                       expiresAt: int, now: int): (c: AuthCode)
    ensures c.id == id && c.code == code && c.userId == userId && c.project == project
    ensures c.redirectUri == redirectUri && c.expiresAt == expiresAt
    ensures !c.isUsed && c.usedAt.None?
  {
    AuthCode(id, code, userId, project, redirectUri, false, expiresAt, None, now)
  }

  function CreateAuthCode(st: Store, c: AuthCode): (r: (Store, AuthCode))
    ensures r.0 == st.(authCodes := st.authCodes + [c]) && r.1 == c
  {
    (st.(authCodes := st.authCodes + [c]), c)
  }

  /** `get_by_code`: the code's row whether or not it has been used. */
  function GetAuthCodeByCode(st: Store, code: string): (r: Option<AuthCode>)
    ensures r.Some? ==> r.value in st.authCodes && r.value.code == code
    ensures r.None? <==> forall c :: c in st.authCodes ==> c.code != code
  {
    FindFirst(st.authCodes, (c: AuthCode) => c.code == code)
  }

  /** `mark_as_used`: that code becomes used at `now`, whatever its previous state. */
  function MarkAsUsed(st: Store, authCodeId: Uuid, now: int): (st': Store)
    ensures st' == st.(authCodes := st'.authCodes) && |st'.authCodes| == |st.authCodes|
    ensures forall i :: 0 <= i < |st.authCodes| ==>
      st'.authCodes[i] == if st.authCodes[i].id == authCodeId
                          then st.authCodes[i].(isUsed := true, usedAt := Some(now)) else st.authCodes[i]
  {
    st.(authCodes := UpdateWhere(st.authCodes, (c: AuthCode) => c.id == authCodeId,
                                 (c: AuthCode) => c.(isUsed := true, usedAt := Some(now))))
  }

  /** A used code is still found by `get_by_code`, now marked used; the lookup itself does not filter. */
  lemma {:induction false} UsedCodeStillFound(st: Store, c: AuthCode, now: int)
    requires Consistent(st)
    requires GetAuthCodeByCode(st, c.code) == Some(c)
    ensures GetAuthCodeByCode(MarkAsUsed(st, c.id, now), c.code) == Some(c.(isUsed := true, usedAt := Some(now)))
  {
    MarkedCodeLookup(st.authCodes, c, now);
  }

  lemma {:induction false} MarkedCodeLookup(cs: seq<AuthCode>, c: AuthCode, now: int)
    requires DistinctBy(cs, (x: AuthCode) => x.id)
    requires FindFirst(cs, (x: AuthCode) => x.code == c.code) == Some(c)
    ensures FindFirst(UpdateWhere(cs, (x: AuthCode) => x.id == c.id, (x: AuthCode) => x.(isUsed := true, usedAt := Some(now))),
                      (x: AuthCode) => x.code == c.code)
         == Some(c.(isUsed := true, usedAt := Some(now)))
  {
    var f := (x: AuthCode) => x.(isUsed := true, usedAt := Some(now));
    var u := UpdateWhere(cs, (x: AuthCode) => x.id == c.id, f);
    assert |cs| > 0;
    if cs[0].code == c.code {
      assert cs[0] == c;
      assert u[0] == f(c);
    } else {
      assert cs[0].id != c.id by {
        assert c in cs[1..];
        var j :| 0 <= j < |cs[1..]| && cs[1..][j] == c;
        assert cs[j + 1] == c;
      }
      assert DistinctBy(cs[1..], (x: AuthCode) => x.id) by {
        forall i, j | 0 <= i < j < |cs| - 1 ensures cs[1..][i].id != cs[1..][j].id {
          assert cs[1..][i] == cs[i + 1] && cs[1..][j] == cs[j + 1];
        }
      }
      MarkedCodeLookup(cs[1..], c, now);
      assert u[1..] == UpdateWhere(cs[1..], (x: AuthCode) => x.id == c.id, f);
    }
  }
}

=== FILE: crud_base.dfy ===
/**
 * The generic store semantics every table shares: lookup by primary key, filtered and paged
 * listing, counting, in-place update of a fetched row, and removal.
 */
module CrudBase {
  import opened Wrappers
  import opened Uuids
  import opened Seqs
  import opened Models

  /** Equality filters by column name; a `None` value means "no condition". */
  type Filters = map<string, Option<FieldValue>>

  /**
   * The conjunction of the filter's conditions. A key that names no column, or whose value is
   * `None`, adds no condition; a NULL column never equals a present value.
   */
  predicate MatchesFilters<T>(row: T, attr: (T, string) -> Option<FieldValue>, filters: Filters) {
    forall k :: k in filters && filters[k].Some? && attr(row, k).Some? ==> attr(row, k).value == filters[k].value
  }

  /** `get`: the row whose id is `id`, if any. */
  function Get<T(!new)>(rows: seq<T>, idOf: T -> Uuid, id: Uuid): (r: Option<T>)
    ensures r.Some? ==> r.value in rows && idOf(r.value) == id
    ensures r.None? <==> forall x :: x in rows ==> idOf(x) != id
  {
    FindFirst(rows, (x: T) => idOf(x) == id)
  }

  /** `count`: the number of rows matching the filters. */
  function Count<T(!new)>(rows: seq<T>, attr: (T, string) -> Option<FieldValue>, filters: Filters): (n: nat)
    ensures n <= |rows|
    ensures n == 0 <==> forall i :: 0 <= i < |rows| ==> !MatchesFilters(rows[i], attr, filters)
  {
    CountWhere(rows, (x: T) => MatchesFilters(x, attr, filters))
  }

  /** `get_multi`: the matching rows in storage order, from position `skip`, at most `limit` of them. */
  function GetMulti<T(!new)>(rows: seq<T>, attr: (T, string) -> Option<FieldValue>, filters: Filters,
                             skip: nat, limit: nat): (r: seq<T>)
    ensures |r| <= limit
    ensures |r| <= Count(rows, attr, filters)
    ensures forall x :: x in r ==> x in rows && MatchesFilters(x, attr, filters)
  {
    var matching := Filter(rows, (x: T) => MatchesFilters(x, attr, filters));
    FilterLength(rows, (x: T) => MatchesFilters(x, attr, filters));
    Slice(matching, skip, skip + limit)
  }

  /** A filtered listing has as many rows as the count of matching rows. */
  lemma {:induction false} FilterLength<T(!new)>(s: seq<T>, p: T -> bool)
    ensures |Filter(s, p)| == CountWhere(s, p)
  {
    if |s| > 0 {
      FilterLength(s[1..], p);
    }
  }

  /** With no conditions, the listing pages through the whole table in storage order. */
  lemma {:induction false} EmptyFiltersMatchAll<T(!new)>(rows: seq<T>, attr: (T, string) -> Option<FieldValue>,
                                                        skip: nat, limit: nat)
    ensures Count(rows, attr, map[]) == |rows|
    ensures GetMulti(rows, attr, map[], skip, limit) == Slice(rows, skip, skip + limit)
  {
    var p := (x: T) => MatchesFilters(x, attr, map[]);
    FilterAll(rows, p);
    FilterLength(rows, p);
  }

  lemma {:induction false} FilterAll<T(!new)>(s: seq<T>, p: T -> bool)
    requires forall x :: p(x)
    ensures Filter(s, p) == s
  {
    if |s| > 0 {
      FilterAll(s[1..], p);
      assert s == [s[0]] + s[1..];
    }
  }

  /** `update` of a fetched row: the row with that id is replaced by its patched form; no other row changes. */
  function Update<T>(rows: seq<T>, idOf: T -> Uuid, id: Uuid, patch: T -> T): (r: seq<T>)
    ensures |r| == |rows|
    ensures forall i :: 0 <= i < |rows| && idOf(rows[i]) == id ==> r[i] == patch(rows[i])
    ensures forall i :: 0 <= i < |rows| && idOf(rows[i]) != id ==> r[i] == rows[i]
  {
    UpdateWhere(rows, (x: T) => idOf(x) == id, patch)
  }

  /**
   * With unique ids and a patch that keeps the id, the ids stay unique and a lookup of the
   * patched id finds the patched row.
   */
  lemma UpdateThenGet<T(!new)>(rows: seq<T>, idOf: T -> Uuid, id: Uuid, patch: T -> T, x: T)
    requires forall y :: idOf(patch(y)) == idOf(y)
    requires DistinctBy(rows, idOf) && x in rows && idOf(x) == id
    ensures DistinctBy(Update(rows, idOf, id, patch), idOf)
    ensures Get(Update(rows, idOf, id, patch), idOf, id) == Some(patch(x))
  {
    var r := Update(rows, idOf, id, patch);
    assert forall i :: 0 <= i < |r| ==> idOf(r[i]) == idOf(rows[i]);
    var j :| 0 <= j < |rows| && rows[j] == x;
    assert r[j] == patch(x);
    FindFirstUnique(r, idOf, patch(x), (y: T) => idOf(y) == id);
  }

  /** An update whose patch keeps the id and is idempotent is itself idempotent. */
  lemma UpdateIdempotent<T>(rows: seq<T>, idOf: T -> Uuid, id: Uuid, patch: T -> T)
    requires forall x :: idOf(patch(x)) == idOf(x) && patch(patch(x)) == patch(x)
    ensures Update(Update(rows, idOf, id, patch), idOf, id, patch) == Update(rows, idOf, id, patch)
  {
    var once := Update(rows, idOf, id, patch);
    var twice := Update(once, idOf, id, patch);
    forall i | 0 <= i < |rows| ensures twice[i] == once[i] {
    }
  }

  /** `remove`: deletes the row with that id and returns it; a missing id returns `None` and changes nothing. */
  function Remove<T(!new)>(rows: seq<T>, idOf: T -> Uuid, id: Uuid): (r: (seq<T>, Option<T>))
    ensures r.1 == Get(rows, idOf, id)
    ensures r.1.None? ==> r.0 == rows
    ensures forall x :: x in r.0 <==> x in rows && idOf(x) != id
  {
    match Get(rows, idOf, id)
    case None => (rows, None)
    case Some(obj) => (Filter(rows, (x: T) => idOf(x) != id), Some(obj))
  }

  /** Removing a row keeps every UNIQUE column unique. */
  lemma RemovePreservesDistinct<T(!new), K>(rows: seq<T>, idOf: T -> Uuid, id: Uuid, key: T -> K)
    requires DistinctBy(rows, key)
    ensures DistinctBy(Remove(rows, idOf, id).0, key)
  {
    if Get(rows, idOf, id).Some? {
      FilterPreservesDistinct(rows, (x: T) => idOf(x) != id, key);
    }
  }

  /** The `is_active` condition of the listings, present only when the request gives one. */
  function ActiveFilter(isActive: Option<bool>): (f: Filters)
    ensures isActive.None? ==> f == map[]
    ensures isActive.Some? ==> f == map["is_active" := Some(FBool(isActive.value))]
  {
    if isActive.Some? then map["is_active" := Some(FBool(isActive.value))] else map[]
  }

  /**
   * What the activity condition selects, on a table whose `is_active` column is `active`: every
   * row without one, only rows with that flag with one.
   */
  lemma ActiveFilterSelects<T(!new)>(rows: seq<T>, attr: (T, string) -> Option<FieldValue>, active: T -> bool,
                                     skip: nat, limit: nat, isActive: Option<bool>)
    requires forall x :: attr(x, "is_active") == Some(FBool(active(x)))
    ensures isActive.None? ==>
      && GetMulti(rows, attr, ActiveFilter(isActive), skip, limit) == Slice(rows, skip, skip + limit)
      && Count(rows, attr, ActiveFilter(isActive)) == |rows|
    ensures forall x :: x in GetMulti(rows, attr, ActiveFilter(isActive), skip, limit) ==>
      isActive.Some? ==> active(x) == isActive.value
  {
    var filters := ActiveFilter(isActive);
    if isActive.None? {
      EmptyFiltersMatchAll(rows, attr, skip, limit);
    }
    forall x | x in GetMulti(rows, attr, filters, skip, limit) && isActive.Some?
      ensures active(x) == isActive.value
    {
      assert MatchesFilters(x, attr, filters);
      assert attr(x, "is_active") == Some(FBool(active(x)));
    }
  }
}

=== FILE: crud_rbac.dfy ===
/**
 * Role-based access control storage: projects, roles, permissions, the role-permission links and
 * the role assignments. A join result is modelled as the matching rows of the selected table, in
 * storage order, each listed once. The database answers a join with one row per joined match and
 * in no promised order, so a row reached through two links or two assignments comes back twice
 * there; the model keeps which rows are returned and drops their multiplicity and order.
 */
module CrudRbac {
  import opened Wrappers
  import opened Uuids
  import opened Seqs
  import opened Models

  // ---------------------------------------------------------------- projects

  /** `CRUDProject.get_by_code`: the project with that (unique) code. */
  function GetProjectByCode(st: Store, code: string): (r: Option<Project>)
    ensures r.Some? ==> r.value in st.projects && r.value.code == code
    ensures r.None? <==> forall p :: p in st.projects ==> p.code != code
  {
    FindFirst(st.projects, (p: Project) => p.code == code)
  }

  // ---------------------------------------------------------------- roles

  /**
   * `CRUDRole.get_by_code`: the role with that code in exactly that scope; a missing project
   * matches only global roles. Codes are not unique, so several matches are an error.
   */
  function GetRoleByCode(st: Store, code: string, projectId: Option<Uuid>): (r: Result<Option<Role>, string>)
    ensures r.Success? && r.value.Some? ==> r.value.value in st.roles && r.value.value.code == code && r.value.value.projectId == projectId
    ensures r.Success? && r.value.None? <==> forall x :: x in st.roles ==> !(x.code == code && x.projectId == projectId)
    ensures r.Failure? <==> CountWhere(st.roles, RoleCodeIs(code, projectId)) > 1
  {
    OneOrNone(st.roles, RoleCodeIs(code, projectId))
  }

  /** The selection of `get_by_code`: that code in exactly that scope. */
  function RoleCodeIs(code: string, projectId: Option<Uuid>): Role -> bool {
    (x: Role) => x.code == code && x.projectId == projectId
  }

  /** `get_global_roles`: the roles with no project. */
  function GetGlobalRoles(st: Store): (r: seq<Role>)
    ensures forall x :: x in r <==> x in st.roles && x.projectId.None?
  {
    Filter(st.roles, (x: Role) => x.projectId.None?)
  }

  /** `get_project_roles`: the roles of that project. */
  function GetProjectRoles(st: Store, projectId: Uuid): (r: seq<Role>)
    ensures forall x :: x in r <==> x in st.roles && x.projectId == Some(projectId)
  {
    Filter(st.roles, (x: Role) => x.projectId == Some(projectId))
  }

  /** An assignment that `CRUDRole.get_user_roles` joins: the user's, active, and in that project if one is given. */
  predicate RoleJoinAssignment(a: UserRole, userId: Uuid, projectId: Option<Uuid>) {
    a.userId == userId && (projectId.None? || a.projectId == projectId) && a.isActive
  }

  /** `CRUDRole.get_user_roles`: the roles reached through a joined assignment; expiry is not looked at. */
  function RoleGetUserRoles(st: Store, userId: Uuid, projectId: Option<Uuid>): (r: seq<Role>)
    ensures forall x :: x in r <==>
      (x in st.roles && exists a :: a in st.userRoles && a.roleId == x.id && RoleJoinAssignment(a, userId, projectId))
  {
    Filter(st.roles, (x: Role) => exists a :: a in st.userRoles && a.roleId == x.id && RoleJoinAssignment(a, userId, projectId))
  }

  // ---------------------------------------------------------------- permissions

  /** `get_role_permissions`: the permissions linked to that role. */
  function GetRolePermissions(st: Store, roleId: Uuid): (r: seq<Permission>)
    ensures forall p :: p in r <==>
      (p in st.permissions && exists l :: l in st.rolePermissions && l.roleId == roleId && l.permissionId == p.id)
  {
    Filter(st.permissions, (p: Permission) => exists l :: l in st.rolePermissions && l.roleId == roleId && l.permissionId == p.id)
  }

  /** `get_project_permissions`: the permissions of that project. */
  function GetProjectPermissions(st: Store, projectId: Uuid): (r: seq<Permission>)
    ensures forall p :: p in r <==> p in st.permissions && p.projectId == projectId
  {
    Filter(st.permissions, (p: Permission) => p.projectId == projectId)
  }

  /**
   * An assignment that `CRUDPermission.get_user_permissions` joins: the user's and active and,
   * when a project is given, in that project or global. Expiry is not looked at.
   */
  predicate PermissionJoinAssignment(a: UserRole, userId: Uuid, projectId: Option<Uuid>) {
    a.userId == userId && a.isActive && (projectId.None? || a.projectId == projectId || a.projectId.None?)
  }

  /** A permission reaches the user through link `l`, an existing role, and a joined assignment. */
  predicate ReachesUser(st: Store, p: Permission, userId: Uuid, projectId: Option<Uuid>) {
    exists l :: l in st.rolePermissions && l.permissionId == p.id &&
      (exists x :: x in st.roles && x.id == l.roleId) &&
      (exists a :: a in st.userRoles && a.roleId == l.roleId && PermissionJoinAssignment(a, userId, projectId))
  }

  /** `CRUDPermission.get_user_permissions`. */
  function PermissionGetUserPermissions(st: Store, userId: Uuid, projectId: Option<Uuid>): (r: seq<Permission>)
    ensures forall p :: p in r <==> p in st.permissions && ReachesUser(st, p, userId, projectId)
  {
    Filter(st.permissions, (p: Permission) => ReachesUser(st, p, userId, projectId))
  }

  /** With a project, global assignments contribute to the permission listing but not to the role listing. */
  lemma GlobalAssignmentScopes(st: Store, a: UserRole, x: Role, l: RolePermission, p: Permission, projectId: Uuid)
    requires a in st.userRoles && x in st.roles && l in st.rolePermissions && p in st.permissions
    requires a.roleId == x.id && l.roleId == x.id && l.permissionId == p.id
    requires a.isActive && a.projectId.None?
    ensures p in PermissionGetUserPermissions(st, a.userId, Some(projectId))
    ensures !RoleJoinAssignment(a, a.userId, Some(projectId))
  {
  }

  // ---------------------------------------------------------------- role-permission links

  /** `remove_all_role_permissions`: drops every link of the role and reports how many there were. */
  function RemoveAllRolePermissions(st: Store, roleId: Uuid): (r: (Store, nat))
    ensures r.0 == st.(rolePermissions := r.0.rolePermissions)
    ensures forall l :: l in r.0.rolePermissions <==> l in st.rolePermissions && l.roleId != roleId
    ensures r.1 == CountWhere(st.rolePermissions, (l: RolePermission) => l.roleId == roleId)
  {
    (st.(rolePermissions := Filter(st.rolePermissions, (l: RolePermission) => l.roleId != roleId)),
     CountWhere(st.rolePermissions, (l: RolePermission) => l.roleId == roleId))
  }

  /** The links a replacement inserts, one per permission id, in order; `newId(i)` is the i-th fresh id. */
  function NewLinks(roleId: Uuid, permissionIds: seq<Uuid>, newId: nat -> Uuid, from: nat, now: int): (r: seq<RolePermission>)
    ensures |r| == |permissionIds|
    ensures forall i :: 0 <= i < |r| ==> r[i] == RolePermission(newId(from + i), roleId, permissionIds[i], now)
    decreases |permissionIds|
  {
    if |permissionIds| == 0 then []
    else [RolePermission(newId(from), roleId, permissionIds[0], now)] + NewLinks(roleId, permissionIds[1..], newId, from + 1, now)
  }

  /** The foreign key of a link's role: some stored role has the id. */
  predicate RoleExists(st: Store, roleId: Uuid) {
    exists x :: x in st.roles && x.id == roleId
  }

  /** The foreign key of each link's permission: every id names a stored permission. */
  predicate PermissionsExist(st: Store, permissionIds: seq<Uuid>) {
    forall i :: 0 <= i < |permissionIds| ==> exists p :: p in st.permissions && p.id == permissionIds[i]
  }

  /**
   * `assign_permissions_to_role`: the role's links are removed and committed first; then one link
   * per id is inserted. A link to a permission or role that does not exist violates a foreign key
   * at the second commit, which fails and leaves the role with no permissions at all.
   */
  function AssignPermissionsToRole(st: Store, roleId: Uuid, permissionIds: seq<Uuid>, newId: nat -> Uuid,
                                   now: int): (r: (Store, Result<seq<RolePermission>, string>))
    ensures var cleared := RemoveAllRolePermissions(st, roleId).0;
      && (r.1.Success? <==> |permissionIds| == 0 || (RoleExists(st, roleId) && PermissionsExist(st, permissionIds)))
      && (r.1.Failure? ==> r.0 == cleared)
      && (r.1.Success? ==> r.0 == cleared.(rolePermissions := cleared.rolePermissions + r.1.value))
      && (r.1.Success? ==> r.1.value == NewLinks(roleId, permissionIds, newId, 0, now))
  {
    var cleared := RemoveAllRolePermissions(st, roleId).0;
    if |permissionIds| == 0 then (cleared, Success([]))
    else if !RoleExists(st, roleId) then (cleared, Failure("IntegrityError: role_permissions.role_id"))
    else if !PermissionsExist(st, permissionIds) then
      (cleared, Failure("IntegrityError: role_permissions.permission_id"))
    else
      var links := NewLinks(roleId, permissionIds, newId, 0, now);
      (cleared.(rolePermissions := cleared.rolePermissions + links), Success(links))
  }

  /** The permission ids a sequence of links grants to a role. */
  function LinkedIds(ls: seq<RolePermission>, roleId: Uuid): set<Uuid> {
    set l | l in ls && l.roleId == roleId :: l.permissionId
  }

  /** Replacement semantics: afterwards the role is linked to exactly the given permissions, and other roles keep theirs. */
  lemma AssignPermissionsReplaces(st: Store, roleId: Uuid, permissionIds: seq<Uuid>, newId: nat -> Uuid, now: int, other: Uuid)
    requires AssignPermissionsToRole(st, roleId, permissionIds, newId, now).1.Success?
    requires other != roleId
    ensures var st' := AssignPermissionsToRole(st, roleId, permissionIds, newId, now).0;
      LinkedIds(st'.rolePermissions, roleId) == set i | 0 <= i < |permissionIds| :: permissionIds[i]
    ensures var st' := AssignPermissionsToRole(st, roleId, permissionIds, newId, now).0;
      LinkedIds(st'.rolePermissions, other) == LinkedIds(st.rolePermissions, other)
  {
    var cleared := RemoveAllRolePermissions(st, roleId).0.rolePermissions;
    var links := NewLinks(roleId, permissionIds, newId, 0, now);
    assert AssignPermissionsToRole(st, roleId, permissionIds, newId, now).0.rolePermissions == cleared + links;
    LinkedIdsAppend(cleared, links, roleId);
    LinkedIdsAppend(cleared, links, other);
    NewLinksIds(roleId, permissionIds, newId, now, other);
    ClearedIds(st.rolePermissions, cleared, roleId, other);
  }

  lemma LinkedIdsAppend(a: seq<RolePermission>, b: seq<RolePermission>, roleId: Uuid)
    ensures LinkedIds(a + b, roleId) == LinkedIds(a, roleId) + LinkedIds(b, roleId)
  {
  }

  lemma NewLinksIds(roleId: Uuid, permissionIds: seq<Uuid>, newId: nat -> Uuid, now: int, other: Uuid)
    requires other != roleId
    ensures LinkedIds(NewLinks(roleId, permissionIds, newId, 0, now), roleId) == set i | 0 <= i < |permissionIds| :: permissionIds[i]
    ensures LinkedIds(NewLinks(roleId, permissionIds, newId, 0, now), other) == {}
  {
    var links := NewLinks(roleId, permissionIds, newId, 0, now);
    forall pid | pid in LinkedIds(links, roleId) ensures pid in set i | 0 <= i < |permissionIds| :: permissionIds[i] {
      var l :| l in links && l.roleId == roleId && l.permissionId == pid;
      var i :| 0 <= i < |links| && links[i] == l;
      assert permissionIds[i] == pid;
    }
    forall i | 0 <= i < |permissionIds| ensures permissionIds[i] in LinkedIds(links, roleId) {
      assert links[i] in links;
    }
  }

  lemma ClearedIds(ls: seq<RolePermission>, cleared: seq<RolePermission>, roleId: Uuid, other: Uuid)
    requires forall l :: l in cleared <==> l in ls && l.roleId != roleId
    requires other != roleId
    ensures LinkedIds(cleared, roleId) == {}
    ensures LinkedIds(cleared, other) == LinkedIds(ls, other)
  {
  }

  // ---------------------------------------------------------------- role assignments

  /** The assignments `CRUDUserRole.get_user_roles` selects. */
  predicate AssignmentSelected(a: UserRole, userId: Uuid, projectId: Option<Uuid>, activeOnly: bool) {
    a.userId == userId && (projectId.None? || a.projectId == projectId) && (!activeOnly || a.isActive)
  }

  /**
   * `CRUDUserRole.get_user_roles`: the user's assignments; with a project only those with exactly
   * that project (global ones excluded), without one every scope; active ones only unless asked.
   */
  function UserRoleGetUserRoles(st: Store, userId: Uuid, projectId: Option<Uuid>, activeOnly: bool): (r: seq<UserRole>)
    ensures forall a :: a in r <==> a in st.userRoles && AssignmentSelected(a, userId, projectId, activeOnly)
    ensures forall a :: a in r && projectId.Some? ==> a.projectId == projectId
  {
    Filter(st.userRoles, (a: UserRole) => AssignmentSelected(a, userId, projectId, activeOnly))
  }

  /** The (user, role, scope) an assignment is about. */
  function AssignmentKey(a: UserRole): (Uuid, Uuid, Option<Uuid>) {
    (a.userId, a.roleId, a.projectId)
  }

  /** `get_user_role_assignment`: the assignment of that role to that user in exactly that scope. */
  function GetUserRoleAssignment(st: Store, userId: Uuid, roleId: Uuid, projectId: Option<Uuid>): (r: Result<Option<UserRole>, string>)
    ensures r.Success? && r.value.Some? ==> r.value.value in st.userRoles && AssignmentKey(r.value.value) == (userId, roleId, projectId)
    ensures r.Success? && r.value.None? <==> forall a :: a in st.userRoles ==> AssignmentKey(a) != (userId, roleId, projectId)
    ensures r.Failure? <==> CountWhere(st.userRoles, (a: UserRole) => AssignmentKey(a) == (userId, roleId, projectId)) > 1
  {
    OneOrNone(st.userRoles, (a: UserRole) => AssignmentKey(a) == (userId, roleId, projectId))
  }

  /** The outcome of `assign_role_to_user`. */
  datatype AssignOutcome = Reactivated(a: UserRole) | Inserted(a: UserRole)

  /**
   * `CRUDUserRole.assign_role_to_user`: an inactive assignment for the same (user, role, scope)
   * is reactivated in place with the new grantor, grant time and expiry; an active one is a
   * conflict; otherwise a new active assignment is appended.
   */
  function AssignRoleToUser(st: Store, userId: Uuid, roleId: Uuid, projectId: Option<Uuid>, grantedBy: Option<Uuid>,
                            expiresAt: Option<int>, newId: Uuid, now: int): (r: (Store, Result<AssignOutcome, string>))
    ensures GetUserRoleAssignment(st, userId, roleId, projectId).Failure? ==> r.0 == st && r.1.Failure?
    ensures GetUserRoleAssignment(st, userId, roleId, projectId) == Success(None) ==>
      && r.1 == Success(Inserted(UserRole(newId, userId, roleId, projectId, grantedBy, now, expiresAt, true)))
      && r.0 == st.(userRoles := st.userRoles + [r.1.value.a])
    ensures var g := GetUserRoleAssignment(st, userId, roleId, projectId);
      g.Success? && g.value.Some? && g.value.value.isActive ==> r == (st, Failure("User already has this role"))
    ensures var g := GetUserRoleAssignment(st, userId, roleId, projectId);
      g.Success? && g.value.Some? && !g.value.value.isActive ==>
        var e := g.value.value;
        && r.1 == Success(Reactivated(e.(isActive := true, grantedBy := grantedBy, grantedAt := now, expiresAt := expiresAt)))
        && r.0 == st.(userRoles := UpdateWhere(st.userRoles, (x: UserRole) => x.id == e.id, (x: UserRole) => r.1.value.a))
  {
    match GetUserRoleAssignment(st, userId, roleId, projectId)
    case Failure(msg) => (st, Failure(msg))
    case Success(Some(e)) =>
      if e.isActive then (st, Failure("User already has this role"))
      else
        var e' := e.(isActive := true, grantedBy := grantedBy, grantedAt := now, expiresAt := expiresAt);
        (st.(userRoles := UpdateWhere(st.userRoles, (x: UserRole) => x.id == e.id, (x: UserRole) => e')), Success(Reactivated(e')))
    case Success(None) =>
      var a := UserRole(newId, userId, roleId, projectId, grantedBy, now, expiresAt, true);
      (st.(userRoles := st.userRoles + [a]), Success(Inserted(a)))
  }

  /** At most one assignment per (user, role, scope), with distinct ids. */
  predicate AssignmentsWellFormed(st: Store) {
    DistinctBy(st.userRoles, AssignmentKey) && DistinctBy(st.userRoles, (a: UserRole) => a.id)
  }

  /**
   * The assignment state machine keeps at most one assignment per (user, role, scope): every
   * successful assignment leaves exactly one, and it is active.
   */
  lemma AssignPreservesUniqueness(st: Store, userId: Uuid, roleId: Uuid, projectId: Option<Uuid>, grantedBy: Option<Uuid>,
                                  expiresAt: Option<int>, newId: Uuid, now: int)
    requires AssignmentsWellFormed(st)
    requires forall a :: a in st.userRoles ==> a.id != newId
    ensures GetUserRoleAssignment(st, userId, roleId, projectId).Success?
    ensures var (st', r) := AssignRoleToUser(st, userId, roleId, projectId, grantedBy, expiresAt, newId, now);
      AssignmentsWellFormed(st') &&
      (r.Success? ==> exists a :: a in st'.userRoles && AssignmentKey(a) == (userId, roleId, projectId) && a.isActive)
  {
    var key := (userId, roleId, projectId);
    DistinctCountAtMostOne(st.userRoles, AssignmentKey, key, (a: UserRole) => AssignmentKey(a) == key);
    var g := GetUserRoleAssignment(st, userId, roleId, projectId);
    if g.value.None? {
      InsertKeepsWellFormed(st, UserRole(newId, userId, roleId, projectId, grantedBy, now, expiresAt, true));
    } else if !g.value.value.isActive {
      var e := g.value.value;
      ReactivateKeepsWellFormed(st, e, e.(isActive := true, grantedBy := grantedBy, grantedAt := now, expiresAt := expiresAt));
    }
  }

  lemma InsertKeepsWellFormed(st: Store, a: UserRole)
    requires AssignmentsWellFormed(st)
    requires forall x :: x in st.userRoles ==> x.id != a.id && AssignmentKey(x) != AssignmentKey(a)
    ensures AssignmentsWellFormed(st.(userRoles := st.userRoles + [a]))
    ensures a in st.userRoles + [a]
  {
    DistinctByAppend(st.userRoles, a, AssignmentKey);
    DistinctByAppend(st.userRoles, a, (x: UserRole) => x.id);
  }

  lemma ReactivateKeepsWellFormed(st: Store, e: UserRole, e': UserRole)
    requires AssignmentsWellFormed(st)
    requires e in st.userRoles
    requires e'.id == e.id && AssignmentKey(e') == AssignmentKey(e)
    ensures var s' := UpdateWhere(st.userRoles, (x: UserRole) => x.id == e.id, (x: UserRole) => e');
      AssignmentsWellFormed(st.(userRoles := s')) && e' in s'
  {
    var p := (x: UserRole) => x.id == e.id;
    var f := (x: UserRole) => e';
    var k :| 0 <= k < |st.userRoles| && st.userRoles[k] == e;
    forall i | 0 <= i < |st.userRoles| && p(st.userRoles[i]) ensures i == k {
    }
    UpdateWherePreservesDistinct(st.userRoles, p, f, AssignmentKey);
    UpdateWherePreservesDistinct(st.userRoles, p, f, (x: UserRole) => x.id);
    assert UpdateWhere(st.userRoles, p, f)[k] == e';
  }
}

=== FILE: crud_user.dfy ===
/** Account storage: lookups by the two unique columns, registration, password check, login bookkeeping. */
module CrudUser {
  import opened Wrappers
  import opened Uuids
  import opened Seqs
  import opened Models
  import opened Security
  import opened UserSchemas

  /** `get`: the account with that id. */
  function GetUser(st: Store, id: Uuid): (r: Option<User>)
    ensures r.Some? ==> r.value in st.users && r.value.id == id
    ensures r.None? <==> forall u :: u in st.users ==> u.id != id
  {
    FindFirst(st.users, (u: User) => u.id == id)
  }

  /** `get_by_email`: the account with that email. */
  function GetByEmail(st: Store, email: string): (r: Option<User>)
    ensures r.Some? ==> r.value in st.users && r.value.email == email
    ensures r.None? <==> forall u :: u in st.users ==> u.email != email
  {
    FindFirst(st.users, (u: User) => u.email == email)
  }

  /** `get_by_username`: the account with that username. */
  function GetByUsername(st: Store, username: string): (r: Option<User>)
    ensures r.Some? ==> r.value in st.users && r.value.username == username
    ensures r.None? <==> forall u :: u in st.users ==> u.username != username
  {
    FindFirst(st.users, (u: User) => u.username == username)
  }

  /**
   * The row `create` inserts: the schema's fields, the hash of the password in place of the
   * password, a new id, and the column defaults (never logged in, no login yet).
   */
  function NewUser(obj: UserCreate, id: Uuid, hasher: PasswordHasher, now: int): (u: User)
    ensures u.id == id && u.username == obj.username && u.email == obj.email
    ensures u.passwordHash == hasher.hash(obj.password)
    ensures u.isActive == obj.isActive && u.isVerified == obj.isVerified && u.isSuperuser == obj.isSuperuser
    ensures u.loginCount == 0 && u.lastLoginAt.None?
  {
    User(id, obj.username, obj.email, hasher.hash(obj.password), obj.displayName, None, None,
         obj.isActive, obj.isVerified, obj.isSuperuser, now, None, 0)
  }

  /**
   * `create`: a taken email is reported before a taken username; otherwise the new account is
   * appended. Failures leave the store unchanged.
   */
  function Create(st: Store, obj: UserCreate, id: Uuid, hasher: PasswordHasher, now: int): (r: (Store, Result<User, string>))
    ensures GetByEmail(st, obj.email).Some? ==> r == (st, Failure("Email already registered"))
    ensures GetByEmail(st, obj.email).None? && GetByUsername(st, obj.username).Some? ==> r == (st, Failure("Username already taken"))
    ensures r.1.Success? <==> GetByEmail(st, obj.email).None? && GetByUsername(st, obj.username).None?
    ensures r.1.Success? ==> r.1.value == NewUser(obj, id, hasher, now) && r.0 == st.(users := st.users + [r.1.value])
  {
    if GetByEmail(st, obj.email).Some? then (st, Failure("Email already registered"))
    else if GetByUsername(st, obj.username).Some? then (st, Failure("Username already taken"))
    else
      var u := NewUser(obj, id, hasher, now);
      (st.(users := st.users + [u]), Success(u))
  }

  /**
   * Why `create` as written fails: one of its own refusals, or the commit. The account table
   * redeclares `created_at` without the timestamp mixin's server default, so the column is
   * NOT NULL with no default, and `create` never sets it.
   */
  datatype CreateFailure = Taken(message: string) | CreatedAtMissing

  /**
   * `create` as written: the same refusals in the same order; for a free email and username
   * the row goes to the commit without a creation time and the commit raises, so nothing is
   * ever stored.
   */
  function CreateAsWritten(st: Store, obj: UserCreate): (r: (Store, Result<User, CreateFailure>))
    ensures r.0 == st && r.1.Failure?
    ensures GetByEmail(st, obj.email).Some? ==> r.1 == Failure(Taken("Email already registered"))
    ensures GetByEmail(st, obj.email).None? && GetByUsername(st, obj.username).Some? ==>
      r.1 == Failure(Taken("Username already taken"))
    ensures r.1 == Failure(CreatedAtMissing) <==> GetByEmail(st, obj.email).None? && GetByUsername(st, obj.username).None?
  {
    if GetByEmail(st, obj.email).Some? then (st, Failure(Taken("Email already registered")))
    else if GetByUsername(st, obj.username).Some? then (st, Failure(Taken("Username already taken")))
    else (st, Failure(CreatedAtMissing))
  }

  /**
   * The written and the intended `create` refuse the same requests with the same message; the
   * written one fails at the commit exactly where the intended one stores a new account.
   */
  lemma CreateAsWrittenAgainstCreate(st: Store, obj: UserCreate, id: Uuid, hasher: PasswordHasher, now: int)
    ensures var w := CreateAsWritten(st, obj);
      var c := Create(st, obj, id, hasher, now);
      && (c.1.Failure? ==> w.1 == Failure(Taken(c.1.error)))
      && (c.1.Success? <==> w.1 == Failure(CreatedAtMissing))
      && (c.1.Success? ==> |c.0.users| == |w.0.users| + 1)
  {
  }

  /** `authenticate`: the account with that email, if the password verifies against its hash. */
  function Authenticate(st: Store, hasher: PasswordHasher, email: string, password: string): (r: Option<User>)
    ensures r.Some? <==> GetByEmail(st, email).Some? && hasher.verify(password, GetByEmail(st, email).value.passwordHash)
    ensures r.Some? ==> r == GetByEmail(st, email)
  {
    match GetByEmail(st, email)
    case None => None
    case Some(u) => if hasher.verify(password, u.passwordHash) then Some(u) else None
  }

  /** `update_login_info`: one more login, at `now`, for the account with that id; nothing else changes. */
  function UpdateLoginInfo(st: Store, id: Uuid, now: int): (st': Store)
    ensures st' == st.(users := st'.users)
    ensures |st'.users| == |st.users|
    ensures forall i :: 0 <= i < |st.users| && st.users[i].id == id ==>
      st'.users[i] == st.users[i].(loginCount := st.users[i].loginCount + 1, lastLoginAt := Some(now))
    ensures forall i :: 0 <= i < |st.users| && st.users[i].id != id ==> st'.users[i] == st.users[i]
  {
    st.(users := UpdateWhere(st.users, (u: User) => u.id == id,
                             (u: User) => u.(loginCount := u.loginCount + 1, lastLoginAt := Some(now))))
  }

  /** A fresh id: no stored account has it. */
  predicate FreshUserId(st: Store, id: Uuid) {
    forall u :: u in st.users ==> u.id != id
  }

  /** Registration keeps the account table's primary key and unique columns unique. */
  lemma CreatePreservesConsistency(st: Store, obj: UserCreate, id: Uuid, hasher: PasswordHasher, now: int)
    requires Consistent(st)
    requires FreshUserId(st, id)
    ensures Consistent(Create(st, obj, id, hasher, now).0)
  {
    var r := Create(st, obj, id, hasher, now);
    if r.1.Success? {
      var u := r.1.value;
      DistinctByAppend(st.users, u, (x: User) => x.id);
      DistinctByAppend(st.users, u, (x: User) => x.username);
      DistinctByAppend(st.users, u, (x: User) => x.email);
    }
  }

  /** After registering, the new account is found by its email and signs in with its password. */
  lemma CreateThenAuthenticate(st: Store, obj: UserCreate, id: Uuid, hasher: PasswordHasher, now: int)
    requires SoundHasher(hasher)
    requires Create(st, obj, id, hasher, now).1.Success?
    ensures var (st', r) := Create(st, obj, id, hasher, now);
      GetByEmail(st', obj.email) == Some(r.value) && Authenticate(st', hasher, obj.email, obj.password) == Some(r.value)
  {
    var u := NewUser(obj, id, hasher, now);
    FindFirstAppend(st.users, u, (x: User) => x.email == obj.email);
  }

  /** Bookkeeping a login keeps every unique column as it was. */
  lemma UpdateLoginInfoPreservesConsistency(st: Store, id: Uuid, now: int)
    requires Consistent(st)
    ensures Consistent(UpdateLoginInfo(st, id, now))
  {
    var st' := UpdateLoginInfo(st, id, now);
    assert forall i :: 0 <= i < |st.users| ==>
      (st'.users[i].id == st.users[i].id && st'.users[i].username == st.users[i].username && st'.users[i].email == st.users[i].email);
  }
}

=== FILE: datetime_utils.dfy ===
/**
 * Timezone normalisation. A naive value is a wall-clock reading taken to be UTC; an aware
 * value carries its offset east of UTC, in seconds.
 */
module DateTimeUtils {
  import opened Wrappers

  datatype DateTime = Naive(wall: int) | Aware(wall: int, offset: int)

  /** The UTC instant a value denotes, reading a naive value as UTC. */
  function Instant(d: DateTime): int {
    match d
    case Naive(w) => w
    case Aware(w, off) => w - off
  }

  /** `make_aware`: a naive value gets the UTC zone with the same wall time; others unchanged. */
  function MakeAware(d: Option<DateTime>): (r: Option<DateTime>)
    ensures d.None? <==> r.None?
    ensures r.Some? ==> r.value.Aware?
    ensures r.Some? ==> Instant(r.value) == Instant(d.value)
    ensures d.Some? && d.value.Naive? ==> r.value == Aware(d.value.wall, 0)
    ensures d.Some? && d.value.Aware? ==> r == d
  {
    match d
    case None => None
    case Some(Naive(w)) => Some(Aware(w, 0))
    case Some(Aware(_, _)) => d
  }

  /** `make_naive`: an aware value is converted to UTC and its zone dropped; others unchanged. */
  function MakeNaive(d: Option<DateTime>): (r: Option<DateTime>)
    ensures d.None? <==> r.None?
    ensures r.Some? ==> r.value.Naive?
    ensures r.Some? ==> Instant(r.value) == Instant(d.value)
    ensures d.Some? && d.value.Naive? ==> r == d
  {
    match d
    case None => None
    case Some(Naive(_)) => d
    case Some(Aware(w, off)) => Some(Naive(w - off))
  }

  /**
   * `ensure_aware`: whatever comes in leaves timezone-aware and denotes the same instant, a naive
   * value being read as UTC; nothing stays nothing.
   */
  function EnsureAware(d: Option<DateTime>): (r: Option<DateTime>)
    ensures d.None? <==> r.None?
    ensures r.Some? ==> r.value.Aware? && Instant(r.value) == Instant(d.value)
    ensures d.Some? && d.value.Naive? ==> r.value.offset == 0
    ensures d.Some? && d.value.Aware? ==> r == d
  {
    MakeAware(d)
  }

  /** What Python raises when it is asked to order a naive and an aware value. */
  const NaiveAwareError: string := "can't compare offset-naive and offset-aware datetimes"

  /**
   * Python's `<` on datetimes: two naive or two aware values are ordered by the instant they
   * denote; a naive and an aware value cannot be ordered and raise `TypeError`.
   */
  function Less(a: DateTime, b: DateTime): (r: Result<bool, string>)
    ensures r.Failure? <==> a.Naive? != b.Naive?
    ensures r.Success? ==> (r.value <==> Instant(a) < Instant(b))
  {
    if a.Naive? != b.Naive? then Failure(NaiveAwareError) else Success(Instant(a) < Instant(b))
  }

  /** Stripping the zone of a UTC value and adding it back is the identity. */
  lemma MakeAwareMakeNaive(d: Option<DateTime>)
    requires d.Some? ==> d.value.Aware? && d.value.offset == 0
    ensures MakeAware(MakeNaive(d)) == d
  {
  }

  /** Making a naive value aware and naive again is the identity. */
  lemma MakeNaiveMakeAware(d: Option<DateTime>)
    requires d.Some? ==> d.value.Naive?
    ensures MakeNaive(MakeAware(d)) == d
  {
  }

  /** Both conversions are idempotent. */
  lemma ConversionsIdempotent(d: Option<DateTime>)
    ensures MakeAware(MakeAware(d)) == MakeAware(d)
    ensures MakeNaive(MakeNaive(d)) == MakeNaive(d)
  {
  }

  /** An aware value in another zone does not survive the round trip: the zone becomes UTC. */
  lemma RoundTripNormalisesZone(w: int, off: int)
    requires off != 0
    ensures MakeAware(MakeNaive(Some(Aware(w, off)))) == Some(Aware(w - off, 0))
    ensures MakeAware(MakeNaive(Some(Aware(w, off)))) != Some(Aware(w, off))
  {
  }
}

=== FILE: dependencies.dfy ===
/**
 * Request authentication as the route dependencies see it: the four strategies tried in a fixed
 * order, the account guards built on top, the service-key permission guard, project-id
 * resolution, pagination clamping and the in-memory sliding-window rate limiter.
 */
module Dependencies {
  import opened Wrappers
  import opened Uuids
  import opened Seqs
  import opened Models
  import opened Security
  import opened Common
  import opened Authenticators
  import Config

  // ---------------------------------------------------------------- requests

  /**
   * The parts of an incoming request that authentication reads. Header names are matched as
   * written; the client host is missing when the server does not know the peer.
   */
  datatype Request = Request(
    cookies: map<string, string>,
    headers: map<string, string>,
    query: map<string, string>,
    clientHost: Option<string>)

  /** `mapping.get(key)`. */
  function Get(m: map<string, string>, key: string): (r: Option<string>)
    ensures r.Some? <==> key in m
    ensures r.Some? ==> r.value == m[key]
  {
    if key in m then Some(m[key]) else None
  }

  /** The truthiness of an optional string: present and non-empty. */
  predicate Truthy(v: Option<string>) {
    v.Some? && v.value != ""
  }

  const SessionCookie: string := Config.SessionCookieName
  const ApiKeyHeader: string := "X-API-Key"
  const ApiKeyQuery: string := "api_key"
  const ServiceKeyHeader: string := "X-Service-Key"
  const ProjectHeader: string := "X-Project-ID"
  const ProjectQuery: string := "project_id"
  const AuthorizationHeader: string := "Authorization"
  const BearerPrefix: string := "Bearer "

  /** What authentication needs besides the store: the digest, the token codec and the clock. */
  datatype AuthEnv = AuthEnv(sha: Digest, codec: JwtCodec, now: int)

  /** The `auth_info` dictionary, one shape per strategy. */
  datatype AuthInfo =
    | SessionInfo(sessionToken: string)
    | ApiKeyInfo(apiKeyId: string, permissions: Option<set<string>>)
    | ServiceKeyInfo(serviceKeyId: string, projectId: string, permissions: Option<set<string>>)
    | JwtInfo(token: string)

  /** The pair `authenticate_request` returns: the account, if any, and how the request was authenticated. */
  datatype Authentication = Authentication(user: Option<User>, info: Option<AuthInfo>)

  const Anonymous: Authentication := Authentication(None, None)

  // ---------------------------------------------------------------- the strategy chain

  /**
   * `authenticate_request`: session cookie, then API key (header, else query parameter), then
   * service key (with a project header), then bearer token. A strategy whose credential is
   * present but fails falls through to the next; writes made by a failed strategy stay.
   */
  function AuthenticateRequest(env: AuthEnv, st: Store, req: Request): (r: (Store, Authentication))
    ensures r.0.users == st.users
    ensures r.1.info.None? ==> r.1 == Anonymous
    ensures r.1.user.Some? ==> r.1.user.value in st.users
    ensures r.1.info.Some? && r.1.info.value.SessionInfo? ==>
      r.1.user.Some? && Get(req.cookies, SessionCookie) == Some(r.1.info.value.sessionToken)
    ensures r.1.info.Some? && r.1.info.value.ServiceKeyInfo? ==>
      r.1.user.None? && r.1.info.value.projectId != "" && Get(req.headers, ProjectHeader) == Some(r.1.info.value.projectId)
    ensures r.1.info.Some? && r.1.info.value.JwtInfo? ==>
      r.1.user.Some? && Get(req.headers, AuthorizationHeader) == Some(BearerPrefix + r.1.info.value.token)
  {
    var sessionToken := Get(req.cookies, SessionCookie);
    var (st1, viaSession) := if Truthy(sessionToken) then SessionAuthenticate(st, sessionToken.value, env.now) else (st, None);
    if viaSession.Some? then (st1, Authentication(viaSession, Some(SessionInfo(sessionToken.value))))
    else
      var apiKey := if Truthy(Get(req.headers, ApiKeyHeader)) then Get(req.headers, ApiKeyHeader) else Get(req.query, ApiKeyQuery);
      var (st2, viaKey) := if Truthy(apiKey) then ApiKeyAuthenticate(st1, env.sha, apiKey.value, env.now) else (st1, None);
      if viaKey.Some? then
        (st2, Authentication(viaKey.value.0, Some(ApiKeyInfo(Text(viaKey.value.1.id), viaKey.value.1.permissions))))
      else
        var serviceKey := Get(req.headers, ServiceKeyHeader);
        var projectId := Get(req.headers, ProjectHeader);
        var viaService := if Truthy(serviceKey) && Truthy(projectId)
                          then ServiceKeyAuthenticate(st2, env.sha, serviceKey.value, projectId.value) else None;
        if viaService.Some? then
          (st2, Authentication(None, Some(ServiceKeyInfo(Text(viaService.value.id), projectId.value, viaService.value.permissions))))
        else
          var authorization := Get(req.headers, AuthorizationHeader);
          if Truthy(authorization) && IsPrefix(BearerPrefix, authorization.value) then
            var token := authorization.value[|BearerPrefix|..];
            assert authorization.value == BearerPrefix + token;
            var viaJwt := JwtAuthenticate(st2, env.codec, token, env.now);
            if viaJwt.Some? then (st2, Authentication(viaJwt, Some(JwtInfo(token)))) else (st2, Anonymous)
          else (st2, Anonymous)
  }

  /** The strategies, as a reference for the chain. */
  datatype Strategy = SessionCookieStrategy | ApiKeyStrategy | ServiceKeyStrategy | BearerStrategy

  /** The fixed priority order. */
  const Priority: seq<Strategy> := [SessionCookieStrategy, ApiKeyStrategy, ServiceKeyStrategy, BearerStrategy]

  /** One strategy on its own: the store after it, and what it authenticated, if anything. */
  function Attempt(env: AuthEnv, st: Store, req: Request, s: Strategy): (r: (Store, Option<Authentication>))
    ensures r.1.Some? ==> r.1.value.info.Some?
  {
    match s
    case SessionCookieStrategy =>
      var t := Get(req.cookies, SessionCookie);
      if !Truthy(t) then (st, None)
      else
        var (st', u) := SessionAuthenticate(st, t.value, env.now);
        (st', if u.Some? then Some(Authentication(u, Some(SessionInfo(t.value)))) else None)
    case ApiKeyStrategy =>
      var header := Get(req.headers, ApiKeyHeader);
      var k := if Truthy(header) then header else Get(req.query, ApiKeyQuery);
      if !Truthy(k) then (st, None)
      else
        var (st', found) := ApiKeyAuthenticate(st, env.sha, k.value, env.now);
        (st', if found.Some? then Some(Authentication(found.value.0, Some(ApiKeyInfo(Text(found.value.1.id), found.value.1.permissions)))) else None)
    case ServiceKeyStrategy =>
      var k := Get(req.headers, ServiceKeyHeader);
      var p := Get(req.headers, ProjectHeader);
      if !(Truthy(k) && Truthy(p)) then (st, None)
      else
        var found := ServiceKeyAuthenticate(st, env.sha, k.value, p.value);
        (st, if found.Some? then Some(Authentication(None, Some(ServiceKeyInfo(Text(found.value.id), p.value, found.value.permissions)))) else None)
    case BearerStrategy =>
      var a := Get(req.headers, AuthorizationHeader);
      if !(Truthy(a) && IsPrefix(BearerPrefix, a.value)) then (st, None)
      else
        var token := a.value[|BearerPrefix|..];
        var u := JwtAuthenticate(st, env.codec, token, env.now);
        (st, if u.Some? then Some(Authentication(u, Some(JwtInfo(token)))) else None)
  }

  /** Try the strategies in turn, threading the store; the first success wins. */
  function RunChain(env: AuthEnv, st: Store, req: Request, strategies: seq<Strategy>): (r: (Store, Authentication))
    decreases |strategies|
  {
    if |strategies| == 0 then (st, Anonymous)
    else
      var (st', found) := Attempt(env, st, req, strategies[0]);
      if found.Some? then (st', found.value) else RunChain(env, st', req, strategies[1..])
  }

  /** `authenticate_request` is the priority chain: each strategy in order, first success wins. */
  lemma AuthenticateRequestFollowsPriority(env: AuthEnv, st: Store, req: Request)
    ensures AuthenticateRequest(env, st, req) == RunChain(env, st, req, Priority)
  {
    var (st1, a1) := Attempt(env, st, req, SessionCookieStrategy);
    var (st2, a2) := Attempt(env, st1, req, ApiKeyStrategy);
    assert Priority[1..] == [ApiKeyStrategy, ServiceKeyStrategy, BearerStrategy];
    assert Priority[1..][1..] == [ServiceKeyStrategy, BearerStrategy];
    if a1.Some? {
      assert RunChain(env, st, req, Priority) == (st1, a1.value);
    } else if a2.Some? {
      assert RunChain(env, st, req, Priority) == (st2, a2.value);
    } else {
      assert RunChain(env, st, req, Priority) == RunChain(env, st2, req, [ServiceKeyStrategy, BearerStrategy]);
      LateStrategies(env, st, req);
    }
  }

  /** Once neither the session cookie nor an API key authenticated, the rest of the request is the service-key, bearer chain. */
  lemma LateStrategies(env: AuthEnv, st: Store, req: Request)
    requires Attempt(env, st, req, SessionCookieStrategy).1.None?
    requires Attempt(env, Attempt(env, st, req, SessionCookieStrategy).0, req, ApiKeyStrategy).1.None?
    ensures var st2 := Attempt(env, Attempt(env, st, req, SessionCookieStrategy).0, req, ApiKeyStrategy).0;
      AuthenticateRequest(env, st, req) == RunChain(env, st2, req, [ServiceKeyStrategy, BearerStrategy])
  {
    var (st1, a1) := Attempt(env, st, req, SessionCookieStrategy);
    var (st2, a2) := Attempt(env, st1, req, ApiKeyStrategy);
    var (st3, a3) := Attempt(env, st2, req, ServiceKeyStrategy);
    var (st4, a4) := Attempt(env, st3, req, BearerStrategy);
    assert [ServiceKeyStrategy, BearerStrategy][1..] == [BearerStrategy];
    assert [BearerStrategy][1..] == [];
    assert RunChain(env, st4, req, []) == (st4, Anonymous);
    if a3.Some? {
      assert AuthenticateRequest(env, st, req) == (st3, a3.value);
    } else if a4.Some? {
      assert AuthenticateRequest(env, st, req) == (st4, a4.value);
    } else {
      assert AuthenticateRequest(env, st, req) == (st4, Anonymous);
    }
  }

  /** A request carrying no credential at all is anonymous and writes nothing. */
  lemma NoCredentialIsAnonymous(env: AuthEnv, st: Store, req: Request)
    requires !Truthy(Get(req.cookies, SessionCookie))
    requires !Truthy(Get(req.headers, ApiKeyHeader)) && !Truthy(Get(req.query, ApiKeyQuery))
    requires !Truthy(Get(req.headers, ServiceKeyHeader))
    requires !Truthy(Get(req.headers, AuthorizationHeader))
    ensures AuthenticateRequest(env, st, req) == (st, Anonymous)
  {
  }

  /** A valid session cookie wins whatever other credentials the request carries. */
  lemma SessionCookieWins(env: AuthEnv, st: Store, req: Request, s: Session)
    requires Consistent(st)
    requires s in st.sessions && s.isActive && s.sessionToken != "" && env.now <= s.expiresAt
    requires Get(req.cookies, SessionCookie) == Some(s.sessionToken)
    requires exists u :: u in st.users && u.id == s.userId
    ensures var r := AuthenticateRequest(env, st, req);
      r.1.info == Some(SessionInfo(s.sessionToken)) && r.1.user.Some? && r.1.user.value.id == s.userId
  {
    SessionAcceptedUntilExpiry(st, s, env.now);
  }

  // ---------------------------------------------------------------- account guards

  const AuthenticationRequired: HttpError := HttpError(Unauthorized, "Authentication required")
  const AccountDisabled: HttpError := HttpError(Forbidden, "User account is disabled")
  const InsufficientPrivileges: HttpError := HttpError(Forbidden, "Insufficient privileges")
  const VerificationRequired: HttpError := HttpError(Forbidden, "Email verification required")

  /** `get_current_user`: an account must have been authenticated; it is not checked further. */
  function GetCurrentUser(a: Authentication): (r: Result<User, HttpError>)
    ensures r.Success? <==> a.user.Some?
    ensures r.Success? ==> r.value == a.user.value
    ensures r.Failure? ==> r.error == AuthenticationRequired
  {
    if a.user.None? then Failure(AuthenticationRequired) else Success(a.user.value)
  }

  /** `get_current_active_user`: an authenticated account that is active. */
  function GetCurrentActiveUser(a: Authentication): (r: Result<User, HttpError>)
    ensures r.Success? <==> a.user.Some? && a.user.value.isActive
    ensures r.Success? ==> r.value == a.user.value
    ensures a.user.None? ==> r == Failure(AuthenticationRequired)
    ensures a.user.Some? && !a.user.value.isActive ==> r == Failure(AccountDisabled)
  {
    match GetCurrentUser(a)
    case Failure(e) => Failure(e)
    case Success(u) => if !u.isActive then Failure(AccountDisabled) else Success(u)
  }

  /** `get_current_superuser`: an active superuser; activity is checked first. */
  function GetCurrentSuperuser(a: Authentication): (r: Result<User, HttpError>)
    ensures r.Success? <==> a.user.Some? && a.user.value.isActive && a.user.value.isSuperuser
    ensures r.Success? ==> r.value == a.user.value
    ensures a.user.Some? && a.user.value.isActive && !a.user.value.isSuperuser ==> r == Failure(InsufficientPrivileges)
    ensures !(a.user.Some? && a.user.value.isActive) ==> r == GetCurrentActiveUser(a)
  {
    match GetCurrentActiveUser(a)
    case Failure(e) => Failure(e)
    case Success(u) => if !u.isSuperuser then Failure(InsufficientPrivileges) else Success(u)
  }

  /** `get_current_verified_user`: an active account with a verified email. */
  function GetCurrentVerifiedUser(a: Authentication): (r: Result<User, HttpError>)
    ensures r.Success? <==> a.user.Some? && a.user.value.isActive && a.user.value.isVerified
    ensures r.Success? ==> r.value == a.user.value
    ensures a.user.Some? && a.user.value.isActive && !a.user.value.isVerified ==> r == Failure(VerificationRequired)
    ensures !(a.user.Some? && a.user.value.isActive) ==> r == GetCurrentActiveUser(a)
  {
    match GetCurrentActiveUser(a)
    case Failure(e) => Failure(e)
    case Success(u) => if !u.isVerified then Failure(VerificationRequired) else Success(u)
  }

  /**
   * A request authenticated by a service key never passes an account guard: that strategy yields
   * no account, so every guarded route answers 401.
   */
  lemma ServiceKeyNeverPassesAccountGuards(env: AuthEnv, st: Store, req: Request)
    requires var r := AuthenticateRequest(env, st, req); r.1.info.Some? && r.1.info.value.ServiceKeyInfo?
    ensures GetCurrentUser(AuthenticateRequest(env, st, req).1) == Failure(AuthenticationRequired)
  {
  }

  // ---------------------------------------------------------------- service guards

  const ServiceAuthenticationRequired: HttpError := HttpError(Unauthorized, "Service authentication required")

  /** The `TypeError` raised by a membership test against a missing permission list, as a 500. */
  const PermissionsNotIterable: HttpError := HttpError(InternalServerError, "argument of type 'NoneType' is not iterable")

  /** `get_service_auth_info`: the request must have been authenticated by a service key. */
  function GetServiceAuthInfo(a: Authentication): (r: Result<AuthInfo, HttpError>)
    ensures r.Success? <==> a.info.Some? && a.info.value.ServiceKeyInfo?
    ensures r.Success? ==> r.value == a.info.value
    ensures r.Failure? ==> r.error == ServiceAuthenticationRequired
  {
    if a.info.Some? && a.info.value.ServiceKeyInfo? then Success(a.info.value) else Failure(ServiceAuthenticationRequired)
  }

  /**
   * `require_service_permission`: the service key must list the permission. A key stored with no
   * permission list makes the membership test itself fail.
   */
  function RequireServicePermission(a: Authentication, required: string): (r: Result<bool, HttpError>)
    ensures r.Success? <==>
      a.info.Some? && a.info.value.ServiceKeyInfo? && a.info.value.permissions.Some? && required in a.info.value.permissions.value
    ensures r.Success? ==> r.value
    ensures !(a.info.Some? && a.info.value.ServiceKeyInfo?) ==> r == Failure(ServiceAuthenticationRequired)
    ensures a.info.Some? && a.info.value.ServiceKeyInfo? && a.info.value.permissions.None? ==> r == Failure(PermissionsNotIterable)
    ensures a.info.Some? && a.info.value.ServiceKeyInfo? && a.info.value.permissions.Some? && required !in a.info.value.permissions.value
      ==> r == Failure(HttpError(Forbidden, "Service permission required: " + required))
  {
    match GetServiceAuthInfo(a)
    case Failure(e) => Failure(e)
    case Success(info) =>
      if info.permissions.None? then Failure(PermissionsNotIterable)
      else if required !in info.permissions.value then Failure(HttpError(Forbidden, "Service permission required: " + required))
      else Success(true)
  }

  // ---------------------------------------------------------------- project id

  /** The project id `auth_info.get("project_id")` yields: only a service-key authentication carries one. */
  function InfoProjectId(info: AuthInfo): (r: Option<string>)
    ensures r.Some? <==> info.ServiceKeyInfo?
  {
    if info.ServiceKeyInfo? then Some(info.projectId) else None
  }

  /**
   * `get_project_id_from_request`: the project header, else the `project_id` query parameter,
   * else the project of the authentication stored on the request, if any.
   */
  function GetProjectIdFromRequest(req: Request, stored: Option<AuthInfo>): (r: Option<string>)
    ensures Truthy(Get(req.headers, ProjectHeader)) ==> r == Get(req.headers, ProjectHeader)
    ensures !Truthy(Get(req.headers, ProjectHeader)) && Truthy(Get(req.query, ProjectQuery)) ==> r == Get(req.query, ProjectQuery)
    ensures !Truthy(Get(req.headers, ProjectHeader)) && !Truthy(Get(req.query, ProjectQuery)) ==>
      r == (if stored.Some? then InfoProjectId(stored.value) else None)
  {
    var header := Get(req.headers, ProjectHeader);
    if Truthy(header) then header
    else
      var query := Get(req.query, ProjectQuery);
      if Truthy(query) then query
      else if stored.Some? then InfoProjectId(stored.value)
      else None
  }

  const ProjectIdRequired: HttpError := HttpError(BadRequest, "Project ID is required")

  /** `require_project_id`: a present, non-empty project id. */
  function RequireProjectId(projectId: Option<string>): (r: Result<string, HttpError>)
    ensures r.Success? <==> Truthy(projectId)
    ensures r.Success? ==> r.value == projectId.value
    ensures r.Failure? ==> r.error == ProjectIdRequired
  {
    if Truthy(projectId) then Success(projectId.value) else Failure(ProjectIdRequired)
  }

  /**
   * A service-key request resolves to the project it named in its header, so the project id is
   * always found for it.
   */
  lemma ServiceKeyRequestHasProject(env: AuthEnv, st: Store, req: Request)
    requires var r := AuthenticateRequest(env, st, req); r.1.info.Some? && r.1.info.value.ServiceKeyInfo?
    ensures var r := AuthenticateRequest(env, st, req);
      RequireProjectId(GetProjectIdFromRequest(req, r.1.info)) == Success(r.1.info.value.projectId)
  {
  }

  // ---------------------------------------------------------------- pagination

  const DefaultLimit: int := 50
  const MaxLimit: int := 100

  /** `get_pagination_params`: a negative offset becomes 0, a non-positive limit 50, a limit above 100 becomes 100. */
  function GetPaginationParams(skip: int, limit: int): (r: (int, int))
    ensures r.0 >= 0 && 1 <= r.1 <= MaxLimit
    ensures skip >= 0 ==> r.0 == skip
    ensures skip < 0 ==> r.0 == 0
    ensures 1 <= limit <= MaxLimit ==> r.1 == limit
    ensures limit <= 0 ==> r.1 == DefaultLimit
    ensures limit > MaxLimit ==> r.1 == MaxLimit
  {
    (if skip < 0 then 0 else skip,
     if limit <= 0 then DefaultLimit else if limit > MaxLimit then MaxLimit else limit)
  }

  /** Clamping a clamped window changes nothing. */
  lemma PaginationIdempotent(skip: int, limit: int)
    ensures var (s, l) := GetPaginationParams(skip, limit); GetPaginationParams(s, l) == (s, l)
  {
  }

  // ---------------------------------------------------------------- rate limiting

  /** `RateLimiter`: the request instants recorded per key. */
  datatype RateLimiter = RateLimiter(maxRequests: int, windowSeconds: int, requests: map<string, seq<int>>)

  const DefaultRateLimiter: RateLimiter := RateLimiter(100, 3600, map[])

  /** The instants recorded for `key` that still lie inside the window ending at `now`. */
  function Recent(rl: RateLimiter, key: string, now: int): (r: seq<int>)
    ensures forall t :: t in r <==> key in rl.requests && t in rl.requests[key] && t > now - rl.windowSeconds
    ensures key in rl.requests ==> |r| <= |rl.requests[key]|
  {
    if key in rl.requests then Filter(rl.requests[key], (t: int) => t > now - rl.windowSeconds) else []
  }

  /**
   * `check_rate_limit`: forget the instants that left the window, then admit and record `now`
   * only if fewer than the maximum remain.
   */
  function CheckRateLimit(rl: RateLimiter, key: string, now: int): (r: (RateLimiter, bool))
    ensures r.0.maxRequests == rl.maxRequests && r.0.windowSeconds == rl.windowSeconds
    ensures key in r.0.requests
    ensures forall k :: k != key ==> (k in r.0.requests <==> k in rl.requests)
    ensures forall k :: k != key && k in rl.requests ==> r.0.requests[k] == rl.requests[k]
    ensures r.1 <==> |Recent(rl, key, now)| < rl.maxRequests
    ensures r.1 ==> r.0.requests[key] == Recent(rl, key, now) + [now]
    ensures !r.1 ==> r.0.requests[key] == Recent(rl, key, now)
  {
    var kept := Recent(rl, key, now);
    if |kept| >= rl.maxRequests then (rl.(requests := rl.requests[key := kept]), false)
    else (rl.(requests := rl.requests[key := kept + [now]]), true)
  }

  /** No key ever holds more recorded instants than the maximum. */
  predicate WithinLimit(rl: RateLimiter) {
    rl.maxRequests >= 0 && forall k :: k in rl.requests ==> |rl.requests[k]| <= rl.maxRequests
  }

  /** Checking keeps every key within the maximum, whatever the key and the instant. */
  lemma CheckRateLimitKeepsBound(rl: RateLimiter, key: string, now: int)
    requires WithinLimit(rl)
    ensures WithinLimit(CheckRateLimit(rl, key, now).0)
  {
    var rl' := CheckRateLimit(rl, key, now).0;
    forall k | k in rl'.requests ensures |rl'.requests[k]| <= rl'.maxRequests {
      if k == key && key in rl.requests {
        assert |Recent(rl, key, now)| <= |rl.requests[key]|;
      }
    }
  }

  /**
   * Once the maximum is reached inside a window, the next request in that window is refused and
   * records nothing new.
   */
  lemma FullWindowRefuses(rl: RateLimiter, key: string, now: int)
    requires |Recent(rl, key, now)| >= rl.maxRequests
    ensures !CheckRateLimit(rl, key, now).1
    ensures CheckRateLimit(rl, key, now).0.requests[key] == Recent(rl, key, now)
  {
  }

  const RateLimitExceeded: HttpError := HttpError(TooManyRequests, "Rate limit exceeded")

  /** The key requests are counted under: the account when one is authenticated, else the client host. */
  function RateKey(user: Option<User>, clientHost: Option<string>): (k: string)
    ensures user.Some? ==> k == "user:" + Text(user.value.id)
    ensures user.None? ==> k == "ip:" + clientHost.GetOr("unknown")
  {
    if user.Some? then "user:" + Text(user.value.id) else "ip:" + clientHost.GetOr("unknown")
  }

  /** Accounts never share a key with each other or with any host. */
  lemma RateKeysSeparate(u: User, v: User, host: Option<string>)
    ensures RateKey(Some(u), None) != RateKey(None, host)
    ensures RateKey(Some(u), None) == RateKey(Some(v), None) ==> u.id == v.id
  {
    assert RateKey(Some(u), None)[0] == 'u';
    assert RateKey(None, host)[0] == 'i';
    if RateKey(Some(u), None) == RateKey(Some(v), None) {
      assert Text(u.id) == RateKey(Some(u), None)[5..];
      assert Text(v.id) == RateKey(Some(v), None)[5..];
      TextInjective(u.id, v.id);
    }
  }

  /** The `check_rate_limit` dependency: 429 when the limiter refuses. */
  function CheckRequestRate(rl: RateLimiter, user: Option<User>, clientHost: Option<string>, now: int): (r: (RateLimiter, Result<bool, HttpError>))
    ensures r.0 == CheckRateLimit(rl, RateKey(user, clientHost), now).0
    ensures r.1.Success? <==> |Recent(rl, RateKey(user, clientHost), now)| < rl.maxRequests
    ensures r.1.Failure? ==> r.1.error == RateLimitExceeded
  {
    var (rl', ok) := CheckRateLimit(rl, RateKey(user, clientHost), now);
    (rl', if ok then Success(true) else Failure(RateLimitExceeded))
  }
}

=== FILE: middleware.dfy ===
/**
 * The authentication middleware: the same four strategies as the route dependencies, written
 * with its own credential extractors.
 */
module Middleware {
  import opened Wrappers
  import opened Uuids
  import opened Seqs
  import opened Models
  import opened Authenticators
  import opened Dependencies

  /** `_extract_api_key`: the API-key header when it is non-empty, else the `api_key` query parameter. */
  function ExtractApiKey(req: Request): (r: Option<string>)
    ensures Truthy(Get(req.headers, ApiKeyHeader)) ==> r == Get(req.headers, ApiKeyHeader)
    ensures !Truthy(Get(req.headers, ApiKeyHeader)) ==> r == Get(req.query, ApiKeyQuery)
  {
    var fromHeader := Get(req.headers, ApiKeyHeader);
    if Truthy(fromHeader) then fromHeader else Get(req.query, ApiKeyQuery)
  }

  /** `_extract_service_key`: the service-key header and the project header, each possibly missing. */
  function ExtractServiceKey(req: Request): (r: (Option<string>, Option<string>))
    ensures r.0.Some? <==> ServiceKeyHeader in req.headers
    ensures r.1.Some? <==> ProjectHeader in req.headers
    ensures r.0.Some? ==> r.0.value == req.headers[ServiceKeyHeader]
    ensures r.1.Some? ==> r.1.value == req.headers[ProjectHeader]
  {
    (Get(req.headers, ServiceKeyHeader), Get(req.headers, ProjectHeader))
  }

  /** `_extract_jwt_token`: what follows `Bearer ` in the authorization header, when it starts so. */
  function ExtractJwtToken(req: Request): (r: Option<string>)
    ensures r.Some? <==> AuthorizationHeader in req.headers && IsPrefix(BearerPrefix, req.headers[AuthorizationHeader])
    ensures r.Some? ==> req.headers[AuthorizationHeader] == BearerPrefix + r.value
  {
    var authorization := Get(req.headers, AuthorizationHeader);
    if Truthy(authorization) && IsPrefix(BearerPrefix, authorization.value) then
      var token := authorization.value[|BearerPrefix|..];
      assert authorization.value == BearerPrefix + token;
      Some(token)
    else None
  }

  /**
   * `AuthenticationMiddleware.authenticate_request`: the same chain as the route dependency,
   * with the credentials read by the extractors above. Accounts are never written, a caller is
   * always a stored account, each kind of result names the credential that produced it, and a
   * request without any credential is anonymous with nothing written.
   */
  function MiddlewareAuthenticate(env: AuthEnv, st: Store, req: Request): (r: (Store, Authentication))
    ensures r.0.users == st.users
    ensures r.1.info.None? ==> r.1 == Anonymous
    ensures r.1.user.Some? ==> r.1.user.value in st.users
    ensures r.1.info.Some? && r.1.info.value.SessionInfo? ==>
      r.1.user.Some? && Get(req.cookies, SessionCookie) == Some(r.1.info.value.sessionToken)
    ensures r.1.info.Some? && r.1.info.value.ServiceKeyInfo? ==>
      r.1.user.None? && r.1.info.value.projectId != "" && Get(req.headers, ProjectHeader) == Some(r.1.info.value.projectId)
    ensures r.1.info.Some? && r.1.info.value.JwtInfo? ==>
      r.1.user.Some? && Get(req.headers, AuthorizationHeader) == Some(BearerPrefix + r.1.info.value.token)
    ensures (!Truthy(Get(req.cookies, SessionCookie)) && !Truthy(ExtractApiKey(req))
             && !Truthy(ExtractServiceKey(req).0) && ExtractJwtToken(req).None?) ==> r == (st, Anonymous)
  {
    var sessionToken := Get(req.cookies, SessionCookie);
    var (st1, viaSession) := if Truthy(sessionToken) then SessionAuthenticate(st, sessionToken.value, env.now) else (st, None);
    if viaSession.Some? then (st1, Authentication(viaSession, Some(SessionInfo(sessionToken.value))))
    else
      var apiKey := ExtractApiKey(req);
      var (st2, viaKey) := if Truthy(apiKey) then ApiKeyAuthenticate(st1, env.sha, apiKey.value, env.now) else (st1, None);
      if viaKey.Some? then
        (st2, Authentication(viaKey.value.0, Some(ApiKeyInfo(Text(viaKey.value.1.id), viaKey.value.1.permissions))))
      else
        var (serviceKey, projectId) := ExtractServiceKey(req);
        var viaService := if Truthy(serviceKey) && Truthy(projectId)
                          then ServiceKeyAuthenticate(st2, env.sha, serviceKey.value, projectId.value) else None;
        if viaService.Some? then
          (st2, Authentication(None, Some(ServiceKeyInfo(Text(viaService.value.id), projectId.value, viaService.value.permissions))))
        else
          var jwtToken := ExtractJwtToken(req);
          if Truthy(jwtToken) then
            var viaJwt := JwtAuthenticate(st2, env.codec, jwtToken.value, env.now);
            if viaJwt.Some? then (st2, Authentication(viaJwt, Some(JwtInfo(jwtToken.value)))) else (st2, Anonymous)
          else (st2, Anonymous)
  }

  /** The middleware follows the priority chain: each strategy in order, first success wins. */
  lemma MiddlewareFollowsPriority(env: AuthEnv, st: Store, req: Request)
    ensures MiddlewareAuthenticate(env, st, req) == RunChain(env, st, req, Priority)
  {
    MiddlewareMatchesDependencies(env, st, req);
    AuthenticateRequestFollowsPriority(env, st, req);
  }

  /**
   * The middleware and the route dependency authenticate every request identically: same
   * strategies, same order, same writes, same result.
   */
  lemma MiddlewareMatchesDependencies(env: AuthEnv, st: Store, req: Request)
    ensures MiddlewareAuthenticate(env, st, req) == AuthenticateRequest(env, st, req)
  {
    var authorization := Get(req.headers, AuthorizationHeader);
    assert ExtractJwtToken(req) ==
      if Truthy(authorization) && IsPrefix(BearerPrefix, authorization.value)
      then Some(authorization.value[|BearerPrefix|..]) else None;
    assert ExtractServiceKey(req) == (Get(req.headers, ServiceKeyHeader), Get(req.headers, ProjectHeader));
    assert ExtractApiKey(req) ==
      if Truthy(Get(req.headers, ApiKeyHeader)) then Get(req.headers, ApiKeyHeader) else Get(req.query, ApiKeyQuery);
  }
}

=== FILE: models.dfy ===
/**
 * The persistent records of the identity and authorization store, and the store itself.
 * Every table is a sequence of rows in storage order; timestamps are readings of the one
 * integer clock, in seconds.
 */
module Models {
  import opened Wrappers
  import opened Uuids
  import opened Seqs

  /** An account. `username` and `email` are UNIQUE; `password_hash` is required. */
  datatype User = User(
    id: Uuid,
    username: string,
    email: string,
    passwordHash: string,
    displayName: Option<string>,
    avatarUrl: Option<string>,
    phone: Option<string>,
    isActive: bool,
    isVerified: bool,
    isSuperuser: bool,
    createdAt: int,
    lastLoginAt: Option<int>,
    loginCount: int)

  /** A login session. `session_token` is UNIQUE and required; `refresh_token` is UNIQUE when present. */
  datatype Session = Session(
    id: Uuid,
    userId: Uuid,
    sessionToken: string,
    refreshToken: Option<string>,
    projectId: Option<Uuid>,
    ipAddress: Option<string>,
    userAgent: Option<string>,
    expiresAt: int,
    isActive: bool,
    createdAt: int,
    lastAccessedAt: int)

  /** A personal API key; only the digest of the raw key is stored, and `key_hash` is UNIQUE. */
  datatype ApiKey = ApiKey(
    id: Uuid,
    userId: Uuid,
    name: string,
    keyHash: string,
    permissions: Option<set<string>>,
    ipWhitelist: Option<seq<string>>,
    rateLimit: int,
    expiresAt: Option<int>,
    isActive: bool,
    lastUsedAt: Option<int>,
    createdAt: int)

  /** A key for a calling service. `key_hash` is UNIQUE; the record has no expiry. */
  datatype ServiceKey = ServiceKey(
    id: Uuid,
    projectId: Uuid,
    serviceName: string,
    keyHash: string,
    allowedProjects: Option<seq<Uuid>>,
    permissions: Option<set<string>>,
    isActive: bool,
    createdAt: int)

  /** A single-sign-on authorization code. `code` is UNIQUE. */
  datatype AuthCode = AuthCode(
    id: Uuid,
    code: string,
    userId: Uuid,
    project: string,
    redirectUri: string,
    isUsed: bool,
    expiresAt: int,
    usedAt: Option<int>,
    createdAt: int)

  /** A client application. `code` is UNIQUE. */
  datatype Project = Project(
    id: Uuid,
    name: string,
    code: string,
    description: Option<string>,
    baseUrl: Option<string>,
    isActive: bool,
    createdAt: int)

  /** A role; a missing project means a global role. Nothing makes `code` unique. */
  datatype Role = Role(
    id: Uuid,
    name: string,
    code: string,
    description: Option<string>,
    projectId: Option<Uuid>,
    isSystem: bool,
    createdAt: int)

  /** A permission; every permission belongs to a project. */
  datatype Permission = Permission(
    id: Uuid,
    name: string,
    code: string,
    description: Option<string>,
    resourceType: string,
    action: string,
    projectId: Uuid,
    createdAt: int)

  /** A link granting a permission to a role. */
  datatype RolePermission = RolePermission(id: Uuid, roleId: Uuid, permissionId: Uuid, createdAt: int)

  /**
   * A role assignment; a missing project means the assignment is global. The schema enforces
   * no uniqueness of (user, role, project); only the assignment code checks it.
   */
  datatype UserRole = UserRole(
    id: Uuid,
    userId: Uuid,
    roleId: Uuid,
    projectId: Option<Uuid>,
    grantedBy: Option<Uuid>,
    grantedAt: int,
    expiresAt: Option<int>,
    isActive: bool)

  datatype Store = Store(
    users: seq<User>,
    sessions: seq<Session>,
    apiKeys: seq<ApiKey>,
    serviceKeys: seq<ServiceKey>,
    authCodes: seq<AuthCode>,
    projects: seq<Project>,
    roles: seq<Role>,
    permissions: seq<Permission>,
    rolePermissions: seq<RolePermission>,
    userRoles: seq<UserRole>)

  function EmptyStore(): (st: Store)
    ensures Consistent(st)
  {
    Store([], [], [], [], [], [], [], [], [], [])
  }

  /** No two rows with a present value of `key` share it: a UNIQUE nullable column. */
  predicate DistinctWhenPresent<T>(s: seq<T>, key: T -> Option<string>) {
    forall i, j :: 0 <= i < j < |s| && key(s[i]).Some? ==> key(s[i]) != key(s[j])
  }

  /** The primary keys and UNIQUE columns the schema declares. */
  predicate Consistent(st: Store) {
    && DistinctBy(st.users, (u: User) => u.id)
    && DistinctBy(st.users, (u: User) => u.username)
    && DistinctBy(st.users, (u: User) => u.email)
    && DistinctBy(st.sessions, (s: Session) => s.id)
    && DistinctBy(st.sessions, (s: Session) => s.sessionToken)
    && DistinctWhenPresent(st.sessions, (s: Session) => s.refreshToken)
    && DistinctBy(st.apiKeys, (k: ApiKey) => k.id)
    && DistinctBy(st.apiKeys, (k: ApiKey) => k.keyHash)
    && DistinctBy(st.serviceKeys, (k: ServiceKey) => k.id)
    && DistinctBy(st.serviceKeys, (k: ServiceKey) => k.keyHash)
    && DistinctBy(st.authCodes, (c: AuthCode) => c.id)
    && DistinctBy(st.authCodes, (c: AuthCode) => c.code)
    && DistinctBy(st.projects, (p: Project) => p.id)
    && DistinctBy(st.projects, (p: Project) => p.code)
    && DistinctBy(st.roles, (r: Role) => r.id)
    && DistinctBy(st.permissions, (p: Permission) => p.id)
    && DistinctBy(st.rolePermissions, (l: RolePermission) => l.id)
    && DistinctBy(st.userRoles, (a: UserRole) => a.id)
  }

  /**
   * Some row refers to the project through a foreign key (a session's or an assignment's optional
   * project, a service key's, a role's or a permission's project). None of these keys cascades,
   * so the database refuses to delete a referenced project.
   */
  predicate ProjectReferenced(st: Store, id: Uuid) {
    || (exists s :: s in st.sessions && s.projectId == Some(id))
    || (exists k :: k in st.serviceKeys && k.projectId == id)
    || (exists x :: x in st.roles && x.projectId == Some(id))
    || (exists p :: p in st.permissions && p.projectId == id)
    || (exists a :: a in st.userRoles && a.projectId == Some(id))
  }

  /** Some permission link or assignment refers to the role; the database refuses to delete it then. */
  predicate RoleReferenced(st: Store, id: Uuid) {
    || (exists l :: l in st.rolePermissions && l.roleId == id)
    || (exists a :: a in st.userRoles && a.roleId == id)
  }

  predicate ProjectExists(st: Store, id: Uuid) {
    exists p :: p in st.projects && p.id == id
  }

  predicate RoleExists(st: Store, id: Uuid) {
    exists x :: x in st.roles && x.id == id
  }

  /** Every foreign key to a project names a stored project: what the database keeps true. */
  predicate ProjectRefsResolve(st: Store) {
    && (forall s :: s in st.sessions && s.projectId.Some? ==> ProjectExists(st, s.projectId.value))
    && (forall k :: k in st.serviceKeys ==> ProjectExists(st, k.projectId))
    && (forall x :: x in st.roles && x.projectId.Some? ==> ProjectExists(st, x.projectId.value))
    && (forall p :: p in st.permissions ==> ProjectExists(st, p.projectId))
    && (forall a :: a in st.userRoles && a.projectId.Some? ==> ProjectExists(st, a.projectId.value))
  }

  /** Every foreign key to a role names a stored role. */
  predicate RoleRefsResolve(st: Store) {
    && (forall l :: l in st.rolePermissions ==> RoleExists(st, l.roleId))
    && (forall a :: a in st.userRoles ==> RoleExists(st, a.roleId))
  }

  /**
   * The text of the exception the commit raises when a deletion breaks a foreign key; the
   * driver's full message is not reproduced, only that one is raised.
   */
  const ForeignKeyViolation: string := "violates foreign key constraint"

  /** A column value, for the generic equality filters of the store. */
  datatype FieldValue = FStr(s: string) | FBool(b: bool) | FInt(i: int) | FId(u: Uuid) | FNull

  function OptStr(v: Option<string>): FieldValue {
    if v.Some? then FStr(v.value) else FNull
  }

  /** The columns of `users`, by name; `None` for a name that is not a column. */
  function UserAttr(u: User, name: string): Option<FieldValue> {
    match name
    case "id" => Some(FId(u.id))
    case "username" => Some(FStr(u.username))
    case "email" => Some(FStr(u.email))
    case "password_hash" => Some(FStr(u.passwordHash))
    case "display_name" => Some(OptStr(u.displayName))
    case "avatar_url" => Some(OptStr(u.avatarUrl))
    case "phone" => Some(OptStr(u.phone))
    case "is_active" => Some(FBool(u.isActive))
    case "is_verified" => Some(FBool(u.isVerified))
    case "is_superuser" => Some(FBool(u.isSuperuser))
    case "created_at" => Some(FInt(u.createdAt))
    case "last_login_at" => Some(if u.lastLoginAt.Some? then FInt(u.lastLoginAt.value) else FNull)
    case "login_count" => Some(FInt(u.loginCount))
    case _ => None
  }

  /** The columns of `projects`, by name. */
  function ProjectAttr(p: Project, name: string): Option<FieldValue> {
    match name
    case "id" => Some(FId(p.id))
    case "name" => Some(FStr(p.name))
    case "code" => Some(FStr(p.code))
    case "description" => Some(OptStr(p.description))
    case "base_url" => Some(OptStr(p.baseUrl))
    case "is_active" => Some(FBool(p.isActive))
    case "created_at" => Some(FInt(p.createdAt))
    case _ => None
  }

  /** The columns of `permissions`, by name. */
  function PermissionAttr(p: Permission, name: string): Option<FieldValue> {
    match name
    case "id" => Some(FId(p.id))
    case "name" => Some(FStr(p.name))
    case "code" => Some(FStr(p.code))
    case "description" => Some(OptStr(p.description))
    case "resource_type" => Some(FStr(p.resourceType))
    case "action" => Some(FStr(p.action))
    case "project_id" => Some(FId(p.projectId))
    case "created_at" => Some(FInt(p.createdAt))
    case _ => None
  }
}

=== FILE: patterns.dfy ===
/**
 * The one regular-expression shape the validators use: `re.match(r'^[class]+$', v)`.
 * Python's `$` also matches just before a final newline, so the pattern accepts a value whose
 * last character is a newline; `FullMatch` is the intended whole-string match.
 */
module Patterns {
  /** Every character of `v` is in the class, and there is at least one. */
  predicate FullMatch(v: string, cls: char -> bool) {
    |v| >= 1 && forall i :: 0 <= i < |v| ==> cls(v[i])
  }

  /** `re.match(r'^[class]+$', v)` as Python evaluates it. */
  predicate MatchAsWritten(v: string, cls: char -> bool) {
    FullMatch(v, cls) || (|v| >= 2 && v[|v| - 1] == '\n' && FullMatch(v[..|v| - 1], cls))
  }

  /** The written pattern accepts everything the intended one does, and the intended one never a newline. */
  lemma MatchAsWrittenCharacterised(v: string, cls: char -> bool)
    requires !cls('\n')
    ensures FullMatch(v, cls) ==> MatchAsWritten(v, cls)
    ensures FullMatch(v, cls) ==> '\n' !in v
  {
  }

  /** A value the written pattern accepts although it ends in a newline. */
  lemma {:induction false} TrailingNewlineAccepted(body: string, cls: char -> bool)
    requires FullMatch(body, cls)
    requires !cls('\n')
    ensures MatchAsWritten(body + "\n", cls)
    ensures !FullMatch(body + "\n", cls)
  {
    var v := body + "\n";
    assert v[..|v| - 1] == body;
    assert v[|v| - 1] == '\n';
  }
}

=== FILE: permission_guards.dfy ===
/**
 * The two route decorators that guard a handler by permissions or by roles, written as guard
 * functions: they either let the request through with its account or say which error to raise.
 */
module PermissionGuards {
  import opened Wrappers
  import opened Uuids
  import opened Models
  import opened Common
  import RbacService
  import CrudRbac

  /** A decorator argument: one name, or a list of names. */
  datatype Names = One(name: string) | Many(names: seq<string>)

  /** A single name is checked as a one-element list. */
  function Normalise(n: Names): (r: seq<string>)
    ensures n.One? ==> r == [n.name]
    ensures n.Many? ==> r == n.names
  {
    match n
    case One(x) => [x]
    case Many(xs) => xs
  }

  const NotAuthenticated: HttpError := HttpError(Unauthorized, "未认证")
  const MissingPermissionPrefix: string := "缺少权限: "
  const MissingRolePrefix: string := "缺少角色: "

  /** The first name of the list that is not in `s`, if there is one. */
  function FirstNotIn(names: seq<string>, s: set<string>): (r: Option<string>)
    ensures r.None? <==> forall i :: 0 <= i < |names| ==> names[i] in s
    ensures r.Some? ==> exists i :: (0 <= i < |names| && names[i] == r.value && r.value !in s &&
      forall j :: 0 <= j < i ==> names[j] in s)
    decreases |names|, 1
  {
    if |names| == 0 then None
    else if names[0] !in s then Some(names[0])
    else
      FirstNotInStep(names, s);
      FirstNotIn(names[1..], s)
  }

  /** A name found in `s` at the head of the list is skipped: what holds of the tail holds of the list. */
  lemma FirstNotInStep(names: seq<string>, s: set<string>)
    requires |names| > 0 && names[0] in s
    ensures var rest := FirstNotIn(names[1..], s);
      && (rest.None? <==> forall i :: 0 <= i < |names| ==> names[i] in s)
      && (rest.Some? ==> exists i :: (0 <= i < |names| && names[i] == rest.value && rest.value !in s &&
            forall j :: 0 <= j < i ==> names[j] in s))
    decreases |names|, 0
  {
    var rest := FirstNotIn(names[1..], s);
    if rest.Some? {
      var i :| 0 <= i < |names[1..]| && names[1..][i] == rest.value && rest.value !in s &&
        forall j :: 0 <= j < i ==> names[1..][j] in s;
      assert names[i + 1] == rest.value;
      forall j | 0 <= j < i + 1 ensures names[j] in s {
        if j > 0 { assert names[j] == names[1..][j - 1]; }
      }
    } else {
      forall i | 0 <= i < |names| ensures names[i] in s {
        if i > 0 { assert names[i] == names[1..][i - 1]; }
      }
    }
  }

  /**
   * The permission loop of `require_permission`: each name is checked in turn through the cached
   * resolver, and the first one that is missing stops the loop.
   */
  function FirstMissingPermission(st: Store, c: RbacService.PermissionCache, userId: Uuid, names: seq<string>,
                                  projectId: Option<Uuid>, now: int, faults: RbacService.CacheFaults)
    : (r: (RbacService.PermissionCache, Option<string>))
    ensures r.1.Some? ==> r.1.value in names
    decreases |names|
  {
    if |names| == 0 then (c, None)
    else
      var (c', ok) := RbacService.CheckPermission(st, c, userId, names[0], projectId, now, faults);
      if !ok then (c', Some(names[0]))
      else
        var r := FirstMissingPermission(st, c', userId, names[1..], projectId, now, faults);
        assert r.1.Some? ==> r.1.value in names[1..];
        r
  }

  /**
   * From a coherent cache, the loop finds exactly the first name outside the account's effective
   * permissions, and leaves the cache coherent.
   */
  lemma {:induction false} FirstMissingIsFirstNotIn(st: Store, c: RbacService.PermissionCache, userId: Uuid,
                                                    names: seq<string>, projectId: Option<Uuid>, now: int,
                                                    faults: RbacService.CacheFaults)
    requires RbacService.Coherent(st, c, now)
    ensures var r := FirstMissingPermission(st, c, userId, names, projectId, now, faults);
      r.1 == FirstNotIn(names, RbacService.EffectivePermissions(st, userId, projectId, now))
      && RbacService.Coherent(st, r.0, now)
    decreases |names|
  {
    if |names| > 0 {
      RbacService.GetUserPermissionsCoherent(st, c, userId, projectId, now, faults);
      var (c', ok) := RbacService.CheckPermission(st, c, userId, names[0], projectId, now, faults);
      if ok {
        FirstMissingIsFirstNotIn(st, c', userId, names[1..], projectId, now, faults);
      }
    }
  }

  /**
   * `require_permission`: 401 without an account or a database session; a superuser passes
   * without any check; anyone else needs every listed permission, and the first missing one is
   * named in a 403.
   */
  function RequirePermission(st: Store, c: RbacService.PermissionCache, user: Option<User>, hasDb: bool,
                             permission: Names, projectId: Option<Uuid>, now: int, faults: RbacService.CacheFaults)
    : (r: (RbacService.PermissionCache, Result<User, HttpError>))
    ensures user.None? || !hasDb ==> r == (c, Failure(NotAuthenticated))
    ensures user.Some? && hasDb && user.value.isSuperuser ==> r == (c, Success(user.value))
    ensures r.1.Success? ==> user.Some? && r.1.value == user.value
    ensures r.1.Failure? && r.1.error != NotAuthenticated ==>
      r.1.error.status == Forbidden && exists p :: p in Normalise(permission) && r.1.error.detail == MissingPermissionPrefix + p
  {
    if user.None? || !hasDb then (c, Failure(NotAuthenticated))
    else if user.value.isSuperuser then (c, Success(user.value))
    else
      var (c', missing) := FirstMissingPermission(st, c, user.value.id, Normalise(permission), projectId, now, faults);
      if missing.Some? then (c', Failure(HttpError(Forbidden, MissingPermissionPrefix + missing.value)))
      else (c', Success(user.value))
  }

  /**
   * With a coherent cache, an ordinary account passes `require_permission` exactly when every
   * listed permission is among its effective permissions (a conjunction), and is refused naming
   * the first one that is not.
   */
  lemma RequirePermissionIsConjunction(st: Store, c: RbacService.PermissionCache, u: User,
                                       permission: Names, projectId: Option<Uuid>, now: int,
                                       faults: RbacService.CacheFaults)
    requires RbacService.Coherent(st, c, now)
    requires !u.isSuperuser
    ensures var r := RequirePermission(st, c, Some(u), true, permission, projectId, now, faults);
      var granted := RbacService.EffectivePermissions(st, u.id, projectId, now);
      && (r.1.Success? <==> forall p :: p in Normalise(permission) ==> p in granted)
      && (r.1.Failure? ==> r.1.error == HttpError(Forbidden, MissingPermissionPrefix + FirstNotIn(Normalise(permission), granted).value))
      && RbacService.Coherent(st, r.0, now)
  {
    FirstMissingIsFirstNotIn(st, c, u.id, Normalise(permission), projectId, now, faults);
  }

  /** `', '.join(names)`. */
  function Join(sep: string, names: seq<string>): string {
    if |names| == 0 then "" else if |names| == 1 then names[0] else names[0] + sep + Join(sep, names[1..])
  }

  /** The role codes an account holds in a scope, as `get_user_roles` reports them. */
  function HeldRoleCodes(st: Store, userId: Uuid, projectId: Option<Uuid>): (r: set<string>)
    ensures forall code :: code in r <==>
      exists role :: role in CrudRbac.RoleGetUserRoles(st, userId, projectId) && role.code == code
  {
    set role | role in CrudRbac.RoleGetUserRoles(st, userId, projectId) :: role.code
  }

  /**
   * `require_roles`: 401 without an account or a database session; a superuser passes; anyone
   * else needs at least one of the listed roles, else a 403 names them all.
   */
  function RequireRoles(st: Store, user: Option<User>, hasDb: bool, roles: Names, projectId: Option<Uuid>)
    : (r: Result<User, HttpError>)
    ensures user.None? || !hasDb ==> r == Failure(NotAuthenticated)
    ensures user.Some? && hasDb && user.value.isSuperuser ==> r == Success(user.value)
    ensures user.Some? && hasDb && !user.value.isSuperuser ==>
      (r.Success? <==> exists i :: 0 <= i < |Normalise(roles)| && Normalise(roles)[i] in HeldRoleCodes(st, user.value.id, projectId))
    ensures r.Success? ==> user.Some? && r.value == user.value
    ensures r.Failure? && r.error != NotAuthenticated ==>
      r.error == HttpError(Forbidden, MissingRolePrefix + Join(", ", Normalise(roles)))
  {
    if user.None? || !hasDb then Failure(NotAuthenticated)
    else if user.value.isSuperuser then Success(user.value)
    else
      var required := Normalise(roles);
      var held := HeldRoleCodes(st, user.value.id, projectId);
      if exists i :: 0 <= i < |required| && required[i] in held then Success(user.value)
      else Failure(HttpError(Forbidden, MissingRolePrefix + Join(", ", required)))
  }

  /**
   * `require_roles` looks only at the assignment's activity flag, never at its expiry: an
   * assignment that expired long ago still satisfies it, while it grants no permission.
   */
  lemma RequireRolesIgnoresExpiry(st: Store, u: User, a: UserRole, role: Role, projectId: Option<Uuid>, now: int)
    requires !u.isSuperuser
    requires a in st.userRoles && role in st.roles && a.roleId == role.id
    requires CrudRbac.RoleJoinAssignment(a, u.id, projectId)
    requires a.expiresAt.Some? && a.expiresAt.value < now
    ensures RequireRoles(st, Some(u), true, One(role.code), projectId) == Success(u)
    ensures !RbacService.GrantsPermissions(a, now)
  {
    assert role in CrudRbac.RoleGetUserRoles(st, u.id, projectId);
    assert role.code in HeldRoleCodes(st, u.id, projectId);
    assert Normalise(One(role.code))[0] == role.code;
  }

  /** An empty role list can never be satisfied by an ordinary account. */
  lemma EmptyRoleListRefuses(st: Store, u: User, projectId: Option<Uuid>)
    requires !u.isSuperuser
    ensures RequireRoles(st, Some(u), true, Many([]), projectId) == Failure(HttpError(Forbidden, MissingRolePrefix))
  {
    assert MissingRolePrefix + "" == MissingRolePrefix;
  }
}

=== FILE: permissions_router.dfy ===
/**
 * The permission routes (`/api/v1/permissions`): the listings need an active account (a user's
 * permissions are shown to that user or to a superuser), replacing a role's permissions needs a
 * superuser. Refusals are raised.
 */
module PermissionsRouter {
  import opened Wrappers
  import opened Uuids
  import opened Seqs
  import opened Models
  import opened Common
  import opened Routes
  import Dependencies
  import RbacService
  import CrudRbac
  import Cache

  const ListedMessage: string := "Permissions retrieved successfully"
  const RoleListedMessage: string := "Role permissions retrieved successfully"
  const UserListedMessage: string := "User permissions retrieved successfully"
  const AssignedMessage: string := "Permissions assigned successfully"

  const InvalidProjectId: HttpError := HttpError(BadRequest, "Invalid project ID format")
  const InvalidRoleId: HttpError := HttpError(BadRequest, "Invalid role ID format")
  const InvalidIdFormat: HttpError := HttpError(BadRequest, "Invalid ID format")
  const PermissionDenied: HttpError := HttpError(Forbidden, "Permission denied")

  /** `PermissionResponse`: a permission as the routes render it, its ids as text. */
  datatype PermissionResponse = PermissionResponse(id: string, name: string, code: string, description: Option<string>,
                                                   resourceType: string, action: string, projectId: string, createdAt: int)

  function Render(p: Permission): (r: PermissionResponse)
    ensures r.id == Text(p.id) && r.code == p.code && r.projectId == Text(p.projectId)
  {
    PermissionResponse(Text(p.id), p.name, p.code, p.description, p.resourceType, p.action, Text(p.projectId), p.createdAt)
  }

  /** Rendering loses nothing: a rendered permission determines the permission. */
  lemma RenderInjective(p: Permission, q: Permission)
    ensures Render(p) == Render(q) <==> p == q
  {
    if Render(p) == Render(q) {
      ParseText(p.id);
      ParseText(q.id);
      ParseText(p.projectId);
      ParseText(q.projectId);
    }
  }

  /** The rendering of a sequence holds exactly the renderings of its elements. */
  lemma RenderedExactly(ps: seq<Permission>)
    ensures forall v :: v in Map(ps, Render) <==> exists p :: p in ps && v == Render(p)
  {
    forall v | v in Map(ps, Render) ensures exists p :: p in ps && v == Render(p) {
      var i :| 0 <= i < |ps| && Map(ps, Render)[i] == v;
      assert ps[i] in ps;
    }
    forall p | p in ps ensures Render(p) in Map(ps, Render) {
      var i :| 0 <= i < |ps| && ps[i] == p;
      assert Map(ps, Render)[i] == Render(p);
    }
  }

  /** The `project_id` query: absent or empty means every project; other text must be an id. */
  function ProjectQuery(projectId: Option<string>): (r: Option<Option<Uuid>>)
    ensures !Dependencies.Truthy(projectId) ==> r == Some(None)
    ensures Dependencies.Truthy(projectId) ==>
      (r.Some? <==> Parse(projectId.value).Some?) && (r.Some? ==> r.value == Parse(projectId.value))
  {
    if !Dependencies.Truthy(projectId) then Some(None)
    else match Parse(projectId.value)
      case None => None
      case Some(id) => Some(Some(id))
  }

  // ---------------------------------------------------------------- GET /permissions

  /**
   * The permissions `get_permissions` lists, as written: a project's permissions are cut to the
   * page once; without a project the store already returned the page, and the handler cuts it
   * again with the same bounds.
   */
  function ListPermissionsAsWritten(st: Store, skip: nat, limit: nat, scope: Option<Uuid>): (r: seq<Permission>)
    ensures |r| <= limit
    ensures forall p :: p in r ==> p in st.permissions && (scope.Some? ==> p.projectId == scope.value)
  {
    var fetched := if scope.Some? then CrudRbac.GetProjectPermissions(st, scope.value) else Slice(st.permissions, skip, skip + limit);
    Slice(fetched, skip, skip + limit)
  }

  /** The page `get_permissions` evidently means: the matching permissions from `skip` on, at most `limit`. */
  function ListPermissions(st: Store, skip: nat, limit: nat, scope: Option<Uuid>): (r: seq<Permission>)
    ensures |r| <= limit
    ensures forall p :: p in r ==> p in st.permissions && (scope.Some? ==> p.projectId == scope.value)
    ensures scope.None? ==> forall i :: 0 <= i < |r| ==> skip + i < |st.permissions| && r[i] == st.permissions[skip + i]
    ensures scope.None? && skip + limit <= |st.permissions| ==> |r| == limit
  {
    var fetched := if scope.Some? then CrudRbac.GetProjectPermissions(st, scope.value) else st.permissions;
    Slice(fetched, skip, skip + limit)
  }

  /** The two agree for a project, and on the first page. */
  lemma ListPermissionsAgreeOnFirstPage(st: Store, skip: nat, limit: nat, scope: Option<Uuid>)
    requires scope.Some? || skip == 0
    ensures ListPermissionsAsWritten(st, skip, limit, scope) == ListPermissions(st, skip, limit, scope)
  {
    if scope.None? {
      var once := Slice(st.permissions, 0, limit);
      assert Slice(once, 0, limit) == once;
    }
  }

  /**
   * Without a project, any page past the first that starts at or after its own length comes
   * back empty as written, although the store holds a full page there: with 100 permissions,
   * `skip=50&limit=50` lists nothing instead of the last fifty.
   */
  lemma ListPermissionsAsWrittenSkipsTwice(st: Store, skip: nat, limit: nat)
    requires 0 < limit <= skip && skip + limit <= |st.permissions|
    ensures ListPermissionsAsWritten(st, skip, limit, None) == []
    ensures |ListPermissions(st, skip, limit, None)| == limit
  {
  }

  /**
   * `get_permissions`' handler: 400 for a malformed project id; otherwise the page, rendered.
   * `skipTwice` selects the listing as written or as evidently intended.
   */
  function ListPermissionsReply(st: Store, skip: int, limit: int, projectId: Option<string>, skipTwice: bool)
    : (r: Result<Reply<seq<PermissionResponse>>, HttpError>)
    ensures r.Failure? <==> ProjectQuery(projectId).None?
    ensures r.Failure? ==> r.error == InvalidProjectId
    ensures r.Success? ==>
      var page := if skipTwice then ListPermissionsAsWritten(st, PageParam(skip), PageParam(limit), ProjectQuery(projectId).value)
                  else ListPermissions(st, PageParam(skip), PageParam(limit), ProjectQuery(projectId).value);
      r.value.Envelope? && r.value.response == BaseResponse(true, 200, ListedMessage) && r.value.data == Some(Map(page, Render))
  {
    match ProjectQuery(projectId)
    case None => Failure(InvalidProjectId)
    case Some(scope) =>
      var page := if skipTwice then ListPermissionsAsWritten(st, PageParam(skip), PageParam(limit), scope)
                  else ListPermissions(st, PageParam(skip), PageParam(limit), scope);
      Success(Ok(ListedMessage, Map(page, Render)))
  }

  function ListPermissionsHandler(st: Store, skip: int, limit: int, projectId: Option<string>, skipTwice: bool)
    : User -> (Store, Result<Reply<seq<PermissionResponse>>, HttpError>)
  {
    (caller: User) => (st, ListPermissionsReply(st, skip, limit, projectId, skipTwice))
  }

  function GetPermissionsRoute(st: Store, c: RbacService.PermissionCache, auth: Dependencies.Authentication,
                               skip: int, limit: int, projectId: Option<string>, skipTwice: bool,
                               now: int, faults: RbacService.CacheFaults): (r: Outcome<seq<PermissionResponse>>)
    ensures r.st == st && r.cache == c
    ensures auth.user.Some? && auth.user.value.isActive && PageQueryValid(skip, limit) ==>
      r.result == ListPermissionsReply(st, skip, limit, projectId, skipTwice)
    ensures !(auth.user.Some? && auth.user.value.isActive && PageQueryValid(skip, limit)) ==>
      r.result.Failure? && r.result.error.status in {Unauthorized, Forbidden, 422}
  {
    Guarded(st, c, auth, ActiveUser, PageQueryValid(skip, limit), None, now, faults,
            ListPermissionsHandler(st, skip, limit, projectId, skipTwice))
  }

  // ---------------------------------------------------------------- GET /permissions/role/{role_id}

  /** `get_role_permissions`' handler: 400 for a malformed id; otherwise the linked permissions (none for an unknown role). */
  function RolePermissionsReply(st: Store, roleId: string): (r: Result<Reply<seq<PermissionResponse>>, HttpError>)
    ensures Parse(roleId).None? ==> r == Failure(InvalidRoleId)
    ensures r.Success? <==> Parse(roleId).Some?
    ensures r.Success? ==> r.value.Envelope? && r.value.response == BaseResponse(true, 200, RoleListedMessage) && r.value.data.Some?
    ensures r.Success? ==> forall v :: v in r.value.data.value <==>
      exists p :: p in st.permissions && v == Render(p) &&
        exists l :: l in st.rolePermissions && l.roleId == Parse(roleId).value && l.permissionId == p.id
  {
    match Parse(roleId)
    case None => Failure(InvalidRoleId)
    case Some(id) =>
      RenderedExactly(CrudRbac.GetRolePermissions(st, id));
      Success(Ok(RoleListedMessage, Map(CrudRbac.GetRolePermissions(st, id), Render)))
  }

  function RolePermissionsHandler(st: Store, roleId: string): User -> (Store, Result<Reply<seq<PermissionResponse>>, HttpError>) {
    (caller: User) => (st, RolePermissionsReply(st, roleId))
  }

  function GetRolePermissionsRoute(st: Store, c: RbacService.PermissionCache, auth: Dependencies.Authentication,
                                   roleId: string, now: int, faults: RbacService.CacheFaults): (r: Outcome<seq<PermissionResponse>>)
    ensures r.st == st && r.cache == c
    ensures auth.user.Some? && auth.user.value.isActive ==> r.result == RolePermissionsReply(st, roleId)
    ensures !(auth.user.Some? && auth.user.value.isActive) ==> r.result.Failure? && r.result.error.status in {Unauthorized, Forbidden}
  {
    Guarded(st, c, auth, ActiveUser, true, None, now, faults, RolePermissionsHandler(st, roleId))
  }

  // ---------------------------------------------------------------- GET /permissions/user/{user_id}

  /**
   * `get_user_permissions`' handler: 400 when the account id or a given project id is
   * malformed; 403 when the caller is not a superuser and the path is not the caller's id
   * written exactly as printed; otherwise the permissions that reach that account.
   */
  function UserPermissionsReply(st: Store, caller: User, userId: string, projectId: Option<string>)
    : (r: Result<Reply<seq<PermissionResponse>>, HttpError>)
    ensures Parse(userId).None? || ProjectQuery(projectId).None? ==> r == Failure(InvalidIdFormat)
    ensures Parse(userId).Some? && ProjectQuery(projectId).Some? && Text(caller.id) != userId && !caller.isSuperuser ==>
      r == Failure(PermissionDenied)
    ensures r.Success? <==>
      Parse(userId).Some? && ProjectQuery(projectId).Some? && (Text(caller.id) == userId || caller.isSuperuser)
    ensures r.Success? ==> r.value.Envelope? && r.value.response == BaseResponse(true, 200, UserListedMessage) && r.value.data.Some?
    ensures r.Success? ==> forall v :: v in r.value.data.value <==>
      exists p :: p in st.permissions && v == Render(p) &&
        CrudRbac.ReachesUser(st, p, Parse(userId).value, ProjectQuery(projectId).value)
  {
    match (Parse(userId), ProjectQuery(projectId))
    case (Some(u), Some(scope)) =>
      if Text(caller.id) != userId && !caller.isSuperuser then Failure(PermissionDenied)
      else
        RenderedExactly(CrudRbac.PermissionGetUserPermissions(st, u, scope));
        Success(Ok(UserListedMessage, Map(CrudRbac.PermissionGetUserPermissions(st, u, scope), Render)))
    case _ => Failure(InvalidIdFormat)
  }

  function UserPermissionsHandler(st: Store, userId: string, projectId: Option<string>)
    : User -> (Store, Result<Reply<seq<PermissionResponse>>, HttpError>)
  {
    (caller: User) => (st, UserPermissionsReply(st, caller, userId, projectId))
  }

  function GetUserPermissionsRoute(st: Store, c: RbacService.PermissionCache, auth: Dependencies.Authentication,
                                   userId: string, projectId: Option<string>, now: int, faults: RbacService.CacheFaults)
    : (r: Outcome<seq<PermissionResponse>>)
    ensures r.st == st && r.cache == c
    ensures auth.user.Some? && auth.user.value.isActive ==> r.result == UserPermissionsReply(st, auth.user.value, userId, projectId)
    ensures !(auth.user.Some? && auth.user.value.isActive) ==> r.result.Failure? && r.result.error.status in {Unauthorized, Forbidden}
  {
    Guarded(st, c, auth, ActiveUser, true, None, now, faults, UserPermissionsHandler(st, userId, projectId))
  }

  /**
   * The self-or-superuser rule holds: an account that is not a superuser is only ever shown the
   * permissions of the account it is.
   */
  lemma UserPermissionsOnlyOwn(st: Store, c: RbacService.PermissionCache, auth: Dependencies.Authentication,
                               userId: string, projectId: Option<string>, now: int, faults: RbacService.CacheFaults)
    requires auth.user.Some? && !auth.user.value.isSuperuser
    requires GetUserPermissionsRoute(st, c, auth, userId, projectId, now, faults).result.Success?
    ensures Parse(userId) == Some(auth.user.value.id)
  {
    ParseText(auth.user.value.id);
  }

  /**
   * The rule compares texts: an account that is not a superuser and names itself by the bare
   * 32-digit form of its id, which the id parser accepts, is refused its own permissions.
   */
  lemma UserPermissionsSelfByBareHexDenied(st: Store, c: RbacService.PermissionCache, auth: Dependencies.Authentication,
                                           projectId: Option<string>, now: int, faults: RbacService.CacheFaults)
    requires auth.user.Some? && auth.user.value.isActive && !auth.user.value.isSuperuser
    requires ProjectQuery(projectId).Some?
    ensures Parse(auth.user.value.id.hex) == Some(auth.user.value.id)
    ensures GetUserPermissionsRoute(st, c, auth, auth.user.value.id.hex, projectId, now, faults).result == Failure(PermissionDenied)
  {
    ParseBareHex(auth.user.value.id);
  }

  // ---------------------------------------------------------------- POST /permissions/assign

  /** `RolePermissionAssign`: the role and the permissions, as text. */
  datatype RolePermissionAssign = RolePermissionAssign(roleId: string, permissionIds: seq<string>)

  /** `[uuid.UUID(pid) for pid in ids]`: every text parsed, or nothing if any is malformed. */
  function ParseAll(ids: seq<string>): (r: Option<seq<Uuid>>)
    ensures r.Some? <==> forall i :: 0 <= i < |ids| ==> Parse(ids[i]).Some?
    ensures r.Some? ==> |r.value| == |ids| && forall i :: 0 <= i < |ids| ==> r.value[i] == Parse(ids[i]).value
  {
    if |ids| == 0 then Some([])
    else match (Parse(ids[0]), ParseAll(ids[1..]))
      case (Some(u), Some(rest)) =>
        assert forall i :: 1 <= i < |ids| ==> ids[i] == ids[1..][i - 1];
        Some([u] + rest)
      case (None, _) => None
      case (_, None) =>
        assert forall i :: 1 <= i < |ids| ==> ids[i] == ids[1..][i - 1];
        None
  }

  /**
   * `assign_permissions_to_role`'s route: a superuser's request with malformed ids is a 400;
   * otherwise the role's permissions are replaced. A replacement the store refuses is a 500,
   * but the removal of the old links was already committed. The permission cache is not touched.
   */
  function AssignPermissionsRoute(st: Store, c: RbacService.PermissionCache, auth: Dependencies.Authentication,
                                  req: RolePermissionAssign, newId: nat -> Uuid, now: int): (r: Outcome<string>)
    ensures r.cache == c
    ensures Caller(auth, Superuser).Failure? ==> r == Outcome(st, c, Failure(Caller(auth, Superuser).error))
    ensures Caller(auth, Superuser).Success? && (Parse(req.roleId).None? || ParseAll(req.permissionIds).None?) ==>
      r == Outcome(st, c, Failure(InvalidIdFormat))
    ensures r.result.Success? ==> r.result.value == Ok(AssignedMessage, "success")
    ensures Caller(auth, Superuser).Success? && Parse(req.roleId).Some? && ParseAll(req.permissionIds).Some? ==>
      var done := CrudRbac.AssignPermissionsToRole(st, Parse(req.roleId).value, ParseAll(req.permissionIds).value, newId, now);
      && r.st == done.0
      && (r.result.Success? <==> done.1.Success?)
      && (done.1.Failure? ==> r.result == Failure(Failed("assign permissions", done.1.error)))
  {
    match Caller(auth, Superuser)
    case Failure(e) => Outcome(st, c, Failure(e))
    case Success(_) =>
      match (Parse(req.roleId), ParseAll(req.permissionIds))
      case (Some(roleId), Some(ids)) =>
        var (st', res) := CrudRbac.AssignPermissionsToRole(st, roleId, ids, newId, now);
        if res.Failure? then Outcome(st', c, Failure(Failed("assign permissions", res.error)))
        else Outcome(st', c, Success(Ok(AssignedMessage, "success")))
      case _ => Outcome(st, c, Failure(InvalidIdFormat))
  }

  /**
   * After a successful replacement the role is linked to exactly the requested permissions and
   * every other role keeps its links.
   */
  lemma AssignPermissionsRouteReplaces(st: Store, c: RbacService.PermissionCache, auth: Dependencies.Authentication,
                                       req: RolePermissionAssign, newId: nat -> Uuid, now: int, other: Uuid)
    requires AssignPermissionsRoute(st, c, auth, req, newId, now).result.Success?
    requires other != Parse(req.roleId).value
    ensures var st' := AssignPermissionsRoute(st, c, auth, req, newId, now).st;
      && CrudRbac.LinkedIds(st'.rolePermissions, Parse(req.roleId).value) == (set i | 0 <= i < |req.permissionIds| :: Parse(req.permissionIds[i]).value)
      && CrudRbac.LinkedIds(st'.rolePermissions, other) == CrudRbac.LinkedIds(st.rolePermissions, other)
  {
    var roleId := Parse(req.roleId).value;
    var ids := ParseAll(req.permissionIds).value;
    var r := AssignPermissionsRoute(st, c, auth, req, newId, now);
    assert r.st == CrudRbac.AssignPermissionsToRole(st, roleId, ids, newId, now).0;
    CrudRbac.AssignPermissionsReplaces(st, roleId, ids, newId, now, other);
    assert (set i | 0 <= i < |ids| :: ids[i]) == set i | 0 <= i < |req.permissionIds| :: Parse(req.permissionIds[i]).value;
  }

  /**
   * The route does not invalidate the permission cache: an account that holds the role through
   * a counting assignment, and whose global permissions are cached, keeps being served the old
   * set after a permission it lacked is linked to the role.
   */
  lemma AssignPermissionsLeavesCacheStale(st: Store, c: RbacService.PermissionCache, auth: Dependencies.Authentication,
                                          req: RolePermissionAssign, newId: nat -> Uuid, now: int,
                                          a: UserRole, p: Permission)
    requires RbacService.Coherent(st, c, now)
    requires AssignPermissionsRoute(st, c, auth, req, newId, now).result.Success?
    requires a in st.userRoles && a.roleId == Parse(req.roleId).value && a.isActive && RbacService.GrantsPermissions(a, now)
    requires p in st.permissions && p.id in ParseAll(req.permissionIds).value
    requires p.code !in RbacService.EffectivePermissions(st, a.userId, None, now)
    requires Cache.Live(c, RbacService.CacheKey(a.userId, None), now)
    requires |c.entries[RbacService.CacheKey(a.userId, None)].value| > 0
    ensures var r := AssignPermissionsRoute(st, c, auth, req, newId, now);
      r.cache == c && !RbacService.Coherent(r.st, r.cache, now)
  {
    var r := AssignPermissionsRoute(st, c, auth, req, newId, now);
    var roleId := Parse(req.roleId).value;
    var ids := ParseAll(req.permissionIds).value;
    var i :| 0 <= i < |ids| && ids[i] == p.id;
    var links := CrudRbac.NewLinks(roleId, ids, newId, 0, now);
    var cleared := CrudRbac.RemoveAllRolePermissions(st, roleId).0;
    assert r.st.rolePermissions == cleared.rolePermissions + links;
    var l := links[i];
    assert l in r.st.rolePermissions && l.roleId == roleId && l.permissionId == p.id;
    assert a in r.st.userRoles && p in r.st.permissions;
    assert CrudRbac.AssignmentSelected(a, a.userId, None, true);
    assert p.code in RbacService.EffectivePermissions(r.st, a.userId, None, now);
  }
}

=== FILE: project_service.dfy ===
/**
 * The project service: lookups by textual id, creation guarded by the unique project code,
 * partial updates that cannot touch the code, deletion and the filtered listing.
 */
module ProjectService {
  import opened Wrappers
  import opened Uuids
  import opened Seqs
  import opened Models
  import opened Common
  import opened RbacSchemas
  import CrudBase
  import CrudRbac

  const InvalidProjectId: HttpError := HttpError(BadRequest, "Invalid project ID format")
  const ProjectNotFound: HttpError := HttpError(NotFound, "Project not found")
  const ProjectCodeExists: HttpError := HttpError(BadRequest, "Project code already exists")

  function ProjectId(p: Project): Uuid {
    p.id
  }

  /** The project with that id, if any. */
  function GetById(st: Store, id: Uuid): (r: Option<Project>)
    ensures r.Some? ==> r.value in st.projects && r.value.id == id
    ensures r.None? <==> forall p :: p in st.projects ==> p.id != id
  {
    CrudBase.Get(st.projects, ProjectId, id)
  }

  /** `get_project`: a malformed id is no project rather than an error. */
  function GetProject(st: Store, projectId: string): (r: Option<Project>)
    ensures Parse(projectId).None? ==> r.None?
    ensures r.Some? ==> r.value in st.projects && Parse(projectId) == Some(r.value.id)
    ensures Parse(projectId).Some? && r.None? ==> forall p :: p in st.projects ==> p.id != Parse(projectId).value
  {
    match Parse(projectId)
    case None => None
    case Some(id) => GetById(st, id)
  }

  /** Every stored project is found again by the text of its id. */
  lemma GetProjectByText(st: Store, p: Project)
    requires DistinctBy(st.projects, (x: Project) => x.id)
    requires p in st.projects
    ensures GetProject(st, Text(p.id)) == Some(p)
  {
    ParseText(p.id);
    FindFirstUnique(st.projects, (x: Project) => x.id, p, (x: Project) => ProjectId(x) == p.id);
  }

  /** No stored project has this id. */
  predicate FreshProjectId(st: Store, id: Uuid) {
    forall p :: p in st.projects ==> p.id != id
  }

  /** The row `create` inserts: the request's fields, a fresh id and the insertion time. */
  function NewProject(obj: ProjectCreate, id: Uuid, now: int): (p: Project)
    ensures p.id == id && p.code == obj.code && p.name == obj.name && p.isActive == obj.isActive
    ensures p.description == obj.description && p.baseUrl == obj.baseUrl && p.createdAt == now
  {
    Project(id, obj.name, obj.code, obj.description, obj.baseUrl, obj.isActive, now)
  }

  /**
   * `create_project`: a code some project already has is refused with a 400 and nothing
   * inserted; otherwise the new project is appended.
   */
  function CreateProject(st: Store, obj: ProjectCreate, id: Uuid, now: int): (r: (Store, Result<Project, HttpError>))
    ensures r.1.Failure? <==> CrudRbac.GetProjectByCode(st, obj.code).Some?
    ensures r.1.Failure? ==> r == (st, Failure(ProjectCodeExists))
    ensures r.1.Success? ==>
      && r.1.value == NewProject(obj, id, now)
      && r.0 == st.(projects := st.projects + [r.1.value])
  {
    if CrudRbac.GetProjectByCode(st, obj.code).Some? then (st, Failure(ProjectCodeExists))
    else
      var p := NewProject(obj, id, now);
      (st.(projects := st.projects + [p]), Success(p))
  }

  /**
   * A created project, with a fresh id, keeps the store consistent, is found by its code and by
   * the text of its id, and a second creation with the same code is refused.
   */
  lemma CreateProjectThenGet(st: Store, obj: ProjectCreate, id: Uuid, now: int, obj2: ProjectCreate, id2: Uuid, later: int)
    requires Consistent(st) && FreshProjectId(st, id)
    requires CreateProject(st, obj, id, now).1.Success?
    requires obj2.code == obj.code
    ensures var (st', r) := CreateProject(st, obj, id, now);
      && Consistent(st')
      && CrudRbac.GetProjectByCode(st', obj.code) == Some(r.value)
      && GetProject(st', Text(id)) == Some(r.value)
      && CreateProject(st', obj2, id2, later) == (st', Failure(ProjectCodeExists))
  {
    var (st', r) := CreateProject(st, obj, id, now);
    var p := r.value;
    DistinctByAppend(st.projects, p, (x: Project) => x.id);
    DistinctByAppend(st.projects, p, (x: Project) => x.code);
    FindFirstUnique(st'.projects, (x: Project) => x.code, p, (x: Project) => x.code == obj.code);
    GetProjectByText(st', p);
  }

  /**
   * The project after a `ProjectUpdate`: each field the request set takes its new value, every
   * other field keeps its old one; the id, the code and the creation time cannot change.
   */
  function ApplyProjectUpdate(p: Project, upd: ProjectUpdate): (r: Project)
    ensures r.id == p.id && r.code == p.code && r.createdAt == p.createdAt
    ensures upd.name.Unset? ==> r.name == p.name
    ensures upd.description.Unset? ==> r.description == p.description
    ensures upd.baseUrl.Unset? ==> r.baseUrl == p.baseUrl
    ensures upd.isActive.Unset? ==> r.isActive == p.isActive
    ensures upd == ProjectUpdate(Unset, Unset, Unset, Unset) ==> r == p
  {
    p.(name := ApplyPatch(upd.name, p.name),
       description := ApplyPatch(upd.description, p.description),
       baseUrl := ApplyPatch(upd.baseUrl, p.baseUrl),
       isActive := ApplyPatch(upd.isActive, p.isActive))
  }

  /** Applying the same update twice is applying it once. */
  lemma ApplyProjectUpdateIdempotent(p: Project, upd: ProjectUpdate)
    ensures ApplyProjectUpdate(ApplyProjectUpdate(p, upd), upd) == ApplyProjectUpdate(p, upd)
  {
  }

  /** The update as a row patch. */
  function Patcher(upd: ProjectUpdate): Project -> Project {
    (x: Project) => ApplyProjectUpdate(x, upd)
  }

  /**
   * `update_project`: 400 for a malformed id, 404 for a missing project; otherwise the fields
   * the request set are written to that project and the updated project is returned.
   */
  function UpdateProject(st: Store, projectId: string, upd: ProjectUpdate): (r: (Store, Result<Project, HttpError>))
    ensures Parse(projectId).None? ==> r == (st, Failure(InvalidProjectId))
    ensures Parse(projectId).Some? && GetById(st, Parse(projectId).value).None? ==> r == (st, Failure(ProjectNotFound))
    ensures r.1.Failure? ==> r.0 == st
    ensures r.1.Success? ==>
      && GetProject(st, projectId).Some?
      && r.1.value == ApplyProjectUpdate(GetProject(st, projectId).value, upd)
      && r.0 == st.(projects := r.0.projects) && |r.0.projects| == |st.projects|
      && forall i :: 0 <= i < |st.projects| ==>
           r.0.projects[i] == if st.projects[i].id == r.1.value.id then ApplyProjectUpdate(st.projects[i], upd) else st.projects[i]
  {
    match Parse(projectId)
    case None => (st, Failure(InvalidProjectId))
    case Some(id) =>
      match GetById(st, id)
      case None => (st, Failure(ProjectNotFound))
      case Some(p) =>
        (st.(projects := CrudBase.Update(st.projects, ProjectId, id, Patcher(upd))),
         Success(ApplyProjectUpdate(p, upd)))
  }

  /** The table an update leaves behind has the same ids and codes, row by row. */
  lemma UpdateProjectKeepsKeys(st: Store, projectId: string, upd: ProjectUpdate)
    requires UpdateProject(st, projectId, upd).1.Success?
    ensures var st' := UpdateProject(st, projectId, upd).0;
      && st' == st.(projects := st'.projects) && |st'.projects| == |st.projects|
      && forall i :: 0 <= i < |st.projects| ==> st'.projects[i].id == st.projects[i].id && st'.projects[i].code == st.projects[i].code
  {
  }

  /** An update keeps the store consistent: the code is not editable, so it stays unique. */
  lemma UpdateProjectKeepsConsistent(st: Store, projectId: string, upd: ProjectUpdate)
    requires Consistent(st)
    requires UpdateProject(st, projectId, upd).1.Success?
    ensures Consistent(UpdateProject(st, projectId, upd).0)
  {
    var st' := UpdateProject(st, projectId, upd).0;
    UpdateProjectKeepsKeys(st, projectId, upd);
    assert DistinctBy(st'.projects, (x: Project) => x.id);
    assert DistinctBy(st'.projects, (x: Project) => x.code);
  }

  /** The updated project is what lookups by id and by code find, and the store stays consistent. */
  lemma UpdateProjectThenGet(st: Store, projectId: string, upd: ProjectUpdate)
    requires Consistent(st)
    requires UpdateProject(st, projectId, upd).1.Success?
    ensures var (st', r) := UpdateProject(st, projectId, upd);
      && Consistent(st')
      && GetProject(st', projectId) == Some(r.value)
      && CrudRbac.GetProjectByCode(st', r.value.code) == Some(r.value)
  {
    var (st', r) := UpdateProject(st, projectId, upd);
    var id := Parse(projectId).value;
    UpdateProjectKeepsConsistent(st, projectId, upd);
    UpdatedProjectStored(st, projectId, upd);
    UpdatedProjectFound(st, projectId, upd);
    FindFirstUnique(st'.projects, (x: Project) => x.code, r.value, (x: Project) => x.code == r.value.code);
  }

  /** The updated project is a row of the new table. */
  lemma UpdatedProjectStored(st: Store, projectId: string, upd: ProjectUpdate)
    requires UpdateProject(st, projectId, upd).1.Success?
    ensures var (st', r) := UpdateProject(st, projectId, upd);
      r.value in st'.projects
  {
    var (st', r) := UpdateProject(st, projectId, upd);
    var p := GetById(st, Parse(projectId).value).value;
    var j :| 0 <= j < |st.projects| && st.projects[j] == p;
    assert st'.projects[j] == r.value;
  }

  /** What an update of a project that exists does, unfolded. */
  lemma UpdateProjectAt(st: Store, projectId: string, upd: ProjectUpdate, id: Uuid, p: Project)
    requires Parse(projectId) == Some(id) && GetById(st, id) == Some(p)
    ensures UpdateProject(st, projectId, upd) ==
      (st.(projects := CrudBase.Update(st.projects, ProjectId, id, Patcher(upd))), Success(ApplyProjectUpdate(p, upd)))
  {
  }

  /** With unique ids, the updated project is what a lookup of its id finds in the new table. */
  lemma UpdatedProjectFound(st: Store, projectId: string, upd: ProjectUpdate)
    requires DistinctBy(st.projects, (x: Project) => x.id)
    requires UpdateProject(st, projectId, upd).1.Success?
    ensures var (st', r) := UpdateProject(st, projectId, upd);
      GetById(st', Parse(projectId).value) == Some(r.value)
  {
    var (st', r) := UpdateProject(st, projectId, upd);
    UpdatedProjectStored(st, projectId, upd);
    UpdateProjectKeepsKeys(st, projectId, upd);
    assert DistinctBy(st'.projects, (x: Project) => x.id);
    FindFirstUnique(st'.projects, (x: Project) => x.id, r.value, (x: Project) => ProjectId(x) == Parse(projectId).value);
  }

  /** The update, as a row patch, keeps the id and is idempotent. */
  lemma PatcherIdempotent(upd: ProjectUpdate)
    ensures forall x :: ProjectId(Patcher(upd)(x)) == ProjectId(x) && Patcher(upd)(Patcher(upd)(x)) == Patcher(upd)(x)
  {
    forall x ensures ProjectId(Patcher(upd)(x)) == ProjectId(x) && Patcher(upd)(Patcher(upd)(x)) == Patcher(upd)(x) {
      ApplyProjectUpdateIdempotent(x, upd);
    }
  }

  /** Repeating an update changes nothing more and returns the same project. */
  lemma UpdateProjectIdempotent(st: Store, projectId: string, upd: ProjectUpdate)
    requires DistinctBy(st.projects, (x: Project) => x.id)
    requires UpdateProject(st, projectId, upd).1.Success?
    ensures var (st', r) := UpdateProject(st, projectId, upd);
      UpdateProject(st', projectId, upd) == (st', Success(r.value))
  {
    var id := Parse(projectId).value;
    var p := GetById(st, id).value;
    var rows := CrudBase.Update(st.projects, ProjectId, id, Patcher(upd));
    var q := ApplyProjectUpdate(p, upd);
    assert UpdateProject(st, projectId, upd) == (st.(projects := rows), Success(q)) by {
      UpdateProjectAt(st, projectId, upd, id, p);
    }
    var st' := st.(projects := rows);
    assert UpdateProject(st', projectId, upd) == (st'.(projects := CrudBase.Update(rows, ProjectId, id, Patcher(upd))), Success(ApplyProjectUpdate(q, upd))) by {
      UpdatedProjectFound(st, projectId, upd);
      UpdateProjectAt(st', projectId, upd, id, q);
    }
    assert CrudBase.Update(rows, ProjectId, id, Patcher(upd)) == rows by {
      PatcherIdempotent(upd);
      CrudBase.UpdateIdempotent(st.projects, ProjectId, id, Patcher(upd));
    }
    ApplyProjectUpdateIdempotent(p, upd);
  }

  /**
   * `delete_project`: false, with nothing changed, for a malformed or unknown id. A project some
   * row still refers to cannot be removed: the commit raises, the service does not catch it,
   * and nothing is changed. Otherwise the project's row is removed and the answer is true.
   */
  function DeleteProject(st: Store, projectId: string): (r: (Store, Result<bool, string>))
    ensures r.1 == Success(false) <==> GetProject(st, projectId).None?
    ensures r.1.Failure? <==> GetProject(st, projectId).Some? && ProjectReferenced(st, GetProject(st, projectId).value.id)
    ensures r.1.Failure? ==> r.1.error == ForeignKeyViolation
    ensures r.1 != Success(true) ==> r.0 == st
    ensures r.1 == Success(true) ==>
      && r.0 == st.(projects := r.0.projects)
      && forall p :: p in r.0.projects <==> p in st.projects && p.id != GetProject(st, projectId).value.id
  {
    match Parse(projectId)
    case None => (st, Success(false))
    case Some(id) =>
      if GetById(st, id).None? then (st, Success(false))
      else if ProjectReferenced(st, id) then (st, Failure(ForeignKeyViolation))
      else (st.(projects := CrudBase.Remove(st.projects, ProjectId, id).0), Success(true))
  }

  /**
   * The refusal is what keeps the foreign keys sound: a deletion that succeeds leaves every
   * reference to a project, and every reference to a role, naming a stored row.
   */
  lemma DeleteProjectKeepsRefs(st: Store, projectId: string)
    requires ProjectRefsResolve(st) && RoleRefsResolve(st)
    requires DeleteProject(st, projectId).1 == Success(true)
    ensures ProjectRefsResolve(DeleteProject(st, projectId).0)
    ensures RoleRefsResolve(DeleteProject(st, projectId).0)
  {
    var st' := DeleteProject(st, projectId).0;
    var id := Parse(projectId).value;
    forall q | ProjectExists(st, q) && q != id ensures ProjectExists(st', q) {
      var p :| p in st.projects && p.id == q;
      assert p in st'.projects;
    }
  }

  /**
   * A deletion that succeeds keeps the store consistent, the project is gone afterwards, and
   * deleting it a second time answers false.
   */
  lemma DeleteProjectThenGet(st: Store, projectId: string)
    requires Consistent(st)
    requires DeleteProject(st, projectId).1 == Success(true)
    ensures var st' := DeleteProject(st, projectId).0;
      && Consistent(st')
      && GetProject(st', projectId).None?
      && DeleteProject(st', projectId) == (st', Success(false))
  {
    var id := Parse(projectId).value;
    CrudBase.RemovePreservesDistinct(st.projects, ProjectId, id, (x: Project) => x.id);
    CrudBase.RemovePreservesDistinct(st.projects, ProjectId, id, (x: Project) => x.code);
  }

  /**
   * `get_projects`: a page of the projects, optionally only those with the given activity
   * flag, and the total number matching.
   */
  function GetProjects(st: Store, skip: nat, limit: nat, isActive: Option<bool>): (r: (seq<Project>, nat))
    ensures |r.0| <= limit && |r.0| <= r.1 && r.1 <= |st.projects|
    ensures forall p :: p in r.0 ==> p in st.projects && (isActive.Some? ==> p.isActive == isActive.value)
    ensures isActive.None? ==> r == (Slice(st.projects, skip, skip + limit), |st.projects|)
  {
    var filters := CrudBase.ActiveFilter(isActive);
    CrudBase.ActiveFilterSelects(st.projects, ProjectAttr, (p: Project) => p.isActive, skip, limit, isActive);
    (CrudBase.GetMulti(st.projects, ProjectAttr, filters, skip, limit), CrudBase.Count(st.projects, ProjectAttr, filters))
  }
}

=== FILE: projects_router.dfy ===
/**
 * The project routes (`/api/v1/projects`): listing and reading need an active account, the
 * writes need a superuser; no route carries a permission decorator. Every refusal is raised
 * (no envelope), and a malformed id is a 400 of its own, distinct from the 404 of an unknown one.
 */
module ProjectsRouter {
  import opened Wrappers
  import opened Uuids
  import opened Seqs
  import opened Models
  import opened Common
  import opened RbacSchemas
  import opened Routes
  import Dependencies
  import RbacService
  import CrudRbac
  import ProjectService

  const ListedMessage: string := "Projects retrieved successfully"
  const CreatedMessage: string := "Project created successfully"
  const FetchedMessage: string := "Project retrieved successfully"
  const UpdatedMessage: string := "Project updated successfully"
  const DeletedMessage: string := "Project deleted successfully"

  /**
   * What `create_project` raises for every new code: the generic `create` calls `.dict()` on the
   * plain dictionary it is handed, and the handler wraps the `AttributeError`'s text in a 500.
   */
  const CreateFailure: HttpError := Failed("create project", DictCreateMessage)

  /** `ProjectResponse`: a project as the routes render it, its id as text. */
  datatype ProjectResponse = ProjectResponse(id: string, name: string, code: string, description: Option<string>,
                                             baseUrl: Option<string>, isActive: bool, createdAt: int)

  /** Renders a project; two projects render alike exactly when they are the same project. */
  function Render(p: Project): (r: ProjectResponse)
    ensures r.id == Text(p.id) && r.code == p.code && r.name == p.name && r.isActive == p.isActive
  {
    ProjectResponse(Text(p.id), p.name, p.code, p.description, p.baseUrl, p.isActive, p.createdAt)
  }

  /** Rendering loses nothing: a rendered project determines the project. */
  lemma RenderInjective(p: Project, q: Project)
    ensures Render(p) == Render(q) <==> p == q
  {
    if Render(p) == Render(q) {
      ParseText(p.id);
      ParseText(q.id);
    }
  }

  /** A rendering is that of a project in `pool` that passes the activity filter. */
  predicate RenderedFrom(x: ProjectResponse, pool: seq<Project>, isActive: Option<bool>) {
    exists p :: p in pool && x == Render(p) && (isActive.Some? ==> p.isActive == isActive.value)
  }

  /** Every rendering in a page is the rendering of a stored project that passes the filter. */
  lemma RenderingsOf(page: seq<Project>, pool: seq<Project>, isActive: Option<bool>)
    requires forall p :: p in page ==> p in pool && (isActive.Some? ==> p.isActive == isActive.value)
    ensures forall x :: x in Map(page, Render) ==> RenderedFrom(x, pool, isActive)
  {
    forall x | x in Map(page, Render)
      ensures RenderedFrom(x, pool, isActive)
    {
      var i :| 0 <= i < |page| && Map(page, Render)[i] == x;
      assert page[i] in page;
    }
  }

  // ---------------------------------------------------------------- GET /projects

  /** `get_projects`' handler: a success envelope with one page of rendered projects. */
  function ListProjects(st: Store, skip: int, limit: int, isActive: Option<bool>): (r: Reply<seq<ProjectResponse>>)
    ensures r.Envelope? && r.response == BaseResponse(true, 200, ListedMessage) && r.data.Some?
  {
    Ok(ListedMessage, Map(ProjectService.GetProjects(st, PageParam(skip), PageParam(limit), isActive).0, Render))
  }

  /**
   * The listed page holds at most `limit` projects, each a stored project whose activity flag is
   * the one asked for; with no flag it is the stored projects from `skip` on.
   */
  lemma ListProjectsFromStore(st: Store, skip: int, limit: int, isActive: Option<bool>)
    ensures var l := ListProjects(st, skip, limit, isActive).data.value;
      && |l| <= PageParam(limit)
      && (forall x :: x in l ==> RenderedFrom(x, st.projects, isActive))
      && (isActive.None? ==> l == Map(Slice(st.projects, PageParam(skip), PageParam(skip) + PageParam(limit)), Render))
  {
    ListedProjectsPage(st, skip, limit, isActive);
    if isActive.None? {
      var page := ProjectService.GetProjects(st, PageParam(skip), PageParam(limit), None);
      assert page.0 == Slice(st.projects, PageParam(skip), PageParam(skip) + PageParam(limit));
      assert ListProjects(st, skip, limit, None) == Ok(ListedMessage, Map(page.0, Render));
    }
  }

  lemma ListedProjectsPage(st: Store, skip: int, limit: int, isActive: Option<bool>)
    ensures var l := ListProjects(st, skip, limit, isActive).data.value;
      && |l| <= PageParam(limit)
      && (forall x :: x in l ==> RenderedFrom(x, st.projects, isActive))
  {
    var page := ProjectService.GetProjects(st, PageParam(skip), PageParam(limit), isActive);
    assert ListProjects(st, skip, limit, isActive) == Ok(ListedMessage, Map(page.0, Render));
    RenderingsOf(page.0, st.projects, isActive);
  }

  function GetProjectsHandler(st: Store, skip: int, limit: int, isActive: Option<bool>)
    : User -> (Store, Result<Reply<seq<ProjectResponse>>, HttpError>)
  {
    (caller: User) => (st, Success(ListProjects(st, skip, limit, isActive)))
  }

  function GetProjectsRoute(st: Store, c: RbacService.PermissionCache, auth: Dependencies.Authentication,
                            skip: int, limit: int, isActive: Option<bool>, now: int, faults: RbacService.CacheFaults)
    : (r: Outcome<seq<ProjectResponse>>)
    ensures r.st == st && r.cache == c
    ensures r.result.Success? ==> PageQueryValid(skip, limit) && r.result.value == ListProjects(st, skip, limit, isActive)
  {
    Guarded(st, c, auth, ActiveUser, PageQueryValid(skip, limit), None, now, faults, GetProjectsHandler(st, skip, limit, isActive))
  }

  /** Any active account may list projects, given a page query within bounds; no permission is asked. */
  lemma GetProjectsRouteAdmits(st: Store, c: RbacService.PermissionCache, auth: Dependencies.Authentication,
                               skip: int, limit: int, isActive: Option<bool>, now: int, faults: RbacService.CacheFaults)
    requires RbacService.Coherent(st, c, now)
    ensures var r := GetProjectsRoute(st, c, auth, skip, limit, isActive, now, faults);
      r.result.Success? <==> auth.user.Some? && auth.user.value.isActive && PageQueryValid(skip, limit)
  {
    GuardedAdmits(st, c, auth, ActiveUser, PageQueryValid(skip, limit), None, now, faults,
                  GetProjectsHandler(st, skip, limit, isActive));
  }

  // ---------------------------------------------------------------- POST /projects

  /**
   * `create_project`'s handler as written: a taken code is a 400; for any other code the
   * generic `create` fails before anything is added, so the handler raises a 500.
   */
  function CreateProjectReplyAsWritten(st: Store, obj: ProjectCreate): (r: (Store, Result<Reply<ProjectResponse>, HttpError>))
    ensures r.0 == st
    ensures CrudRbac.GetProjectByCode(st, obj.code).Some? ==> r.1 == Failure(ProjectService.ProjectCodeExists)
    ensures CrudRbac.GetProjectByCode(st, obj.code).None? ==> r.1 == Failure(CreateFailure)
  {
    if CrudRbac.GetProjectByCode(st, obj.code).Some? then (st, Failure(ProjectService.ProjectCodeExists))
    else (st, Failure(CreateFailure))
  }

  /**
   * `create_project`'s handler as evidently intended: a taken code is a 400 with nothing
   * inserted; otherwise the project is created with the new id and rendered.
   */
  function CreateProjectReply(st: Store, obj: ProjectCreate, id: Uuid, now: int): (r: (Store, Result<Reply<ProjectResponse>, HttpError>))
    ensures r.1.Failure? <==> CrudRbac.GetProjectByCode(st, obj.code).Some?
    ensures r.1.Failure? ==> r == (st, Failure(ProjectService.ProjectCodeExists))
    ensures r.1.Success? ==>
      && r.1.value == Ok(CreatedMessage, Render(ProjectService.NewProject(obj, id, now)))
      && r.0 == st.(projects := st.projects + [ProjectService.NewProject(obj, id, now)])
  {
    var (st', created) := ProjectService.CreateProject(st, obj, id, now);
    match created
    case Success(p) => (st', Success(Ok(CreatedMessage, Render(p))))
    case Failure(e) => (st', Failure(e))
  }

  function CreateProjectHandlerAsWritten(st: Store, obj: ProjectCreate): User -> (Store, Result<Reply<ProjectResponse>, HttpError>) {
    (caller: User) => CreateProjectReplyAsWritten(st, obj)
  }

  function CreateProjectHandler(st: Store, obj: ProjectCreate, id: Uuid, now: int): User -> (Store, Result<Reply<ProjectResponse>, HttpError>) {
    (caller: User) => CreateProjectReply(st, obj, id, now)
  }

  function CreateProjectRouteAsWritten(st: Store, c: RbacService.PermissionCache, auth: Dependencies.Authentication,
                                       obj: ProjectCreate, now: int, faults: RbacService.CacheFaults)
    : (r: Outcome<ProjectResponse>)
    ensures r.st == st && r.cache == c
  {
    Guarded(st, c, auth, Superuser, true, None, now, faults, CreateProjectHandlerAsWritten(st, obj))
  }

  function CreateProjectRoute(st: Store, c: RbacService.PermissionCache, auth: Dependencies.Authentication,
                              obj: ProjectCreate, id: Uuid, now: int, faults: RbacService.CacheFaults)
    : (r: Outcome<ProjectResponse>)
    ensures r.cache == c
    ensures r.st != st ==> (r.st, r.result) == CreateProjectReply(st, obj, id, now)
  {
    Guarded(st, c, auth, Superuser, true, None, now, faults, CreateProjectHandler(st, obj, id, now))
  }

  /**
   * As written, no request creates a project: a superuser's creation is a 400 for a taken
   * code and a 500 for any other, and the store is never changed.
   */
  lemma CreateProjectRouteAsWrittenNeverCreates(st: Store, c: RbacService.PermissionCache, auth: Dependencies.Authentication,
                                                obj: ProjectCreate, now: int, faults: RbacService.CacheFaults)
    requires auth.user.Some? && auth.user.value.isActive && auth.user.value.isSuperuser
    ensures var r := CreateProjectRouteAsWritten(st, c, auth, obj, now, faults);
      && r.st == st
      && r.result == Failure(if CrudRbac.GetProjectByCode(st, obj.code).Some? then ProjectService.ProjectCodeExists
                             else CreateFailure)
  {
  }

  /**
   * With the creation the route evidently intends, a superuser's project with a new code is
   * created and then read back through the route by the text of its id, rendered as the
   * creation answered; a second creation with the same code is a 400.
   */
  lemma CreateProjectRouteThenGet(st: Store, c: RbacService.PermissionCache, auth: Dependencies.Authentication,
                                  obj: ProjectCreate, id: Uuid, now: int, obj2: ProjectCreate, id2: Uuid,
                                  faults: RbacService.CacheFaults)
    requires Consistent(st) && ProjectService.FreshProjectId(st, id)
    requires auth.user.Some? && auth.user.value.isActive && auth.user.value.isSuperuser
    requires CrudRbac.GetProjectByCode(st, obj.code).None?
    requires obj2.code == obj.code
    ensures var r := CreateProjectRoute(st, c, auth, obj, id, now, faults);
      && r.result.Success? && Consistent(r.st)
      && GetProjectRoute(r.st, c, auth, Text(id), now, faults).result
           == Success(Ok(FetchedMessage, r.result.value.data.value))
      && CreateProjectRoute(r.st, c, auth, obj2, id2, now, faults).result == Failure(ProjectService.ProjectCodeExists)
  {
    ProjectService.CreateProjectThenGet(st, obj, id, now, obj2, id2, now);
    ParseText(id);
  }

  // ---------------------------------------------------------------- GET /projects/{project_id}

  /** `get_project`'s handler: 400 for a malformed id, 404 for an unknown one, else the project rendered. */
  function GetProjectReply(st: Store, projectId: string): (r: Result<Reply<ProjectResponse>, HttpError>)
    ensures Parse(projectId).None? ==> r == Failure(ProjectService.InvalidProjectId)
    ensures Parse(projectId).Some? && ProjectService.GetProject(st, projectId).None? ==> r == Failure(ProjectService.ProjectNotFound)
    ensures r.Success? <==> ProjectService.GetProject(st, projectId).Some?
    ensures r.Success? ==> r.value == Ok(FetchedMessage, Render(ProjectService.GetProject(st, projectId).value))
  {
    match Parse(projectId)
    case None => Failure(ProjectService.InvalidProjectId)
    case Some(id) =>
      match ProjectService.GetById(st, id)
      case None => Failure(ProjectService.ProjectNotFound)
      case Some(p) => Success(Ok(FetchedMessage, Render(p)))
  }

  function GetProjectHandler(st: Store, projectId: string): User -> (Store, Result<Reply<ProjectResponse>, HttpError>) {
    (caller: User) => (st, GetProjectReply(st, projectId))
  }

  function GetProjectRoute(st: Store, c: RbacService.PermissionCache, auth: Dependencies.Authentication,
                           projectId: string, now: int, faults: RbacService.CacheFaults): (r: Outcome<ProjectResponse>)
    ensures r.st == st && r.cache == c
    ensures auth.user.Some? && auth.user.value.isActive ==> r.result == GetProjectReply(st, projectId)
    ensures !(auth.user.Some? && auth.user.value.isActive) ==> r.result.Failure? && r.result.error.status in {Unauthorized, Forbidden}
  {
    Guarded(st, c, auth, ActiveUser, true, None, now, faults, GetProjectHandler(st, projectId))
  }

  // ---------------------------------------------------------------- PUT /projects/{project_id}

  /** `update_project`'s handler: the service's 400 and 404 are raised; otherwise the updated project is rendered. */
  function UpdateProjectReply(st: Store, projectId: string, upd: ProjectUpdate): (r: (Store, Result<Reply<ProjectResponse>, HttpError>))
    ensures Parse(projectId).None? ==> r == (st, Failure(ProjectService.InvalidProjectId))
    ensures Parse(projectId).Some? && ProjectService.GetProject(st, projectId).None? ==> r == (st, Failure(ProjectService.ProjectNotFound))
    ensures r.1.Failure? ==> r.0 == st
    ensures r.1.Success? <==> ProjectService.GetProject(st, projectId).Some?
    ensures r.1.Success? ==>
      && r.1.value == Ok(UpdatedMessage, Render(ProjectService.ApplyProjectUpdate(ProjectService.GetProject(st, projectId).value, upd)))
      && r.0 == ProjectService.UpdateProject(st, projectId, upd).0
  {
    var (st', updated) := ProjectService.UpdateProject(st, projectId, upd);
    match updated
    case Success(p) => (st', Success(Ok(UpdatedMessage, Render(p))))
    case Failure(e) => (st', Failure(e))
  }

  function UpdateProjectHandler(st: Store, projectId: string, upd: ProjectUpdate): User -> (Store, Result<Reply<ProjectResponse>, HttpError>) {
    (caller: User) => UpdateProjectReply(st, projectId, upd)
  }

  function UpdateProjectRoute(st: Store, c: RbacService.PermissionCache, auth: Dependencies.Authentication,
                              projectId: string, upd: ProjectUpdate, now: int, faults: RbacService.CacheFaults)
    : (r: Outcome<ProjectResponse>)
    ensures r.cache == c
    ensures auth.user.Some? && auth.user.value.isActive && auth.user.value.isSuperuser ==>
      (r.st, r.result) == UpdateProjectReply(st, projectId, upd)
    ensures !(auth.user.Some? && auth.user.value.isActive && auth.user.value.isSuperuser) ==>
      r.st == st && r.result.Failure? && r.result.error.status in {Unauthorized, Forbidden}
  {
    Guarded(st, c, auth, Superuser, true, None, now, faults, UpdateProjectHandler(st, projectId, upd))
  }

  /** A superuser's update that succeeds keeps the store consistent and is read back through the route. */
  lemma UpdateProjectRouteThenGet(st: Store, c: RbacService.PermissionCache, auth: Dependencies.Authentication,
                                  projectId: string, upd: ProjectUpdate, now: int, faults: RbacService.CacheFaults)
    requires Consistent(st)
    requires auth.user.Some? && auth.user.value.isActive && auth.user.value.isSuperuser
    requires ProjectService.GetProject(st, projectId).Some?
    ensures var r := UpdateProjectRoute(st, c, auth, projectId, upd, now, faults);
      && r.result.Success? && Consistent(r.st)
      && GetProjectRoute(r.st, c, auth, projectId, now, faults).result
           == Success(Ok(FetchedMessage, r.result.value.data.value))
  {
    ProjectService.UpdateProjectThenGet(st, projectId, upd);
  }

  // ---------------------------------------------------------------- DELETE /projects/{project_id}

  /**
   * `delete_project`'s handler: 400 for a malformed id, 404 for an unknown one; the foreign-key
   * refusal for a project some row still refers to falls into the catch-all and becomes a 500,
   * with nothing removed. Otherwise the row is removed.
   */
  function DeleteProjectReply(st: Store, projectId: string): (r: (Store, Result<Reply<string>, HttpError>))
    ensures Parse(projectId).None? ==> r == (st, Failure(ProjectService.InvalidProjectId))
    ensures Parse(projectId).Some? && ProjectService.GetProject(st, projectId).None? ==> r == (st, Failure(ProjectService.ProjectNotFound))
    ensures ProjectService.GetProject(st, projectId).Some? && ProjectReferenced(st, Parse(projectId).value) ==>
      r == (st, Failure(Failed("delete project", ForeignKeyViolation)))
    ensures r.1.Success? <==> ProjectService.GetProject(st, projectId).Some? && !ProjectReferenced(st, Parse(projectId).value)
    ensures r.1.Success? ==> r == (ProjectService.DeleteProject(st, projectId).0, Success(Ok(DeletedMessage, "success")))
  {
    match Parse(projectId)
    case None => (st, Failure(ProjectService.InvalidProjectId))
    case Some(_) =>
      var (st', deleted) := ProjectService.DeleteProject(st, projectId);
      match deleted
      case Failure(msg) => (st', Failure(Failed("delete project", msg)))
      case Success(true) => (st', Success(Ok(DeletedMessage, "success")))
      case Success(false) => (st', Failure(ProjectService.ProjectNotFound))
  }

  function DeleteProjectHandler(st: Store, projectId: string): User -> (Store, Result<Reply<string>, HttpError>) {
    (caller: User) => DeleteProjectReply(st, projectId)
  }

  function DeleteProjectRoute(st: Store, c: RbacService.PermissionCache, auth: Dependencies.Authentication,
                              projectId: string, now: int, faults: RbacService.CacheFaults): (r: Outcome<string>)
    ensures r.cache == c
    ensures auth.user.Some? && auth.user.value.isActive && auth.user.value.isSuperuser ==>
      (r.st, r.result) == DeleteProjectReply(st, projectId)
    ensures !(auth.user.Some? && auth.user.value.isActive && auth.user.value.isSuperuser) ==>
      r.st == st && r.result.Failure? && r.result.error.status in {Unauthorized, Forbidden}
  {
    Guarded(st, c, auth, Superuser, true, None, now, faults, DeleteProjectHandler(st, projectId))
  }

  /**
   * A superuser's deletion of an existing project: when some row still refers to it, the answer
   * is the 500 and the store is untouched, so the project is still read back; otherwise the store
   * stays consistent, and reading the project afterwards is a 404, and so is deleting it again.
   */
  lemma DeleteProjectRouteThenGet(st: Store, c: RbacService.PermissionCache, auth: Dependencies.Authentication,
                                  projectId: string, now: int, faults: RbacService.CacheFaults)
    requires Consistent(st)
    requires auth.user.Some? && auth.user.value.isActive && auth.user.value.isSuperuser
    requires ProjectService.GetProject(st, projectId).Some?
    ensures var r := DeleteProjectRoute(st, c, auth, projectId, now, faults);
      ProjectReferenced(st, Parse(projectId).value) ==>
        && r.result == Failure(Failed("delete project", ForeignKeyViolation)) && r.st == st
        && GetProjectRoute(r.st, c, auth, projectId, now, faults).result
             == Success(Ok(FetchedMessage, Render(ProjectService.GetProject(st, projectId).value)))
    ensures var r := DeleteProjectRoute(st, c, auth, projectId, now, faults);
      !ProjectReferenced(st, Parse(projectId).value) ==>
        && r.result == Success(Ok(DeletedMessage, "success")) && Consistent(r.st)
        && GetProjectRoute(r.st, c, auth, projectId, now, faults).result == Failure(ProjectService.ProjectNotFound)
        && DeleteProjectRoute(r.st, c, auth, projectId, now, faults).result == Failure(ProjectService.ProjectNotFound)
  {
    if !ProjectReferenced(st, Parse(projectId).value) {
      ProjectService.DeleteProjectThenGet(st, projectId);
    }
  }
}

=== FILE: rbac_defaults.dfy ===
/**
 * The default RBAC set-up of a project: six permissions and three roles (viewer, editor,
 * admin) whose permission lists nest. As written every entry point fails before touching the
 * store; the intended behaviour reuses an existing permission or role with the same code and
 * creates the missing ones.
 */
module RbacDefaults {
  import opened Wrappers
  import opened Uuids
  import opened Seqs
  import opened Models
  import CrudRbac

  /** The code suffixes of the six default permissions, as `{resource}.{action}`. */
  const PermissionSuffixes: seq<string> :=
    [".dashboard.view", ".data.view", ".data.edit", ".data.delete", ".users.manage", ".admin.access"]
  const ResourceTypes: seq<string> := ["dashboard", "data", "data", "data", "users", "admin"]
  const Actions: seq<string> := ["view", "view", "edit", "delete", "manage", "access"]
  const PermissionLabels: seq<string> := ["查看仪表板", "查看数据", "编辑数据", "删除数据", "管理用户", "系统管理"]
  const PermissionDescriptionHeads: seq<string> := ["查看", "查看", "编辑", "删除", "管理", "访问"]
  const PermissionDescriptionTails: seq<string> := ["项目仪表板", "项目数据", "项目数据", "项目数据", "项目用户", "项目管理功能"]

  const RoleSuffixes: seq<string> := [".viewer", ".editor", ".admin"]
  const RoleLabels: seq<string> := ["查看者", "编辑者", "管理员"]
  const RoleDescriptionTails: seq<string> := ["项目查看者角色", "项目编辑者角色", "项目管理员角色"]
  /** The permissions of each default role, as indexes into the default permissions. */
  const RolePermissionIndexes: seq<seq<nat>> := [[0, 1], [0, 1, 2], [0, 1, 2, 3, 4, 5]]

  const MissingGetByCode: string := "AttributeError: 'CRUDPermission' object has no attribute 'get_by_code'"

  /** Python's `str.upper()` on the ASCII letters a project code is made of. */
  function Upper(s: string): (r: string)
    ensures |r| == |s|
    ensures forall i :: 0 <= i < |s| ==> ('a' <= s[i] <= 'z' ==> r[i] as int == s[i] as int - 32)
    ensures forall i :: 0 <= i < |s| ==> (!('a' <= s[i] <= 'z') ==> r[i] == s[i])
  {
    if |s| == 0 then []
    else [if 'a' <= s[0] <= 'z' then (s[0] as int - 32) as char else s[0]] + Upper(s[1..])
  }

  function PermissionCode(projectCode: string, i: nat): string
    requires i < 6
  {
    projectCode + PermissionSuffixes[i]
  }

  function RoleCode(projectCode: string, k: nat): string
    requires k < 3
  {
    projectCode + RoleSuffixes[k]
  }

  /** The codes each default role is granted. */
  function RolePermissionCodes(projectCode: string, k: nat): (r: seq<string>)
    requires k < 3
    ensures |r| == |RolePermissionIndexes[k]|
    ensures forall j :: 0 <= j < |r| ==> r[j] == PermissionCode(projectCode, RolePermissionIndexes[k][j])
  {
    Seqs.Map(RolePermissionIndexes[k], (i: nat) => if i < 6 then PermissionCode(projectCode, i) else "")
  }

  /** Equal codes with the same project prefix have equal suffixes. */
  lemma SamePrefixSuffix(c: string, s: string, t: string)
    requires c + s == c + t
    ensures s == t
  {
    assert s == (c + s)[|c|..];
    assert t == (c + t)[|c|..];
  }

  /** The six default permission codes of a project are pairwise distinct, and so are the three role codes. */
  lemma DefaultCodesDistinct(projectCode: string)
    ensures forall i, j :: 0 <= i < j < 6 ==> PermissionCode(projectCode, i) != PermissionCode(projectCode, j)
    ensures forall i, j :: 0 <= i < j < 3 ==> RoleCode(projectCode, i) != RoleCode(projectCode, j)
  {
    forall i, j | 0 <= i < j < 6 ensures PermissionCode(projectCode, i) != PermissionCode(projectCode, j) {
      if PermissionCode(projectCode, i) == PermissionCode(projectCode, j) {
        SamePrefixSuffix(projectCode, PermissionSuffixes[i], PermissionSuffixes[j]);
      }
    }
    forall i, j | 0 <= i < j < 3 ensures RoleCode(projectCode, i) != RoleCode(projectCode, j) {
      if RoleCode(projectCode, i) == RoleCode(projectCode, j) {
        SamePrefixSuffix(projectCode, RoleSuffixes[i], RoleSuffixes[j]);
      }
    }
  }

  /** Viewer's permissions are editor's, editor's are admin's, and admin holds all six. */
  lemma RolePermissionsNest(projectCode: string)
    ensures forall c :: c in RolePermissionCodes(projectCode, 0) ==> c in RolePermissionCodes(projectCode, 1)
    ensures forall c :: c in RolePermissionCodes(projectCode, 1) ==> c in RolePermissionCodes(projectCode, 2)
    ensures forall i :: 0 <= i < 6 ==> PermissionCode(projectCode, i) in RolePermissionCodes(projectCode, 2)
  {
    var v, e, a := RolePermissionCodes(projectCode, 0), RolePermissionCodes(projectCode, 1), RolePermissionCodes(projectCode, 2);
    assert v == [e[0], e[1]];
    assert e == [a[0], a[1], a[2]];
    forall i | 0 <= i < 6 ensures PermissionCode(projectCode, i) in a {
      assert a[i] == PermissionCode(projectCode, i);
    }
  }

  /** The i-th default permission of a project. */
  function DefaultPermission(id: Uuid, projectId: Uuid, projectCode: string, i: nat, now: int): (p: Permission)
    requires i < 6
    ensures p.code == PermissionCode(projectCode, i) && p.projectId == projectId
  {
    Permission(id, Upper(projectCode) + " - " + PermissionLabels[i], PermissionCode(projectCode, i),
               Some(PermissionDescriptionHeads[i] + projectCode + PermissionDescriptionTails[i]),
               ResourceTypes[i], Actions[i], projectId, now)
  }

  /** The k-th default role of a project: scoped to it and not a system role. */
  function DefaultRole(id: Uuid, projectId: Uuid, projectCode: string, k: nat, now: int): (r: Role)
    requires k < 3
    ensures r.code == RoleCode(projectCode, k) && r.projectId == Some(projectId) && !r.isSystem
  {
    Role(id, Upper(projectCode) + " - " + RoleLabels[k], RoleCode(projectCode, k),
         Some(projectCode + RoleDescriptionTails[k]), Some(projectId), false, now)
  }

  /** The lookup the permission step intends: the first permission with that code. */
  function CodeIs(code: string): Permission -> bool {
    (p: Permission) => p.code == code
  }

  // ---------------------------------------------------------------- default permissions

  /** `create_default_project_permissions` as written: the lookup it calls does not exist. */
  function CreateDefaultProjectPermissionsAsWritten(st: Store, projectId: Uuid, projectCode: string, newId: nat -> Uuid,
                                                    now: int): (r: (Store, Result<seq<Permission>, string>))
    ensures r.0 == st && r.1.Failure?
  {
    (st, Failure(MissingGetByCode))
  }

  /** One step of the permission loop: the rows it appends and the permission it yields for the i-th code. */
  function EnsurePermission(perms: seq<Permission>, projectId: Uuid, projectCode: string, newId: nat -> Uuid, now: int, i: nat)
    : (r: (seq<Permission>, Permission))
    requires i < 6
    ensures FindFirst(perms + r.0, CodeIs(PermissionCode(projectCode, i))) == Some(r.1)
    ensures forall x :: x in r.0 ==> x.code == PermissionCode(projectCode, i)
    ensures FindFirst(perms, CodeIs(PermissionCode(projectCode, i))).Some? ==> r.0 == []
    ensures FindFirst(perms, CodeIs(PermissionCode(projectCode, i))).None? ==>
      r.0 == [DefaultPermission(newId(i), projectId, projectCode, i, now)]
  {
    var code := PermissionCode(projectCode, i);
    match FindFirst(perms, CodeIs(code))
    case Some(p) =>
      assert perms + [] == perms;
      ([], p)
    case None =>
      var p := DefaultPermission(newId(i), projectId, projectCode, i, now);
      FindFirstAppend(perms, p, CodeIs(code));
      ([p], p)
  }

  /**
   * The permission loop from the i-th default onwards: the rows it appends and the permission
   * it yields per code, which is the first row with that code in the grown table.
   */
  function EnsurePermissionsFrom(perms: seq<Permission>, projectId: Uuid, projectCode: string, newId: nat -> Uuid, now: int, i: nat)
    : (r: (seq<Permission>, seq<Permission>))
    requires i <= 6
    decreases 6 - i
    ensures |r.1| == 6 - i
    ensures forall x, j :: x in r.0 && 0 <= j < i ==> x.code != PermissionCode(projectCode, j)
    ensures forall k :: 0 <= k < |r.1| ==> FindFirst(perms + r.0, CodeIs(PermissionCode(projectCode, i + k))) == Some(r.1[k])
  {
    if i == 6 then ([], [])
    else
      var (added1, p) := EnsurePermission(perms, projectId, projectCode, newId, now, i);
      var (added2, rest) := EnsurePermissionsFrom(perms + added1, projectId, projectCode, newId, now, i + 1);
      AddedCodesStep(added1, added2, projectCode, i);
      FoundStep(perms, added1, added2, p, rest, projectCode, i);
      (added1 + added2, [p] + rest)
  }

  lemma AddedCodesStep(added1: seq<Permission>, added2: seq<Permission>, projectCode: string, i: nat)
    requires i < 6
    requires forall x :: x in added1 ==> x.code == PermissionCode(projectCode, i)
    requires forall x, j :: x in added2 && 0 <= j < i + 1 ==> x.code != PermissionCode(projectCode, j)
    ensures forall x, j :: x in added1 + added2 && 0 <= j < i ==> x.code != PermissionCode(projectCode, j)
  {
    DefaultCodesDistinct(projectCode);
  }

  lemma FoundStep(perms: seq<Permission>, added1: seq<Permission>, added2: seq<Permission>, p: Permission, rest: seq<Permission>,
                  projectCode: string, i: nat)
    requires i < 6 && |rest| == 5 - i
    requires FindFirst(perms + added1, CodeIs(PermissionCode(projectCode, i))) == Some(p)
    requires forall x :: x in added2 ==> x.code != PermissionCode(projectCode, i)
    requires forall k :: 0 <= k < |rest| ==> FindFirst((perms + added1) + added2, CodeIs(PermissionCode(projectCode, i + 1 + k))) == Some(rest[k])
    ensures forall k :: 0 <= k < 6 - i ==> FindFirst(perms + (added1 + added2), CodeIs(PermissionCode(projectCode, i + k))) == Some(([p] + rest)[k])
  {
    assert perms + (added1 + added2) == (perms + added1) + added2;
    FindFirstExtend(perms + added1, added2, CodeIs(PermissionCode(projectCode, i)));
    forall k | 0 < k < 6 - i
      ensures FindFirst(perms + (added1 + added2), CodeIs(PermissionCode(projectCode, i + k))) == Some(([p] + rest)[k])
    {
      assert ([p] + rest)[k] == rest[k - 1];
      assert i + k == i + 1 + (k - 1);
    }
  }

  /**
   * `create_default_project_permissions` as intended: one permission per default code, the first
   * existing one with that code when there is one, a new one otherwise; only the permission
   * table grows.
   */
  function CreateDefaultProjectPermissions(st: Store, projectId: Uuid, projectCode: string, newId: nat -> Uuid, now: int)
    : (r: (Store, seq<Permission>))
    ensures |r.1| == 6
    ensures r.0 == st.(permissions := r.0.permissions) && IsPrefix(st.permissions, r.0.permissions)
    ensures EnsurePermissionsFrom(st.permissions, projectId, projectCode, newId, now, 0).0 == [] ==> r.0 == st
    ensures forall k :: 0 <= k < 6 ==> FindFirst(r.0.permissions, CodeIs(PermissionCode(projectCode, k))) == Some(r.1[k])
    ensures forall k :: 0 <= k < 6 && FindFirst(st.permissions, CodeIs(PermissionCode(projectCode, k))).Some? ==>
      r.1[k] == FindFirst(st.permissions, CodeIs(PermissionCode(projectCode, k))).value
  {
    var (added, ps) := EnsurePermissionsFrom(st.permissions, projectId, projectCode, newId, now, 0);
    forall k | 0 <= k < 6 && FindFirst(st.permissions, CodeIs(PermissionCode(projectCode, k))).Some?
      ensures ps[k] == FindFirst(st.permissions, CodeIs(PermissionCode(projectCode, k))).value
    {
      FindFirstExtend(st.permissions, added, CodeIs(PermissionCode(projectCode, k)));
    }
    assert (st.permissions + added)[..|st.permissions|] == st.permissions;
    (st.(permissions := st.permissions + added), ps)
  }

  /** When every default code from i on is already present, the loop appends nothing and yields the existing rows. */
  lemma {:induction false} EnsurePermissionsAllPresent(perms: seq<Permission>, projectId: Uuid, projectCode: string,
                                                       newId: nat -> Uuid, now: int, i: nat)
    requires i <= 6
    requires forall j :: i <= j < 6 ==> FindFirst(perms, CodeIs(PermissionCode(projectCode, j))).Some?
    ensures EnsurePermissionsFrom(perms, projectId, projectCode, newId, now, i).0 == []
    decreases 6 - i
  {
    if i < 6 {
      assert perms + [] == perms;
      EnsurePermissionsAllPresent(perms, projectId, projectCode, newId, now, i + 1);
    }
  }

  /** Creating the default permissions twice creates nothing the second time and returns the same rows. */
  lemma CreateDefaultProjectPermissionsIdempotent(st: Store, projectId: Uuid, projectCode: string, newId: nat -> Uuid,
                                                  now: int, newId2: nat -> Uuid, later: int)
    ensures var r1 := CreateDefaultProjectPermissions(st, projectId, projectCode, newId, now);
      CreateDefaultProjectPermissions(r1.0, projectId, projectCode, newId2, later) == r1
  {
    var r1 := CreateDefaultProjectPermissions(st, projectId, projectCode, newId, now);
    var st1 := r1.0;
    EnsurePermissionsAllPresent(st1.permissions, projectId, projectCode, newId2, later, 0);
    var r2 := CreateDefaultProjectPermissions(st1, projectId, projectCode, newId2, later);
    SameTableSameRows(st1, r2.0, r1.1, r2.1, projectCode);
  }

  /** Two results of the permission step over the same table agree row by row. */
  lemma SameTableSameRows(st1: Store, st2: Store, ps1: seq<Permission>, ps2: seq<Permission>, projectCode: string)
    requires |ps1| == 6 && |ps2| == 6
    requires forall k :: 0 <= k < 6 ==> FindFirst(st1.permissions, CodeIs(PermissionCode(projectCode, k))) == Some(ps1[k])
    requires forall k :: 0 <= k < 6 ==> FindFirst(st2.permissions, CodeIs(PermissionCode(projectCode, k))) == Some(ps2[k])
    requires st2.permissions == st1.permissions
    ensures ps1 == ps2
  {
    assert forall k :: 0 <= k < 6 ==> ps1[k] == ps2[k];
  }

  // ---------------------------------------------------------------- default roles

  /** `{perm.code: perm for perm in permissions}`: a later permission with the same code wins. */
  function PermissionMap(ps: seq<Permission>): map<string, Permission> {
    if |ps| == 0 then map[]
    else PermissionMap(ps[..|ps| - 1])[ps[|ps| - 1].code := ps[|ps| - 1]]
  }

  /** With pairwise distinct codes the map sends each code to its own permission. */
  lemma {:induction false} PermissionMapDistinct(ps: seq<Permission>)
    requires DistinctBy(ps, (p: Permission) => p.code)
    ensures forall j :: 0 <= j < |ps| ==> ps[j].code in PermissionMap(ps) && PermissionMap(ps)[ps[j].code] == ps[j]
  {
    if |ps| > 0 {
      var init := ps[..|ps| - 1];
      assert DistinctBy(init, (p: Permission) => p.code) by {
        forall i, j | 0 <= i < j < |init| ensures init[i].code != init[j].code {
          assert init[i] == ps[i] && init[j] == ps[j];
        }
      }
      PermissionMapDistinct(init);
      forall j | 0 <= j < |ps| - 1 ensures PermissionMap(ps)[ps[j].code] == ps[j] {
        assert init[j] == ps[j];
        assert ps[j].code != ps[|ps| - 1].code;
      }
    }
  }

  /** The ids the permission loop of one role links: the mapped permission of each listed code that has one. */
  function LinkTargets(m: map<string, Permission>, codes: seq<string>): (r: seq<Uuid>)
    ensures forall u :: u in r <==> exists c :: c in codes && c in m && m[c].id == u
  {
    if |codes| == 0 then []
    else
      var rest := LinkTargets(m, codes[1..]);
      assert forall c :: c in codes <==> c == codes[0] || c in codes[1..];
      (if codes[0] in m then [m[codes[0]].id] else []) + rest
  }

  /** The default permissions yielded for a project have pairwise distinct codes. */
  lemma DefaultPermissionsDistinct(ps: seq<Permission>, projectCode: string)
    requires |ps| == 6 && forall k :: 0 <= k < 6 ==> ps[k].code == PermissionCode(projectCode, k)
    ensures DistinctBy(ps, (p: Permission) => p.code)
  {
    DefaultCodesDistinct(projectCode);
  }

  /** The map built from the default permissions sends each default code to its permission. */
  lemma DefaultPermissionMap(ps: seq<Permission>, projectCode: string)
    requires |ps| == 6 && forall j :: 0 <= j < 6 ==> ps[j].code == PermissionCode(projectCode, j)
    ensures forall i :: 0 <= i < 6 ==> PermissionCode(projectCode, i) in PermissionMap(ps) && PermissionMap(ps)[PermissionCode(projectCode, i)] == ps[i]
  {
    DefaultPermissionsDistinct(ps, projectCode);
    PermissionMapDistinct(ps);
  }

  /** The ids the role step links a new k-th default role to. */
  function Targets(ps: seq<Permission>, projectCode: string, k: nat): set<Uuid>
    requires k < 3
  {
    set u | u in LinkTargets(PermissionMap(ps), RolePermissionCodes(projectCode, k))
  }

  /** The ids of the permissions on the k-th default role's list. */
  function RoleGrantIds(ps: seq<Permission>, k: nat): set<Uuid>
    requires k < 3
  {
    set j | 0 <= j < |RolePermissionIndexes[k]| && RolePermissionIndexes[k][j] < |ps| :: ps[RolePermissionIndexes[k][j]].id
  }

  /** A default role is linked to exactly the ids of the default permissions on its list. */
  lemma DefaultRoleTargets(ps: seq<Permission>, projectCode: string, k: nat)
    requires k < 3
    requires |ps| == 6 && forall j :: 0 <= j < 6 ==> ps[j].code == PermissionCode(projectCode, j)
    ensures Targets(ps, projectCode, k) == RoleGrantIds(ps, k)
  {
    DefaultPermissionMap(ps, projectCode);
    var m := PermissionMap(ps);
    var codes := RolePermissionCodes(projectCode, k);
    var idx := RolePermissionIndexes[k];
    IndexesInRange(k);
    forall j | 0 <= j < |idx| ensures idx[j] < |ps| && codes[j] in m && m[codes[j]] == ps[idx[j]] {
      assert codes[j] == PermissionCode(projectCode, idx[j]);
    }
    TargetsOfIndexes(m, codes, idx, ps);
  }

  lemma IndexesInRange(k: nat)
    requires k < 3
    ensures forall j :: 0 <= j < |RolePermissionIndexes[k]| ==> RolePermissionIndexes[k][j] < 6
  {
  }

  /** When every listed code maps to the permission at the matching index, those are the targets. */
  lemma TargetsOfIndexes(m: map<string, Permission>, codes: seq<string>, idx: seq<nat>, ps: seq<Permission>)
    requires |codes| == |idx|
    requires forall j :: 0 <= j < |idx| ==> idx[j] < |ps| && codes[j] in m && m[codes[j]] == ps[idx[j]]
    ensures (set u | u in LinkTargets(m, codes)) == set j | 0 <= j < |idx| && idx[j] < |ps| :: ps[idx[j]].id
  {
    forall u | u in LinkTargets(m, codes) ensures u in set j | 0 <= j < |idx| && idx[j] < |ps| :: ps[idx[j]].id {
      var c :| c in codes && c in m && m[c].id == u;
      var j :| 0 <= j < |codes| && codes[j] == c;
      assert u == ps[idx[j]].id;
    }
    forall j | 0 <= j < |idx| ensures ps[idx[j]].id in LinkTargets(m, codes) {
      assert codes[j] in codes;
    }
  }

  /** The lookup of the role step: the role with that code in exactly this project. */
  function RoleLookup(roles: seq<Role>, projectId: Uuid, projectCode: string, k: nat): Result<Option<Role>, string>
    requires k < 3
  {
    OneOrNone(roles, CrudRbac.RoleCodeIs(RoleCode(projectCode, k), Some(projectId)))
  }

  lemma RoleLookupIsGetByCode(st: Store, projectId: Uuid, projectCode: string)
    ensures forall k :: 0 <= k < 3 ==>
      RoleLookup(st.roles, projectId, projectCode, k) == CrudRbac.GetRoleByCode(st, RoleCode(projectCode, k), Some(projectId))
  {
  }

  /**
   * One step of the role loop: the existing role with the k-th code, or a new role appended
   * together with links to the mapped permissions of its list; a lookup error stops the loop.
   */
  function EnsureRole(roles: seq<Role>, projectId: Uuid, projectCode: string, ps: seq<Permission>, newRoleId: nat -> Uuid,
                      newLinkId: (nat, nat) -> Uuid, now: int, k: nat): (r: (seq<Role>, seq<RolePermission>, Result<Role, string>))
    requires k < 3
    ensures r.2.Failure? <==> RoleLookup(roles, projectId, projectCode, k).Failure?
    ensures r.2.Failure? ==> r.0 == [] && r.1 == []
    ensures r.2.Success? ==> RoleLookup(roles + r.0, projectId, projectCode, k) == Success(Some(r.2.value))
    ensures forall x :: x in r.0 ==> x.code == RoleCode(projectCode, k) && x.projectId == Some(projectId)
    ensures RoleLookup(roles, projectId, projectCode, k).Success? && RoleLookup(roles, projectId, projectCode, k).value.Some? ==>
      r == ([], [], Success(RoleLookup(roles, projectId, projectCode, k).value.value))
    ensures RoleLookup(roles, projectId, projectCode, k) == Success(None) ==>
      && r.2 == Success(DefaultRole(newRoleId(k), projectId, projectCode, k, now)) && r.0 == [r.2.value]
      && CrudRbac.LinkedIds(r.1, r.2.value.id) == Targets(ps, projectCode, k)
      && forall l :: l in r.1 ==> l.roleId == r.2.value.id
  {
    var p := CrudRbac.RoleCodeIs(RoleCode(projectCode, k), Some(projectId));
    match OneOrNone(roles, p)
    case Failure(e) => ([], [], Failure(e))
    case Success(Some(x)) =>
      assert roles + [] == roles;
      ([], [], Success(x))
    case Success(None) =>
      var role := DefaultRole(newRoleId(k), projectId, projectCode, k, now);
      OneOrNoneAppendOnly(roles, role, p);
      var targets := LinkTargets(PermissionMap(ps), RolePermissionCodes(projectCode, k));
      var links := CrudRbac.NewLinks(role.id, targets, (n: nat) => newLinkId(k, n), 0, now);
      assert forall u :: u in CrudRbac.LinkedIds(links, role.id) <==> u in targets by {
        forall u | u in targets ensures u in CrudRbac.LinkedIds(links, role.id) {
          var i :| 0 <= i < |targets| && targets[i] == u;
          assert links[i] in links;
        }
      }
      ([role], links, Success(role))
  }

  /** Whether the lookup of some default role from the k-th on fails. */
  predicate LookupFailsFrom(roles: seq<Role>, projectId: Uuid, projectCode: string, k: nat)
    requires k <= 3
    decreases 3 - k
  {
    k < 3 && (RoleLookup(roles, projectId, projectCode, k).Failure? || LookupFailsFrom(roles, projectId, projectCode, k + 1))
  }

  /** Some lookup from the k-th on fails exactly when one of those lookups fails. */
  lemma {:induction false} LookupFailsFromExists(roles: seq<Role>, projectId: Uuid, projectCode: string, k: nat)
    requires k <= 3
    ensures LookupFailsFrom(roles, projectId, projectCode, k) <==>
      exists m :: k <= m < 3 && RoleLookup(roles, projectId, projectCode, m).Failure?
    decreases 3 - k
  {
    if k < 3 {
      LookupFailsFromExists(roles, projectId, projectCode, k + 1);
    }
  }

  /** Two tables whose lookups agree from the k-th code on agree on whether one fails. */
  lemma {:induction false} LookupFailsFromSame(roles: seq<Role>, roles': seq<Role>, projectId: Uuid, projectCode: string, k: nat)
    requires k <= 3
    requires forall m :: k <= m < 3 ==> RoleLookup(roles', projectId, projectCode, m) == RoleLookup(roles, projectId, projectCode, m)
    ensures LookupFailsFrom(roles', projectId, projectCode, k) == LookupFailsFrom(roles, projectId, projectCode, k)
    decreases 3 - k
  {
    if k < 3 {
      LookupFailsFromSame(roles, roles', projectId, projectCode, k + 1);
    }
  }

  /**
   * The role loop from the k-th default onwards: the roles and links it appends and either the
   * role it yields per code, each then the only one with that code in the project, or the first
   * lookup error.
   */
  function EnsureRolesFrom(roles: seq<Role>, projectId: Uuid, projectCode: string, ps: seq<Permission>, newRoleId: nat -> Uuid,
                           newLinkId: (nat, nat) -> Uuid, now: int, k: nat): (r: (seq<Role>, seq<RolePermission>, Result<seq<Role>, string>))
    requires k <= 3
    decreases 3 - k
    ensures forall x, j :: x in r.0 && 0 <= j < k ==> x.code != RoleCode(projectCode, j)
    ensures r.2.Failure? <==> LookupFailsFrom(roles, projectId, projectCode, k)
    ensures r.2.Success? ==> |r.2.value| == 3 - k
    ensures r.2.Success? ==> forall m :: 0 <= m < 3 - k ==>
      RoleLookup(roles + r.0, projectId, projectCode, k + m) == Success(Some(r.2.value[m]))
    ensures r.2.Success? ==> forall m :: 0 <= m < 3 - k && RoleLookup(roles, projectId, projectCode, k + m) == Success(None) ==>
      Targets(ps, projectCode, k + m) <= CrudRbac.LinkedIds(r.1, r.2.value[m].id)
  {
    if k == 3 then ([], [], Success([]))
    else
      var (roles1, links1, x) := EnsureRole(roles, projectId, projectCode, ps, newRoleId, newLinkId, now, k);
      if x.Failure? then ([], [], Failure(x.error))
      else
        var (roles2, links2, rest) := EnsureRolesFrom(roles + roles1, projectId, projectCode, ps, newRoleId, newLinkId, now, k + 1);
        var r := (roles1 + roles2, links1 + links2, if rest.Failure? then Failure(rest.error) else Success([x.value] + rest.value));
        RolesFromStep(roles, roles1, links1, x.value, roles2, links2, rest, projectId, projectCode, ps, k, r);
        r
  }

  /** One role step followed by the rest of the loop keeps the loop's contract. */
  lemma RolesFromStep(roles: seq<Role>, roles1: seq<Role>, links1: seq<RolePermission>, x: Role,
                      roles2: seq<Role>, links2: seq<RolePermission>, rest: Result<seq<Role>, string>,
                      projectId: Uuid, projectCode: string, ps: seq<Permission>, k: nat,
                      r: (seq<Role>, seq<RolePermission>, Result<seq<Role>, string>))
    requires k < 3
    requires r == (roles1 + roles2, links1 + links2, if rest.Failure? then Failure(rest.error) else Success([x] + rest.value))
    requires RoleLookup(roles, projectId, projectCode, k).Success?
    requires RoleLookup(roles + roles1, projectId, projectCode, k) == Success(Some(x))
    requires forall y :: y in roles1 ==> y.code == RoleCode(projectCode, k) && y.projectId == Some(projectId)
    requires RoleLookup(roles, projectId, projectCode, k) == Success(None) ==>
      Targets(ps, projectCode, k) <= CrudRbac.LinkedIds(links1, x.id)
    requires forall y, j :: y in roles2 && 0 <= j < k + 1 ==> y.code != RoleCode(projectCode, j)
    requires rest.Failure? <==> LookupFailsFrom(roles + roles1, projectId, projectCode, k + 1)
    requires rest.Success? ==> |rest.value| == 2 - k
    requires rest.Success? ==> forall m :: 0 <= m < 2 - k ==>
      RoleLookup((roles + roles1) + roles2, projectId, projectCode, k + 1 + m) == Success(Some(rest.value[m]))
    requires rest.Success? ==> forall m :: 0 <= m < 2 - k && RoleLookup(roles + roles1, projectId, projectCode, k + 1 + m) == Success(None) ==>
      Targets(ps, projectCode, k + 1 + m) <= CrudRbac.LinkedIds(links2, rest.value[m].id)
    ensures forall x, j :: x in r.0 && 0 <= j < k ==> x.code != RoleCode(projectCode, j)
    ensures r.2.Failure? <==> LookupFailsFrom(roles, projectId, projectCode, k)
    ensures r.2.Success? ==> |r.2.value| == 3 - k
    ensures r.2.Success? ==> forall m :: 0 <= m < 3 - k ==>
      RoleLookup(roles + r.0, projectId, projectCode, k + m) == Success(Some(r.2.value[m]))
    ensures r.2.Success? ==> forall m :: 0 <= m < 3 - k && RoleLookup(roles, projectId, projectCode, k + m) == Success(None) ==>
      Targets(ps, projectCode, k + m) <= CrudRbac.LinkedIds(r.1, r.2.value[m].id)
  {
    RoleStep(roles, roles1, roles2, projectId, projectCode, k);
    LookupFailsFromSame(roles, roles + roles1, projectId, projectCode, k + 1);
    if rest.Success? {
      RoleFoundStep(roles, roles1, roles2, x, rest.value, projectId, projectCode, k);
      RoleLinksStep(roles, roles1, links1, links2, x, rest.value, projectId, projectCode, ps, k);
    }
  }

  /** Roles appended at step k and after leave the lookups of other codes unchanged. */
  lemma RoleStep(roles: seq<Role>, roles1: seq<Role>, roles2: seq<Role>, projectId: Uuid, projectCode: string, k: nat)
    requires k < 3
    requires forall x :: x in roles1 ==> x.code == RoleCode(projectCode, k) && x.projectId == Some(projectId)
    requires forall x, j :: x in roles2 && 0 <= j < k + 1 ==> x.code != RoleCode(projectCode, j)
    ensures forall x, j :: x in roles1 + roles2 && 0 <= j < k ==> x.code != RoleCode(projectCode, j)
    ensures forall m :: k < m < 3 ==> RoleLookup(roles + roles1, projectId, projectCode, m) == RoleLookup(roles, projectId, projectCode, m)
  {
    DefaultCodesDistinct(projectCode);
    forall m | k < m < 3 ensures RoleLookup(roles + roles1, projectId, projectCode, m) == RoleLookup(roles, projectId, projectCode, m) {
      AppendOthersKeepLookup(roles, roles1, projectId, projectCode, m);
    }
  }

  /** Links appended at step k and after keep every new role's grants. */
  lemma RoleLinksStep(roles: seq<Role>, roles1: seq<Role>, links1: seq<RolePermission>, links2: seq<RolePermission>,
                      x: Role, rest: seq<Role>, projectId: Uuid, projectCode: string, ps: seq<Permission>, k: nat)
    requires k < 3 && |rest| == 2 - k
    requires RoleLookup(roles, projectId, projectCode, k) == Success(None) ==>
      Targets(ps, projectCode, k) <= CrudRbac.LinkedIds(links1, x.id)
    requires forall m :: k < m < 3 ==> RoleLookup(roles + roles1, projectId, projectCode, m) == RoleLookup(roles, projectId, projectCode, m)
    requires forall m :: 0 <= m < 2 - k && RoleLookup(roles + roles1, projectId, projectCode, k + 1 + m) == Success(None) ==>
      Targets(ps, projectCode, k + 1 + m) <= CrudRbac.LinkedIds(links2, rest[m].id)
    ensures forall m :: 0 <= m < 3 - k && RoleLookup(roles, projectId, projectCode, k + m) == Success(None) ==>
      Targets(ps, projectCode, k + m) <= CrudRbac.LinkedIds(links1 + links2, ([x] + rest)[m].id)
  {
    forall m | 0 <= m < 3 - k && RoleLookup(roles, projectId, projectCode, k + m) == Success(None)
      ensures Targets(ps, projectCode, k + m) <= CrudRbac.LinkedIds(links1 + links2, ([x] + rest)[m].id)
    {
      if m > 0 {
        assert RoleLookup(roles + roles1, projectId, projectCode, k + 1 + (m - 1)) == Success(None);
      }
      RoleLinkAt(links1, links2, x, rest, projectCode, ps, k, m);
    }
  }

  /** The role the m-th step from k yields keeps its grants in the joined link table. */
  lemma RoleLinkAt(links1: seq<RolePermission>, links2: seq<RolePermission>, x: Role, rest: seq<Role>,
                   projectCode: string, ps: seq<Permission>, k: nat, m: nat)
    requires k + m < 3 && |rest| == 2 - k
    requires m == 0 ==> Targets(ps, projectCode, k) <= CrudRbac.LinkedIds(links1, x.id)
    requires m > 0 ==> Targets(ps, projectCode, k + 1 + (m - 1)) <= CrudRbac.LinkedIds(links2, rest[m - 1].id)
    ensures Targets(ps, projectCode, k + m) <= CrudRbac.LinkedIds(links1 + links2, ([x] + rest)[m].id)
  {
    if m == 0 {
      GrantKept(Targets(ps, projectCode, k), links1, links1 + links2, x.id);
    } else {
      assert ([x] + rest)[m] == rest[m - 1];
      GrantKept(Targets(ps, projectCode, k + m), links2, links1 + links2, rest[m - 1].id);
    }
  }

  /** Grants held by a role in a link table stay held in any table holding its links. */
  lemma GrantKept(t: set<Uuid>, links: seq<RolePermission>, links': seq<RolePermission>, roleId: Uuid)
    requires t <= CrudRbac.LinkedIds(links, roleId)
    requires forall l :: l in links ==> l in links'
    ensures t <= CrudRbac.LinkedIds(links', roleId)
  {
    forall u | u in t ensures u in CrudRbac.LinkedIds(links', roleId) {
      var l :| l in links && l.roleId == roleId && l.permissionId == u;
      assert l in links';
    }
  }

  /** The role found at step k stays the only match after the later steps append theirs. */
  lemma RoleFoundStep(roles: seq<Role>, roles1: seq<Role>, roles2: seq<Role>, x: Role, rest: seq<Role>,
                      projectId: Uuid, projectCode: string, k: nat)
    requires k < 3 && |rest| == 2 - k
    requires RoleLookup(roles + roles1, projectId, projectCode, k) == Success(Some(x))
    requires forall y, j :: y in roles2 && 0 <= j < k + 1 ==> y.code != RoleCode(projectCode, j)
    requires forall m :: 0 <= m < |rest| ==> RoleLookup((roles + roles1) + roles2, projectId, projectCode, k + 1 + m) == Success(Some(rest[m]))
    ensures forall m :: 0 <= m < 3 - k ==> RoleLookup(roles + (roles1 + roles2), projectId, projectCode, k + m) == Success(Some(([x] + rest)[m]))
  {
    assert roles + (roles1 + roles2) == (roles + roles1) + roles2;
    AppendOthersKeepLookup(roles + roles1, roles2, projectId, projectCode, k);
    forall m | 0 < m < 3 - k
      ensures RoleLookup(roles + (roles1 + roles2), projectId, projectCode, k + m) == Success(Some(([x] + rest)[m]))
    {
      assert ([x] + rest)[m] == rest[m - 1];
      assert k + m == k + 1 + (m - 1);
    }
  }

  /** Appending roles none of which has the k-th code leaves its lookup unchanged. */
  lemma {:induction false} AppendOthersKeepLookup(roles: seq<Role>, more: seq<Role>, projectId: Uuid, projectCode: string, k: nat)
    requires k < 3
    requires forall y :: y in more ==> y.code != RoleCode(projectCode, k)
    ensures RoleLookup(roles + more, projectId, projectCode, k) == RoleLookup(roles, projectId, projectCode, k)
    decreases |more|
  {
    if |more| == 0 {
      assert roles + more == roles;
    } else {
      var init := more[..|more| - 1];
      assert more == init + [more[|more| - 1]];
      assert roles + more == (roles + init) + [more[|more| - 1]];
      AppendOthersKeepLookup(roles, init, projectId, projectCode, k);
      OneOrNoneAppendOther(roles + init, more[|more| - 1], CrudRbac.RoleCodeIs(RoleCode(projectCode, k), Some(projectId)));
    }
  }

  /** When every default role from k on already exists in the project, the loop appends nothing and yields them. */
  lemma {:induction false} EnsureRolesAllPresent(roles: seq<Role>, projectId: Uuid, projectCode: string, ps: seq<Permission>,
                                                 newRoleId: nat -> Uuid, newLinkId: (nat, nat) -> Uuid, now: int, k: nat)
    requires k <= 3
    requires forall m :: k <= m < 3 ==> RoleLookup(roles, projectId, projectCode, m).Success? && RoleLookup(roles, projectId, projectCode, m).value.Some?
    ensures var r := EnsureRolesFrom(roles, projectId, projectCode, ps, newRoleId, newLinkId, now, k);
      r.0 == [] && r.1 == [] && r.2.Success?
    decreases 3 - k
  {
    if k < 3 {
      assert roles + [] == roles;
      EnsureRolesAllPresent(roles, projectId, projectCode, ps, newRoleId, newLinkId, now, k + 1);
    }
  }

  /** `create_default_project_roles` as written: its first step is the failing permission step. */
  function CreateDefaultProjectRolesAsWritten(st: Store, projectId: Uuid, projectCode: string, newPermissionId: nat -> Uuid,
                                              newRoleId: nat -> Uuid, newLinkId: (nat, nat) -> Uuid, now: int)
    : (r: (Store, Result<seq<Role>, string>))
    ensures r.0 == st && r.1.Failure?
  {
    var (st1, ps) := CreateDefaultProjectPermissionsAsWritten(st, projectId, projectCode, newPermissionId, now);
    (st1, Failure(ps.error))
  }

  /**
   * `create_default_project_roles` as intended: after the permission step, each default role is
   * reused when the project already has one with its code, and otherwise created and linked to
   * its default permissions. Every role written before a failing lookup stays written.
   */
  function CreateDefaultProjectRoles(st: Store, projectId: Uuid, projectCode: string, newPermissionId: nat -> Uuid,
                                     newRoleId: nat -> Uuid, newLinkId: (nat, nat) -> Uuid, now: int)
    : (r: (Store, Result<seq<Role>, string>))
    ensures var (st1, ps) := CreateDefaultProjectPermissions(st, projectId, projectCode, newPermissionId, now);
      && r.0.permissions == st1.permissions
      && IsPrefix(st.roles, r.0.roles) && IsPrefix(st.rolePermissions, r.0.rolePermissions)
      && (r.1.Failure? <==> exists k :: 0 <= k < 3 && CrudRbac.GetRoleByCode(st, RoleCode(projectCode, k), Some(projectId)).Failure?)
      && (r.1.Success? ==> |r.1.value| == 3)
      && (r.1.Success? ==> forall k :: 0 <= k < 3 ==>
            CrudRbac.GetRoleByCode(r.0, RoleCode(projectCode, k), Some(projectId)) == Success(Some(r.1.value[k])))
      && (r.1.Success? ==> forall k :: 0 <= k < 3 && CrudRbac.GetRoleByCode(st, RoleCode(projectCode, k), Some(projectId)) == Success(None) ==>
            RoleGrantIds(ps, k) <= CrudRbac.LinkedIds(r.0.rolePermissions, r.1.value[k].id))
  {
    var (st1, ps) := CreateDefaultProjectPermissions(st, projectId, projectCode, newPermissionId, now);
    var (roles, links, res) := EnsureRolesFrom(st1.roles, projectId, projectCode, ps, newRoleId, newLinkId, now, 0);
    var st2 := st1.(roles := st1.roles + roles, rolePermissions := st1.rolePermissions + links);
    RoleLoopInStore(st, st1, ps, projectId, projectCode, newRoleId, newLinkId, now, (st2, res));
    (st2, res)
  }

  /** The role loop run over a store whose role tables are those of `st`, read back through the store lookups. */
  lemma RoleLoopInStore(st: Store, st1: Store, ps: seq<Permission>, projectId: Uuid, projectCode: string,
                        newRoleId: nat -> Uuid, newLinkId: (nat, nat) -> Uuid, now: int, r: (Store, Result<seq<Role>, string>))
    requires st1.roles == st.roles && st1.rolePermissions == st.rolePermissions
    requires |ps| == 6 && forall j :: 0 <= j < 6 ==> ps[j].code == PermissionCode(projectCode, j)
    requires var (roles, links, res) := EnsureRolesFrom(st1.roles, projectId, projectCode, ps, newRoleId, newLinkId, now, 0);
      r == (st1.(roles := st1.roles + roles, rolePermissions := st1.rolePermissions + links), res)
    ensures r.0.permissions == st1.permissions
    ensures IsPrefix(st.roles, r.0.roles) && IsPrefix(st.rolePermissions, r.0.rolePermissions)
    ensures r.1.Failure? <==> exists k :: 0 <= k < 3 && CrudRbac.GetRoleByCode(st, RoleCode(projectCode, k), Some(projectId)).Failure?
    ensures r.1.Success? ==> |r.1.value| == 3
    ensures r.1.Success? ==> forall k :: 0 <= k < 3 ==>
      CrudRbac.GetRoleByCode(r.0, RoleCode(projectCode, k), Some(projectId)) == Success(Some(r.1.value[k]))
    ensures r.1.Success? ==> forall k :: 0 <= k < 3 && CrudRbac.GetRoleByCode(st, RoleCode(projectCode, k), Some(projectId)) == Success(None) ==>
      RoleGrantIds(ps, k) <= CrudRbac.LinkedIds(r.0.rolePermissions, r.1.value[k].id)
  {
    var (roles, links, res) := EnsureRolesFrom(st1.roles, projectId, projectCode, ps, newRoleId, newLinkId, now, 0);
    var st2 := st1.(roles := st1.roles + roles, rolePermissions := st1.rolePermissions + links);
    RoleLookupIsGetByCode(st, projectId, projectCode);
    RoleLookupIsGetByCode(st2, projectId, projectCode);
    LookupFailsFromExists(st.roles, projectId, projectCode, 0);
    PrefixOfAppend(st.roles, roles);
    PrefixOfAppend(st.rolePermissions, links);
    RoleGrantsLinked(st.rolePermissions, links, ps, projectCode, st.roles, projectId, res);
  }

  lemma PrefixOfAppend<T>(s: seq<T>, t: seq<T>)
    ensures IsPrefix(s, s + t)
  {
    assert (s + t)[..|s|] == s;
  }

  /** The grants the loop guarantees for new roles hold in the grown link table. */
  lemma RoleGrantsLinked(before: seq<RolePermission>, links: seq<RolePermission>, ps: seq<Permission>, projectCode: string,
                         roles: seq<Role>, projectId: Uuid, res: Result<seq<Role>, string>)
    requires |ps| == 6 && forall j :: 0 <= j < 6 ==> ps[j].code == PermissionCode(projectCode, j)
    requires res.Success? ==> |res.value| == 3
    requires res.Success? ==> forall m :: 0 <= m < 3 && RoleLookup(roles, projectId, projectCode, m) == Success(None) ==>
      Targets(ps, projectCode, m) <= CrudRbac.LinkedIds(links, res.value[m].id)
    ensures res.Success? ==> forall k :: 0 <= k < 3 && RoleLookup(roles, projectId, projectCode, k) == Success(None) ==>
      RoleGrantIds(ps, k) <= CrudRbac.LinkedIds(before + links, res.value[k].id)
  {
    if res.Success? {
      forall k | 0 <= k < 3 && RoleLookup(roles, projectId, projectCode, k) == Success(None)
        ensures RoleGrantIds(ps, k) <= CrudRbac.LinkedIds(before + links, res.value[k].id)
      {
        DefaultRoleTargets(ps, projectCode, k);
        CrudRbac.LinkedIdsAppend(before, links, res.value[k].id);
      }
    }
  }

  /** A default role the project already had is the one returned, not a duplicate. */
  lemma CreateDefaultProjectRolesReuses(st: Store, projectId: Uuid, projectCode: string, newPermissionId: nat -> Uuid,
                                        newRoleId: nat -> Uuid, newLinkId: (nat, nat) -> Uuid, now: int, k: nat)
    requires k < 3
    requires CrudRbac.GetRoleByCode(st, RoleCode(projectCode, k), Some(projectId)).Success?
    requires CrudRbac.GetRoleByCode(st, RoleCode(projectCode, k), Some(projectId)).value.Some?
    ensures var r := CreateDefaultProjectRoles(st, projectId, projectCode, newPermissionId, newRoleId, newLinkId, now);
      r.1.Success? ==> r.1.value[k] == CrudRbac.GetRoleByCode(st, RoleCode(projectCode, k), Some(projectId)).value.value
  {
    var r := CreateDefaultProjectRoles(st, projectId, projectCode, newPermissionId, newRoleId, newLinkId, now);
    if r.1.Success? {
      var q := CrudRbac.GetRoleByCode(st, RoleCode(projectCode, k), Some(projectId)).value.value;
      var p := CrudRbac.RoleCodeIs(RoleCode(projectCode, k), Some(projectId));
      assert OneOrNone(r.0.roles, p) == Success(Some(r.1.value[k]));
      FindFirstIsOnly(r.0.roles, p);
      var i :| 0 <= i < |st.roles| && st.roles[i] == q;
      assert r.0.roles[i] == q;
    }
  }

  /** Running the role step again after it succeeded writes nothing and returns the same roles. */
  lemma CreateDefaultProjectRolesIdempotent(st: Store, projectId: Uuid, projectCode: string, newPermissionId: nat -> Uuid,
                                            newRoleId: nat -> Uuid, newLinkId: (nat, nat) -> Uuid, now: int,
                                            newPermissionId2: nat -> Uuid, newRoleId2: nat -> Uuid, newLinkId2: (nat, nat) -> Uuid, later: int)
    requires CreateDefaultProjectRoles(st, projectId, projectCode, newPermissionId, newRoleId, newLinkId, now).1.Success?
    ensures var r1 := CreateDefaultProjectRoles(st, projectId, projectCode, newPermissionId, newRoleId, newLinkId, now);
      CreateDefaultProjectRoles(r1.0, projectId, projectCode, newPermissionId2, newRoleId2, newLinkId2, later) == r1
  {
    var r1 := CreateDefaultProjectRoles(st, projectId, projectCode, newPermissionId, newRoleId, newLinkId, now);
    var p1 := CreateDefaultProjectPermissions(st, projectId, projectCode, newPermissionId, now);
    PermissionStepStable(r1.0, projectId, projectCode, newPermissionId2, later, p1.1);
    var p2 := CreateDefaultProjectPermissions(r1.0, projectId, projectCode, newPermissionId2, later);
    RolesAllFound(r1.0, projectId, projectCode, p2.1, newRoleId2, newLinkId2, later, r1.1.value);
    RolesShape(r1.0, projectId, projectCode, newPermissionId2, newRoleId2, newLinkId2, later);
    var s1 := r1.0;
    assert s1.roles + [] == s1.roles && s1.rolePermissions + [] == s1.rolePermissions;
    assert s1.(roles := s1.roles + [], rolePermissions := s1.rolePermissions + []) == s1;
  }

  /** The role step is the permission step followed by the role loop over the resulting tables. */
  lemma RolesShape(st: Store, projectId: Uuid, projectCode: string, newPermissionId: nat -> Uuid,
                   newRoleId: nat -> Uuid, newLinkId: (nat, nat) -> Uuid, now: int)
    ensures var p := CreateDefaultProjectPermissions(st, projectId, projectCode, newPermissionId, now);
      var e := EnsureRolesFrom(p.0.roles, projectId, projectCode, p.1, newRoleId, newLinkId, now, 0);
      CreateDefaultProjectRoles(st, projectId, projectCode, newPermissionId, newRoleId, newLinkId, now)
        == (p.0.(roles := p.0.roles + e.0, rolePermissions := p.0.rolePermissions + e.1), e.2)
  {
  }

  /** Once every default code has a permission, the permission step leaves the store as it is. */
  lemma PermissionStepStable(st: Store, projectId: Uuid, projectCode: string, newId: nat -> Uuid, now: int, ps: seq<Permission>)
    requires |ps| == 6
    requires forall j :: 0 <= j < 6 ==> FindFirst(st.permissions, CodeIs(PermissionCode(projectCode, j))) == Some(ps[j])
    ensures CreateDefaultProjectPermissions(st, projectId, projectCode, newId, now).0 == st
  {
    EnsurePermissionsAllPresent(st.permissions, projectId, projectCode, newId, now, 0);
  }

  /** Once every default role exists once in the project, the role loop appends nothing and yields them. */
  lemma RolesAllFound(st: Store, projectId: Uuid, projectCode: string, ps: seq<Permission>, newRoleId: nat -> Uuid,
                      newLinkId: (nat, nat) -> Uuid, now: int, v: seq<Role>)
    requires |v| == 3
    requires forall k :: 0 <= k < 3 ==> CrudRbac.GetRoleByCode(st, RoleCode(projectCode, k), Some(projectId)) == Success(Some(v[k]))
    ensures EnsureRolesFrom(st.roles, projectId, projectCode, ps, newRoleId, newLinkId, now, 0) == ([], [], Success(v))
  {
    RoleLookupIsGetByCode(st, projectId, projectCode);
    EnsureRolesAllPresent(st.roles, projectId, projectCode, ps, newRoleId, newLinkId, now, 0);
    var e := EnsureRolesFrom(st.roles, projectId, projectCode, ps, newRoleId, newLinkId, now, 0);
    assert st.roles + [] == st.roles;
    SameRolesPerCode(st.roles, e.2.value, v, projectId, projectCode);
  }

  /** Two role lists found by the same lookups in the same table are equal. */
  lemma SameRolesPerCode(roles: seq<Role>, a: seq<Role>, b: seq<Role>, projectId: Uuid, projectCode: string)
    requires |a| == 3 && |b| == 3
    requires forall m :: 0 <= m < 3 ==> RoleLookup(roles, projectId, projectCode, m) == Success(Some(a[m]))
    requires forall m :: 0 <= m < 3 ==> RoleLookup(roles, projectId, projectCode, m) == Success(Some(b[m]))
    ensures a == b
  {
    assert forall m :: 0 <= m < 3 ==> a[m] == b[m];
  }

  // ---------------------------------------------------------------- set-up

  /** The summary `setup_project_rbac` returns: ids as text, and (id, code, name) per row. */
  datatype SetupSummary = SetupSummary(
    projectId: string,
    projectCode: string,
    permissionsCreated: nat,
    rolesCreated: nat,
    permissions: seq<(string, string, string)>,
    roles: seq<(string, string, string)>)

  /** `setup_project_rbac` as written: its first step fails. */
  function SetupProjectRbacAsWritten(st: Store, projectId: Uuid, projectCode: string, newPermissionId: nat -> Uuid,
                                     newRoleId: nat -> Uuid, newLinkId: (nat, nat) -> Uuid, now: int)
    : (r: (Store, Result<SetupSummary, string>))
    ensures r.0 == st && r.1.Failure?
  {
    var (st1, ps) := CreateDefaultProjectPermissionsAsWritten(st, projectId, projectCode, newPermissionId, now);
    (st1, Failure(ps.error))
  }

  /** The summary of a set-up that yielded `ps` and `rs`. */
  function Summarise(projectId: Uuid, projectCode: string, ps: seq<Permission>, rs: seq<Role>): (r: SetupSummary)
    ensures r.permissionsCreated == |ps| && r.rolesCreated == |rs|
    ensures |r.permissions| == |ps| && forall k :: 0 <= k < |ps| ==> r.permissions[k] == (Text(ps[k].id), ps[k].code, ps[k].name)
    ensures |r.roles| == |rs| && forall k :: 0 <= k < |rs| ==> r.roles[k] == (Text(rs[k].id), rs[k].code, rs[k].name)
  {
    SetupSummary(Text(projectId), projectCode, |ps|, |rs|,
                 Seqs.Map(ps, (p: Permission) => (Text(p.id), p.code, p.name)),
                 Seqs.Map(rs, (x: Role) => (Text(x.id), x.code, x.name)))
  }

  /**
   * `setup_project_rbac` as intended: the permission step, then the role step (which repeats the
   * permission step), and a summary counting what each step returned.
   */
  function SetupProjectRbac(st: Store, projectId: Uuid, projectCode: string, newPermissionId: nat -> Uuid,
                            newRoleId: nat -> Uuid, newLinkId: (nat, nat) -> Uuid, now: int)
    : (r: (Store, Result<SetupSummary, string>))
    ensures r.1.Success? ==> r.1.value.permissionsCreated == 6 && r.1.value.rolesCreated == 3
    ensures r.1.Success? ==> r.1.value.projectId == Text(projectId) && r.1.value.projectCode == projectCode
    ensures r.1.Success? ==> (|r.1.value.permissions| == 6 &&
      forall k :: 0 <= k < 6 ==> r.1.value.permissions[k].1 == PermissionCode(projectCode, k))
    ensures r.1.Success? ==> (|r.1.value.roles| == 3 &&
      forall k :: 0 <= k < 3 ==> r.1.value.roles[k].1 == RoleCode(projectCode, k))
    ensures r.1.Failure? <==> CreateDefaultProjectRoles(st, projectId, projectCode, newPermissionId, newRoleId, newLinkId, now).1.Failure?
  {
    var p1 := CreateDefaultProjectPermissions(st, projectId, projectCode, newPermissionId, now);
    var r2 := CreateDefaultProjectRoles(p1.0, projectId, projectCode, newPermissionId, newRoleId, newLinkId, now);
    SetupSummaryShape(st, projectId, projectCode, newPermissionId, newRoleId, newLinkId, now);
    if r2.1.Failure? then (r2.0, Failure(r2.1.error))
    else (r2.0, Success(Summarise(projectId, projectCode, p1.1, r2.1.value)))
  }

  /** What the summary of the two steps holds, and when the role step fails. */
  lemma SetupSummaryShape(st: Store, projectId: Uuid, projectCode: string, newPermissionId: nat -> Uuid,
                          newRoleId: nat -> Uuid, newLinkId: (nat, nat) -> Uuid, now: int)
    ensures var p1 := CreateDefaultProjectPermissions(st, projectId, projectCode, newPermissionId, now);
      var r2 := CreateDefaultProjectRoles(p1.0, projectId, projectCode, newPermissionId, newRoleId, newLinkId, now);
      && (r2.1.Failure? <==> CreateDefaultProjectRoles(st, projectId, projectCode, newPermissionId, newRoleId, newLinkId, now).1.Failure?)
      && (r2.1.Success? ==> var s := Summarise(projectId, projectCode, p1.1, r2.1.value);
            && s.permissionsCreated == 6 && s.rolesCreated == 3
            && s.projectId == Text(projectId) && s.projectCode == projectCode
            && |s.permissions| == 6 && (forall k :: 0 <= k < 6 ==> s.permissions[k].1 == PermissionCode(projectCode, k))
            && |s.roles| == 3 && (forall k :: 0 <= k < 3 ==> s.roles[k].1 == RoleCode(projectCode, k)))
  {
    var p1 := CreateDefaultProjectPermissions(st, projectId, projectCode, newPermissionId, now);
    var r2 := CreateDefaultProjectRoles(p1.0, projectId, projectCode, newPermissionId, newRoleId, newLinkId, now);
    SetupRolesAgree(st, projectId, projectCode, newPermissionId, newRoleId, newLinkId, now);
    if r2.1.Success? {
      RoleCodes(p1.0, r2.0, r2.1.value, projectId, projectCode);
      PermissionCodes(p1.0, p1.1, projectCode);
    }
  }

  lemma PermissionCodes(st: Store, ps: seq<Permission>, projectCode: string)
    requires |ps| == 6
    requires forall k :: 0 <= k < 6 ==> FindFirst(st.permissions, CodeIs(PermissionCode(projectCode, k))) == Some(ps[k])
    ensures forall k :: 0 <= k < 6 ==> ps[k].code == PermissionCode(projectCode, k)
  {
  }

  /** The role step after the permission step is the role step alone. */
  lemma SetupRolesAgree(st: Store, projectId: Uuid, projectCode: string, newPermissionId: nat -> Uuid,
                        newRoleId: nat -> Uuid, newLinkId: (nat, nat) -> Uuid, now: int)
    ensures var p1 := CreateDefaultProjectPermissions(st, projectId, projectCode, newPermissionId, now);
      CreateDefaultProjectRoles(p1.0, projectId, projectCode, newPermissionId, newRoleId, newLinkId, now)
        == CreateDefaultProjectRoles(st, projectId, projectCode, newPermissionId, newRoleId, newLinkId, now)
  {
    var p1 := CreateDefaultProjectPermissions(st, projectId, projectCode, newPermissionId, now);
    CreateDefaultProjectPermissionsIdempotent(st, projectId, projectCode, newPermissionId, now, newPermissionId, now);
    RolesShape(st, projectId, projectCode, newPermissionId, newRoleId, newLinkId, now);
    RolesShape(p1.0, projectId, projectCode, newPermissionId, newRoleId, newLinkId, now);
  }

  lemma RoleCodes(st1: Store, st2: Store, rs: seq<Role>, projectId: Uuid, projectCode: string)
    requires |rs| == 3
    requires forall k :: 0 <= k < 3 ==> CrudRbac.GetRoleByCode(st2, RoleCode(projectCode, k), Some(projectId)) == Success(Some(rs[k]))
    ensures forall k :: 0 <= k < 3 ==> rs[k].code == RoleCode(projectCode, k)
  {
  }

  /** The set-up leaves the store exactly as the role step alone would: its first permission step adds nothing. */
  lemma SetupStoreIsRoleStep(st: Store, projectId: Uuid, projectCode: string, newPermissionId: nat -> Uuid,
                             newRoleId: nat -> Uuid, newLinkId: (nat, nat) -> Uuid, now: int)
    ensures SetupProjectRbac(st, projectId, projectCode, newPermissionId, newRoleId, newLinkId, now).0
         == CreateDefaultProjectRoles(st, projectId, projectCode, newPermissionId, newRoleId, newLinkId, now).0
  {
    SetupRolesAgree(st, projectId, projectCode, newPermissionId, newRoleId, newLinkId, now);
  }
}

=== FILE: rbac_service.dfy ===
/**
 * The permission resolver. A user's effective permissions in a scope are computed from the store
 * and kept in the cache under one key per (user, project or global) for the permission TTL.
 * The cache holds the set of codes; an empty set reads the same as a missing entry.
 */
module RbacService {
  import opened Wrappers
  import opened Uuids
  import opened Seqs
  import opened Models
  import Config
  import Cache
  import CrudRbac
  import CrudUser
  import DateTimeUtils

  type PermissionCache = Cache.Store<set<string>>

  /** Faults of the cache backend during one resolution: on the read and on the write. */
  datatype CacheFaults = CacheFaults(onGet: bool, onSet: bool)

  const NoFaults: CacheFaults := CacheFaults(false, false)

  const CacheKeyPrefix: string := "user_permissions:"

  /** `user_permissions:{user}:{project or 'global'}`. */
  function CacheKey(userId: Uuid, projectId: Option<Uuid>): (k: string)
    ensures IsPrefix(CacheKeyPrefix, k)
    ensures |k| == |CacheKeyPrefix| + 37 + (if projectId.Some? then 36 else 6)
  {
    CacheKeyPrefix + Text(userId) + ":" + (if projectId.Some? then Text(projectId.value) else "global")
  }

  /** Distinct (user, scope) pairs never share a cache key. */
  lemma CacheKeyInjective(u1: Uuid, p1: Option<Uuid>, u2: Uuid, p2: Option<Uuid>)
    requires CacheKey(u1, p1) == CacheKey(u2, p2)
    ensures u1 == u2 && p1 == p2
  {
    var tail1 := if p1.Some? then Text(p1.value) else "global";
    var tail2 := if p2.Some? then Text(p2.value) else "global";
    SplitEqual(CacheKeyPrefix + Text(u1) + ":", tail1, CacheKeyPrefix + Text(u2) + ":", tail2);
    SplitEqual(CacheKeyPrefix + Text(u1), ":", CacheKeyPrefix + Text(u2), ":");
    SplitEqual(CacheKeyPrefix, Text(u1), CacheKeyPrefix, Text(u2));
    TextInjective(u1, u2);
    if p1.Some? && p2.Some? {
      TextInjective(p1.value, p2.value);
    }
  }

  /** Equal concatenations with equally long heads have equal heads and equal tails. */
  lemma SplitEqual(a: string, b: string, c: string, d: string)
    requires a + b == c + d && |a| == |c|
    ensures a == c && b == d
  {
    assert a == (a + b)[..|a|];
    assert c == (c + d)[..|c|];
    assert b == (a + b)[|a|..];
    assert d == (c + d)[|c|..];
  }

  /** An assignment counts towards permissions when it is active and its expiry, if any, is not before `now`. */
  predicate GrantsPermissions(a: UserRole, now: int) {
    a.isActive && !(a.expiresAt.Some? && a.expiresAt.value < now)
  }

  /** An assignment grants project access when it is active and its expiry, if any, is after `now`. */
  predicate GrantsAccess(a: UserRole, now: int) {
    a.isActive && (a.expiresAt.None? || a.expiresAt.value > now)
  }

  /**
   * The reference definition of a user's effective permissions in a scope: the codes of the
   * permissions linked to a role of an assignment of the user that `get_user_roles` selects in
   * that scope and that counts at `now`.
   */
  ghost function EffectivePermissions(st: Store, userId: Uuid, projectId: Option<Uuid>, now: int): set<string> {
    set a, l, p | a in st.userRoles && CrudRbac.AssignmentSelected(a, userId, projectId, true) && GrantsPermissions(a, now)
                  && l in st.rolePermissions && l.roleId == a.roleId
                  && p in st.permissions && p.id == l.permissionId :: p.code
  }

  /** The codes of a list of permissions. */
  function Codes(ps: seq<Permission>): (r: set<string>)
    ensures forall c :: c in r <==> exists p :: p in ps && p.code == c
  {
    set p | p in ps :: p.code
  }

  /** The codes one assignment contributes in the resolver's loop. */
  function Contribution(st: Store, a: UserRole, now: int): set<string> {
    if !a.isActive then {}
    else if a.expiresAt.Some? && a.expiresAt.value < now then {}
    else Codes(CrudRbac.GetRolePermissions(st, a.roleId))
  }

  /** The resolver's loop over the selected assignments. */
  function Collect(st: Store, assignments: seq<UserRole>, now: int): set<string> {
    if |assignments| == 0 then {}
    else Contribution(st, assignments[0], now) + Collect(st, assignments[1..], now)
  }

  /** The codes an assignment yields by the reference definition. */
  ghost function Yield(st: Store, a: UserRole, now: int): set<string> {
    set l, p | GrantsPermissions(a, now) && l in st.rolePermissions && l.roleId == a.roleId
               && p in st.permissions && p.id == l.permissionId :: p.code
  }

  lemma ContributionIsYield(st: Store, a: UserRole, now: int)
    ensures Contribution(st, a, now) == Yield(st, a, now)
  {
    if GrantsPermissions(a, now) {
      var ps := CrudRbac.GetRolePermissions(st, a.roleId);
      forall c | c in Yield(st, a, now) ensures c in Contribution(st, a, now) {
        var l, p :| l in st.rolePermissions && l.roleId == a.roleId && p in st.permissions && p.id == l.permissionId && p.code == c;
        assert p in ps;
      }
    }
  }

  /** The loop computes the union of the yields of the assignments it visits. */
  lemma {:induction false} CollectIsUnion(st: Store, assignments: seq<UserRole>, now: int)
    ensures forall c :: c in Collect(st, assignments, now) <==> exists a :: a in assignments && c in Yield(st, a, now)
  {
    if |assignments| > 0 {
      CollectIsUnion(st, assignments[1..], now);
      ContributionIsYield(st, assignments[0], now);
      forall c | (exists a :: a in assignments && c in Yield(st, a, now)) ensures c in Collect(st, assignments, now) {
        var a :| a in assignments && c in Yield(st, a, now);
        if a != assignments[0] {
          assert a in assignments[1..];
        }
      }
    }
  }

  /** What the store yields for (user, scope): the loop over `get_user_roles` is the reference definition. */
  function ComputePermissions(st: Store, userId: Uuid, projectId: Option<Uuid>, now: int): (r: set<string>)
    ensures r == EffectivePermissions(st, userId, projectId, now)
  {
    var assignments := CrudRbac.UserRoleGetUserRoles(st, userId, projectId, true);
    CollectIsUnion(st, assignments, now);
    var r := Collect(st, assignments, now);
    assert forall c :: c in r <==> c in EffectivePermissions(st, userId, projectId, now) by {
      forall c ensures c in r <==> c in EffectivePermissions(st, userId, projectId, now) {
        if c in EffectivePermissions(st, userId, projectId, now) {
          var a, l, p :| a in st.userRoles && CrudRbac.AssignmentSelected(a, userId, projectId, true) && GrantsPermissions(a, now)
                         && l in st.rolePermissions && l.roleId == a.roleId && p in st.permissions && p.id == l.permissionId && p.code == c;
          assert c in Yield(st, a, now);
        }
      }
    }
    r
  }

  /**
   * `get_user_permissions`: a non-empty cached set is returned as is; otherwise the set is
   * computed from the store and written back with the permission TTL.
   */
  function GetUserPermissions(st: Store, c: PermissionCache, userId: Uuid, projectId: Option<Uuid>, now: int,
                              faults: CacheFaults): (r: (PermissionCache, set<string>))
    ensures var key := CacheKey(userId, projectId);
      var cached := Cache.Get(c, key, {}, now, faults.onGet);
      && (|cached| > 0 ==> r == (c, cached))
      && (|cached| == 0 ==>
            (r.1 == EffectivePermissions(st, userId, projectId, now)
             && r.0 == Cache.Set(c, key, r.1, Some(Cache.Seconds(Config.CachePermissionTtl)), now, faults.onSet).0))
  {
    var key := CacheKey(userId, projectId);
    var cached := Cache.Get(c, key, {}, now, faults.onGet);
    if |cached| > 0 then (c, cached)
    else
      var perms := ComputePermissions(st, userId, projectId, now);
      (Cache.Set(c, key, perms, Some(Cache.Seconds(Config.CachePermissionTtl)), now, faults.onSet).0, perms)
  }

  /** Every live non-empty cache entry holds what the store yields for its (user, scope) at `now`. */
  ghost predicate Coherent(st: Store, c: PermissionCache, now: int) {
    forall u: Uuid, p: Option<Uuid> {:trigger CacheKey(u, p)} ::
      Cache.Live(c, CacheKey(u, p), now) && |c.entries[CacheKey(u, p)].value| > 0 ==>
        c.entries[CacheKey(u, p)].value == EffectivePermissions(st, u, p, now)
  }

  /**
   * Permissions are read from assignments, role links and permission rows only, so a change to
   * any other table (accounts, projects, roles themselves) leaves a coherent cache coherent.
   */
  lemma CoherentAcrossOtherTables(st: Store, st': Store, c: PermissionCache, now: int)
    requires Coherent(st, c, now)
    requires st'.userRoles == st.userRoles && st'.rolePermissions == st.rolePermissions
    requires st'.permissions == st.permissions
    ensures Coherent(st', c, now)
  {
    forall u: Uuid, p: Option<Uuid> ensures EffectivePermissions(st', u, p, now) == EffectivePermissions(st, u, p, now) {
    }
  }

  /** From a coherent cache, resolution returns the effective permissions and leaves the cache coherent. */
  lemma GetUserPermissionsCoherent(st: Store, c: PermissionCache, userId: Uuid, projectId: Option<Uuid>, now: int,
                                   faults: CacheFaults)
    requires Coherent(st, c, now)
    ensures GetUserPermissions(st, c, userId, projectId, now, faults).1 == EffectivePermissions(st, userId, projectId, now)
    ensures Coherent(st, GetUserPermissions(st, c, userId, projectId, now, faults).0, now)
  {
    var key := CacheKey(userId, projectId);
    var c' := GetUserPermissions(st, c, userId, projectId, now, faults).0;
    forall u: Uuid, p: Option<Uuid> | Cache.Live(c', CacheKey(u, p), now) && |c'.entries[CacheKey(u, p)].value| > 0
      ensures c'.entries[CacheKey(u, p)].value == EffectivePermissions(st, u, p, now)
    {
      if CacheKey(u, p) == key {
        CacheKeyInjective(u, p, userId, projectId);
      }
    }
  }

  /** `check_permission`: membership of the code in the resolved set. */
  function CheckPermission(st: Store, c: PermissionCache, userId: Uuid, code: string, projectId: Option<Uuid>, now: int,
                           faults: CacheFaults): (r: (PermissionCache, bool))
    ensures Coherent(st, c, now) ==> (r.1 <==> code in EffectivePermissions(st, userId, projectId, now))
    ensures r.0 == GetUserPermissions(st, c, userId, projectId, now, faults).0
  {
    GetUserPermissionsCoherentIfAny(st, c, userId, projectId, now, faults);
    var (c', perms) := GetUserPermissions(st, c, userId, projectId, now, faults);
    (c', code in perms)
  }

  lemma GetUserPermissionsCoherentIfAny(st: Store, c: PermissionCache, userId: Uuid, projectId: Option<Uuid>, now: int,
                                        faults: CacheFaults)
    ensures Coherent(st, c, now) ==> GetUserPermissions(st, c, userId, projectId, now, faults).1 == EffectivePermissions(st, userId, projectId, now)
  {
    if Coherent(st, c, now) {
      GetUserPermissionsCoherent(st, c, userId, projectId, now, faults);
    }
  }

  /**
   * A cached set is served as long as it lives, even if the store no longer yields it: here an
   * entry written at `written` still answers after its only assignment has expired.
   */
  lemma CachedSetOutlivesExpiry(st: Store, c: PermissionCache, userId: Uuid, projectId: Option<Uuid>, later: int)
    requires Cache.Live(c, CacheKey(userId, projectId), later)
    requires |c.entries[CacheKey(userId, projectId)].value| > 0
    ensures GetUserPermissions(st, c, userId, projectId, later, NoFaults) == (c, c.entries[CacheKey(userId, projectId)].value)
  {
  }

  /**
   * `check_user_project_access`: a superuser always has access; an unknown project code never;
   * otherwise some assignment of the user in exactly that project must be active and unexpired.
   */
  function CheckUserProjectAccess(st: Store, userId: Uuid, projectCode: string, now: int): (r: bool)
    ensures (CrudUser.GetUser(st, userId).Some? && CrudUser.GetUser(st, userId).value.isSuperuser) ==> r
    ensures !(CrudUser.GetUser(st, userId).Some? && CrudUser.GetUser(st, userId).value.isSuperuser) ==>
      (r <==> CrudRbac.GetProjectByCode(st, projectCode).Some? &&
              exists a :: a in st.userRoles && a.userId == userId
                       && a.projectId == Some(CrudRbac.GetProjectByCode(st, projectCode).value.id) && GrantsAccess(a, now))
  {
    var user := CrudUser.GetUser(st, userId);
    if user.Some? && user.value.isSuperuser then true
    else
      match CrudRbac.GetProjectByCode(st, projectCode)
      case None => false
      case Some(project) =>
        var assignments := CrudRbac.UserRoleGetUserRoles(st, userId, Some(project.id), true);
        var active := Filter(assignments, (a: UserRole) => GrantsAccess(a, now));
        assert |active| > 0 <==> exists a :: a in st.userRoles && a.userId == userId && a.projectId == Some(project.id) && GrantsAccess(a, now) by {
          if |active| > 0 {
            assert active[0] in active;
          }
        }
        |active| > 0
  }

  /** `get_user_project_permissions`: the resolved set for the project with that code, or nothing for an unknown code. */
  function GetUserProjectPermissions(st: Store, c: PermissionCache, userId: Uuid, projectCode: string, now: int,
                                     faults: CacheFaults): (r: (PermissionCache, set<string>))
    ensures CrudRbac.GetProjectByCode(st, projectCode).None? ==> r == (c, {})
    ensures CrudRbac.GetProjectByCode(st, projectCode).Some? ==>
      r == GetUserPermissions(st, c, userId, Some(CrudRbac.GetProjectByCode(st, projectCode).value.id), now, faults)
  {
    match CrudRbac.GetProjectByCode(st, projectCode)
    case None => (c, {})
    case Some(project) => GetUserPermissions(st, c, userId, Some(project.id), now, faults)
  }

  /**
   * The two expiry tests disagree at the boundary: an assignment whose expiry is exactly `now`
   * still yields its role's permissions but no longer grants access to its project.
   */
  lemma ExpiryBoundary(st: Store, a: UserRole, l: RolePermission, p: Permission, project: Project, now: int)
    requires Consistent(st)
    requires a in st.userRoles && l in st.rolePermissions && p in st.permissions && project in st.projects
    requires a.isActive && a.expiresAt == Some(now) && a.projectId == Some(project.id)
    requires l.roleId == a.roleId && l.permissionId == p.id
    requires forall b :: b in st.userRoles && b.userId == a.userId && b.projectId == a.projectId ==> b == a
    requires forall u :: u in st.users && u.id == a.userId ==> !u.isSuperuser
    ensures p.code in EffectivePermissions(st, a.userId, a.projectId, now)
    ensures !CheckUserProjectAccess(st, a.userId, project.code, now)
  {
  }

  // ---------------------------------------------------------------- expiry against the naive clock

  /*
   * The two expiry tests read `datetime.utcnow()`, which is naive, while `expires_at` comes back
   * from its `DateTime(timezone=True)` column aware. Python refuses to order the two. The members
   * below take the clock as a value: the source's naive reading raises on every assignment that
   * has an expiry, and an aware reading of the same instant gives the tests their intended meaning.
   */

  /** One visit of the resolver's loop, reading `clock`: inactive ones are skipped before any comparison. */
  function VisitWith(st: Store, a: UserRole, clock: DateTimeUtils.DateTime): (r: Result<set<string>, string>)
    ensures r.Failure? <==> clock.Naive? && a.isActive && a.expiresAt.Some?
    ensures r.Success? ==> r.value == Contribution(st, a, DateTimeUtils.Instant(clock))
  {
    if !a.isActive then Success({})
    else if a.expiresAt.None? then Success(Codes(CrudRbac.GetRolePermissions(st, a.roleId)))
    else match DateTimeUtils.Less(DateTimeUtils.Aware(a.expiresAt.value, 0), clock)
      case Failure(e) => Failure(e)
      case Success(expired) => Success(if expired then {} else Codes(CrudRbac.GetRolePermissions(st, a.roleId)))
  }

  /** The resolver's loop reading `clock`: the first assignment whose comparison raises ends it. */
  function CollectWith(st: Store, assignments: seq<UserRole>, clock: DateTimeUtils.DateTime): (r: Result<set<string>, string>)
    ensures r.Failure? <==> clock.Naive? && exists a :: a in assignments && a.isActive && a.expiresAt.Some?
    ensures r.Success? ==> r.value == Collect(st, assignments, DateTimeUtils.Instant(clock))
  {
    if |assignments| == 0 then Success({})
    else
      match VisitWith(st, assignments[0], clock)
      case Failure(e) => Failure(e)
      case Success(head) =>
        var tail := CollectWith(st, assignments[1..], clock);
        assert forall a :: a in assignments && a != assignments[0] ==> a in assignments[1..];
        match tail
        case Failure(e) => Failure(e)
        case Success(rest) => Success(head + rest)
  }

  /**
   * The permission computation as written: it raises exactly when the user has an active
   * assignment in the queried scope that carries an expiry, whether that expiry has passed or not.
   */
  function ComputePermissionsAsWritten(st: Store, userId: Uuid, projectId: Option<Uuid>, now: int): (r: Result<set<string>, string>)
    ensures r.Failure? <==> exists a :: a in st.userRoles && CrudRbac.AssignmentSelected(a, userId, projectId, true) && a.expiresAt.Some?
    ensures r.Success? ==> r.value == EffectivePermissions(st, userId, projectId, now)
  {
    var assignments := CrudRbac.UserRoleGetUserRoles(st, userId, projectId, true);
    assert ComputePermissions(st, userId, projectId, now) == Collect(st, assignments, now);
    CollectWith(st, assignments, DateTimeUtils.Naive(now))
  }

  /** Read through an aware clock, the same loop never raises and computes the effective permissions. */
  lemma AwareClockComputesPermissions(st: Store, userId: Uuid, projectId: Option<Uuid>, now: int)
    ensures CollectWith(st, CrudRbac.UserRoleGetUserRoles(st, userId, projectId, true), DateTimeUtils.Aware(now, 0))
            == Success(EffectivePermissions(st, userId, projectId, now))
  {
    assert ComputePermissions(st, userId, projectId, now) == Collect(st, CrudRbac.UserRoleGetUserRoles(st, userId, projectId, true), now);
  }

  /**
   * `get_user_permissions` as written: a live non-empty cached set is still served, since the
   * cache is read first; on a miss the computation raises as above and nothing is cached.
   */
  function GetUserPermissionsAsWritten(st: Store, c: PermissionCache, userId: Uuid, projectId: Option<Uuid>, now: int,
                                       faults: CacheFaults): (r: Result<(PermissionCache, set<string>), string>)
    ensures var cached := Cache.Get(c, CacheKey(userId, projectId), {}, now, faults.onGet);
      && (|cached| > 0 ==> r == Success((c, cached)))
      && (|cached| == 0 ==> (r.Failure? <==> ComputePermissionsAsWritten(st, userId, projectId, now).Failure?))
    ensures r.Success? ==> r.value == GetUserPermissions(st, c, userId, projectId, now, faults)
  {
    var key := CacheKey(userId, projectId);
    var cached := Cache.Get(c, key, {}, now, faults.onGet);
    if |cached| > 0 then Success((c, cached))
    else match ComputePermissionsAsWritten(st, userId, projectId, now)
      case Failure(e) => Failure(e)
      case Success(perms) => Success((Cache.Set(c, key, perms, Some(Cache.Seconds(Config.CachePermissionTtl)), now, faults.onSet).0, perms))
  }

  /** The project-access test of one assignment, reading `clock`; `expires_at > clock` is Python's `clock < expires_at`. */
  function AccessWith(a: UserRole, clock: DateTimeUtils.DateTime): (r: Result<bool, string>)
    ensures r.Failure? <==> clock.Naive? && a.isActive && a.expiresAt.Some?
    ensures r.Success? ==> (r.value <==> GrantsAccess(a, DateTimeUtils.Instant(clock)))
  {
    if !a.isActive then Success(false)
    else if a.expiresAt.None? then Success(true)
    else DateTimeUtils.Less(clock, DateTimeUtils.Aware(a.expiresAt.value, 0))
  }

  /** The list comprehension tests every assignment, so any raising test raises. */
  function AnyAccessWith(assignments: seq<UserRole>, clock: DateTimeUtils.DateTime): (r: Result<bool, string>)
    ensures r.Failure? <==> clock.Naive? && exists a :: a in assignments && a.isActive && a.expiresAt.Some?
    ensures r.Success? ==> (r.value <==> exists a :: a in assignments && GrantsAccess(a, DateTimeUtils.Instant(clock)))
  {
    if |assignments| == 0 then Success(false)
    else
      match AccessWith(assignments[0], clock)
      case Failure(e) => Failure(e)
      case Success(head) =>
        var tail := AnyAccessWith(assignments[1..], clock);
        assert forall a :: a in assignments && a != assignments[0] ==> a in assignments[1..];
        match tail
        case Failure(e) => Failure(e)
        case Success(rest) => Success(head || rest)
  }

  /**
   * `check_user_project_access` as written: superusers and unknown project codes are answered
   * before any comparison; otherwise it raises exactly when an active assignment of the user in
   * that project carries an expiry, and agrees with the intended test when it does not raise.
   */
  function CheckUserProjectAccessAsWritten(st: Store, userId: Uuid, projectCode: string, now: int): (r: Result<bool, string>)
    ensures (CrudUser.GetUser(st, userId).Some? && CrudUser.GetUser(st, userId).value.isSuperuser) ==> r == Success(true)
    ensures !(CrudUser.GetUser(st, userId).Some? && CrudUser.GetUser(st, userId).value.isSuperuser) ==>
      && (CrudRbac.GetProjectByCode(st, projectCode).None? ==> r == Success(false))
      && (CrudRbac.GetProjectByCode(st, projectCode).Some? ==>
            (r.Failure? <==> exists a :: a in st.userRoles && a.userId == userId && a.isActive && a.expiresAt.Some?
                                       && a.projectId == Some(CrudRbac.GetProjectByCode(st, projectCode).value.id)))
    ensures r.Success? ==> r.value == CheckUserProjectAccess(st, userId, projectCode, now)
  {
    var user := CrudUser.GetUser(st, userId);
    if user.Some? && user.value.isSuperuser then Success(true)
    else
      match CrudRbac.GetProjectByCode(st, projectCode)
      case None => Success(false)
      case Some(project) =>
        AnyAccessWith(CrudRbac.UserRoleGetUserRoles(st, userId, Some(project.id), true), DateTimeUtils.Naive(now))
  }

  // ---------------------------------------------------------------- assignment and revocation

  /** `st'` differs from `st` at most in the user's assignments in exactly scope `projectId`. */
  ghost predicate TouchesOnly(st: Store, st': Store, userId: Uuid, projectId: Option<Uuid>) {
    && st'.rolePermissions == st.rolePermissions
    && st'.permissions == st.permissions
    && forall a: UserRole :: !(a.userId == userId && a.projectId == projectId) ==> (a in st'.userRoles <==> a in st.userRoles)
  }

  /**
   * A change to the user's assignments in one scope changes only the effective permissions of
   * that user in that scope and in the global scope, which sees every scope.
   */
  lemma EffectiveOutsideUnchanged(st: Store, st': Store, userId: Uuid, projectId: Option<Uuid>,
                                  u: Uuid, p: Option<Uuid>, now: int)
    requires TouchesOnly(st, st', userId, projectId)
    requires (u, p) != (userId, projectId) && (u, p) != (userId, None)
    ensures EffectivePermissions(st', u, p, now) == EffectivePermissions(st, u, p, now)
  {
    forall a: UserRole | CrudRbac.AssignmentSelected(a, u, p, true)
      ensures a in st'.userRoles <==> a in st.userRoles
    {
      assert !(a.userId == userId && a.projectId == projectId);
    }
  }

  /** Removes the cache entry of (user, scope), as the service does after a role change. */
  function InvalidateOne(c: PermissionCache, userId: Uuid, projectId: Option<Uuid>, now: int, fault: bool): (r: PermissionCache)
    ensures !fault ==> !(r.Backend? && CacheKey(userId, projectId) in r.entries)
    ensures forall k :: k != CacheKey(userId, projectId) ==> Cache.Get(r, k, {}, now, false) == Cache.Get(c, k, {}, now, false)
  {
    Cache.Delete(c, CacheKey(userId, projectId), now, fault).0
  }

  /** Removes the cache entries of (user, scope) and of (user, global). */
  function InvalidateWithGlobal(c: PermissionCache, userId: Uuid, projectId: Option<Uuid>, now: int, fault: bool): (r: PermissionCache)
    ensures !fault ==> !(r.Backend? && CacheKey(userId, projectId) in r.entries) && !(r.Backend? && CacheKey(userId, None) in r.entries)
    ensures forall k :: k != CacheKey(userId, projectId) && k != CacheKey(userId, None) ==>
      Cache.Get(r, k, {}, now, false) == Cache.Get(c, k, {}, now, false)
  {
    InvalidateOne(InvalidateOne(c, userId, projectId, now, fault), userId, None, now, fault)
  }

  /** After a change confined to (user, scope), dropping both affected entries keeps the cache coherent. */
  lemma InvalidateWithGlobalKeepsCoherent(st: Store, st': Store, c: PermissionCache, userId: Uuid, projectId: Option<Uuid>, now: int)
    requires Coherent(st, c, now)
    requires TouchesOnly(st, st', userId, projectId)
    ensures Coherent(st', InvalidateWithGlobal(c, userId, projectId, now, false), now)
  {
    var c' := InvalidateWithGlobal(c, userId, projectId, now, false);
    forall u: Uuid, p: Option<Uuid> | Cache.Live(c', CacheKey(u, p), now) && |c'.entries[CacheKey(u, p)].value| > 0
      ensures c'.entries[CacheKey(u, p)].value == EffectivePermissions(st', u, p, now)
    {
      if (u, p) == (userId, projectId) || (u, p) == (userId, None) {
        assert false;
      }
      EffectiveOutsideUnchanged(st, st', userId, projectId, u, p, now);
      assert CacheKey(u, p) != CacheKey(userId, projectId) && CacheKey(u, p) != CacheKey(userId, None) by {
        if CacheKey(u, p) == CacheKey(userId, projectId) {
          CacheKeyInjective(u, p, userId, projectId);
        }
        if CacheKey(u, p) == CacheKey(userId, None) {
          CacheKeyInjective(u, p, userId, None);
        }
      }
      assert Cache.Get(c', CacheKey(u, p), {}, now, false) == Cache.Get(c, CacheKey(u, p), {}, now, false);
    }
  }

  const AssignTypeError: string := "CRUDBase.create() takes 2 positional arguments but 3 were given"

  /**
   * `assign_role_to_user` as written: the store call passes the data positionally to a
   * keyword-only parameter, so it raises before anything is written or invalidated.
   */
  function AssignRoleToUserAsWritten(st: Store, c: PermissionCache, userId: Uuid, roleId: Uuid, projectId: Option<Uuid>,
                                     grantedBy: Option<Uuid>, expiresAt: Option<int>, newId: Uuid, now: int,
                                     fault: bool): (r: (Store, PermissionCache, Result<UserRole, string>))
    ensures r.0 == st && r.1 == c && r.2.Failure?
  {
    (st, c, Failure(AssignTypeError))
  }

  /** The assignment row the service means to insert. */
  function NewAssignment(id: Uuid, userId: Uuid, roleId: Uuid, projectId: Option<Uuid>, grantedBy: Option<Uuid>,
                         expiresAt: Option<int>, now: int): (a: UserRole)
    ensures a.isActive && a.grantedAt == now && a.userId == userId && a.projectId == projectId
  {
    UserRole(id, userId, roleId, projectId, grantedBy, now, expiresAt, true)
  }

  /**
   * `assign_role_to_user` with the store call repaired: the assignment is inserted and, as
   * written, only the entry of (user, scope) is dropped.
   */
  function AssignRoleInvalidatingOne(st: Store, c: PermissionCache, userId: Uuid, roleId: Uuid, projectId: Option<Uuid>,
                                     grantedBy: Option<Uuid>, expiresAt: Option<int>, newId: Uuid, now: int,
                                     fault: bool): (r: (Store, PermissionCache, UserRole))
    ensures r.2 in r.0.userRoles && r.2.roleId == roleId && r.2.isActive
    ensures TouchesOnly(st, r.0, userId, projectId)
    ensures r.1 == InvalidateOne(c, userId, projectId, now, fault)
  {
    var a := NewAssignment(newId, userId, roleId, projectId, grantedBy, expiresAt, now);
    (st.(userRoles := st.userRoles + [a]), InvalidateOne(c, userId, projectId, now, fault), a)
  }

  /** `assign_role_to_user` with the store call repaired and the global entry dropped as well. */
  function AssignRoleToUser(st: Store, c: PermissionCache, userId: Uuid, roleId: Uuid, projectId: Option<Uuid>,
                            grantedBy: Option<Uuid>, expiresAt: Option<int>, newId: Uuid, now: int,
                            fault: bool): (r: (Store, PermissionCache, UserRole))
    ensures r.2 in r.0.userRoles && r.2.roleId == roleId && r.2.isActive
    ensures TouchesOnly(st, r.0, userId, projectId)
    ensures r.1 == InvalidateWithGlobal(c, userId, projectId, now, fault)
  {
    var a := NewAssignment(newId, userId, roleId, projectId, grantedBy, expiresAt, now);
    (st.(userRoles := st.userRoles + [a]), InvalidateWithGlobal(c, userId, projectId, now, fault), a)
  }

  /** The repaired assignment keeps a coherent cache coherent when the backend does not fail. */
  lemma AssignRoleToUserKeepsCoherent(st: Store, c: PermissionCache, userId: Uuid, roleId: Uuid, projectId: Option<Uuid>,
                                      grantedBy: Option<Uuid>, expiresAt: Option<int>, newId: Uuid, now: int)
    requires Coherent(st, c, now)
    ensures var r := AssignRoleToUser(st, c, userId, roleId, projectId, grantedBy, expiresAt, newId, now, false);
      Coherent(r.0, r.1, now)
  {
    var r := AssignRoleToUser(st, c, userId, roleId, projectId, grantedBy, expiresAt, newId, now, false);
    InvalidateWithGlobalKeepsCoherent(st, r.0, c, userId, projectId, now);
  }

  /**
   * Dropping only the (user, project) entry leaves a warm (user, global) entry stale: a role
   * granted in a project whose permission the global set lacked makes the cache incoherent.
   */
  lemma AssignInvalidatingOneLeavesGlobalStale(st: Store, c: PermissionCache, userId: Uuid, roleId: Uuid, project: Uuid,
                                               grantedBy: Option<Uuid>, expiresAt: Option<int>, newId: Uuid, now: int,
                                               l: RolePermission, p: Permission)
    requires Coherent(st, c, now)
    requires Cache.Live(c, CacheKey(userId, None), now) && |c.entries[CacheKey(userId, None)].value| > 0
    requires l in st.rolePermissions && l.roleId == roleId && p in st.permissions && p.id == l.permissionId
    requires p.code !in c.entries[CacheKey(userId, None)].value
    requires expiresAt.None? || expiresAt.value >= now
    ensures var r := AssignRoleInvalidatingOne(st, c, userId, roleId, Some(project), grantedBy, expiresAt, newId, now, false);
      !Coherent(r.0, r.1, now)
  {
    var r := AssignRoleInvalidatingOne(st, c, userId, roleId, Some(project), grantedBy, expiresAt, newId, now, false);
    var gk := CacheKey(userId, None);
    assert gk != CacheKey(userId, Some(project)) by {
      if gk == CacheKey(userId, Some(project)) {
        CacheKeyInjective(userId, None, userId, Some(project));
      }
    }
    assert r.1 == Cache.Delete(c, CacheKey(userId, Some(project)), now, false).0;
    assert r.1.Backend? && r.1.entries == c.entries - {CacheKey(userId, Some(project))};
    assert Cache.Live(r.1, gk, now) && r.1.entries[gk] == c.entries[gk];
    var a := NewAssignment(newId, userId, roleId, Some(project), grantedBy, expiresAt, now);
    assert r.0.userRoles == st.userRoles + [a] && r.0.rolePermissions == st.rolePermissions && r.0.permissions == st.permissions;
    CodeIsEffective(r.0, userId, None, now, a, l, p);
    StaleEntry(r.0, r.1, userId, None, now, p.code);
  }

  /** A permission reached through a selected, granting assignment and one of its role's links is effective. */
  lemma CodeIsEffective(st: Store, userId: Uuid, projectId: Option<Uuid>, now: int, a: UserRole, l: RolePermission, p: Permission)
    requires a in st.userRoles && CrudRbac.AssignmentSelected(a, userId, projectId, true) && GrantsPermissions(a, now)
    requires l in st.rolePermissions && l.roleId == a.roleId && p in st.permissions && p.id == l.permissionId
    ensures p.code in EffectivePermissions(st, userId, projectId, now)
  {
  }

  /** A live, non-empty entry missing an effective permission makes the cache incoherent. */
  lemma StaleEntry(st: Store, c: PermissionCache, userId: Uuid, projectId: Option<Uuid>, now: int, code: string)
    requires Cache.Live(c, CacheKey(userId, projectId), now) && |c.entries[CacheKey(userId, projectId)].value| > 0
    requires code in EffectivePermissions(st, userId, projectId, now)
    requires code !in c.entries[CacheKey(userId, projectId)].value
    ensures !Coherent(st, c, now)
  {
  }

  /**
   * `revoke_role_from_user` as written: the store's revocation (an oracle result here) is
   * returned, and the (user, scope) entry is dropped only when it reports success.
   */
  function RevokeRoleFromUserAsWritten(c: PermissionCache, userId: Uuid, projectId: Option<Uuid>,
                                       revoked: (Store, bool), now: int, fault: bool): (r: (Store, PermissionCache, bool))
    ensures r.0 == revoked.0 && r.2 == revoked.1
    ensures !revoked.1 ==> r.1 == c
    ensures revoked.1 ==> r.1 == InvalidateOne(c, userId, projectId, now, fault)
  {
    if revoked.1 then (revoked.0, InvalidateOne(c, userId, projectId, now, fault), true)
    else (revoked.0, c, false)
  }

  /** `revoke_role_from_user` dropping the global entry as well on success. */
  function RevokeRoleFromUser(c: PermissionCache, userId: Uuid, projectId: Option<Uuid>,
                              revoked: (Store, bool), now: int, fault: bool): (r: (Store, PermissionCache, bool))
    ensures r.0 == revoked.0 && r.2 == revoked.1
    ensures !revoked.1 ==> r.1 == c
    ensures revoked.1 ==> r.1 == InvalidateWithGlobal(c, userId, projectId, now, fault)
  {
    if revoked.1 then (revoked.0, InvalidateWithGlobal(c, userId, projectId, now, fault), true)
    else (revoked.0, c, false)
  }

  /**
   * A successful revocation confined to (user, scope) keeps the cache coherent once both
   * entries are dropped; a revocation reported as failed must not have changed anything.
   */
  lemma RevokeRoleFromUserKeepsCoherent(st: Store, c: PermissionCache, userId: Uuid, projectId: Option<Uuid>,
                                        revoked: (Store, bool), now: int)
    requires Coherent(st, c, now)
    requires TouchesOnly(st, revoked.0, userId, projectId)
    requires !revoked.1 ==> revoked.0 == st
    ensures var r := RevokeRoleFromUser(c, userId, projectId, revoked, now, false);
      Coherent(r.0, r.1, now)
  {
    if revoked.1 {
      InvalidateWithGlobalKeepsCoherent(st, revoked.0, c, userId, projectId, now);
    }
  }
}

=== FILE: roles_router.dfy ===
/**
 * The role routes (`/api/v1/roles`): listing and reading need an active account, the writes
 * and the assignment of a role to an account need a superuser. Refusals are raised; any
 * exception a handler does not expect becomes a 500 naming the action.
 */
module RolesRouter {
  import opened Wrappers
  import opened Uuids
  import opened Seqs
  import opened Models
  import opened Common
  import opened RbacSchemas
  import opened Routes
  import Dependencies
  import RbacService
  import CrudRbac
  import CrudBase

  const ListedMessage: string := "Roles retrieved successfully"
  const CreatedMessage: string := "Role created successfully"
  const FetchedMessage: string := "Role retrieved successfully"
  const UpdatedMessage: string := "Role updated successfully"
  const DeletedMessage: string := "Role deleted successfully"
  const AssignedMessage: string := "Role assigned successfully"

  const InvalidRoleId: HttpError := HttpError(BadRequest, "Invalid role ID format")
  const RoleNotFound: HttpError := HttpError(NotFound, "Role not found")
  const RoleCodeExists: HttpError := HttpError(BadRequest, "Role code already exists")
  const SystemRoleProtected: HttpError := HttpError(BadRequest, "Cannot delete system role")
  const InvalidIdFormat: HttpError := HttpError(BadRequest, "Invalid ID format")

  /** `RoleResponse`: a role as the routes render it, its ids as text. */
  datatype RoleResponse = RoleResponse(id: string, name: string, code: string, description: Option<string>,
                                       projectId: Option<string>, isSystem: bool, createdAt: int)

  function Render(x: Role): (r: RoleResponse)
    ensures r.id == Text(x.id) && r.code == x.code && r.isSystem == x.isSystem
    ensures r.projectId.Some? <==> x.projectId.Some?
  {
    RoleResponse(Text(x.id), x.name, x.code, x.description,
                 if x.projectId.Some? then Some(Text(x.projectId.value)) else None, x.isSystem, x.createdAt)
  }

  /** Rendering loses nothing: a rendered role determines the role. */
  lemma RenderInjective(x: Role, y: Role)
    ensures Render(x) == Render(y) <==> x == y
  {
    if Render(x) == Render(y) {
      ParseText(x.id);
      ParseText(y.id);
      if x.projectId.Some? {
        ParseText(x.projectId.value);
        ParseText(y.projectId.value);
      }
    }
  }

  function RoleId(x: Role): Uuid {
    x.id
  }

  /** `role_crud.get`: the role with that id, if any. */
  function GetById(st: Store, id: Uuid): (r: Option<Role>)
    ensures r.Some? ==> r.value in st.roles && r.value.id == id
    ensures r.None? <==> forall x :: x in st.roles ==> x.id != id
  {
    CrudBase.Get(st.roles, RoleId, id)
  }

  /** Consistent stores have unique role ids, read through `RoleId`. */
  lemma RoleIdsDistinct(st: Store)
    requires Consistent(st)
    ensures DistinctBy(st.roles, RoleId)
  {
  }

  /** Every stored role is found again by its id. */
  lemma GetByIdFinds(st: Store, x: Role)
    requires Consistent(st) && x in st.roles
    ensures GetById(st, x.id) == Some(x)
  {
    RoleIdsDistinct(st);
    FindFirstUnique(st.roles, RoleId, x, (y: Role) => RoleId(y) == x.id);
  }

  // ---------------------------------------------------------------- GET /roles

  /**
   * The `project_id` query: absent or empty means the global roles; any other text must be an
   * id, or the `ValueError`'s message is returned.
   */
  function ScopeQuery(projectId: Option<string>): (r: Result<Option<Uuid>, string>)
    ensures !Dependencies.Truthy(projectId) ==> r == Success(None)
    ensures Dependencies.Truthy(projectId) ==>
      (r.Success? <==> Parse(projectId.value).Some?) && (r.Success? ==> r.value == Parse(projectId.value))
    ensures r.Failure? ==> r.error == BadUuidMessage
  {
    if !Dependencies.Truthy(projectId) then Success(None)
    else match Parse(projectId.value)
      case None => Failure(BadUuidMessage)
      case Some(id) => Success(Some(id))
  }

  /** The roles of a scope, as `get_project_roles` or `get_global_roles` returns them. */
  function ScopeRoles(st: Store, scope: Option<Uuid>): (r: seq<Role>)
    ensures forall x :: x in r <==> x in st.roles && x.projectId == scope
    ensures |r| <= |st.roles|
  {
    var r := if scope.Some? then CrudRbac.GetProjectRoles(st, scope.value) else CrudRbac.GetGlobalRoles(st);
    ScopeRolesLength(st, scope, r);
    r
  }

  /** Both scope lookups filter the role table, so they are never longer than it. */
  lemma ScopeRolesLength(st: Store, scope: Option<Uuid>, r: seq<Role>)
    requires r == if scope.Some? then CrudRbac.GetProjectRoles(st, scope.value) else CrudRbac.GetGlobalRoles(st)
    ensures |r| <= |st.roles|
  {
    if scope.Some? {
      CrudBase.FilterLength(st.roles, (x: Role) => x.projectId == scope);
    } else {
      CrudBase.FilterLength(st.roles, (x: Role) => x.projectId.None?);
    }
  }

  /**
   * `get_roles`' handler: a malformed project id is a 500 (the handler's catch-all takes the
   * `ValueError`); otherwise one page, cut in memory, of the roles of that scope.
   */
  function ListRolesReply(st: Store, skip: int, limit: int, projectId: Option<string>): (r: Result<Reply<seq<RoleResponse>>, HttpError>)
    ensures r.Failure? <==> ScopeQuery(projectId).Failure?
    ensures r.Failure? ==> r.error == Failed("get roles", BadUuidMessage)
    ensures r.Success? ==> r.value.Envelope? && r.value.response == BaseResponse(true, 200, ListedMessage) && r.value.data.Some?
  {
    match ScopeQuery(projectId)
    case Failure(msg) => Failure(Failed("get roles", msg))
    case Success(scope) =>
      Success(Ok(ListedMessage, Map(Slice(ScopeRoles(st, scope), PageParam(skip), PageParam(skip) + PageParam(limit)), Render)))
  }

  /**
   * A listed page holds at most `limit` roles, every one a stored role of the requested scope;
   * from the start, a page at least as long as the role table lists every role of the scope.
   */
  lemma ListRolesFromStore(st: Store, skip: int, limit: int, projectId: Option<string>)
    requires ScopeQuery(projectId).Success?
    ensures var l := ListRolesReply(st, skip, limit, projectId).value.data.value;
      var scope := ScopeQuery(projectId).value;
      && |l| <= PageParam(limit)
      && (forall v :: v in l ==> exists x :: x in st.roles && x.projectId == scope && v == Render(x))
      && (skip <= 0 && limit >= |st.roles| ==> forall x :: x in st.roles && x.projectId == scope ==> Render(x) in l)
  {
    var scope := ScopeQuery(projectId).value;
    var all := ScopeRoles(st, scope);
    var page := Slice(all, PageParam(skip), PageParam(skip) + PageParam(limit));
    assert ListRolesReply(st, skip, limit, projectId).value.data.value == Map(page, Render);
    RenderedFromScope(st, page, scope);
    if skip <= 0 && limit >= |st.roles| {
      assert page == all;
      RendersAll(all);
    }
  }

  /** Every rendering of a page of scope roles is the rendering of a stored role of that scope. */
  lemma RenderedFromScope(st: Store, page: seq<Role>, scope: Option<Uuid>)
    requires forall x :: x in page ==> x in st.roles && x.projectId == scope
    ensures forall v :: v in Map(page, Render) ==> exists x :: x in st.roles && x.projectId == scope && v == Render(x)
  {
    forall v | v in Map(page, Render) ensures exists x :: x in st.roles && x.projectId == scope && v == Render(x) {
      var i :| 0 <= i < |page| && Map(page, Render)[i] == v;
      assert page[i] in page;
    }
  }

  /** The rendering of a sequence holds the rendering of each of its elements. */
  lemma RendersAll(all: seq<Role>)
    ensures forall x :: x in all ==> Render(x) in Map(all, Render)
  {
    forall x | x in all ensures Render(x) in Map(all, Render) {
      var i :| 0 <= i < |all| && all[i] == x;
      assert Map(all, Render)[i] == Render(x);
    }
  }

  function ListRolesHandler(st: Store, skip: int, limit: int, projectId: Option<string>)
    : User -> (Store, Result<Reply<seq<RoleResponse>>, HttpError>)
  {
    (caller: User) => (st, ListRolesReply(st, skip, limit, projectId))
  }

  function GetRolesRoute(st: Store, c: RbacService.PermissionCache, auth: Dependencies.Authentication,
                         skip: int, limit: int, projectId: Option<string>, now: int, faults: RbacService.CacheFaults)
    : (r: Outcome<seq<RoleResponse>>)
    ensures r.st == st && r.cache == c
    ensures auth.user.Some? && auth.user.value.isActive && PageQueryValid(skip, limit) ==>
      r.result == ListRolesReply(st, skip, limit, projectId)
    ensures !(auth.user.Some? && auth.user.value.isActive && PageQueryValid(skip, limit)) ==>
      r.result.Failure? && r.result.error.status in {Unauthorized, Forbidden, 422}
  {
    Guarded(st, c, auth, ActiveUser, PageQueryValid(skip, limit), None, now, faults, ListRolesHandler(st, skip, limit, projectId))
  }

  // ---------------------------------------------------------------- POST /roles

  /** The role `create` is meant to insert: the request's fields in the parsed scope. */
  function NewRole(obj: RoleCreate, id: Uuid, scope: Option<Uuid>, now: int): (x: Role)
    ensures x.id == id && x.code == obj.code && x.projectId == scope && x.isSystem == obj.isSystem
  {
    Role(id, obj.name, obj.code, obj.description, scope, obj.isSystem, now)
  }

  /**
   * The checks `create_role` makes before it creates: a malformed project id is a 500, a
   * duplicated (code, scope) pair makes the lookup itself raise (a 500), an existing pair is a
   * 400; otherwise the parsed scope.
   */
  function CreateRoleChecks(st: Store, obj: RoleCreate): (r: Result<Option<Uuid>, HttpError>)
    ensures ScopeQuery(obj.projectId).Failure? ==> r == Failure(Failed("create role", BadUuidMessage))
    ensures r.Success? <==>
      ScopeQuery(obj.projectId).Success?
      && forall x :: x in st.roles ==> !(x.code == obj.code && x.projectId == ScopeQuery(obj.projectId).value)
    ensures r.Success? ==> r.value == ScopeQuery(obj.projectId).value
    ensures (&& ScopeQuery(obj.projectId).Success?
             && CrudRbac.GetRoleByCode(st, obj.code, ScopeQuery(obj.projectId).value).Success?
             && CrudRbac.GetRoleByCode(st, obj.code, ScopeQuery(obj.projectId).value).value.Some?) ==>
      r == Failure(RoleCodeExists)
  {
    match ScopeQuery(obj.projectId)
    case Failure(msg) => Failure(Failed("create role", msg))
    case Success(scope) =>
      match CrudRbac.GetRoleByCode(st, obj.code, scope)
      case Failure(msg) => Failure(Failed("create role", msg))
      case Success(existing) =>
        if existing.Some? then Failure(RoleCodeExists) else Success(scope)
  }

  /**
   * `create_role`'s handler as written: past the checks, the generic `create` is handed a plain
   * dictionary and raises, so no role is ever created.
   */
  function CreateRoleReplyAsWritten(st: Store, obj: RoleCreate): (r: (Store, Result<Reply<RoleResponse>, HttpError>))
    ensures r.0 == st && r.1.Failure?
    ensures CreateRoleChecks(st, obj).Failure? ==> r.1.error == CreateRoleChecks(st, obj).error
    ensures CreateRoleChecks(st, obj).Success? ==> r.1.error == Failed("create role", DictCreateMessage)
  {
    match CreateRoleChecks(st, obj)
    case Failure(e) => (st, Failure(e))
    case Success(_) => (st, Failure(Failed("create role", DictCreateMessage)))
  }

  /** `create_role`'s handler as evidently intended: past the checks, the role is appended and rendered. */
  function CreateRoleReply(st: Store, obj: RoleCreate, id: Uuid, now: int): (r: (Store, Result<Reply<RoleResponse>, HttpError>))
    ensures r.1.Failure? <==> CreateRoleChecks(st, obj).Failure?
    ensures r.1.Failure? ==> r == (st, Failure(CreateRoleChecks(st, obj).error))
    ensures r.1.Success? ==>
      var x := NewRole(obj, id, CreateRoleChecks(st, obj).value, now);
      r == (st.(roles := st.roles + [x]), Success(Ok(CreatedMessage, Render(x))))
  {
    match CreateRoleChecks(st, obj)
    case Failure(e) => (st, Failure(e))
    case Success(scope) =>
      var x := NewRole(obj, id, scope, now);
      (st.(roles := st.roles + [x]), Success(Ok(CreatedMessage, Render(x))))
  }

  function CreateRoleHandlerAsWritten(st: Store, obj: RoleCreate): User -> (Store, Result<Reply<RoleResponse>, HttpError>) {
    (caller: User) => CreateRoleReplyAsWritten(st, obj)
  }

  function CreateRoleHandler(st: Store, obj: RoleCreate, id: Uuid, now: int): User -> (Store, Result<Reply<RoleResponse>, HttpError>) {
    (caller: User) => CreateRoleReply(st, obj, id, now)
  }

  function CreateRoleRouteAsWritten(st: Store, c: RbacService.PermissionCache, auth: Dependencies.Authentication,
                                    obj: RoleCreate, now: int, faults: RbacService.CacheFaults): (r: Outcome<RoleResponse>)
    ensures r.st == st && r.cache == c && r.result.Failure?
  {
    Guarded(st, c, auth, Superuser, true, None, now, faults, CreateRoleHandlerAsWritten(st, obj))
  }

  function CreateRoleRoute(st: Store, c: RbacService.PermissionCache, auth: Dependencies.Authentication,
                           obj: RoleCreate, id: Uuid, now: int, faults: RbacService.CacheFaults): (r: Outcome<RoleResponse>)
    ensures r.cache == c
    ensures auth.user.Some? && auth.user.value.isActive && auth.user.value.isSuperuser ==>
      (r.st, r.result) == CreateRoleReply(st, obj, id, now)
    ensures !(auth.user.Some? && auth.user.value.isActive && auth.user.value.isSuperuser) ==>
      r.st == st && r.result.Failure? && r.result.error.status in {Unauthorized, Forbidden}
  {
    Guarded(st, c, auth, Superuser, true, None, now, faults, CreateRoleHandler(st, obj, id, now))
  }

  /**
   * As written, a superuser's creation that passes every check is a 500 and writes nothing: the
   * route creates no role for any request.
   */
  lemma CreateRoleRouteAsWrittenNeverCreates(st: Store, c: RbacService.PermissionCache, auth: Dependencies.Authentication,
                                             obj: RoleCreate, now: int, faults: RbacService.CacheFaults)
    requires auth.user.Some? && auth.user.value.isActive && auth.user.value.isSuperuser
    requires CreateRoleChecks(st, obj).Success?
    ensures var r := CreateRoleRouteAsWritten(st, c, auth, obj, now, faults);
      r.st == st && r.result == Failure(Failed("create role", DictCreateMessage))
  {
  }

  /**
   * With the creation the route evidently intends, a role created with a fresh id is read back
   * through the route by the text of its id, the store stays consistent, and creating the same
   * code in the same scope again is a 400.
   */
  lemma CreateRoleRouteThenGet(st: Store, c: RbacService.PermissionCache, auth: Dependencies.Authentication,
                               obj: RoleCreate, id: Uuid, now: int, obj2: RoleCreate, id2: Uuid,
                               faults: RbacService.CacheFaults)
    requires Consistent(st) && forall x :: x in st.roles ==> x.id != id
    requires auth.user.Some? && auth.user.value.isActive && auth.user.value.isSuperuser
    requires CreateRoleChecks(st, obj).Success?
    requires obj2.code == obj.code && obj2.projectId == obj.projectId
    ensures var r := CreateRoleRoute(st, c, auth, obj, id, now, faults);
      && r.result.Success? && Consistent(r.st)
      && GetRoleRoute(r.st, c, auth, Text(id), now, faults).result == Success(Ok(FetchedMessage, r.result.value.data.value))
      && CreateRoleRoute(r.st, c, auth, obj2, id2, now, faults).result == Failure(RoleCodeExists)
  {
    var scope := CreateRoleChecks(st, obj).value;
    var x := NewRole(obj, id, scope, now);
    var st' := st.(roles := st.roles + [x]);
    DistinctByAppend(st.roles, x, (y: Role) => y.id);
    assert Consistent(st');
    GetByIdFinds(st', x);
    ParseText(id);
    CountWhereAppend(st.roles, x, CrudRbac.RoleCodeIs(obj.code, scope));
    assert CountWhere(st.roles, CrudRbac.RoleCodeIs(obj.code, scope)) == 0 by {
      NoneCounted(st.roles, CrudRbac.RoleCodeIs(obj.code, scope));
    }
    assert CrudRbac.GetRoleByCode(st', obj.code, scope).Success?;
  }

  /** A predicate no element satisfies counts nothing. */
  lemma {:induction false} NoneCounted<T>(s: seq<T>, p: T -> bool)
    requires forall x :: x in s ==> !p(x)
    ensures CountWhere(s, p) == 0
  {
    if |s| > 0 {
      assert s[0] in s;
      assert forall x :: x in s[1..] ==> x in s;
      NoneCounted(s[1..], p);
    }
  }

  // ---------------------------------------------------------------- GET /roles/{role_id}

  /** `get_role`'s handler: 400 for a malformed id, 404 for an unknown one, else the role rendered. */
  function GetRoleReply(st: Store, roleId: string): (r: Result<Reply<RoleResponse>, HttpError>)
    ensures Parse(roleId).None? ==> r == Failure(InvalidRoleId)
    ensures Parse(roleId).Some? && GetById(st, Parse(roleId).value).None? ==> r == Failure(RoleNotFound)
    ensures r.Success? ==>
      GetById(st, Parse(roleId).value).Some? && r.value == Ok(FetchedMessage, Render(GetById(st, Parse(roleId).value).value))
  {
    match Parse(roleId)
    case None => Failure(InvalidRoleId)
    case Some(id) =>
      match GetById(st, id)
      case None => Failure(RoleNotFound)
      case Some(x) => Success(Ok(FetchedMessage, Render(x)))
  }

  function GetRoleHandler(st: Store, roleId: string): User -> (Store, Result<Reply<RoleResponse>, HttpError>) {
    (caller: User) => (st, GetRoleReply(st, roleId))
  }

  function GetRoleRoute(st: Store, c: RbacService.PermissionCache, auth: Dependencies.Authentication,
                        roleId: string, now: int, faults: RbacService.CacheFaults): (r: Outcome<RoleResponse>)
    ensures r.st == st && r.cache == c
    ensures auth.user.Some? && auth.user.value.isActive ==> r.result == GetRoleReply(st, roleId)
    ensures !(auth.user.Some? && auth.user.value.isActive) ==> r.result.Failure? && r.result.error.status in {Unauthorized, Forbidden}
  {
    Guarded(st, c, auth, ActiveUser, true, None, now, faults, GetRoleHandler(st, roleId))
  }

  // ---------------------------------------------------------------- PUT /roles/{role_id}

  /** A role after a `RoleUpdate`: only the name and the description can change. */
  function ApplyRoleUpdate(x: Role, upd: RoleUpdate): (r: Role)
    ensures r.id == x.id && r.code == x.code && r.projectId == x.projectId && r.isSystem == x.isSystem
    ensures r.createdAt == x.createdAt
    ensures upd.name.Unset? ==> r.name == x.name
    ensures upd.description.Unset? ==> r.description == x.description
    ensures upd.name.Set? ==> r.name == upd.name.value
    ensures upd.description.Set? ==> r.description == upd.description.value
  {
    x.(name := ApplyPatch(upd.name, x.name), description := ApplyPatch(upd.description, x.description))
  }

  function Patcher(upd: RoleUpdate): Role -> Role {
    (x: Role) => ApplyRoleUpdate(x, upd)
  }

  /** `update_role`'s handler: 400 for a malformed id, 404 for an unknown one; otherwise the role is patched. */
  function UpdateRoleReply(st: Store, roleId: string, upd: RoleUpdate): (r: (Store, Result<Reply<RoleResponse>, HttpError>))
    ensures Parse(roleId).None? ==> r == (st, Failure(InvalidRoleId))
    ensures Parse(roleId).Some? && GetById(st, Parse(roleId).value).None? ==> r == (st, Failure(RoleNotFound))
    ensures r.1.Success? <==> Parse(roleId).Some? && GetById(st, Parse(roleId).value).Some?
    ensures r.1.Success? ==>
      && r.0 == st.(roles := CrudBase.Update(st.roles, RoleId, Parse(roleId).value, Patcher(upd)))
      && r.1.value == Ok(UpdatedMessage, Render(ApplyRoleUpdate(GetById(st, Parse(roleId).value).value, upd)))
  {
    match Parse(roleId)
    case None => (st, Failure(InvalidRoleId))
    case Some(id) =>
      match GetById(st, id)
      case None => (st, Failure(RoleNotFound))
      case Some(x) =>
        (st.(roles := CrudBase.Update(st.roles, RoleId, id, Patcher(upd))), Success(Ok(UpdatedMessage, Render(ApplyRoleUpdate(x, upd)))))
  }

  function UpdateRoleHandler(st: Store, roleId: string, upd: RoleUpdate): User -> (Store, Result<Reply<RoleResponse>, HttpError>) {
    (caller: User) => UpdateRoleReply(st, roleId, upd)
  }

  function UpdateRoleRoute(st: Store, c: RbacService.PermissionCache, auth: Dependencies.Authentication,
                           roleId: string, upd: RoleUpdate, now: int, faults: RbacService.CacheFaults): (r: Outcome<RoleResponse>)
    ensures r.cache == c
    ensures auth.user.Some? && auth.user.value.isActive && auth.user.value.isSuperuser ==>
      (r.st, r.result) == UpdateRoleReply(st, roleId, upd)
    ensures !(auth.user.Some? && auth.user.value.isActive && auth.user.value.isSuperuser) ==>
      r.st == st && r.result.Failure? && r.result.error.status in {Unauthorized, Forbidden}
  {
    Guarded(st, c, auth, Superuser, true, None, now, faults, UpdateRoleHandler(st, roleId, upd))
  }

  /**
   * A superuser's update of an existing role keeps the role ids unique and is read back through
   * the route as the update answered; the permission cache stays coherent, as no role link or
   * assignment changes.
   */
  lemma UpdateRoleRouteThenGet(st: Store, c: RbacService.PermissionCache, auth: Dependencies.Authentication,
                               roleId: string, upd: RoleUpdate, now: int, faults: RbacService.CacheFaults)
    requires Consistent(st) && RbacService.Coherent(st, c, now)
    requires auth.user.Some? && auth.user.value.isActive && auth.user.value.isSuperuser
    requires Parse(roleId).Some? && GetById(st, Parse(roleId).value).Some?
    ensures var r := UpdateRoleRoute(st, c, auth, roleId, upd, now, faults);
      && r.result.Success? && Consistent(r.st) && RbacService.Coherent(r.st, r.cache, now)
      && GetRoleRoute(r.st, c, auth, roleId, now, faults).result == Success(Ok(FetchedMessage, r.result.value.data.value))
  {
    var id := Parse(roleId).value;
    var x := GetById(st, id).value;
    var st' := st.(roles := CrudBase.Update(st.roles, RoleId, id, Patcher(upd)));
    RoleIdsDistinct(st);
    CrudBase.UpdateThenGet(st.roles, RoleId, id, Patcher(upd), x);
    assert DistinctBy(st'.roles, (y: Role) => y.id);
    assert Consistent(st');
    RbacService.CoherentAcrossOtherTables(st, st', c, now);
  }

  // ---------------------------------------------------------------- DELETE /roles/{role_id}

  /**
   * `delete_role`'s handler: 400 for a malformed id, 404 for an unknown one, 400 for a system
   * role; the foreign-key refusal for a role some link or assignment still refers to falls into
   * the catch-all and becomes a 500, with nothing removed. Otherwise the role's row is removed.
   */
  function DeleteRoleReply(st: Store, roleId: string): (r: (Store, Result<Reply<string>, HttpError>))
    ensures Parse(roleId).None? ==> r == (st, Failure(InvalidRoleId))
    ensures Parse(roleId).Some? && GetById(st, Parse(roleId).value).None? ==> r == (st, Failure(RoleNotFound))
    ensures Parse(roleId).Some? && GetById(st, Parse(roleId).value).Some? && GetById(st, Parse(roleId).value).value.isSystem ==>
      r == (st, Failure(SystemRoleProtected))
    ensures Parse(roleId).Some? && GetById(st, Parse(roleId).value).Some? && !GetById(st, Parse(roleId).value).value.isSystem ==>
      RoleReferenced(st, Parse(roleId).value) ==> r == (st, Failure(Failed("delete role", ForeignKeyViolation)))
    ensures r.1.Failure? ==> r.0 == st
    ensures r.1.Success? <==>
      && Parse(roleId).Some? && GetById(st, Parse(roleId).value).Some? && !GetById(st, Parse(roleId).value).value.isSystem
      && !RoleReferenced(st, Parse(roleId).value)
    ensures r.1.Success? ==>
      && r.1.value == Ok(DeletedMessage, "success")
      && r.0 == st.(roles := r.0.roles)
      && forall x :: x in r.0.roles <==> x in st.roles && x.id != Parse(roleId).value
  {
    match Parse(roleId)
    case None => (st, Failure(InvalidRoleId))
    case Some(id) =>
      match GetById(st, id)
      case None => (st, Failure(RoleNotFound))
      case Some(x) =>
        if x.isSystem then (st, Failure(SystemRoleProtected))
        else if RoleReferenced(st, id) then (st, Failure(Failed("delete role", ForeignKeyViolation)))
        else (st.(roles := CrudBase.Remove(st.roles, RoleId, id).0), Success(Ok(DeletedMessage, "success")))
  }

  function DeleteRoleHandler(st: Store, roleId: string): User -> (Store, Result<Reply<string>, HttpError>) {
    (caller: User) => DeleteRoleReply(st, roleId)
  }

  function DeleteRoleRoute(st: Store, c: RbacService.PermissionCache, auth: Dependencies.Authentication,
                           roleId: string, now: int, faults: RbacService.CacheFaults): (r: Outcome<string>)
    ensures r.cache == c
    ensures auth.user.Some? && auth.user.value.isActive && auth.user.value.isSuperuser ==>
      (r.st, r.result) == DeleteRoleReply(st, roleId)
    ensures !(auth.user.Some? && auth.user.value.isActive && auth.user.value.isSuperuser) ==>
      r.st == st && r.result.Failure? && r.result.error.status in {Unauthorized, Forbidden}
  {
    Guarded(st, c, auth, Superuser, true, None, now, faults, DeleteRoleHandler(st, roleId))
  }

  /** No request removes a system role: every stored system role is still stored after the route. */
  lemma DeleteRoleRouteKeepsSystemRoles(st: Store, c: RbacService.PermissionCache, auth: Dependencies.Authentication,
                                        roleId: string, now: int, faults: RbacService.CacheFaults)
    requires Consistent(st)
    ensures var r := DeleteRoleRoute(st, c, auth, roleId, now, faults);
      forall x :: x in st.roles && x.isSystem ==> x in r.st.roles
  {
    var r := DeleteRoleRoute(st, c, auth, roleId, now, faults);
    forall x | x in st.roles && x.isSystem ensures x in r.st.roles {
      if r.st != st {
        GetByIdFinds(st, x);
      }
    }
  }

  /**
   * The refusal is what keeps the foreign keys sound: whatever `delete_role` answers, every
   * reference to a role, and every reference to a project, still names a stored row.
   */
  lemma DeleteRoleReplyKeepsRefs(st: Store, roleId: string)
    requires ProjectRefsResolve(st) && RoleRefsResolve(st)
    ensures ProjectRefsResolve(DeleteRoleReply(st, roleId).0)
    ensures RoleRefsResolve(DeleteRoleReply(st, roleId).0)
  {
    var st' := DeleteRoleReply(st, roleId).0;
    if st' != st {
      var id := Parse(roleId).value;
      forall q | RoleExists(st, q) && q != id ensures RoleExists(st', q) {
        var x :| x in st.roles && x.id == q;
        assert x in st'.roles;
      }
    }
  }

  /**
   * A superuser's deletion of an existing non-system role: when some link or assignment still
   * refers to it, the answer is the 500 and the store is untouched; otherwise the store stays
   * consistent, and reading the role afterwards is a 404, and so is deleting it again.
   */
  lemma DeleteRoleRouteThenGet(st: Store, c: RbacService.PermissionCache, auth: Dependencies.Authentication,
                               roleId: string, now: int, faults: RbacService.CacheFaults)
    requires Consistent(st)
    requires auth.user.Some? && auth.user.value.isActive && auth.user.value.isSuperuser
    requires Parse(roleId).Some? && GetById(st, Parse(roleId).value).Some? && !GetById(st, Parse(roleId).value).value.isSystem
    ensures var r := DeleteRoleRoute(st, c, auth, roleId, now, faults);
      RoleReferenced(st, Parse(roleId).value) ==>
        r.result == Failure(Failed("delete role", ForeignKeyViolation)) && r.st == st
    ensures var r := DeleteRoleRoute(st, c, auth, roleId, now, faults);
      !RoleReferenced(st, Parse(roleId).value) ==>
        && r.result == Success(Ok(DeletedMessage, "success")) && Consistent(r.st)
        && GetRoleRoute(r.st, c, auth, roleId, now, faults).result == Failure(RoleNotFound)
        && DeleteRoleRoute(r.st, c, auth, roleId, now, faults).result == Failure(RoleNotFound)
  {
    var id := Parse(roleId).value;
    CrudBase.RemovePreservesDistinct(st.roles, RoleId, id, (x: Role) => x.id);
  }

  // ---------------------------------------------------------------- POST /roles/assign

  /** `UserRoleAssign`: the account, the role and the optional project as text, and an optional expiry. */
  datatype UserRoleAssign = UserRoleAssign(userId: string, roleId: string, projectId: Option<string>, expiresAt: Option<int>)

  /** The ids of an assignment request: all must parse (the project only when given and non-empty). */
  function AssignIds(req: UserRoleAssign): (r: Option<(Uuid, Uuid, Option<Uuid>)>)
    ensures r.Some? <==> Parse(req.userId).Some? && Parse(req.roleId).Some? && ScopeQuery(req.projectId).Success?
    ensures r.Some? ==> r.value == (Parse(req.userId).value, Parse(req.roleId).value, ScopeQuery(req.projectId).value)
  {
    match (Parse(req.userId), Parse(req.roleId), ScopeQuery(req.projectId))
    case (Some(u), Some(x), Success(p)) => Some((u, x, p))
    case _ => None
  }

  /**
   * `assign_role_to_user`'s route as written: a superuser's request with malformed ids is a 400;
   * otherwise the service raises its `TypeError`, which becomes a 500, and nothing changes.
   */
  function AssignRoleRouteAsWritten(st: Store, c: RbacService.PermissionCache, auth: Dependencies.Authentication,
                                    req: UserRoleAssign, newId: Uuid, now: int, fault: bool): (r: Outcome<string>)
    ensures r.st == st && r.cache == c && r.result.Failure?
    ensures Caller(auth, Superuser).Failure? ==> r.result.error == Caller(auth, Superuser).error
    ensures Caller(auth, Superuser).Success? && AssignIds(req).None? ==> r.result.error == InvalidIdFormat
  {
    match Caller(auth, Superuser)
    case Failure(e) => Outcome(st, c, Failure(e))
    case Success(u) =>
      match AssignIds(req)
      case None => Outcome(st, c, Failure(InvalidIdFormat))
      case Some((userId, roleId, scope)) =>
        var (st1, c1, res) :=
          RbacService.AssignRoleToUserAsWritten(st, c, userId, roleId, scope, Some(u.id), req.expiresAt, newId, now, fault);
        if res.Failure? then Outcome(st1, c1, Failure(Failed("assign role", res.error)))
        else Outcome(st1, c1, Success(Ok(AssignedMessage, "success")))
  }

  /**
   * As written, no request assigns a role: every superuser request with well-formed ids is a
   * 500 and leaves the store and the cache as they were.
   */
  lemma AssignRoleRouteAsWrittenNeverAssigns(st: Store, c: RbacService.PermissionCache, auth: Dependencies.Authentication,
                                             req: UserRoleAssign, newId: Uuid, now: int, fault: bool)
    requires auth.user.Some? && auth.user.value.isActive && auth.user.value.isSuperuser
    requires AssignIds(req).Some?
    ensures var r := AssignRoleRouteAsWritten(st, c, auth, req, newId, now, fault);
      r.st == st && r.cache == c && r.result == Failure(Failed("assign role", RbacService.AssignTypeError))
  {
  }

  /**
   * `assign_role_to_user`'s route with the service repaired: the assignment, granted by the
   * caller, is inserted and the cache entries of the account in that scope and globally are dropped.
   */
  function AssignRoleRoute(st: Store, c: RbacService.PermissionCache, auth: Dependencies.Authentication,
                           req: UserRoleAssign, newId: Uuid, now: int, fault: bool): (r: Outcome<string>)
    ensures Caller(auth, Superuser).Failure? ==> r == Outcome(st, c, Failure(Caller(auth, Superuser).error))
    ensures Caller(auth, Superuser).Success? && AssignIds(req).None? ==> r == Outcome(st, c, Failure(InvalidIdFormat))
    ensures r.result.Success? <==> Caller(auth, Superuser).Success? && AssignIds(req).Some?
    ensures r.result.Success? ==>
      var (userId, roleId, scope) := AssignIds(req).value;
      && r.result.value == Ok(AssignedMessage, "success")
      && r.st == st.(userRoles := st.userRoles + [RbacService.NewAssignment(newId, userId, roleId, scope, Some(auth.user.value.id), req.expiresAt, now)])
      && r.cache == RbacService.InvalidateWithGlobal(c, userId, scope, now, fault)
  {
    match Caller(auth, Superuser)
    case Failure(e) => Outcome(st, c, Failure(e))
    case Success(u) =>
      match AssignIds(req)
      case None => Outcome(st, c, Failure(InvalidIdFormat))
      case Some((userId, roleId, scope)) =>
        var (st', c', _) := RbacService.AssignRoleToUser(st, c, userId, roleId, scope, Some(u.id), req.expiresAt, newId, now, fault);
        Outcome(st', c', Success(Ok(AssignedMessage, "success")))
  }

  /**
   * With the repaired service, a superuser's assignment keeps a coherent cache coherent, and the
   * account then holds, in that scope, every permission linked to the role, unless the
   * assignment has already expired.
   */
  lemma AssignRoleRouteGrants(st: Store, c: RbacService.PermissionCache, auth: Dependencies.Authentication,
                              req: UserRoleAssign, newId: Uuid, now: int)
    requires RbacService.Coherent(st, c, now)
    requires auth.user.Some? && auth.user.value.isActive && auth.user.value.isSuperuser
    requires AssignIds(req).Some?
    requires req.expiresAt.None? || req.expiresAt.value >= now
    ensures var r := AssignRoleRoute(st, c, auth, req, newId, now, false);
      var (userId, roleId, scope) := AssignIds(req).value;
      && r.result.Success? && RbacService.Coherent(r.st, r.cache, now)
      && forall l, p :: l in st.rolePermissions && l.roleId == roleId && p in st.permissions && p.id == l.permissionId ==>
           p.code in RbacService.EffectivePermissions(r.st, userId, scope, now)
  {
    var (userId, roleId, scope) := AssignIds(req).value;
    var u := auth.user.value;
    RbacService.AssignRoleToUserKeepsCoherent(st, c, userId, roleId, scope, Some(u.id), req.expiresAt, newId, now);
    var a := RbacService.NewAssignment(newId, userId, roleId, scope, Some(u.id), req.expiresAt, now);
    var st' := st.(userRoles := st.userRoles + [a]);
    assert a in st'.userRoles;
    assert CrudRbac.AssignmentSelected(a, userId, scope, true) && RbacService.GrantsPermissions(a, now);
    forall l, p | l in st.rolePermissions && l.roleId == roleId && p in st.permissions && p.id == l.permissionId
      ensures p.code in RbacService.EffectivePermissions(st', userId, scope, now)
    {
      assert l in st'.rolePermissions && p in st'.permissions;
    }
  }
}

=== FILE: routes.dfy ===
/**
 * What every API route shares: the envelope a handler answers with, the order in which the
 * framework and the decorators admit a request (account dependency, query validation,
 * permission decorator, handler), and the two generic refusals.
 */
module Routes {
  import opened Wrappers
  import opened Models
  import opened Common
  import Dependencies
  import PermissionGuards
  import RbacService

  /** What a route leaves behind: the store, the permission cache, and a reply or a raised error. */
  datatype Outcome<T> = Outcome(st: Store, cache: RbacService.PermissionCache, result: Result<Reply<T>, HttpError>)

  /** FastAPI's answer to a query parameter outside its declared bounds. */
  const InvalidQuery: HttpError := HttpError(422, "Unprocessable Entity")

  /** What the application's outermost middleware answers for an exception no handler caught. */
  const ServerError: HttpError := HttpError(InternalServerError, "Internal server error")

  /** The `skip` and `limit` query parameters of the listings: `skip >= 0`, `1 <= limit <= 100`. */
  predicate PageQueryValid(skip: int, limit: int) {
    skip >= 0 && 1 <= limit <= 100
  }

  /** The text of the `AttributeError` the generic `create` raises when handed a plain dictionary. */
  const DictCreateMessage: string := "'dict' object has no attribute 'dict'"

  /** A handler's catch-all: any other exception becomes a 500 naming the action and the exception's text. */
  function Failed(action: string, reason: string): (e: HttpError)
    ensures e.status == InternalServerError
  {
    HttpError(InternalServerError, "Failed to " + action + ": " + reason)
  }

  /** A page parameter as the store reads it; the routes admit only non-negative ones. */
  function PageParam(x: int): (r: nat)
    ensures x >= 0 ==> r == x
  {
    if x < 0 then 0 else x
  }

  /** `BaseResponse(success=True, message=..., data=...)`. */
  function Ok<T>(message: string, data: T): Reply<T> {
    Envelope(BaseResponse(true, 200, message), Some(data))
  }

  /** An `HTTPException` caught by the handler and reported in the envelope. */
  function Refusal<T>(e: HttpError): Reply<T> {
    Envelope(ErrorResponse(e), None)
  }

  /** Which account dependency a route declares. */
  datatype Access = ActiveUser | Superuser

  /** The account dependency: `get_current_active_user` or `get_current_superuser`. */
  function Caller(auth: Dependencies.Authentication, access: Access): (r: Result<User, HttpError>)
    ensures r.Success? ==> auth.user == Some(r.value) && r.value.isActive
    ensures r.Success? <==> auth.user.Some? && auth.user.value.isActive && (access.Superuser? ==> auth.user.value.isSuperuser)
    ensures r.Failure? ==> r.error.status == Unauthorized || r.error.status == Forbidden
  {
    if access.ActiveUser? then Dependencies.GetCurrentActiveUser(auth) else Dependencies.GetCurrentSuperuser(auth)
  }

  /**
   * A route: the account dependency runs first, then FastAPI validates the query parameters,
   * then the `require_permission` decorator (when the route has one, with no project), and only
   * then the handler. A refusal before the handler leaves the store as it was.
   */
  function Guarded<T>(st: Store, c: RbacService.PermissionCache, auth: Dependencies.Authentication, access: Access,
                      paramsOk: bool, permission: Option<string>, now: int, faults: RbacService.CacheFaults,
                      handler: User -> (Store, Result<Reply<T>, HttpError>)): (r: Outcome<T>)
    ensures Caller(auth, access).Failure? ==> r == Outcome(st, c, Failure(Caller(auth, access).error))
    ensures Caller(auth, access).Success? && !paramsOk ==> r == Outcome(st, c, Failure(InvalidQuery))
    ensures permission.None? ==> r.cache == c
    ensures permission.None? && Caller(auth, access).Success? && paramsOk ==>
      (r.st, r.result) == handler(Caller(auth, access).value)
    ensures r.result.Success? || r.st != st ==>
      Caller(auth, access).Success? && paramsOk && (r.st, r.result) == handler(Caller(auth, access).value)
  {
    match Caller(auth, access)
    case Failure(e) => Outcome(st, c, Failure(e))
    case Success(u) =>
      if !paramsOk then Outcome(st, c, Failure(InvalidQuery))
      else if permission.None? then
        var (st', res) := handler(u);
        Outcome(st', c, res)
      else
        var (c', granted) := PermissionGuards.RequirePermission(st, c, Some(u), true, PermissionGuards.One(permission.value),
                                                                None, now, faults);
        if granted.Failure? then Outcome(st, c', Failure(granted.error))
        else
          var (st', res) := handler(u);
          Outcome(st', c', res)
  }

  /** Whether a request reaches the handler, stated over the account's effective permissions. */
  ghost predicate Admitted(st: Store, auth: Dependencies.Authentication, access: Access, paramsOk: bool,
                           permission: Option<string>, now: int) {
    && auth.user.Some? && auth.user.value.isActive && (access.Superuser? ==> auth.user.value.isSuperuser)
    && paramsOk
    && (permission.Some? && !auth.user.value.isSuperuser ==>
          permission.value in RbacService.EffectivePermissions(st, auth.user.value.id, None, now))
  }

  /**
   * With a coherent cache, the handler runs exactly when the request is admitted; a request
   * that is not admitted is refused with a 401, 403 or 422 and nothing written; the cache stays
   * coherent with the store the guard read.
   */
  lemma GuardedAdmits<T>(st: Store, c: RbacService.PermissionCache, auth: Dependencies.Authentication, access: Access,
                         paramsOk: bool, permission: Option<string>, now: int, faults: RbacService.CacheFaults,
                         handler: User -> (Store, Result<Reply<T>, HttpError>))
    requires RbacService.Coherent(st, c, now)
    ensures var r := Guarded(st, c, auth, access, paramsOk, permission, now, faults, handler);
      && RbacService.Coherent(st, r.cache, now)
      && (Admitted(st, auth, access, paramsOk, permission, now) ==> (r.st, r.result) == handler(auth.user.value))
      && (!Admitted(st, auth, access, paramsOk, permission, now) ==>
            r.st == st && r.result.Failure? && r.result.error.status in {Unauthorized, Forbidden, 422})
  {
    var r := Guarded(st, c, auth, access, paramsOk, permission, now, faults, handler);
    var u := Caller(auth, access);
    if u.Success? && paramsOk && permission.Some? && !u.value.isSuperuser {
      PermissionGuards.RequirePermissionIsConjunction(st, c, u.value, PermissionGuards.One(permission.value), None, now, faults);
      assert PermissionGuards.Normalise(PermissionGuards.One(permission.value)) == [permission.value];
    }
  }
}

=== FILE: schemas_rbac.dfy ===
/** Request schemas for projects and roles: code validators, defaults, and the editable fields. */
module RbacSchemas {
  import opened Wrappers
  import opened Common
  import Patterns

  predicate IsProjectCodeChar(c: char) {
    ('a' <= c <= 'z') || ('0' <= c <= '9') || c == '-'
  }

  predicate IsRoleCodeChar(c: char) {
    ('a' <= c <= 'z') || ('0' <= c <= '9') || c == '_'
  }

  /** The project-code validator as written, with Python's `$`. */
  function ValidateProjectCodeAsWritten(v: string): (r: Result<string, string>)
    ensures r.Success? <==> Patterns.MatchAsWritten(v, IsProjectCodeChar)
    ensures r.Success? ==> r.value == v
  {
    if !Patterns.MatchAsWritten(v, IsProjectCodeChar) then Failure("Project code can only contain lowercase letters, numbers and hyphens")
    else Success(v)
  }

  /** The project-code validator as intended: non-empty, lowercase letters, digits and hyphens only. */
  function ValidateProjectCode(v: string): (r: Result<string, string>)
    ensures r.Success? <==> |v| >= 1 && forall i :: 0 <= i < |v| ==> IsProjectCodeChar(v[i])
    ensures r.Success? ==> r.value == v
  {
    if !Patterns.FullMatch(v, IsProjectCodeChar) then Failure("Project code can only contain lowercase letters, numbers and hyphens")
    else Success(v)
  }

  /** "project-a\n" passes the written validator but not the intended one. */
  lemma ProjectCodeTrailingNewline()
    ensures ValidateProjectCodeAsWritten("project-a\n").Success?
    ensures ValidateProjectCode("project-a\n").Failure?
  {
    Patterns.TrailingNewlineAccepted("project-a", IsProjectCodeChar);
    assert "project-a" + "\n" == "project-a\n";
    assert !IsProjectCodeChar("project-a\n"[9]);
  }

  /** The role-code validator as written, with Python's `$`. */
  function ValidateRoleCodeAsWritten(v: string): (r: Result<string, string>)
    ensures r.Success? <==> Patterns.MatchAsWritten(v, IsRoleCodeChar)
    ensures r.Success? ==> r.value == v
  {
    if !Patterns.MatchAsWritten(v, IsRoleCodeChar) then Failure("Role code can only contain lowercase letters, numbers and underscores")
    else Success(v)
  }

  /** The role-code validator as intended: non-empty, lowercase letters, digits and underscores only. */
  function ValidateRoleCode(v: string): (r: Result<string, string>)
    ensures r.Success? <==> |v| >= 1 && forall i :: 0 <= i < |v| ==> IsRoleCodeChar(v[i])
    ensures r.Success? ==> r.value == v
  {
    if !Patterns.FullMatch(v, IsRoleCodeChar) then Failure("Role code can only contain lowercase letters, numbers and underscores")
    else Success(v)
  }

  /** "editor\n" passes the written validator but not the intended one. */
  lemma RoleCodeTrailingNewline()
    ensures ValidateRoleCodeAsWritten("editor\n").Success?
    ensures ValidateRoleCode("editor\n").Failure?
  {
    Patterns.TrailingNewlineAccepted("editor", IsRoleCodeChar);
    assert "editor" + "\n" == "editor\n";
    assert !IsRoleCodeChar("editor\n"[6]);
  }

  /** `ProjectCreate`, after validation. */
  datatype ProjectCreate = ProjectCreate(name: string, code: string, description: Option<string>,
                                         baseUrl: Option<string>, isActive: bool)

  /** A new project is active unless the request says otherwise; its code is validated. */
  function MakeProjectCreate(name: string, code: string, description: Option<string>, baseUrl: Option<string>,
                             isActive: Option<bool>): (r: Result<ProjectCreate, string>)
    ensures r.Success? <==> ValidateProjectCode(code).Success?
    ensures r.Success? ==> r.value.code == code && r.value.name == name && r.value.isActive == isActive.GetOr(true)
  {
    var c :- ValidateProjectCode(code);
    Success(ProjectCreate(name, c, description, baseUrl, isActive.GetOr(true)))
  }

  /**
   * Against the source's `ProjectCreate`, which validates with the written pattern: every code
   * accepted here is accepted there, and one accepted there alone is valid characters and a newline.
   */
  lemma MakeProjectCreateAgainstSource(name: string, code: string, description: Option<string>, baseUrl: Option<string>,
                                       isActive: Option<bool>)
    ensures var r := MakeProjectCreate(name, code, description, baseUrl, isActive);
      && (r.Success? ==> ValidateProjectCodeAsWritten(code).Success?)
      && (ValidateProjectCodeAsWritten(code).Success? && r.Failure? ==>
            |code| >= 2 && code[|code| - 1] == '\n' && Patterns.FullMatch(code[..|code| - 1], IsProjectCodeChar))
  {
    var r := MakeProjectCreate(name, code, description, baseUrl, isActive);
    assert r.Success? <==> Patterns.FullMatch(code, IsProjectCodeChar);
    Patterns.MatchAsWrittenCharacterised(code, IsProjectCodeChar);
  }

  /** `ProjectUpdate`: the code is not among the editable fields. */
  datatype ProjectUpdate = ProjectUpdate(name: Patch<string>, description: Patch<Option<string>>,
                                         baseUrl: Patch<Option<string>>, isActive: Patch<bool>)

  /** `RoleCreate`, after validation; the project stays the text the request gave. */
  datatype RoleCreate = RoleCreate(name: string, code: string, description: Option<string>,
                                   projectId: Option<string>, isSystem: bool)

  /** A new role is not a system role unless the request says so; its code is validated. */
  function MakeRoleCreate(name: string, code: string, description: Option<string>, projectId: Option<string>,
                          isSystem: Option<bool>): (r: Result<RoleCreate, string>)
    ensures r.Success? <==> ValidateRoleCode(code).Success?
    ensures r.Success? ==> r.value.code == code && r.value.projectId == projectId && r.value.isSystem == isSystem.GetOr(false)
  {
    var c :- ValidateRoleCode(code);
    Success(RoleCreate(name, c, description, projectId, isSystem.GetOr(false)))
  }

  /**
   * Against the source's `RoleCreate`: every code accepted here is accepted there, and one
   * accepted there alone is valid characters and a newline.
   */
  lemma MakeRoleCreateAgainstSource(name: string, code: string, description: Option<string>, projectId: Option<string>,
                                    isSystem: Option<bool>)
    ensures var r := MakeRoleCreate(name, code, description, projectId, isSystem);
      && (r.Success? ==> ValidateRoleCodeAsWritten(code).Success?)
      && (ValidateRoleCodeAsWritten(code).Success? && r.Failure? ==>
            |code| >= 2 && code[|code| - 1] == '\n' && Patterns.FullMatch(code[..|code| - 1], IsRoleCodeChar))
  {
    var r := MakeRoleCreate(name, code, description, projectId, isSystem);
    assert r.Success? <==> Patterns.FullMatch(code, IsRoleCodeChar);
    Patterns.MatchAsWrittenCharacterised(code, IsRoleCodeChar);
  }

  /** `RoleUpdate`: only the name and description are editable. */
  datatype RoleUpdate = RoleUpdate(name: Patch<string>, description: Patch<Option<string>>)
}

=== FILE: schemas_user.dfy ===
/** Request schemas for accounts: what a create or update request must satisfy, and its defaults. */
module UserSchemas {
  import opened Wrappers
  import opened Common
  import opened Uuids
  import opened Models
  import Patterns

  predicate IsUsernameChar(c: char) {
    ('a' <= c <= 'z') || ('A' <= c <= 'Z') || ('0' <= c <= '9') || c == '_' || c == '-'
  }

  /** The username validator as written: length first, then the pattern with Python's `$`. */
  function ValidateUsernameAsWritten(v: string): (r: Result<string, string>)
    ensures r.Success? <==> 3 <= |v| <= 50 && Patterns.MatchAsWritten(v, IsUsernameChar)
    ensures r.Success? ==> r.value == v
  {
    if |v| < 3 then Failure("Username must be at least 3 characters long")
    else if |v| > 50 then Failure("Username must be at most 50 characters long")
    else if !Patterns.MatchAsWritten(v, IsUsernameChar) then Failure("Username can only contain letters, numbers, underscores and hyphens")
    else Success(v)
  }

  /** The username validator as intended: 3 to 50 characters, every one a letter, digit, `_` or `-`. */
  function ValidateUsername(v: string): (r: Result<string, string>)
    ensures r.Success? <==> 3 <= |v| <= 50 && forall i :: 0 <= i < |v| ==> IsUsernameChar(v[i])
    ensures r.Success? ==> r.value == v
    ensures |v| < 3 ==> r == Failure("Username must be at least 3 characters long")
    ensures |v| > 50 ==> r == Failure("Username must be at most 50 characters long")
  {
    if |v| < 3 then Failure("Username must be at least 3 characters long")
    else if |v| > 50 then Failure("Username must be at most 50 characters long")
    else if !Patterns.FullMatch(v, IsUsernameChar) then Failure("Username can only contain letters, numbers, underscores and hyphens")
    else Success(v)
  }

  /** "abc\n" passes the written validator but not the intended one. */
  lemma UsernameTrailingNewline()
    ensures ValidateUsernameAsWritten("abc\n").Success?
    ensures ValidateUsername("abc\n").Failure?
  {
    Patterns.TrailingNewlineAccepted("abc", IsUsernameChar);
    assert "abc" + "\n" == "abc\n";
    assert !IsUsernameChar("abc\n"[3]);
  }

  /** The two validators differ only on a value ending in a newline. */
  lemma UsernameValidatorsAgreeWithoutNewline(v: string)
    requires '\n' !in v
    ensures ValidateUsernameAsWritten(v) == ValidateUsername(v)
  {
    if |v| >= 2 {
      assert v[|v| - 1] in v;
    }
  }

  /** The password validator: 8 to 128 characters. */
  function ValidatePassword(v: string): (r: Result<string, string>)
    ensures r.Success? <==> 8 <= |v| <= 128
    ensures r.Success? ==> r.value == v
  {
    if |v| < 8 then Failure("Password must be at least 8 characters long")
    else if |v| > 128 then Failure("Password must be at most 128 characters long")
    else Success(v)
  }

  /** `UserCreate`, after validation. */
  datatype UserCreate = UserCreate(
    username: string,
    email: string,
    displayName: Option<string>,
    password: string,
    isActive: bool,
    isVerified: bool,
    isSuperuser: bool)

  /**
   * Building a `UserCreate` from the fields a request supplies: the flags take their defaults
   * (active, unverified, not a superuser) unless given, and username and password are validated.
   */
  function MakeUserCreate(username: string, email: string, displayName: Option<string>, password: string,
                          isActive: Option<bool>, isVerified: Option<bool>, isSuperuser: Option<bool>): (r: Result<UserCreate, string>)
    ensures r.Success? <==> ValidateUsername(username).Success? && ValidatePassword(password).Success?
    ensures r.Success? ==> r.value.username == username && r.value.password == password && r.value.email == email
    ensures r.Success? ==> r.value.isActive == isActive.GetOr(true)
    ensures r.Success? ==> r.value.isVerified == isVerified.GetOr(false)
    ensures r.Success? ==> r.value.isSuperuser == isSuperuser.GetOr(false)
  {
    var u :- ValidateUsername(username);
    var p :- ValidatePassword(password);
    Success(UserCreate(u, email, displayName, p, isActive.GetOr(true), isVerified.GetOr(false), isSuperuser.GetOr(false)))
  }

  /**
   * Against the source's `UserCreate`, which validates with the written pattern: every request
   * this constructor accepts is accepted there too, and the only requests accepted there alone
   * carry a username that is a run of allowed characters followed by one newline.
   */
  lemma MakeUserCreateAgainstSource(username: string, email: string, displayName: Option<string>, password: string,
                                    isActive: Option<bool>, isVerified: Option<bool>, isSuperuser: Option<bool>)
    ensures var written := ValidateUsernameAsWritten(username).Success? && ValidatePassword(password).Success?;
      var r := MakeUserCreate(username, email, displayName, password, isActive, isVerified, isSuperuser);
      && (r.Success? ==> written)
      && (written && r.Failure? ==>
            |username| >= 2 && username[|username| - 1] == '\n' && Patterns.FullMatch(username[..|username| - 1], IsUsernameChar))
  {
    Patterns.MatchAsWrittenCharacterised(username, IsUsernameChar);
  }

  /** `UserUpdate`: each field is either left out of the request or set. */
  datatype UserUpdate = UserUpdate(
    username: Patch<string>,
    email: Patch<string>,
    displayName: Patch<Option<string>>,
    avatarUrl: Patch<Option<string>>,
    phone: Patch<Option<string>>,
    isActive: Patch<bool>,
    isVerified: Patch<bool>)

  /** An update is validated only in the username it sets; leaving it out always passes. */
  function ValidateUserUpdate(u: UserUpdate): (r: Result<UserUpdate, string>)
    ensures r.Success? <==> u.username.Unset? || ValidateUsername(u.username.value).Success?
    ensures r.Success? ==> r.value == u
  {
    if u.username.Set? then
      var _ :- ValidateUsername(u.username.value);
      Success(u)
    else Success(u)
  }

  /**
   * Against the source's `UserUpdate`: every update accepted here is accepted there, and one
   * accepted there alone sets a username that is a run of allowed characters and one newline.
   */
  lemma ValidateUserUpdateAgainstSource(u: UserUpdate)
    ensures var written := u.username.Unset? || ValidateUsernameAsWritten(u.username.value).Success?;
      && (ValidateUserUpdate(u).Success? ==> written)
      && (written && ValidateUserUpdate(u).Failure? ==>
            var v := u.username.value;
            |v| >= 2 && v[|v| - 1] == '\n' && Patterns.FullMatch(v[..|v| - 1], IsUsernameChar))
  {
    if u.username.Set? {
      Patterns.MatchAsWrittenCharacterised(u.username.value, IsUsernameChar);
    }
  }

  /** `UserResponse`: what the API shows of an account. */
  datatype UserResponse = UserResponse(
    id: string,
    username: string,
    email: string,
    displayName: Option<string>,
    avatarUrl: Option<string>,
    phone: Option<string>,
    isActive: bool,
    isVerified: bool,
    isSuperuser: bool,
    createdAt: int,
    lastLoginAt: Option<int>,
    loginCount: int)

  /** `UserResponse.from_orm`: every column but the password hash, with the id as text. */
  function ToResponse(u: User): (r: UserResponse)
    ensures r.id == Text(u.id) && r.username == u.username && r.email == u.email
    ensures r.isActive == u.isActive && r.isSuperuser == u.isSuperuser
  {
    UserResponse(Text(u.id), u.username, u.email, u.displayName, u.avatarUrl, u.phone, u.isActive, u.isVerified,
                 u.isSuperuser, u.createdAt, u.lastLoginAt, u.loginCount)
  }

  /**
   * The response hides the password hash and nothing else: two accounts look the same exactly
   * when they differ at most in their hashes.
   */
  lemma ToResponseHidesOnlyHash(u: User, v: User)
    ensures ToResponse(u) == ToResponse(v) <==> u.(passwordHash := v.passwordHash) == v
  {
    if ToResponse(u) == ToResponse(v) {
      ParseText(u.id);
      ParseText(v.id);
    }
  }
}

=== FILE: security.dfy ===
/**
 * Credential helpers. Hashing, password hashing and token signing are not modelled as
 * algorithms: each is a function passed in by the caller, and the properties below hold for
 * every such function, or for every one that meets the stated soundness predicate.
 */
module Security {
  import opened Wrappers
  import Config

  /** A SHA-256 hex digest, as an uninterpreted function of the text it hashes. */
  type Digest = string -> string

  /** bcrypt: `hash` salts and hashes a password, `verify` checks one against a stored hash. */
  datatype PasswordHasher = PasswordHasher(hash: string -> string, verify: (string, string) -> bool)

  /** A hasher whose `verify` accepts what its `hash` produced. */
  ghost predicate SoundHasher(h: PasswordHasher) {
    forall p :: h.verify(p, h.hash(p))
  }

  const ApiKeyPrefix: string := "ak_"
  const ServiceKeyPrefix: string := "sk_"

  /** `generate_api_key`: the raw key is the prefix and a random token; the stored value is its digest. */
  function GenerateApiKey(token: string, sha: Digest): (r: (string, string))
    ensures |r.0| == |ApiKeyPrefix| + |token|
    ensures r.0[..|ApiKeyPrefix|] == ApiKeyPrefix && r.0[|ApiKeyPrefix|..] == token
    ensures r.1 == sha(r.0)
  {
    var key := ApiKeyPrefix + token;
    (key, sha(key))
  }

  /** `generate_service_key`: as for API keys, with the service prefix. */
  function GenerateServiceKey(token: string, sha: Digest): (r: (string, string))
    ensures |r.0| == |ServiceKeyPrefix| + |token|
    ensures r.0[..|ServiceKeyPrefix|] == ServiceKeyPrefix && r.0[|ServiceKeyPrefix|..] == token
    ensures r.1 == sha(r.0)
  {
    var key := ServiceKeyPrefix + token;
    (key, sha(key))
  }

  /** `verify_api_key`: the digest of the presented key equals the stored digest. */
  predicate VerifyApiKey(sha: Digest, key: string, keyHash: string) {
    sha(key) == keyHash
  }

  /** A generated key verifies against its own stored digest. */
  lemma GeneratedApiKeyVerifies(token: string, sha: Digest)
    ensures VerifyApiKey(sha, GenerateApiKey(token, sha).0, GenerateApiKey(token, sha).1)
  {
  }

  /** The two prefixes keep the two kinds of raw key apart, whatever the random tokens. */
  lemma {:induction false} KeyKindsDisjoint(t1: string, t2: string, sha: Digest)
    ensures GenerateApiKey(t1, sha).0 != GenerateServiceKey(t2, sha).0
  {
    var a := GenerateApiKey(t1, sha).0;
    var s := GenerateServiceKey(t2, sha).0;
    assert a[0] == 'a' && s[0] == 's';
  }

  /** A claim value in a token payload: a string, or a number such as `exp`. */
  datatype ClaimValue = Str(s: string) | Num(n: int)
  type Claims = map<string, ClaimValue>

  /**
   * Signing with the configured secret and algorithm. `decode` reports a signature or format
   * failure as `None`; the expiry check is done by `VerifyJwtToken`.
   */
  datatype JwtCodec = JwtCodec(encode: Claims -> string, decode: string -> Option<Claims>)

  /** A codec under which a token it signed decodes to the claims it was signed with. */
  ghost predicate Faithful(c: JwtCodec) {
    forall m: Claims {:trigger c.encode(m)} :: c.decode(c.encode(m)) == Some(m)
  }

  /**
   * The payload `create_jwt_token` signs: the data with `exp` set to `now` plus the given
   * lifetime. A missing or zero lifetime is falsy, so the configured access-token lifetime applies.
   */
  function JwtPayload(data: Claims, expiresDelta: Option<int>, now: int): (r: Claims)
    ensures "exp" in r
    ensures expiresDelta.Some? && expiresDelta.value != 0 ==> r["exp"] == Num(now + expiresDelta.value)
    ensures expiresDelta.None? || expiresDelta.value == 0 ==> r["exp"] == Num(now + Config.AccessTokenLifetime)
    ensures forall k :: k in r <==> k in data || k == "exp"
    ensures forall k :: k in data && k != "exp" ==> r[k] == data[k]
  {
    var expire := if expiresDelta.Some? && expiresDelta.value != 0 then now + expiresDelta.value
                  else now + Config.AccessTokenLifetime;
    data["exp" := Num(expire)]
  }

  function CreateJwtToken(codec: JwtCodec, data: Claims, expiresDelta: Option<int>, now: int): (t: string)
    ensures Faithful(codec) ==> codec.decode(t) == Some(JwtPayload(data, expiresDelta, now))
  {
    codec.encode(JwtPayload(data, expiresDelta, now))
  }

  /**
   * `verify_jwt_token`: the decoded claims, or `None` when the token does not decode, its `exp`
   * is not a number, or its `exp` lies before `now`.
   */
  function VerifyJwtToken(codec: JwtCodec, token: string, now: int): (r: Option<Claims>)
    ensures r.Some? <==> codec.decode(token).Some? && ExpiryAcceptable(codec.decode(token).value, now)
    ensures r.Some? ==> r == codec.decode(token)
  {
    match codec.decode(token)
    case None => None
    case Some(claims) => if ExpiryAcceptable(claims, now) then Some(claims) else None
  }

  /** No `exp` claim, or a numeric one not before `now`. */
  predicate ExpiryAcceptable(claims: Claims, now: int) {
    "exp" !in claims || (claims["exp"].Num? && now <= claims["exp"].n)
  }

  /** A token this service signed verifies exactly until its expiry instant, and yields its payload. */
  lemma JwtRoundTrip(codec: JwtCodec, data: Claims, expiresDelta: Option<int>, issued: int, now: int)
    requires Faithful(codec)
    ensures var exp := JwtPayload(data, expiresDelta, issued)["exp"].n;
      VerifyJwtToken(codec, CreateJwtToken(codec, data, expiresDelta, issued), now)
        == (if now <= exp then Some(JwtPayload(data, expiresDelta, issued)) else None)
  {
  }
}

=== FILE: seqs.dfy ===
/** Sequence helpers: the row-level building blocks of every store query. */
module Seqs {
  import opened Wrappers

  /** The rows of `s` that satisfy `p`, in their original order (a SQL WHERE). */
  function Filter<T(!new)>(s: seq<T>, p: T -> bool): (r: seq<T>)
    ensures |r| <= |s|
    ensures forall x :: x in r <==> x in s && p(x)
  {
    if |s| == 0 then []
    else if p(s[0]) then [s[0]] + Filter(s[1..], p)
    else Filter(s[1..], p)
  }

  /** The first row of `s` that satisfies `p`, if any. */
  function FindFirst<T(!new)>(s: seq<T>, p: T -> bool): (r: Option<T>)
    ensures r.Some? ==> r.value in s && p(r.value)
    ensures r.None? ==> forall x :: x in s ==> !p(x)
  {
    if |s| == 0 then None
    else if p(s[0]) then Some(s[0])
    else FindFirst(s[1..], p)
  }

  /** `f` applied to every row of `s`. */
  function Map<T, U>(s: seq<T>, f: T -> U): (r: seq<U>)
    ensures |r| == |s|
    ensures forall i :: 0 <= i < |s| ==> r[i] == f(s[i])
  {
    if |s| == 0 then [] else [f(s[0])] + Map(s[1..], f)
  }

  /** Python's `s[lo:hi]` for non-negative bounds; also SQL `OFFSET lo LIMIT hi - lo`. */
  function Slice<T>(s: seq<T>, lo: nat, hi: nat): (r: seq<T>)
    ensures |r| <= |s|
    ensures |r| == if lo < hi && lo < |s| then Min(hi, |s|) - lo else 0
    ensures forall i :: 0 <= i < |r| ==> lo + i < |s| && r[i] == s[lo + i]
    ensures forall x :: x in r ==> x in s
  {
    var a := if lo <= |s| then lo else |s|;
    var b := if hi <= |s| then hi else |s|;
    if a <= b then s[a..b] else []
  }

  /** The rows of `s` with `p`, replaced by `f` of themselves; the others untouched. */
  function UpdateWhere<T>(s: seq<T>, p: T -> bool, f: T -> T): (r: seq<T>)
    ensures |r| == |s|
    ensures forall i :: 0 <= i < |s| ==> r[i] == if p(s[i]) then f(s[i]) else s[i]
  {
    if |s| == 0 then [] else [if p(s[0]) then f(s[0]) else s[0]] + UpdateWhere(s[1..], p, f)
  }

  /** The characters of `s` other than `c`, in order. */
  function RemoveChar(s: string, c: char): (r: string)
    ensures c !in r
    ensures forall x :: x in r <==> x in s && x != c
  {
    Filter(s, (x: char) => x != c)
  }

  /** The number of rows of `s` that satisfy `p`. */
  function CountWhere<T>(s: seq<T>, p: T -> bool): (n: nat)
    ensures n <= |s|
    ensures n == 0 <==> forall i :: 0 <= i < |s| ==> !p(s[i])
  {
    if |s| == 0 then 0 else (if p(s[0]) then 1 else 0) + CountWhere(s[1..], p)
  }

  /**
   * SQLAlchemy's `scalar_one_or_none`: the matching row if there is at most one, and an
   * error (`MultipleResultsFound`) if there are several.
   */
  function OneOrNone<T(!new)>(s: seq<T>, p: T -> bool): (r: Result<Option<T>, string>)
    ensures r.Failure? <==> CountWhere(s, p) > 1
    ensures r.Success? && r.value.Some? ==> r.value.value in s && p(r.value.value)
    ensures r.Success? && r.value.None? <==> forall x :: x in s ==> !p(x)
  {
    if CountWhere(s, p) > 1 then Failure("Multiple rows were found when one or none was required")
    else Success(FindFirst(s, p))
  }

  /** When at most one row satisfies `p`, the first such row is the only one. */
  lemma {:induction false} FindFirstIsOnly<T(!new)>(s: seq<T>, p: T -> bool)
    requires CountWhere(s, p) <= 1
    ensures FindFirst(s, p).Some? ==> forall i :: 0 <= i < |s| && p(s[i]) ==> s[i] == FindFirst(s, p).value
  {
    if |s| > 0 {
      FindFirstIsOnly(s[1..], p);
      if p(s[0]) {
        assert CountWhere(s[1..], p) == 0;
      }
    }
  }

  /** No two rows of `s` share a key: a UNIQUE column. */
  predicate DistinctBy<T, K(==)>(s: seq<T>, key: T -> K) {
    forall i, j :: 0 <= i < j < |s| ==> key(s[i]) != key(s[j])
  }

  /** Over a UNIQUE column an equality lookup matches at most one row. */
  lemma {:induction false} DistinctCountAtMostOne<T, K>(s: seq<T>, key: T -> K, k: K, p: T -> bool)
    requires DistinctBy(s, key)
    requires forall x :: p(x) ==> key(x) == k
    ensures CountWhere(s, p) <= 1
  {
    if |s| > 0 {
      assert DistinctBy(s[1..], key) by {
        forall i, j | 0 <= i < j < |s| - 1 ensures key(s[1..][i]) != key(s[1..][j]) {
          assert s[1..][i] == s[i + 1] && s[1..][j] == s[j + 1];
        }
      }
      DistinctCountAtMostOne(s[1..], key, k, p);
      if p(s[0]) {
        forall i | 0 <= i < |s| - 1 ensures !p(s[1..][i]) {
          assert s[1..][i] == s[i + 1];
          assert key(s[0]) != key(s[i + 1]);
        }
      }
    }
  }

  /** Appending a row whose key is new keeps a column UNIQUE. */
  lemma DistinctByAppend<T, K>(s: seq<T>, x: T, key: T -> K)
    requires DistinctBy(s, key)
    requires forall y :: y in s ==> key(y) != key(x)
    ensures DistinctBy(s + [x], key)
  {
    var t := s + [x];
    forall i, j | 0 <= i < j < |t| ensures key(t[i]) != key(t[j]) {
      if j == |s| {
        assert t[i] in s;
      }
    }
  }

  /** A lookup after appending a row finds that row when no earlier row matches. */
  lemma {:induction false} FindFirstAppend<T(!new)>(s: seq<T>, x: T, p: T -> bool)
    requires forall y :: y in s ==> !p(y)
    requires p(x)
    ensures FindFirst(s + [x], p) == Some(x)
  {
    if |s| > 0 {
      assert (s + [x])[1..] == s[1..] + [x];
      FindFirstAppend(s[1..], x, p);
    } else {
      assert s + [x] == [x];
    }
  }

  /** Appending a row that does not match leaves a lookup unchanged. */
  lemma {:induction false} FindFirstAppendOther<T(!new)>(s: seq<T>, x: T, p: T -> bool)
    requires !p(x)
    ensures FindFirst(s + [x], p) == FindFirst(s, p)
  {
    if |s| > 0 {
      assert (s + [x])[1..] == s[1..] + [x];
      FindFirstAppendOther(s[1..], x, p);
    } else {
      assert s + [x] == [x];
    }
  }

  /** An update that keeps the key of every row it touches keeps a column UNIQUE. */
  lemma UpdateWherePreservesDistinct<T, K>(s: seq<T>, p: T -> bool, f: T -> T, key: T -> K)
    requires DistinctBy(s, key)
    requires forall i :: 0 <= i < |s| && p(s[i]) ==> key(f(s[i])) == key(s[i])
    ensures DistinctBy(UpdateWhere(s, p, f), key)
  {
    var t := UpdateWhere(s, p, f);
    assert forall i :: 0 <= i < |s| ==> key(t[i]) == key(s[i]);
  }

  function Min(a: int, b: int): int {
    if a <= b then a else b
  }

  predicate IsPrefix<T(==)>(p: seq<T>, s: seq<T>) {
    |p| <= |s| && s[..|p|] == p
  }

  /** Appending a row adds one to the count exactly when it matches. */
  lemma {:induction false} CountWhereAppend<T>(s: seq<T>, x: T, p: T -> bool)
    ensures CountWhere(s + [x], p) == CountWhere(s, p) + (if p(x) then 1 else 0)
  {
    if |s| > 0 {
      assert (s + [x])[1..] == s[1..] + [x];
      CountWhereAppend(s[1..], x, p);
    } else {
      assert s + [x] == [x];
    }
  }

  /** Appending a row that does not match leaves `scalar_one_or_none` unchanged. */
  lemma OneOrNoneAppendOther<T(!new)>(s: seq<T>, x: T, p: T -> bool)
    requires !p(x)
    ensures OneOrNone(s + [x], p) == OneOrNone(s, p)
  {
    CountWhereAppend(s, x, p);
    FindFirstAppendOther(s, x, p);
  }

  /** Appending the first matching row makes `scalar_one_or_none` find exactly it. */
  lemma OneOrNoneAppendOnly<T(!new)>(s: seq<T>, x: T, p: T -> bool)
    requires forall y :: y in s ==> !p(y)
    requires p(x)
    ensures OneOrNone(s + [x], p) == Success(Some(x))
  {
    CountWhereAppend(s, x, p);
    assert CountWhere(s, p) == 0 by {
      assert forall i :: 0 <= i < |s| ==> s[i] in s;
    }
    FindFirstAppend(s, x, p);
  }

  /** Rows appended after a match do not change which row a lookup finds. */
  lemma {:induction false} FindFirstExtend<T(!new)>(s: seq<T>, t: seq<T>, p: T -> bool)
    requires FindFirst(s, p).Some?
    ensures FindFirst(s + t, p) == FindFirst(s, p)
  {
    assert |s| > 0;
    assert (s + t)[0] == s[0];
    if !p(s[0]) {
      assert (s + t)[1..] == s[1..] + t;
      FindFirstExtend(s[1..], t, p);
    }
  }

  /** Over a UNIQUE column, a lookup that only the row `x` can match finds `x`. */
  lemma FindFirstUnique<T(!new), K>(s: seq<T>, key: T -> K, x: T, p: T -> bool)
    requires DistinctBy(s, key)
    requires x in s && p(x)
    requires forall y :: p(y) ==> key(y) == key(x)
    ensures FindFirst(s, p) == Some(x)
  {
    DistinctCountAtMostOne(s, key, key(x), p);
    FindFirstIsOnly(s, p);
    var i :| 0 <= i < |s| && s[i] == x;
  }

  /** Keeping only some rows keeps a column UNIQUE. */
  lemma {:induction false} FilterPreservesDistinct<T(!new), K>(s: seq<T>, p: T -> bool, key: T -> K)
    requires DistinctBy(s, key)
    ensures DistinctBy(Filter(s, p), key)
  {
    if |s| > 0 {
      var tail := s[1..];
      assert DistinctBy(tail, key) by {
        forall i, j | 0 <= i < j < |tail| ensures key(tail[i]) != key(tail[j]) {
          assert tail[i] == s[i + 1] && tail[j] == s[j + 1];
        }
      }
      FilterPreservesDistinct(tail, p, key);
      var ft := Filter(tail, p);
      if p(s[0]) {
        var r := [s[0]] + ft;
        forall i, j | 0 <= i < j < |r| ensures key(r[i]) != key(r[j]) {
          if i == 0 {
            assert r[j] == ft[j - 1] && ft[j - 1] in tail;
            var k :| 0 <= k < |tail| && tail[k] == ft[j - 1];
            assert tail[k] == s[k + 1];
          } else {
            assert r[i] == ft[i - 1] && r[j] == ft[j - 1];
          }
        }
      }
    }
  }
}

=== FILE: sso.dfy ===
/**
 * The single-sign-on routes: the login redirect a client project starts from, the login page's
 * redirect decision, the callback that issues an authorization code, the code exchange, the
 * user-info lookup for a project-bound token, the global logout and the session check.
 */
module Sso {
  import opened Wrappers
  import opened Seqs
  import opened Uuids
  import opened Models
  import opened Security
  import opened Common
  import opened Urls
  import Config
  import Dependencies
  import RbacService
  import CrudRbac
  import CrudAuth
  import AuthService

  const LoginPagePath: string := "/sso/login-page?"
  const CallbackLoginPagePath: string := "/api/v1/sso/login-page?"
  const CallbackPath: string := "/api/v1/sso/callback?"

  function ProjectNotAllowed(project: string): HttpError {
    HttpError(BadRequest, "项目 '" + project + "' 未在允许列表中")
  }

  function ProjectUrlMissing(project: string): HttpError {
    HttpError(BadRequest, "项目 '" + project + "' URL配置不存在")
  }

  const RedirectMismatch: HttpError := HttpError(BadRequest, "重定向URI不匹配项目配置")

  /** The parameters handed on to the login page: target and project, and the state only when it is non-empty. */
  function LoginParams(redirectUri: string, project: string, state: Option<string>): QueryDict {
    [("redirect_uri", [redirectUri]), ("project", [project])]
    + (if Dependencies.Truthy(state) then [("state", [state.value])] else [])
  }

  /**
   * The forwarded parameters read back as they were given: the target, the project, and the
   * state exactly when it was non-empty.
   */
  lemma LoginParamsRoundTrip(q: Quoting, redirectUri: string, project: string, state: Option<string>)
    requires SoundQuoting(q)
    requires redirectUri != "" && project != ""
    ensures var back := ParseQs(UrlEncode(LoginParams(redirectUri, project, state), q), q, false);
      && back == LoginParams(redirectUri, project, state)
      && Lookup(back, "redirect_uri") == Some([redirectUri])
      && Lookup(back, "project") == Some([project])
      && Lookup(back, "state") == if Dependencies.Truthy(state) then Some([state.value]) else None
  {
    var d := LoginParams(redirectUri, project, state);
    assert DistinctBy(d, Key) by {
      forall i, j | 0 <= i < j < |d| ensures Key(d[i]) != Key(d[j]) {}
    }
    ParseQsOfUrlEncode(d, q, false);
    LoginParamsLookups(redirectUri, project, state);
  }

  /** Each forwarded parameter is found under its own name. */
  lemma LoginParamsLookups(redirectUri: string, project: string, state: Option<string>)
    ensures var d := LoginParams(redirectUri, project, state);
      && Lookup(d, "redirect_uri") == Some([redirectUri])
      && Lookup(d, "project") == Some([project])
      && Lookup(d, "state") == if Dependencies.Truthy(state) then Some([state.value]) else None
  {
    var d := LoginParams(redirectUri, project, state);
    assert d[0].0 == "redirect_uri" && d[1].0 == "project";
    assert "redirect_uri" != "project" && "redirect_uri" != "state" && "project" != "state";
    if Dependencies.Truthy(state) {
      assert |d| == 3 && d[2] == ("state", [state.value]);
    } else {
      assert |d| == 2;
    }
  }

  /**
   * `sso_login_redirect`: the project must be on the allow-list, have a configured URL, and the
   * redirect target must be on that URL's host; the browser is then sent to the login page with
   * the parameters handed on.
   */
  function SsoLoginRedirect(settings: Config.Settings, parse: UrlParser, q: Quoting, redirectUri: string,
                            project: string, state: Option<string>): (r: Result<string, HttpError>)
    ensures r.Success? <==>
      && project in settings.allowedProjects
      && project in settings.projectUrls
      && parse(redirectUri).netloc == parse(settings.projectUrls[project]).netloc
    ensures project !in settings.allowedProjects ==> r == Failure(ProjectNotAllowed(project))
    ensures project in settings.allowedProjects && project !in settings.projectUrls ==> r == Failure(ProjectUrlMissing(project))
    ensures r.Failure? ==> r.error.status == BadRequest
    ensures r.Success? ==> r.value == LoginPagePath + UrlEncode(LoginParams(redirectUri, project, state), q)
  {
    if project !in settings.allowedProjects then Failure(ProjectNotAllowed(project))
    else if project !in settings.projectUrls then Failure(ProjectUrlMissing(project))
    else if parse(redirectUri).netloc != parse(settings.projectUrls[project]).netloc then Failure(RedirectMismatch)
    else Success(LoginPagePath + UrlEncode(LoginParams(redirectUri, project, state), q))
  }

  // ---------------------------------------------------------------- login page

  /**
   * `sso_login_page`, its redirect decision only: with a session cookie, a target and a project
   * it goes straight to the callback, splicing the three values into the query as they are; the
   * session itself is not looked at. `None` stands for serving the login form.
   */
  function LoginPageAsWritten(cookies: map<string, string>, redirectUri: Option<string>, project: Option<string>,
                              state: Option<string>): (r: Option<string>)
    ensures r.Some? <==>
      Dependencies.Truthy(Dependencies.Get(cookies, Config.SessionCookieName))
      && Dependencies.Truthy(redirectUri) && Dependencies.Truthy(project)
  {
    if Dependencies.Truthy(Dependencies.Get(cookies, Config.SessionCookieName))
       && Dependencies.Truthy(redirectUri) && Dependencies.Truthy(project)
    then Some(CallbackPath + "redirect_uri=" + redirectUri.value + "&project=" + project.value
              + "&state=" + (if Dependencies.Truthy(state) then state.value else ""))
    else None
  }

  /** The pieces the login page's query falls into when the target carries a second parameter. */
  function TruncationPieceList(base: string, n: string, v: string, p: string): seq<string> {
    ["redirect_uri=" + base, n + "=" + v, "project=" + p, "state="]
  }

  /** The query the login page builds for a target `base&n=v` is the join of those pieces. */
  lemma TruncationPieces(cookies: map<string, string>, base: string, n: string, v: string, p: string)
    requires Config.SessionCookieName in cookies && cookies[Config.SessionCookieName] != ""
    requires base != "" && p != ""
    ensures var location := LoginPageAsWritten(cookies, Some(base + "&" + n + "=" + v), Some(p), None);
      && location.Some? && IsPrefix(CallbackPath, location.value)
      && location.value[|CallbackPath|..] == JoinWith(TruncationPieceList(base, n, v, p), '&')
  {
    var target := base + "&" + n + "=" + v;
    var location := LoginPageAsWritten(cookies, Some(target), Some(p), None);
    var query := "redirect_uri=" + target + "&project=" + p + "&state=" + "";
    assert location.value == CallbackPath + query;
    assert location.value[|CallbackPath|..] == query;
    JoinFour("redirect_uri=" + base, n + "=" + v, "project=" + p, "state=", '&');
    TruncatedQueryShape(base, n, v, p);
  }

  /** Four strings joined by a separator. */
  lemma JoinFour(a: string, b: string, c: string, d: string, ch: char)
    ensures JoinWith([a, b, c, d], ch) == a + [ch] + (b + [ch] + (c + [ch] + d))
  {
    assert [a, b, c, d][1..] == [b, c, d] && [b, c, d][1..] == [c, d] && [c, d][1..] == [d];
    assert JoinWith([c, d], ch) == c + [ch] + d;
    assert JoinWith([b, c, d], ch) == b + [ch] + JoinWith([c, d], ch);
  }

  /** The login page's query for a target `base&n=v`, regrouped around its separators. */
  lemma TruncatedQueryShape(base: string, n: string, v: string, p: string)
    ensures "redirect_uri=" + (base + "&" + n + "=" + v) + "&project=" + p + "&state=" + ""
         == ("redirect_uri=" + base) + ['&'] + ((n + "=" + v) + ['&'] + (("project=" + p) + ['&'] + "state="))
  {
    var target := base + "&" + n + "=" + v;
    var tail := ("project=" + p) + ['&'] + "state=";
    assert "&project=" + p + "&state=" + "" == ['&'] + tail;
    assert target == base + ['&'] + (n + "=" + v);
  }

  /** Four pieces that each parse to a pair parse to those four pairs, in order. */
  lemma ParseFourPieces(a: string, b: string, c: string, d: string, q: Quoting, keepBlank: bool,
                        pa: (string, string), pb: (string, string), pc: (string, string), pd: (string, string))
    requires ParsePair(a, q, keepBlank) == Some(pa) && ParsePair(b, q, keepBlank) == Some(pb)
    requires ParsePair(c, q, keepBlank) == Some(pc) && ParsePair(d, q, keepBlank) == Some(pd)
    ensures ParsePieces([a, b, c, d], q, keepBlank) == [pa, pb, pc, pd]
  {
    assert [a, b, c, d][1..] == [b, c, d] && [b, c, d][1..] == [c, d] && [c, d][1..] == [d] && [d][1..] == [];
    ParsePiecesCons([d], q, keepBlank, pd);
    ParsePiecesCons([c, d], q, keepBlank, pc);
    ParsePiecesCons([b, c, d], q, keepBlank, pb);
    ParsePiecesCons([a, b, c, d], q, keepBlank, pa);
  }

  /** The first piece names the target, read as it is written. */
  lemma TargetPiece(q: Quoting, base: string)
    requires SoundQuoting(q) && '%' !in base && '+' !in base
    ensures ParsePair("redirect_uri" + "=" + base, q, true) == Some(("redirect_uri", base))
  {
    ParsePairPlain("redirect_uri", base, q, true);
  }

  /** The last two pieces name the project and an empty state. */
  lemma ProjectAndStatePieces(q: Quoting, p: string)
    requires SoundQuoting(q)
    ensures ParsePair("project" + "=" + p, q, true) == Some(("project", q.unquote(p)))
    ensures ParsePair("state" + "=" + "", q, true) == Some(("state", ""))
  {
    ParsePairName("project", p, q);
    ParsePairPlain("state", "", q, true);
  }

  /** The piece list, written as name, `=`, value. */
  lemma TruncationPieceListShape(base: string, n: string, v: string, p: string)
    ensures TruncationPieceList(base, n, v, p) ==
      ["redirect_uri" + "=" + base, n + "=" + v, "project" + "=" + p, "state" + "=" + ""]
  {
    assert "redirect_uri=" == "redirect_uri" + "=" && "project=" == "project" + "=" && "state=" == "state" + "=" + "";
  }

  /** How those pieces read: the target's own second parameter has become a parameter of the callback. */
  lemma TruncationPairs(q: Quoting, base: string, n: string, v: string, p: string)
    requires SoundQuoting(q)
    requires '=' !in n && '%' !in n && '+' !in n && n != ""
    requires '%' !in base && '+' !in base
    ensures var ps := ParsePieces(TruncationPieceList(base, n, v, p), q, true);
      |ps| == 4 && ps[0] == ("redirect_uri", base) && ps[1].0 == n && ps[2].0 == "project" && ps[3].0 == "state"
  {
    var a, b, c, d := "redirect_uri" + "=" + base, n + "=" + v, "project" + "=" + p, "state" + "=" + "";
    TargetPiece(q, base);
    ParsePairName(n, v, q);
    ProjectAndStatePieces(q, p);
    TruncationPieceListShape(base, n, v, p);
    ParseFourPieces(a, b, c, d, q, true,
                    ("redirect_uri", base), (n, q.unquote(v)), ("project", q.unquote(p)), ("state", ""));
  }

  /**
   * A target that carries its own query loses everything after its first `&` on the way to the
   * callback: for `base&n=v` the callback reads `base` as its target, and `n` as a parameter of
   * its own.
   */
  lemma LoginPageTruncatesTarget(q: Quoting, cookies: map<string, string>, base: string, n: string, v: string,
                                 p: string)
    requires SoundQuoting(q)
    requires Config.SessionCookieName in cookies && cookies[Config.SessionCookieName] != ""
    requires base != "" && p != ""
    requires '&' !in base && '%' !in base && '+' !in base
    requires '&' !in n && '=' !in n && '%' !in n && '+' !in n && n != "" && n != "redirect_uri"
    requires '&' !in v && '&' !in p
    ensures var location := LoginPageAsWritten(cookies, Some(base + "&" + n + "=" + v), Some(p), None);
      && location.Some? && IsPrefix(CallbackPath, location.value)
      && QueryParam(location.value[|CallbackPath|..], q, "redirect_uri") == Some(base)
  {
    var pieces := TruncationPieceList(base, n, v, p);
    TruncationPieces(cookies, base, n, v, p);
    assert '&' !in "redirect_uri=" && '&' !in "project=" && '&' !in "state=" && '&' !in "=";
    SplitJoin(pieces, '&');
    TruncationPairs(q, base, n, v, p);
    var ps := ParsePieces(pieces, q, true);
    assert "project" != "redirect_uri" && "state" != "redirect_uri";
    assert ValuesOf(ps[3..], "redirect_uri") == [] by { assert ps[3..][1..] == []; }
    assert ValuesOf(ps[2..], "redirect_uri") == [] by { assert ps[2..][1..] == ps[3..]; }
    assert ValuesOf(ps[1..], "redirect_uri") == [] by { assert ps[1..][1..] == ps[2..]; }
    assert ValuesOf(ps, "redirect_uri") == [base];
  }

  /** The instance that shows it: `http://h/?a=1&b=2` arrives as `http://h/?a=1`. */
  lemma LoginPageTruncatesExample(q: Quoting, cookies: map<string, string>)
    requires SoundQuoting(q)
    requires Config.SessionCookieName in cookies && cookies[Config.SessionCookieName] != ""
    ensures var location := LoginPageAsWritten(cookies, Some("http://h/?a=1" + "&" + "b" + "=" + "2"), Some("p"), None);
      QueryParam(location.value[|CallbackPath|..], q, "redirect_uri") == Some("http://h/?a=1")
  {
    LoginPageTruncatesTarget(q, cookies, "http://h/?a=1", "b", "2", "p");
  }

  /** The callback's query built with the encoder the other two redirects use. */
  function CallbackQuery(redirectUri: string, project: string, state: Option<string>): QueryDict {
    [("redirect_uri", [redirectUri]), ("project", [project]),
     ("state", [if Dependencies.Truthy(state) then state.value else ""])]
  }

  /** The login page's redirect decision with every value encoded. */
  function LoginPage(q: Quoting, cookies: map<string, string>, redirectUri: Option<string>, project: Option<string>,
                     state: Option<string>): (r: Option<string>)
    ensures r.Some? <==> LoginPageAsWritten(cookies, redirectUri, project, state).Some?
    ensures r.Some? ==> IsPrefix(CallbackPath, r.value)
  {
    if LoginPageAsWritten(cookies, redirectUri, project, state).Some?
    then Some(CallbackPath + UrlEncode(CallbackQuery(redirectUri.value, project.value, state), q))
    else None
  }

  /** Whatever the target holds, the callback reads back the target, the project and the state that were given. */
  lemma LoginPageForwardsIntact(q: Quoting, cookies: map<string, string>, redirectUri: Option<string>,
                                project: Option<string>, state: Option<string>)
    requires SoundQuoting(q)
    requires LoginPage(q, cookies, redirectUri, project, state).Some?
    ensures var query := LoginPage(q, cookies, redirectUri, project, state).value[|CallbackPath|..];
      && QueryParam(query, q, "redirect_uri") == Some(redirectUri.value)
      && QueryParam(query, q, "project") == Some(project.value)
      && QueryParam(query, q, "state") == Some(if Dependencies.Truthy(state) then state.value else "")
  {
    var d := CallbackQuery(redirectUri.value, project.value, state);
    var query := UrlEncode(d, q);
    assert LoginPage(q, cookies, redirectUri, project, state).value[|CallbackPath|..] == query;
    assert DistinctBy(d, Key) by {
      forall i, j | 0 <= i < j < |d| ensures Key(d[i]) != Key(d[j]) {}
    }
    ParseQsOfUrlEncode(d, q, true);
    QueryParamOfParseQs(query, q, "redirect_uri");
    QueryParamOfParseQs(query, q, "project");
    QueryParamOfParseQs(query, q, "state");
    assert d[0].0 == "redirect_uri" && d[1].0 == "project" && d[2].0 == "state";
  }

  // ---------------------------------------------------------------- callback

  function NoProjectAccess(project: string): HttpError {
    HttpError(Forbidden, "用户没有访问项目 '" + project + "' 的权限")
  }

  /** The callback's own parameters merged into the target's query: code, project, and the state when non-empty. */
  function MergeCallbackParams(existing: QueryDict, code: string, project: string, state: Option<string>): (r: QueryDict)
    ensures Lookup(r, "code") == Some([code]) && Lookup(r, "project") == Some([project])
    ensures Lookup(r, "state") == if Dependencies.Truthy(state) then Some([state.value]) else Lookup(existing, "state")
    ensures forall k :: k != "code" && k != "project" && k != "state" ==> Lookup(r, k) == Lookup(existing, k)
    ensures forall j :: 0 <= j < |existing| ==> j < |r| && r[j].0 == existing[j].0
  {
    var withProject := Assign(Assign(existing, "code", code), "project", project);
    var r := if Dependencies.Truthy(state) then Assign(withProject, "state", state.value) else withProject;
    MergeFrames(existing, code, project, state, r);
    r
  }

  /** The three assignments of the merge, each leaving the other names alone. */
  lemma MergeFrames(existing: QueryDict, code: string, project: string, state: Option<string>, r: QueryDict)
    requires var withProject := Assign(Assign(existing, "code", code), "project", project);
      r == if Dependencies.Truthy(state) then Assign(withProject, "state", state.value) else withProject
    ensures Lookup(r, "code") == Some([code]) && Lookup(r, "project") == Some([project])
    ensures Lookup(r, "state") == if Dependencies.Truthy(state) then Some([state.value]) else Lookup(existing, "state")
    ensures forall k :: k != "code" && k != "project" && k != "state" ==> Lookup(r, k) == Lookup(existing, k)
    ensures forall j :: 0 <= j < |existing| ==> j < |r| && r[j].0 == existing[j].0
  {
    var withCode := Assign(existing, "code", code);
    var withProject := Assign(withCode, "project", project);
    assert "code" != "project" && "code" != "state" && "project" != "state" by {
      assert "code"[0] != "project"[0] && "code"[0] != "state"[0] && "project"[0] != "state"[0];
    }
    assert Lookup(withProject, "code") == Some([code]);
    assert Lookup(withProject, "state") == Lookup(existing, "state");
    forall k | k != "code" && k != "project" && k != "state" ensures Lookup(r, k) == Lookup(existing, k) {
      assert Lookup(withProject, k) == Lookup(withCode, k) == Lookup(existing, k);
    }
  }

  /**
   * The final redirect: the target's scheme, host and path, and its query with the callback's
   * parameters merged in; anything after a `#` in the target is dropped.
   */
  function FinalRedirect(parse: UrlParser, q: Quoting, redirectUri: string, code: string, project: string,
                         state: Option<string>): string {
    var u := parse(redirectUri);
    var merged := MergeCallbackParams(ParseQs(u.query, q, false), code, project, state);
    Base(u) + UrlEncode(merged, q)
  }

  /** The merged parameters are well formed, so they read back from the final query unchanged. */
  lemma MergedRoundTrip(existing: QueryDict, q: Quoting, code: string, project: string, state: Option<string>)
    requires SoundQuoting(q)
    requires WellFormed(existing, false)
    requires code != "" && project != ""
    ensures var merged := MergeCallbackParams(existing, code, project, state);
      ParseQs(UrlEncode(merged, q), q, false) == merged && '#' !in UrlEncode(merged, q)
  {
    var merged := MergeCallbackParams(existing, code, project, state);
    var withCode := Assign(existing, "code", code);
    AssignWellFormed(existing, "code", code, false);
    AssignWellFormed(withCode, "project", project, false);
    if Dependencies.Truthy(state) {
      AssignWellFormed(Assign(withCode, "project", project), "state", state.value, false);
    }
    ParseQsOfUrlEncode(merged, q, false);
    UrlEncodeHasNoHash(merged, q);
  }

  /** A query after a prefix, neither holding `#`, is found again after the prefix. */
  lemma PrefixedQuery(prefix: string, query: string)
    requires '#' !in prefix && '#' !in query
    ensures IsPrefix(prefix, prefix + query) && (prefix + query)[|prefix|..] == query && '#' !in prefix + query
  {
  }

  /** The scheme, host and path of a target, as the final redirect keeps them. */
  function Base(u: Url): (r: string)
    ensures '#' !in u.scheme && '#' !in u.netloc && '#' !in u.path ==> '#' !in r
  {
    u.scheme + "://" + u.netloc + u.path + "?"
  }

  /** The final redirect is the target's base followed by the merged query, with no fragment. */
  lemma FinalRedirectShape(parse: UrlParser, q: Quoting, redirectUri: string, code: string, project: string,
                           state: Option<string>)
    requires SoundParser(parse) && SoundQuoting(q)
    ensures var u := parse(redirectUri);
      var location := FinalRedirect(parse, q, redirectUri, code, project, state);
      var merged := MergeCallbackParams(ParseQs(u.query, q, false), code, project, state);
      && IsPrefix(Base(u), location)
      && location[|Base(u)|..] == UrlEncode(merged, q)
      && '#' !in location
  {
    var u := parse(redirectUri);
    var merged := MergeCallbackParams(ParseQs(u.query, q, false), code, project, state);
    UrlEncodeHasNoHash(merged, q);
    PrefixedQuery(Base(u), UrlEncode(merged, q));
  }

  /**
   * The client reads the code, the project and the state it sent back from the final redirect's
   * query; every other parameter of its target survives as it was, and no fragment follows.
   */
  lemma FinalRedirectCarriesCode(parse: UrlParser, q: Quoting, redirectUri: string, code: string, project: string,
                                 state: Option<string>)
    requires SoundParser(parse) && SoundQuoting(q)
    requires code != "" && project != ""
    ensures var u := parse(redirectUri);
      var location := FinalRedirect(parse, q, redirectUri, code, project, state);
      var back := ParseQs(location[|Base(u)|..], q, false);
      && IsPrefix(Base(u), location)
      && '#' !in location
      && Lookup(back, "code") == Some([code])
      && Lookup(back, "project") == Some([project])
      && (Dependencies.Truthy(state) ==> Lookup(back, "state") == Some([state.value]))
      && forall k :: k != "code" && k != "project" && k != "state" ==> Lookup(back, k) == Lookup(ParseQs(u.query, q, false), k)
  {
    var u := parse(redirectUri);
    var existing := ParseQs(u.query, q, false);
    ParseQsWellFormed(u.query, q, false);
    MergedRoundTrip(existing, q, code, project, state);
    FinalRedirectShape(parse, q, redirectUri, code, project, state);
  }

  /**
   * `sso_callback`: without a session cookie, or with one whose session is not valid, the browser
   * is sent back to the login page with its parameters; an account without access to the project
   * gets a 403; otherwise exactly one authorization code is issued, bound to the account, the
   * project and the target as given, and the browser goes to the target with the code. The
   * target's host is not checked here. The second component of a redirect says whether the cookie
   * is cleared: never, because the invalid-session branch clears it on the injected response and
   * then returns a `RedirectResponse` of its own, and FastAPI sends only the returned response.
   */
  function SsoCallback(st: Store, parse: UrlParser, q: Quoting, cookies: map<string, string>, redirectUri: string,
                       project: string, state: Option<string>, code: string, codeId: Uuid, now: int)
    : (r: (Store, Result<(string, bool), HttpError>))
    ensures r.0 == st.(sessions := r.0.sessions, authCodes := r.0.authCodes)
    ensures !Dependencies.Truthy(Dependencies.Get(cookies, Config.SessionCookieName)) ==>
      r == (st, Success((CallbackLoginPagePath + UrlEncode(LoginParams(redirectUri, project, state), q), false)))
    ensures r.1.Failure? ==> r.1.error == NoProjectAccess(project) && r.0 == st
    ensures r.1.Success? ==> !r.1.value.1
    ensures r.0.authCodes != st.authCodes ==>
      && r.1.Success?
      && r.1.value == (FinalRedirect(parse, q, redirectUri, code, project, state), false)
      && r.0.sessions == st.sessions
      && |r.0.authCodes| == |st.authCodes| + 1 && r.0.authCodes[..|st.authCodes|] == st.authCodes
      && var c := r.0.authCodes[|st.authCodes|];
         c.code == code && c.project == project && c.redirectUri == redirectUri && !c.isUsed
         && c.expiresAt == now + AuthService.AuthCodeLifetime
         && AuthService.GetUserBySession(st, cookies[Config.SessionCookieName], now).1.Some?
         && AuthService.GetUserBySession(st, cookies[Config.SessionCookieName], now).1.value.id == c.userId
         && RbacService.CheckUserProjectAccess(st, c.userId, project, now)
  {
    var token := Dependencies.Get(cookies, Config.SessionCookieName);
    var toLogin := CallbackLoginPagePath + UrlEncode(LoginParams(redirectUri, project, state), q);
    if !Dependencies.Truthy(token) then (st, Success((toLogin, false)))
    else
      var (st1, user) := AuthService.GetUserBySession(st, token.value, now);
      if user.None? then (st1, Success((toLogin, false)))
      else if !RbacService.CheckUserProjectAccess(st1, user.value.id, project, now) then (st1, Failure(NoProjectAccess(project)))
      else
        var (st2, issued) := AuthService.GenerateAuthCode(st1, user.value.id, project, redirectUri, code, codeId, now);
        (st2, Success((FinalRedirect(parse, q, redirectUri, issued, project, state), false)))
  }

  /**
   * The target the login redirect refuses, because its host is not the project's, is accepted by
   * the callback: with a valid session and access to the project, a code is issued for it.
   */
  lemma CallbackAcceptsForeignHost(st: Store, settings: Config.Settings, parse: UrlParser, q: Quoting,
                                   cookies: map<string, string>, redirectUri: string, project: string,
                                   state: Option<string>, code: string, codeId: Uuid, now: int)
    requires SsoLoginRedirect(settings, parse, q, redirectUri, project, state) == Failure(RedirectMismatch)
    requires Dependencies.Truthy(Dependencies.Get(cookies, Config.SessionCookieName))
    requires AuthService.GetUserBySession(st, cookies[Config.SessionCookieName], now).1.Some?
    requires RbacService.CheckUserProjectAccess(st, AuthService.GetUserBySession(st, cookies[Config.SessionCookieName], now).1.value.id,
                                               project, now)
    ensures var r := SsoCallback(st, parse, q, cookies, redirectUri, project, state, code, codeId, now);
      r.1 == Success((FinalRedirect(parse, q, redirectUri, code, project, state), false))
      && r.0.authCodes != st.authCodes
  {
    var r := SsoCallback(st, parse, q, cookies, redirectUri, project, state, code, codeId, now);
    assert |r.0.authCodes| == |st.authCodes| + 1;
  }

  // ---------------------------------------------------------------- code exchange

  const ExchangeSucceeded: string := "授权码交换成功"

  /**
   * The `exchange-token` route: the exchange's outcome in the response envelope; a refusal is
   * reported in the envelope, never raised.
   */
  function ExchangeTokenRoute(st: Store, c: RbacService.PermissionCache, codec: JwtCodec, code: string, project: string,
                              redirectUri: string, now: int, faults: RbacService.CacheFaults)
    : (r: (Store, RbacService.PermissionCache, Reply<AuthService.ExchangeResponse>))
    ensures r.2.Envelope? && (r.2.response.success <==> r.2.data.Some?)
    ensures r.2.response.success ==>
      r.2.response == BaseResponse(true, 200, ExchangeSucceeded)
      && r.2.data.value.project == project && r.2.data.value.user.isActive
    ensures !r.2.response.success ==> r.2.response.code == BadRequest || r.2.response.code == Unauthorized
    ensures !r.2.response.success && r.2.response.code == BadRequest ==> r.0 == st && r.1 == c
    ensures r.0 != st ==> AuthService.ExchangeAuthCode(st, c, codec, code, project, redirectUri, now, faults).0 == r.0
  {
    var (st', c', result) := AuthService.ExchangeAuthCode(st, c, codec, code, project, redirectUri, now, faults);
    match result
    case Success(v) => (st', c', Envelope(BaseResponse(true, 200, ExchangeSucceeded), Some(v)))
    case Failure(e) => (st', c', Envelope(ErrorResponse(e), None))
  }

  /** Replaying a code through the route after it was burnt gets the invalid-code envelope. */
  lemma ExchangeRouteReplayRefused(st: Store, c: RbacService.PermissionCache, codec: JwtCodec, code: string,
                                   project: string, redirectUri: string, now: int, faults: RbacService.CacheFaults,
                                   c2: RbacService.PermissionCache, project2: string, redirectUri2: string, later: int)
    requires Consistent(st)
    requires ExchangeTokenRoute(st, c, codec, code, project, redirectUri, now, faults).0 != st
    ensures var st' := ExchangeTokenRoute(st, c, codec, code, project, redirectUri, now, faults).0;
      ExchangeTokenRoute(st', c2, codec, code, project2, redirectUri2, later, faults).2
        == Envelope(BaseResponse(false, 400, "无效的授权码"), None)
  {
    AuthService.ExchangeIsOneShot(st, c, codec, code, project, redirectUri, now, faults, c2, project2, redirectUri2, later);
  }

  // ---------------------------------------------------------------- user info

  const MissingAccessToken: HttpError := HttpError(Unauthorized, "缺少访问令牌")
  const UserInfoSucceeded: string := "获取用户信息成功"
  const BearerPrefix: string := "Bearer "

  /** What the user-info route reports: the account, the project, its permissions there, and access. */
  datatype UserInfo = UserInfo(user: User, project: string, permissions: set<string>, projectAccess: bool)

  /** The token of an `Authorization` header that starts with `Bearer `, if it does. */
  function BearerToken(headers: map<string, string>): (r: Option<string>)
    ensures r.Some? <==> Dependencies.Truthy(Dependencies.Get(headers, "Authorization"))
                         && IsPrefix(BearerPrefix, headers["Authorization"])
    ensures r.Some? ==> headers["Authorization"] == BearerPrefix + r.value
  {
    var h := Dependencies.Get(headers, "Authorization");
    if Dependencies.Truthy(h) && IsPrefix(BearerPrefix, h.value) then
      assert h.value == h.value[..7] + h.value[7..];
      Some(h.value[7..])
    else None
  }

  /**
   * The `user-info` route: a bearer header is required; the token must be a project-bound token
   * for `project`; the account's permissions in the project are then resolved, and access to the
   * project is reported as granted whatever its role assignments say.
   */
  function UserInfoRoute(st: Store, c: RbacService.PermissionCache, codec: JwtCodec, headers: map<string, string>,
                         project: string, now: int, faults: RbacService.CacheFaults)
    : (r: (RbacService.PermissionCache, Reply<UserInfo>))
    ensures r.1.Envelope? && (r.1.response.success <==> r.1.data.Some?)
    ensures r.1.response.success <==>
      BearerToken(headers).Some? && AuthService.GetUserByAccessToken(st, codec, BearerToken(headers).value, project, now).Success?
    ensures BearerToken(headers).None? ==> r == (c, Envelope(ErrorResponse(MissingAccessToken), None))
    ensures !r.1.response.success ==> r.1.response.code == Unauthorized
    ensures r.1.response.success ==>
      && r.1.response == BaseResponse(true, 200, UserInfoSucceeded)
      && r.1.data.value.user == AuthService.GetUserByAccessToken(st, codec, BearerToken(headers).value, project, now).value
      && r.1.data.value.project == project && r.1.data.value.projectAccess
      && (r.0, r.1.data.value.permissions)
         == RbacService.GetUserProjectPermissions(st, c, r.1.data.value.user.id, project, now, faults)
  {
    match BearerToken(headers)
    case None => (c, Envelope(ErrorResponse(MissingAccessToken), None))
    case Some(token) =>
      match AuthService.GetUserByAccessToken(st, codec, token, project, now)
      case Failure(e) => (c, Envelope(ErrorResponse(e), None))
      case Success(u) =>
        var (c', permissions) := RbacService.GetUserProjectPermissions(st, c, u.id, project, now, faults);
        (c', Envelope(BaseResponse(true, 200, UserInfoSucceeded), Some(UserInfo(u, project, permissions, true))))
  }

  /**
   * From a coherent cache, the permissions the user-info route reports are the account's
   * effective permissions in the project (none when the project code is unknown), and the cache
   * stays coherent.
   */
  lemma UserInfoPermissionsEffective(st: Store, c: RbacService.PermissionCache, codec: JwtCodec,
                                     headers: map<string, string>, project: string, now: int,
                                     faults: RbacService.CacheFaults)
    requires RbacService.Coherent(st, c, now)
    ensures var r := UserInfoRoute(st, c, codec, headers, project, now, faults);
      && RbacService.Coherent(st, r.0, now)
      && (r.1.data.Some? ==>
            r.1.data.value.permissions ==
              if CrudRbac.GetProjectByCode(st, project).None? then {}
              else RbacService.EffectivePermissions(st, r.1.data.value.user.id,
                                                    Some(CrudRbac.GetProjectByCode(st, project).value.id), now))
  {
    var r := UserInfoRoute(st, c, codec, headers, project, now, faults);
    if r.1.data.Some? && CrudRbac.GetProjectByCode(st, project).Some? {
      RbacService.GetUserPermissionsCoherent(st, c, r.1.data.value.user.id,
                                             Some(CrudRbac.GetProjectByCode(st, project).value.id), now, faults);
    }
  }

  /**
   * A client presenting the token an exchange issued for its project gets the account back; the
   * same token presented for any other project is refused with a 401.
   */
  lemma UserInfoForExchangedToken(st: Store, c: RbacService.PermissionCache, codec: JwtCodec, u: User,
                                  project: string, other: string, issued: int, now: int,
                                  faults: RbacService.CacheFaults)
    requires Faithful(codec)
    requires Consistent(st) && u in st.users && u.isActive
    requires issued <= now <= issued + Config.AccessTokenLifetime
    requires other != project
    ensures var token := CreateJwtToken(codec, AuthService.SsoClaims(u.id, project), Some(Config.AccessTokenLifetime), issued);
      var headers := map["Authorization" := BearerPrefix + token];
      && UserInfoRoute(st, c, codec, headers, project, now, faults).1.data.Some?
      && UserInfoRoute(st, c, codec, headers, project, now, faults).1.data.value.user == u
      && UserInfoRoute(st, c, codec, headers, other, now, faults).1.response.code == Unauthorized
      && !UserInfoRoute(st, c, codec, headers, other, now, faults).1.response.success
  {
    var token := CreateJwtToken(codec, AuthService.SsoClaims(u.id, project), Some(Config.AccessTokenLifetime), issued);
    var headers := map["Authorization" := BearerPrefix + token];
    assert (BearerPrefix + token)[..7] == BearerPrefix;
    assert (BearerPrefix + token)[7..] == token;
    assert BearerToken(headers) == Some(token);
    AuthService.ExchangedTokenAccepted(st, codec, u, project, issued, now);
    AuthService.ExchangedTokenBoundToProject(st, codec, u, project, other, issued, now);
  }

  // ---------------------------------------------------------------- global logout

  const LogoutSucceeded: string := "全局登出成功"

  /**
   * The global `logout` route: the session named by the cookie, if any, is ended; the browser
   * goes to the target when one is given. The third component says whether the cookie is
   * cleared: the deletion is set on the injected response, which FastAPI sends only when the
   * handler returns the envelope, not when it returns its own `RedirectResponse`.
   */
  function SsoLogout(st: Store, cookies: map<string, string>, redirectUri: Option<string>)
    : (r: (Store, Reply<string>, bool))
    ensures r.2 <==> !Dependencies.Truthy(redirectUri)
    ensures r.0 == st.(sessions := r.0.sessions)
    ensures Dependencies.Truthy(redirectUri) ==> r.1 == Redirect(redirectUri.value)
    ensures !Dependencies.Truthy(redirectUri) ==> r.1 == Envelope(BaseResponse(true, 200, LogoutSucceeded), Some("success"))
    ensures !Dependencies.Truthy(Dependencies.Get(cookies, Config.SessionCookieName)) ==> r.0 == st
  {
    var token := Dependencies.Get(cookies, Config.SessionCookieName);
    var st' := if Dependencies.Truthy(token) then AuthService.Logout(st, token.value).0 else st;
    var reply := if Dependencies.Truthy(redirectUri) then Redirect(redirectUri.value)
                 else Envelope(BaseResponse(true, 200, LogoutSucceeded), Some("success"));
    (st', reply, !Dependencies.Truthy(redirectUri))
  }

  /**
   * After the global logout, the cookie's session no longer resolves to an account, while every
   * project-bound token already handed out keeps working: they are not tied to the session.
   */
  lemma SsoLogoutEndsSessionOnly(st: Store, codec: JwtCodec, cookies: map<string, string>, redirectUri: Option<string>,
                                 accessToken: string, project: string, now: int)
    requires Consistent(st)
    requires Dependencies.Truthy(Dependencies.Get(cookies, Config.SessionCookieName))
    ensures var st' := SsoLogout(st, cookies, redirectUri).0;
      && AuthService.GetUserBySession(st', cookies[Config.SessionCookieName], now).1.None?
      && AuthService.GetUserByAccessToken(st', codec, accessToken, project, now)
         == AuthService.GetUserByAccessToken(st, codec, accessToken, project, now)
  {
    var token := cookies[Config.SessionCookieName];
    match CrudAuth.GetSessionByToken(st, token)
    case None =>
    case Some(s) => CrudAuth.DeactivatedTokenNotFound(st, s);
  }

  // ---------------------------------------------------------------- session check

  const NoSessionToken: string := "未找到会话令牌"
  const SessionInvalid: string := "会话已失效"
  const SessionValid: string := "会话有效"

  /** What the session check reports: the account and whether it may use the project. */
  datatype SessionStatus = SessionStatus(user: User, hasProjectAccess: bool)

  /**
   * `check-session`: 401 envelopes for a missing cookie and for a session that does not resolve
   * (an expired one is deactivated on the way); otherwise the account, with its access to the
   * project. No code is issued.
   */
  function CheckSession(st: Store, cookies: map<string, string>, project: string, now: int)
    : (r: (Store, Reply<SessionStatus>))
    ensures r.1.Envelope? && (r.1.response.success <==> r.1.data.Some?)
    ensures r.0 == st.(sessions := r.0.sessions)
    ensures !Dependencies.Truthy(Dependencies.Get(cookies, Config.SessionCookieName)) ==>
      r == (st, Envelope(BaseResponse(false, 401, NoSessionToken), None))
    ensures Dependencies.Truthy(Dependencies.Get(cookies, Config.SessionCookieName)) ==>
      var found := AuthService.GetUserBySession(st, cookies[Config.SessionCookieName], now);
      && r.0 == found.0
      && (found.1.None? ==> r.1 == Envelope(BaseResponse(false, 401, SessionInvalid), None))
      && (found.1.Some? ==> r.1.response == BaseResponse(true, 200, SessionValid) && r.1.data.value.user == found.1.value)
    ensures r.1.data.Some? ==>
      r.1.data.value.hasProjectAccess == RbacService.CheckUserProjectAccess(st, r.1.data.value.user.id, project, now)
  {
    var token := Dependencies.Get(cookies, Config.SessionCookieName);
    if !Dependencies.Truthy(token) then (st, Envelope(BaseResponse(false, 401, NoSessionToken), None))
    else
      var (st1, user) := AuthService.GetUserBySession(st, token.value, now);
      if user.None? then (st1, Envelope(BaseResponse(false, 401, SessionInvalid), None))
      else
        var access := RbacService.CheckUserProjectAccess(st1, user.value.id, project, now);
        (st1, Envelope(BaseResponse(true, 200, SessionValid), Some(SessionStatus(user.value, access))))
  }

  /**
   * The session check predicts the callback: it reports a valid session with access to the
   * project exactly when the callback, on the same store and cookies, would issue a code; and
   * both leave the same sessions behind.
   */
  lemma CheckSessionPredictsCallback(st: Store, parse: UrlParser, q: Quoting, cookies: map<string, string>,
                                     redirectUri: string, project: string, state: Option<string>, code: string,
                                     codeId: Uuid, now: int)
    ensures var check := CheckSession(st, cookies, project, now);
      var cb := SsoCallback(st, parse, q, cookies, redirectUri, project, state, code, codeId, now);
      && (check.1.data.Some? && check.1.data.value.hasProjectAccess <==> cb.0.authCodes != st.authCodes)
      && check.0.sessions == cb.0.sessions
  {
    var cb := SsoCallback(st, parse, q, cookies, redirectUri, project, state, code, codeId, now);
    var token := Dependencies.Get(cookies, Config.SessionCookieName);
    if Dependencies.Truthy(token) {
      var (st1, user) := AuthService.GetUserBySession(st, token.value, now);
      if user.Some? && RbacService.CheckUserProjectAccess(st1, user.value.id, project, now) {
        assert |cb.0.authCodes| == |st.authCodes| + 1;
      }
    }
  }
}

=== FILE: urls.dfy ===
/**
 * The parts of `urllib.parse` the single-sign-on routes rely on: a URL split into its parts, a
 * query string read into an ordered dictionary of value lists (`parse_qs`), and such a dictionary
 * written back (`urlencode(..., doseq=True)`). Splitting a URL and percent-encoding one value
 * belong to the standard library and are parameters; the query-string logic around them is
 * written out, as current Python does it (`&` is the only separator).
 */
module Urls {
  import opened Wrappers
  import opened Seqs

  /** The six parts `urlparse` returns. */
  datatype Url = Url(scheme: string, netloc: string, path: string, params: string, query: string, fragment: string)

  type UrlParser = string -> Url

  /** `urlparse` never leaves a `#` in the scheme, the network location or the path. */
  ghost predicate SoundParser(parse: UrlParser) {
    forall s :: '#' !in parse(s).scheme && '#' !in parse(s).netloc && '#' !in parse(s).path
  }

  /** `quote_plus` and `unquote_plus`. */
  datatype Quoting = Quoting(quote: string -> string, unquote: string -> string)

  /**
   * What percent-encoding guarantees: an encoded value holds none of the characters that
   * delimit a query, decodes back to itself, and is empty only for the empty value; and a
   * string without `%` or `+` decodes to itself.
   */
  ghost predicate SoundQuoting(q: Quoting) {
    && (forall s :: '&' !in q.quote(s) && '=' !in q.quote(s) && '#' !in q.quote(s))
    && (forall s :: q.unquote(q.quote(s)) == s)
    && (forall s :: q.quote(s) == "" <==> s == "")
    && (forall s :: '%' !in s && '+' !in s ==> q.unquote(s) == s)
    && (forall s :: s != "" ==> q.unquote(s) != "")
  }

  // ---------------------------------------------------------------- splitting and joining

  /** `s.split(c)`: the pieces between the occurrences of `c`; there is always at least one. */
  function SplitOn(s: string, c: char): (r: seq<string>)
    ensures |r| >= 1
    ensures forall i :: 0 <= i < |r| ==> c !in r[i]
  {
    if |s| == 0 then [""]
    else
      var rest := SplitOn(s[1..], c);
      if s[0] == c then [""] + rest else [[s[0]] + rest[0]] + rest[1..]
  }

  /** `c.join(xs)`. */
  function JoinWith(xs: seq<string>, c: char): string {
    if |xs| == 0 then "" else if |xs| == 1 then xs[0] else xs[0] + [c] + JoinWith(xs[1..], c)
  }

  /** A string without the separator is one piece. */
  lemma {:induction false} SplitOnPlain(a: string, c: char)
    requires c !in a
    ensures SplitOn(a, c) == [a]
  {
    if |a| > 0 {
      SplitOnPlain(a[1..], c);
      assert [a[0]] + a[1..] == a;
    }
  }

  /** The first separator ends the first piece. */
  lemma {:induction false} SplitOnConcat(a: string, b: string, c: char)
    requires c !in a
    ensures SplitOn(a + [c] + b, c) == [a] + SplitOn(b, c)
  {
    var s := a + [c] + b;
    if |a| == 0 {
      assert s[1..] == b;
    } else {
      assert s[1..] == a[1..] + [c] + b;
      SplitOnConcat(a[1..], b, c);
      assert [a[0]] + a[1..] == a;
    }
  }

  /** Splitting undoes joining, as long as no piece holds the separator. */
  lemma {:induction false} SplitJoin(xs: seq<string>, c: char)
    requires |xs| >= 1
    requires forall i :: 0 <= i < |xs| ==> c !in xs[i]
    ensures SplitOn(JoinWith(xs, c), c) == xs
  {
    if |xs| == 1 {
      SplitOnPlain(xs[0], c);
    } else {
      SplitJoin(xs[1..], c);
      SplitOnConcat(xs[0], JoinWith(xs[1..], c), c);
      assert [xs[0]] + xs[1..] == xs;
    }
  }

  /** The position of the first `c` in `s`. */
  function IndexOf(s: string, c: char): (i: nat)
    requires c in s
    ensures i < |s| && s[i] == c && c !in s[..i]
  {
    if s[0] == c then 0
    else
      var j := IndexOf(s[1..], c);
      assert s[..j + 1] == [s[0]] + s[1..][..j];
      1 + j
  }

  /** In `a + [c] + b` with no `c` in `a`, the first `c` follows `a`. */
  lemma {:induction false} IndexOfConcat(a: string, b: string, c: char)
    requires c !in a
    ensures IndexOf(a + [c] + b, c) == |a|
  {
    if |a| > 0 {
      assert (a + [c] + b)[1..] == a[1..] + [c] + b;
      IndexOfConcat(a[1..], b, c);
    }
  }

  // ---------------------------------------------------------------- reading a query

  /**
   * One `name=value` piece, as `parse_qsl` reads it: an empty piece is skipped; a piece without
   * `=` and a piece with an empty value are kept, with an empty value, only when blanks are kept.
   */
  function ParsePair(piece: string, q: Quoting, keepBlank: bool): (r: Option<(string, string)>)
    ensures piece == "" ==> r.None?
    ensures SoundQuoting(q) && r.Some? && !keepBlank ==> r.value.1 != "" && '=' in piece
  {
    if piece == "" then None
    else if '=' !in piece then (if keepBlank then Some((q.unquote(piece), "")) else None)
    else
      var i := IndexOf(piece, '=');
      var value := piece[i + 1..];
      if value == "" && !keepBlank then None
      else Some((q.unquote(piece[..i]), q.unquote(value)))
  }

  /** `parse_qsl` over the pieces of a query. */
  function ParsePieces(pieces: seq<string>, q: Quoting, keepBlank: bool): (r: seq<(string, string)>)
    ensures |r| <= |pieces|
  {
    if |pieces| == 0 then []
    else
      (match ParsePair(pieces[0], q, keepBlank) case Some(p) => [p] case None => [])
      + ParsePieces(pieces[1..], q, keepBlank)
  }

  /** `parse_qsl(qs, keep_blank_values)`. */
  function ParseQsl(qs: string, q: Quoting, keepBlank: bool): seq<(string, string)> {
    ParsePieces(SplitOn(qs, '&'), q, keepBlank)
  }

  /** An ordered dictionary from names to value lists, as `parse_qs` returns it. */
  type QueryDict = seq<(string, seq<string>)>

  function Key(e: (string, seq<string>)): string {
    e.0
  }

  /** The position of the entry for `k`, if there is one. */
  function KeyIndex(d: QueryDict, k: string): (r: Option<nat>)
    ensures r.Some? ==> r.value < |d| && d[r.value].0 == k && forall j :: 0 <= j < r.value ==> d[j].0 != k
    ensures r.None? ==> forall j :: 0 <= j < |d| ==> d[j].0 != k
  {
    if |d| == 0 then None
    else if d[0].0 == k then Some(0)
    else match KeyIndex(d[1..], k)
      case None => None
      case Some(i) => Some(i + 1)
  }

  /** `d.get(k)`. */
  function Lookup(d: QueryDict, k: string): (r: Option<seq<string>>)
    ensures r.None? <==> forall j :: 0 <= j < |d| ==> d[j].0 != k
    ensures r.Some? ==> exists j :: 0 <= j < |d| && d[j] == (k, r.value)
  {
    match KeyIndex(d, k)
    case None => None
    case Some(i) => Some(d[i].1)
  }

  /** `d.setdefault(k, []).append(v)`: a value joins its name's list, a new name goes last. */
  function Add(d: QueryDict, k: string, v: string): (r: QueryDict)
    ensures |r| == |d| || r == d + [(k, [v])]
  {
    match KeyIndex(d, k)
    case Some(i) => d[i := (k, d[i].1 + [v])]
    case None => d + [(k, [v])]
  }

  /** Every pair of `ps` added in turn. */
  function AddAll(d: QueryDict, ps: seq<(string, string)>): QueryDict
    decreases |ps|
  {
    if |ps| == 0 then d else Add(AddAll(d, ps[..|ps| - 1]), ps[|ps| - 1].0, ps[|ps| - 1].1)
  }

  /** `parse_qs(qs, keep_blank_values)`: the pairs of the query grouped by name, names in order of first appearance. */
  function ParseQs(qs: string, q: Quoting, keepBlank: bool): QueryDict {
    AddAll([], ParseQsl(qs, q, keepBlank))
  }

  // ---------------------------------------------------------------- writing a query

  /** `d[k] = [v]`: the name keeps its place, or goes last when new; its values become just `v`. */
  function Assign(d: QueryDict, k: string, v: string): (r: QueryDict)
    ensures Lookup(r, k) == Some([v])
    ensures forall k' :: k' != k ==> Lookup(r, k') == Lookup(d, k')
    ensures DistinctBy(d, Key) ==> DistinctBy(r, Key)
    ensures forall j :: 0 <= j < |d| ==> j < |r| && r[j].0 == d[j].0
    ensures |r| == |d| || r == d + [(k, [v])]
  {
    match KeyIndex(d, k)
    case Some(i) =>
      var r := d[i := (k, [v])];
      assert KeyIndex(r, k) == Some(i) by { KeyIndexSameKeys(d, r, k); }
      forall k' | k' != k ensures Lookup(r, k') == Lookup(d, k') {
        KeyIndexSameKeys(d, r, k');
      }
      r
    case None =>
      var r := d + [(k, [v])];
      forall k' | k' != k ensures Lookup(r, k') == Lookup(d, k') {
        KeyIndexAppend(d, (k, [v]), k');
      }
      KeyIndexAppend(d, (k, [v]), k);
      r
  }

  /** Two dictionaries with the same names in the same places find every name at the same place. */
  lemma {:induction false} KeyIndexSameKeys(d: QueryDict, e: QueryDict, k: string)
    requires |d| == |e| && forall j :: 0 <= j < |d| ==> d[j].0 == e[j].0
    ensures KeyIndex(d, k) == KeyIndex(e, k)
  {
    if |d| > 0 && d[0].0 != k {
      KeyIndexSameKeys(d[1..], e[1..], k);
    }
  }

  /** An entry put last is found only when the name is not already present. */
  lemma {:induction false} KeyIndexAppend(d: QueryDict, x: (string, seq<string>), k: string)
    ensures KeyIndex(d, k).Some? ==> KeyIndex(d + [x], k) == KeyIndex(d, k)
    ensures KeyIndex(d, k).None? && x.0 == k ==> KeyIndex(d + [x], k) == Some(|d|)
    ensures KeyIndex(d, k).None? && x.0 != k ==> KeyIndex(d + [x], k).None?
  {
    if |d| > 0 {
      assert (d + [x])[1..] == d[1..] + [x];
      KeyIndexAppend(d[1..], x, k);
    }
  }

  /** `k=v` with both halves percent-encoded. */
  function Encode(q: Quoting, p: (string, string)): string {
    q.quote(p.0) + "=" + q.quote(p.1)
  }

  /** Every value of `vs` paired with the name `k`. */
  function Tag(k: string, vs: seq<string>): (r: seq<(string, string)>)
    ensures |r| == |vs| && forall j :: 0 <= j < |vs| ==> r[j] == (k, vs[j])
  {
    if |vs| == 0 then [] else [(k, vs[0])] + Tag(k, vs[1..])
  }

  /** The name-value pairs of a dictionary, in order. */
  function Pairs(d: QueryDict): seq<(string, string)>
    decreases |d|
  {
    if |d| == 0 then [] else Pairs(d[..|d| - 1]) + Tag(d[|d| - 1].0, d[|d| - 1].1)
  }

  /** `urlencode(d, doseq=True)`: one `name=value` piece per value, joined with `&`. */
  function UrlEncode(d: QueryDict, q: Quoting): string {
    JoinWith(Map(Pairs(d), (p: (string, string)) => Encode(q, p)), '&')
  }

  /** A dictionary `parse_qs` can give back unchanged: distinct names, no empty list, and no empty value unless blanks are kept. */
  predicate WellFormed(d: QueryDict, keepBlank: bool) {
    && DistinctBy(d, Key)
    && (forall j :: 0 <= j < |d| ==> |d[j].1| > 0)
    && (forall j, m :: 0 <= j < |d| && 0 <= m < |d[j].1| ==> keepBlank || d[j].1[m] != "")
  }

  // ---------------------------------------------------------------- the round trip

  /** An encoded pair reads back as itself. */
  lemma ParsePairOfEncode(q: Quoting, p: (string, string), keepBlank: bool)
    requires SoundQuoting(q)
    requires keepBlank || p.1 != ""
    ensures ParsePair(Encode(q, p), q, keepBlank) == Some(p)
  {
    var piece := Encode(q, p);
    assert piece == q.quote(p.0) + ['='] + q.quote(p.1);
    IndexOfConcat(q.quote(p.0), q.quote(p.1), '=');
    assert piece[..|q.quote(p.0)|] == q.quote(p.0);
    assert piece[|q.quote(p.0)| + 1..] == q.quote(p.1);
  }

  /** Encoded pieces read back as the pairs they encode. */
  lemma {:induction false} ParsePiecesOfEncoded(ps: seq<(string, string)>, q: Quoting, keepBlank: bool)
    requires SoundQuoting(q)
    requires forall j :: 0 <= j < |ps| ==> keepBlank || ps[j].1 != ""
    ensures ParsePieces(Map(ps, (p: (string, string)) => Encode(q, p)), q, keepBlank) == ps
  {
    var f := (p: (string, string)) => Encode(q, p);
    if |ps| > 0 {
      assert Map(ps, f)[1..] == Map(ps[1..], f);
      ParsePairOfEncode(q, ps[0], keepBlank);
      ParsePiecesOfEncoded(ps[1..], q, keepBlank);
      assert [ps[0]] + ps[1..] == ps;
    }
  }

  /** Adding pairs in two batches is adding them all. */
  lemma {:induction false} AddAllAppend(d: QueryDict, xs: seq<(string, string)>, ys: seq<(string, string)>)
    ensures AddAll(d, xs + ys) == AddAll(AddAll(d, xs), ys)
    decreases |ys|
  {
    if |ys| == 0 {
      assert xs + ys == xs;
    } else {
      assert (xs + ys)[..|xs + ys| - 1] == xs + ys[..|ys| - 1];
      assert (xs + ys)[|xs + ys| - 1] == ys[|ys| - 1];
      AddAllAppend(d, xs, ys[..|ys| - 1]);
    }
  }

  /** The values of a name not yet present form one new entry, last. */
  lemma {:induction false} AddAllFresh(d: QueryDict, k: string, vs: seq<string>)
    requires forall j :: 0 <= j < |d| ==> d[j].0 != k
    requires |vs| > 0
    ensures AddAll(d, Tag(k, vs)) == d + [(k, vs)]
    decreases |vs|
  {
    var t := Tag(k, vs);
    var m := |vs|;
    if m == 1 {
      assert t[..0] == [];
      assert [vs[0]] == vs;
    } else {
      var init := d + [(k, vs[..m - 1])];
      assert t[..m - 1] == Tag(k, vs[..m - 1]);
      AddAllFresh(d, k, vs[..m - 1]);
      assert AddAll(d, t) == Add(init, k, vs[m - 1]);
      KeyIndexAppend(d, (k, vs[..m - 1]), k);
      assert KeyIndex(init, k) == Some(|d|);
      assert vs[..m - 1] + [vs[m - 1]] == vs;
      assert init[|d| := (k, vs)] == d + [(k, vs)];
    }
  }

  /** Grouping the pairs of a dictionary with distinct names and no empty list rebuilds it. */
  lemma {:induction false} GroupPairs(d: QueryDict)
    requires DistinctBy(d, Key)
    requires forall j :: 0 <= j < |d| ==> |d[j].1| > 0
    ensures AddAll([], Pairs(d)) == d
    decreases |d|
  {
    if |d| > 0 {
      var n := |d|;
      var init := d[..n - 1];
      assert DistinctBy(init, Key);
      GroupPairs(init);
      AddAllAppend([], Pairs(init), Tag(d[n - 1].0, d[n - 1].1));
      forall j | 0 <= j < |init| ensures init[j].0 != d[n - 1].0 {
        assert Key(d[j]) != Key(d[n - 1]);
      }
      AddAllFresh(init, d[n - 1].0, d[n - 1].1);
      assert init + [d[n - 1]] == d;
    }
  }

  /** Every pair of a dictionary has a value of one of its lists. */
  lemma {:induction false} PairsValues(d: QueryDict, keepBlank: bool)
    requires forall j, m :: 0 <= j < |d| && 0 <= m < |d[j].1| ==> keepBlank || d[j].1[m] != ""
    ensures forall i :: 0 <= i < |Pairs(d)| ==> keepBlank || Pairs(d)[i].1 != ""
    decreases |d|
  {
    if |d| > 0 {
      PairsValues(d[..|d| - 1], keepBlank);
    }
  }

  /** A dictionary without entries has no pairs; one with a non-empty list has some. */
  lemma PairsEmpty(d: QueryDict)
    requires forall j :: 0 <= j < |d| ==> |d[j].1| > 0
    ensures Pairs(d) == [] <==> d == []
  {
    if |d| > 0 {
      assert |Tag(d[|d| - 1].0, d[|d| - 1].1)| > 0;
    }
  }

  /**
   * `parse_qs(urlencode(d, doseq=True))` gives back `d` for every well-formed dictionary: the
   * names and values, their order, and the grouping of repeated names.
   */
  lemma ParseQsOfUrlEncode(d: QueryDict, q: Quoting, keepBlank: bool)
    requires SoundQuoting(q)
    requires WellFormed(d, keepBlank)
    ensures ParseQs(UrlEncode(d, q), q, keepBlank) == d
  {
    var ps := Pairs(d);
    var f := (p: (string, string)) => Encode(q, p);
    var pieces := Map(ps, f);
    PairsValues(d, keepBlank);
    PairsEmpty(d);
    if |ps| == 0 {
      assert SplitOn("", '&') == [""];
    } else {
      forall i | 0 <= i < |pieces| ensures '&' !in pieces[i] {
        assert pieces[i] == q.quote(ps[i].0) + "=" + q.quote(ps[i].1);
      }
      SplitJoin(pieces, '&');
      ParsePiecesOfEncoded(ps, q, keepBlank);
      GroupPairs(d);
    }
  }

  // ---------------------------------------------------------------- what parsing gives

  /** Adding a pair keeps names distinct and lists non-empty, and adds only values that were allowed. */
  lemma AddWellFormed(d: QueryDict, k: string, v: string, keepBlank: bool)
    requires WellFormed(d, keepBlank)
    requires keepBlank || v != ""
    ensures WellFormed(Add(d, k, v), keepBlank)
  {
    match KeyIndex(d, k)
    case Some(i) =>
      var r := d[i := (k, d[i].1 + [v])];
      assert forall j :: 0 <= j < |d| ==> Key(r[j]) == Key(d[j]);
    case None =>
      var r := d + [(k, [v])];
      assert forall j :: 0 <= j < |d| ==> Key(r[j]) == Key(d[j]);
  }

  lemma {:induction false} AddAllWellFormed(d: QueryDict, ps: seq<(string, string)>, keepBlank: bool)
    requires WellFormed(d, keepBlank)
    requires forall i :: 0 <= i < |ps| ==> keepBlank || ps[i].1 != ""
    ensures WellFormed(AddAll(d, ps), keepBlank)
    decreases |ps|
  {
    if |ps| > 0 {
      AddAllWellFormed(d, ps[..|ps| - 1], keepBlank);
      AddWellFormed(AddAll(d, ps[..|ps| - 1]), ps[|ps| - 1].0, ps[|ps| - 1].1, keepBlank);
    }
  }

  lemma {:induction false} ParsePiecesValues(pieces: seq<string>, q: Quoting)
    requires SoundQuoting(q)
    ensures forall i :: 0 <= i < |ParsePieces(pieces, q, false)| ==> ParsePieces(pieces, q, false)[i].1 != ""
  {
    if |pieces| > 0 {
      ParsePiecesValues(pieces[1..], q);
    }
  }

  /** What `parse_qs` returns is itself well formed. */
  lemma ParseQsWellFormed(qs: string, q: Quoting, keepBlank: bool)
    requires SoundQuoting(q)
    ensures WellFormed(ParseQs(qs, q, keepBlank), keepBlank)
  {
    if !keepBlank {
      ParsePiecesValues(SplitOn(qs, '&'), q);
    }
    AddAllWellFormed([], ParseQsl(qs, q, keepBlank), keepBlank);
  }

  /** Assigning a single value keeps a dictionary well formed. */
  lemma AssignWellFormed(d: QueryDict, k: string, v: string, keepBlank: bool)
    requires WellFormed(d, keepBlank)
    requires keepBlank || v != ""
    ensures WellFormed(Assign(d, k, v), keepBlank)
  {
    var r := Assign(d, k, v);
    forall j | 0 <= j < |r| ensures |r[j].1| > 0 && forall m :: 0 <= m < |r[j].1| ==> keepBlank || r[j].1[m] != "" {
      if r[j].0 == k {
        assert Lookup(r, k) == Some([v]);
        KeyIndexFirst(r, k, j);
      } else {
        assert exists i :: 0 <= i < |d| && d[i] == r[j] by {
          KeyIndexFirst(r, r[j].0, j);
          assert Lookup(d, r[j].0) == Some(r[j].1);
          KeyIndexFirstFound(d, r[j].0);
        }
      }
    }
  }

  /** With distinct names, the entry at `j` is the one its name finds. */
  lemma KeyIndexFirst(d: QueryDict, k: string, j: nat)
    requires DistinctBy(d, Key)
    requires j < |d| && d[j].0 == k
    ensures KeyIndex(d, k) == Some(j) && Lookup(d, k) == Some(d[j].1)
  {
    assert forall i :: 0 <= i < j ==> Key(d[i]) != Key(d[j]);
  }

  /** A name that is found is found at an entry of the dictionary. */
  lemma KeyIndexFirstFound(d: QueryDict, k: string)
    requires Lookup(d, k).Some?
    ensures exists i :: 0 <= i < |d| && d[i] == (k, Lookup(d, k).value)
  {
  }

  // ---------------------------------------------------------------- one name's values

  /** The values given for the name `k`, in order. */
  function ValuesOf(ps: seq<(string, string)>, k: string): (r: seq<string>)
    ensures |r| <= |ps|
  {
    if |ps| == 0 then [] else (if ps[0].0 == k then [ps[0].1] else []) + ValuesOf(ps[1..], k)
  }

  lemma {:induction false} ValuesOfAppend(ps: seq<(string, string)>, x: (string, string), k: string)
    ensures ValuesOf(ps + [x], k) == ValuesOf(ps, k) + (if x.0 == k then [x.1] else [])
  {
    if |ps| > 0 {
      assert (ps + [x])[1..] == ps[1..] + [x];
      ValuesOfAppend(ps[1..], x, k);
    }
  }

  /** A query's value for a name as the web framework hands it to a route: the last one given, blanks kept. */
  function QueryParam(qs: string, q: Quoting, k: string): Option<string> {
    var vs := ValuesOf(ParseQsl(qs, q, true), k);
    if |vs| == 0 then None else Some(vs[|vs| - 1])
  }

  /** Adding `k=v` extends the list of `k` by `v` and leaves every other name's list alone. */
  lemma LookupAdd(d: QueryDict, k: string, v: string, k': string)
    ensures Lookup(Add(d, k, v), k') ==
      if k' == k then Some(if Lookup(d, k).Some? then Lookup(d, k).value + [v] else [v]) else Lookup(d, k')
  {
    match KeyIndex(d, k)
    case Some(i) =>
      var r := d[i := (k, d[i].1 + [v])];
      KeyIndexSameKeys(d, r, k');
    case None =>
      KeyIndexAppend(d, (k, [v]), k');
  }

  /** `parse_qs` lists, under each name, exactly the values the query gives for it, in order. */
  lemma {:induction false} LookupAddAll(ps: seq<(string, string)>, k: string)
    ensures Lookup(AddAll([], ps), k) == if |ValuesOf(ps, k)| == 0 then None else Some(ValuesOf(ps, k))
    decreases |ps|
  {
    if |ps| > 0 {
      var init := ps[..|ps| - 1];
      var x := ps[|ps| - 1];
      assert AddAll([], ps) == Add(AddAll([], init), x.0, x.1);
      LookupAddAll(init, k);
      LookupAdd(AddAll([], init), x.0, x.1, k);
      assert init + [x] == ps;
      ValuesOfAppend(init, x, k);
      var before := Lookup(AddAll([], init), k);
      if x.0 == k {
        assert ValuesOf(ps, k) == ValuesOf(init, k) + [x.1];
        if |ValuesOf(init, k)| == 0 {
          assert before.None?;
          assert ValuesOf(ps, k) == [x.1];
        } else {
          assert before == Some(ValuesOf(init, k));
        }
      } else {
        assert ValuesOf(ps, k) == ValuesOf(init, k);
      }
    }
  }

  /** A route's query value is the last value `parse_qs`, keeping blanks, lists under that name. */
  lemma QueryParamOfParseQs(qs: string, q: Quoting, k: string)
    ensures var listed := Lookup(ParseQs(qs, q, true), k); listed.Some? ==> |listed.value| > 0
    ensures var listed := Lookup(ParseQs(qs, q, true), k);
      QueryParam(qs, q, k) == if listed.None? then None else Some(listed.value[|listed.value| - 1])
  {
    LookupAddAll(ParseQsl(qs, q, true), k);
  }

  /** A character that is neither the separator nor in any piece is not in the joined string. */
  lemma {:induction false} JoinWithExcludes(xs: seq<string>, sep: char, ch: char)
    requires ch != sep
    requires forall i :: 0 <= i < |xs| ==> ch !in xs[i]
    ensures ch !in JoinWith(xs, sep)
  {
    if |xs| > 1 {
      JoinWithExcludes(xs[1..], sep, ch);
    }
  }

  /** An encoded query holds no `#`: nothing after it can be taken for a fragment. */
  lemma UrlEncodeHasNoHash(d: QueryDict, q: Quoting)
    requires SoundQuoting(q)
    ensures '#' !in UrlEncode(d, q)
  {
    var pieces := Map(Pairs(d), (p: (string, string)) => Encode(q, p));
    forall i | 0 <= i < |pieces| ensures '#' !in pieces[i] {
      assert pieces[i] == q.quote(Pairs(d)[i].0) + "=" + q.quote(Pairs(d)[i].1);
    }
    JoinWithExcludes(pieces, '&', '#');
  }

  /** A `name=value` piece with nothing to decode reads as itself. */
  lemma ParsePairPlain(name: string, value: string, q: Quoting, keepBlank: bool)
    requires SoundQuoting(q)
    requires '=' !in name && '%' !in name && '+' !in name && '%' !in value && '+' !in value
    requires keepBlank || value != ""
    ensures ParsePair(name + "=" + value, q, keepBlank) == Some((name, value))
  {
    var piece := name + "=" + value;
    assert piece == name + ['='] + value;
    IndexOfConcat(name, value, '=');
    assert piece[..|name|] == name;
    assert piece[|name| + 1..] == value;
  }

  /** A piece `name=value` with no `=` in the name reads as the decoded name and value. */
  lemma ParsePairName(name: string, value: string, q: Quoting)
    requires SoundQuoting(q)
    requires '=' !in name && '%' !in name && '+' !in name
    ensures ParsePair(name + "=" + value, q, true) == Some((name, q.unquote(value)))
  {
    var piece := name + "=" + value;
    assert piece == name + ['='] + value;
    IndexOfConcat(name, value, '=');
    assert piece[..|name|] == name;
    assert piece[|name| + 1..] == value;
  }

  /** A piece that reads as a pair puts that pair in front of what the remaining pieces read as. */
  lemma ParsePiecesCons(pieces: seq<string>, q: Quoting, keepBlank: bool, pair: (string, string))
    requires |pieces| > 0 && ParsePair(pieces[0], q, keepBlank) == Some(pair)
    ensures ParsePieces(pieces, q, keepBlank) == [pair] + ParsePieces(pieces[1..], q, keepBlank)
  {
  }
}

=== FILE: user_service.dfy ===
/**
 * The account service: lookups by textual id, registration with its errors mapped to HTTP
 * errors, partial updates, the filtered listing and the password change.
 */
module UserService {
  import opened Wrappers
  import opened Uuids
  import opened Seqs
  import opened Models
  import opened Security
  import opened Common
  import opened UserSchemas
  import CrudUser
  import CrudBase

  const InvalidUserId: HttpError := HttpError(BadRequest, "Invalid user ID format")
  const UserNotFound: HttpError := HttpError(NotFound, "User not found")
  const IncorrectCurrentPassword: HttpError := HttpError(BadRequest, "Incorrect current password")

  /** `get_user`: a malformed id is no account rather than an error. */
  function GetUser(st: Store, userId: string): (r: Option<User>)
    ensures Parse(userId).None? ==> r.None?
    ensures r.Some? ==> r.value in st.users && Parse(userId) == Some(r.value.id)
    ensures Parse(userId).Some? && r.None? ==> forall u :: u in st.users ==> u.id != Parse(userId).value
  {
    match Parse(userId)
    case None => None
    case Some(id) => CrudUser.GetUser(st, id)
  }

  /** Every stored account is found again by the text of its id. */
  lemma GetUserByText(st: Store, u: User)
    requires DistinctBy(st.users, (x: User) => x.id)
    requires u in st.users
    ensures GetUser(st, Text(u.id)) == Some(u)
  {
    ParseText(u.id);
    FindFirstUnique(st.users, (x: User) => x.id, u, (x: User) => x.id == u.id);
  }

  /**
   * `create_user`: the store's refusals (a taken email, then a taken username) become 400s
   * carrying the same message; the store is unchanged by a refusal.
   */
  function CreateUser(st: Store, obj: UserCreate, id: Uuid, hasher: PasswordHasher, now: int)
    : (r: (Store, Result<User, HttpError>))
    ensures r.1.Failure? ==> r.0 == st && r.1.error.status == BadRequest
    ensures CrudUser.GetByEmail(st, obj.email).Some? ==> r.1 == Failure(HttpError(BadRequest, "Email already registered"))
    ensures CrudUser.GetByEmail(st, obj.email).None? && CrudUser.GetByUsername(st, obj.username).Some? ==>
      r.1 == Failure(HttpError(BadRequest, "Username already taken"))
    ensures r.1.Success? <==> CrudUser.GetByEmail(st, obj.email).None? && CrudUser.GetByUsername(st, obj.username).None?
    ensures r.1.Success? ==>
      r.1.value.id == id && r.1.value.passwordHash == hasher.hash(obj.password)
      && r.0 == st.(users := st.users + [r.1.value])
  {
    var (st', created) := CrudUser.Create(st, obj, id, hasher, now);
    match created
    case Success(u) => (st', Success(u))
    case Failure(msg) => (st', Failure(HttpError(BadRequest, msg)))
  }

  /**
   * `create_user` as written: the store's refusals become the same 400s as in `CreateUser`; for
   * a free email and username the store's commit raises an `IntegrityError`, which is not a
   * `ValueError` and passes through. Nothing is ever stored.
   */
  function CreateUserAsWritten(st: Store, obj: UserCreate): (r: (Store, Result<User, WriteFailure>))
    ensures r.0 == st && r.1.Failure?
    ensures CrudUser.GetByEmail(st, obj.email).Some? ==>
      r.1 == Failure(Refused(HttpError(BadRequest, "Email already registered")))
    ensures CrudUser.GetByEmail(st, obj.email).None? && CrudUser.GetByUsername(st, obj.username).Some? ==>
      r.1 == Failure(Refused(HttpError(BadRequest, "Username already taken")))
    ensures r.1 == Failure(IntegrityViolation) <==>
      CrudUser.GetByEmail(st, obj.email).None? && CrudUser.GetByUsername(st, obj.username).None?
  {
    var (st', created) := CrudUser.CreateAsWritten(st, obj);
    match created
    case Failure(Taken(msg)) => (st', Failure(Refused(HttpError(BadRequest, msg))))
    case _ => (st', Failure(IntegrityViolation))
  }

  /**
   * A registered account, with a fresh id, keeps the store consistent, is found by the text of
   * its id, and signs in with its password.
   */
  lemma CreateUserThenGet(st: Store, obj: UserCreate, id: Uuid, hasher: PasswordHasher, now: int)
    requires Consistent(st) && CrudUser.FreshUserId(st, id) && SoundHasher(hasher)
    requires CreateUser(st, obj, id, hasher, now).1.Success?
    ensures var (st', r) := CreateUser(st, obj, id, hasher, now);
      && Consistent(st')
      && GetUser(st', Text(id)) == Some(r.value)
      && CrudUser.Authenticate(st', hasher, obj.email, obj.password) == Some(r.value)
  {
    var (st', r) := CreateUser(st, obj, id, hasher, now);
    CrudUser.CreatePreservesConsistency(st, obj, id, hasher, now);
    CrudUser.CreateThenAuthenticate(st, obj, id, hasher, now);
    GetUserByText(st', r.value);
  }

  /**
   * The account after a `UserUpdate`: each field the request set takes its new value, every
   * other field keeps its old one; the id, the password hash, the superuser flag and the login
   * record are outside the schema and never change.
   */
  function ApplyUserUpdate(u: User, upd: UserUpdate): (r: User)
    ensures r.id == u.id && r.passwordHash == u.passwordHash && r.isSuperuser == u.isSuperuser
    ensures r.createdAt == u.createdAt && r.lastLoginAt == u.lastLoginAt && r.loginCount == u.loginCount
    ensures upd.username.Unset? ==> r.username == u.username
    ensures upd.email.Unset? ==> r.email == u.email
    ensures upd.isActive.Unset? ==> r.isActive == u.isActive
    ensures upd == UserUpdate(Unset, Unset, Unset, Unset, Unset, Unset, Unset) ==> r == u
  {
    u.(username := ApplyPatch(upd.username, u.username),
       email := ApplyPatch(upd.email, u.email),
       displayName := ApplyPatch(upd.displayName, u.displayName),
       avatarUrl := ApplyPatch(upd.avatarUrl, u.avatarUrl),
       phone := ApplyPatch(upd.phone, u.phone),
       isActive := ApplyPatch(upd.isActive, u.isActive),
       isVerified := ApplyPatch(upd.isVerified, u.isVerified))
  }

  /** Applying the same update twice is applying it once. */
  lemma ApplyUserUpdateIdempotent(u: User, upd: UserUpdate)
    ensures ApplyUserUpdate(ApplyUserUpdate(u, upd), upd) == ApplyUserUpdate(u, upd)
  {
  }

  function UserId(u: User): Uuid {
    u.id
  }

  /** The update as a row patch. */
  function Patcher(upd: UserUpdate): User -> User {
    (x: User) => ApplyUserUpdate(x, upd)
  }

  /** The update, as a row patch, keeps the id and is idempotent. */
  lemma PatcherIdempotent(upd: UserUpdate)
    ensures forall x :: UserId(Patcher(upd)(x)) == UserId(x) && Patcher(upd)(Patcher(upd)(x)) == Patcher(upd)(x)
  {
    forall x ensures UserId(Patcher(upd)(x)) == UserId(x) && Patcher(upd)(Patcher(upd)(x)) == Patcher(upd)(x) {
      ApplyUserUpdateIdempotent(x, upd);
    }
  }

  /**
   * How a write of the account service can fail: with an `HTTPException` it raises itself, or
   * with the `IntegrityError` of the commit, which it does not catch.
   */
  datatype WriteFailure = Refused(error: HttpError) | IntegrityViolation

  /**
   * The row an update would write holds a username or an email that another account already
   * has, so the UNIQUE constraints on those columns refuse the commit.
   */
  predicate Collides(st: Store, v: User) {
    exists u :: u in st.users && u.id != v.id && (u.username == v.username || u.email == v.email)
  }

  /**
   * `update_user`: 400 for a malformed id, 404 for a missing account; the commit of an update
   * that gives the account another account's username or email raises `IntegrityError` and
   * nothing is stored; otherwise the fields the request set are written to that account and the
   * updated account is returned.
   */
  function UpdateUser(st: Store, userId: string, upd: UserUpdate): (r: (Store, Result<User, WriteFailure>))
    ensures Parse(userId).None? ==> r == (st, Failure(Refused(InvalidUserId)))
    ensures Parse(userId).Some? && CrudUser.GetUser(st, Parse(userId).value).None? ==> r == (st, Failure(Refused(UserNotFound)))
    ensures GetUser(st, userId).Some? ==>
      (r.1 == Failure(IntegrityViolation) <==> Collides(st, ApplyUserUpdate(GetUser(st, userId).value, upd)))
    ensures r.1.Failure? ==> r.0 == st
    ensures r.1.Success? ==>
      && GetUser(st, userId).Some?
      && r.1.value == ApplyUserUpdate(GetUser(st, userId).value, upd)
      && !Collides(st, r.1.value)
      && r.0 == st.(users := r.0.users) && |r.0.users| == |st.users|
      && forall i :: 0 <= i < |st.users| ==>
           r.0.users[i] == if st.users[i].id == r.1.value.id then ApplyUserUpdate(st.users[i], upd) else st.users[i]
  {
    match Parse(userId)
    case None => (st, Failure(Refused(InvalidUserId)))
    case Some(id) =>
      match CrudUser.GetUser(st, id)
      case None => (st, Failure(Refused(UserNotFound)))
      case Some(u) =>
        var v := ApplyUserUpdate(u, upd);
        if Collides(st, v) then (st, Failure(IntegrityViolation))
        else (st.(users := CrudBase.Update(st.users, UserId, id, Patcher(upd))), Success(v))
  }

  /**
   * Replacing one account row by a row with the same id, whose username and email no other row
   * holds, keeps ids, usernames and emails unique.
   */
  lemma ReplaceKeepsUnique(rows: seq<User>, rows': seq<User>, k: nat, v: User)
    requires k < |rows| == |rows'| && rows'[k] == v && v.id == rows[k].id
    requires forall i :: 0 <= i < |rows| && i != k ==> rows'[i] == rows[i]
    requires forall i, j :: 0 <= i < j < |rows| ==>
      rows[i].id != rows[j].id && rows[i].username != rows[j].username && rows[i].email != rows[j].email
    requires forall i :: 0 <= i < |rows| && i != k ==> rows[i].username != v.username && rows[i].email != v.email
    ensures DistinctBy(rows', (x: User) => x.id)
    ensures DistinctBy(rows', (x: User) => x.username)
    ensures DistinctBy(rows', (x: User) => x.email)
  {
  }

  /** A stored update keeps every id, username and email unique. */
  lemma UpdateUserKeepsConsistent(st: Store, userId: string, upd: UserUpdate)
    requires Consistent(st)
    ensures var (st', r) := UpdateUser(st, userId, upd);
      r.Success? ==> Consistent(st')
  {
    var (st', r) := UpdateUser(st, userId, upd);
    if r.Success? {
      var id := Parse(userId).value;
      var u := CrudUser.GetUser(st, id).value;
      UpdateUserAt(st, userId, upd, id, u);
      StoredUpdateKeepsConsistent(st, id, upd, u);
    }
  }

  /** Writing an update that collides with no other account keeps the store consistent. */
  lemma StoredUpdateKeepsConsistent(st: Store, id: Uuid, upd: UserUpdate, u: User)
    requires Consistent(st)
    requires CrudUser.GetUser(st, id) == Some(u)
    requires !Collides(st, ApplyUserUpdate(u, upd))
    ensures Consistent(st.(users := CrudBase.Update(st.users, UserId, id, Patcher(upd))))
  {
    var rows := CrudBase.Update(st.users, UserId, id, Patcher(upd));
    var v := ApplyUserUpdate(u, upd);
    var k := UpdatedRowAt(st, id, upd, u);
    NoOtherAccountHolds(st.users, k, v);
    assert DistinctBy(st.users, (x: User) => x.username) && DistinctBy(st.users, (x: User) => x.email);
    ReplaceKeepsUnique(st.users, rows, k, v);
    ConsistentWithUsers(st, rows);
  }

  /** With unique ids, an update of a stored account rewrites exactly that account's row. */
  lemma UpdatedRowAt(st: Store, id: Uuid, upd: UserUpdate, u: User) returns (k: nat)
    requires DistinctBy(st.users, (x: User) => x.id)
    requires CrudUser.GetUser(st, id) == Some(u)
    ensures k < |st.users| && st.users[k] == u
    ensures CrudBase.Update(st.users, UserId, id, Patcher(upd))[k] == ApplyUserUpdate(u, upd)
    ensures forall i :: 0 <= i < |st.users| && i != k ==>
      CrudBase.Update(st.users, UserId, id, Patcher(upd))[i] == st.users[i]
  {
    var rows := CrudBase.Update(st.users, UserId, id, Patcher(upd));
    k :| 0 <= k < |st.users| && st.users[k] == u;
    assert forall i :: 0 <= i < |st.users| && i != k ==> st.users[i].id != id;
  }

  /** Without a collision, no account other than row `k` holds the new username or email. */
  lemma NoOtherAccountHolds(rows: seq<User>, k: nat, v: User)
    requires k < |rows| && rows[k].id == v.id
    requires DistinctBy(rows, (x: User) => x.id)
    requires !(exists u :: u in rows && u.id != v.id && (u.username == v.username || u.email == v.email))
    ensures forall i :: 0 <= i < |rows| && i != k ==> rows[i].username != v.username && rows[i].email != v.email
  {
    forall i | 0 <= i < |rows| && i != k ensures rows[i].username != v.username && rows[i].email != v.email {
      assert rows[i] in rows;
    }
  }

  /** What an update of an account that exists does, unfolded. */
  lemma UpdateUserAt(st: Store, userId: string, upd: UserUpdate, id: Uuid, u: User)
    requires Parse(userId) == Some(id) && CrudUser.GetUser(st, id) == Some(u)
    requires !Collides(st, ApplyUserUpdate(u, upd))
    ensures UpdateUser(st, userId, upd) == (st.(users := CrudBase.Update(st.users, UserId, id, Patcher(upd))), Success(ApplyUserUpdate(u, upd)))
  {
  }

  /** With unique ids, the updated account is what a later lookup finds. */
  lemma UpdateUserThenGet(st: Store, userId: string, upd: UserUpdate)
    requires DistinctBy(st.users, (x: User) => x.id)
    requires UpdateUser(st, userId, upd).1.Success?
    ensures var (st', r) := UpdateUser(st, userId, upd);
      GetUser(st', userId) == Some(r.value)
  {
    var (st', r) := UpdateUser(st, userId, upd);
    var id := Parse(userId).value;
    assert r.value in st'.users by {
      var u := CrudUser.GetUser(st, id).value;
      var j :| 0 <= j < |st.users| && st.users[j] == u;
      assert st'.users[j] == r.value;
    }
    assert DistinctBy(st'.users, (x: User) => x.id) by {
      assert forall i :: 0 <= i < |st.users| ==> st'.users[i].id == st.users[i].id;
    }
    FindFirstUnique(st'.users, (x: User) => x.id, r.value, (x: User) => x.id == id);
  }

  /** An update stored without a collision does not collide when it is applied a second time. */
  lemma UpdatedDoesNotCollide(st: Store, id: Uuid, upd: UserUpdate, u: User)
    requires CrudUser.GetUser(st, id) == Some(u)
    requires !Collides(st, ApplyUserUpdate(u, upd))
    ensures var rows := CrudBase.Update(st.users, UserId, id, Patcher(upd));
      !Collides(st.(users := rows), ApplyUserUpdate(ApplyUserUpdate(u, upd), upd))
  {
    var rows := CrudBase.Update(st.users, UserId, id, Patcher(upd));
    var v := ApplyUserUpdate(u, upd);
    ApplyUserUpdateIdempotent(u, upd);
    forall w | w in rows && w.id != v.id ensures w in st.users {
      var i :| 0 <= i < |rows| && rows[i] == w;
      assert st.users[i].id != id;
    }
  }

  /** Repeating an update changes nothing more and returns the same account. */
  lemma UpdateUserIdempotent(st: Store, userId: string, upd: UserUpdate)
    requires DistinctBy(st.users, (x: User) => x.id)
    requires UpdateUser(st, userId, upd).1.Success?
    ensures var (st', r) := UpdateUser(st, userId, upd);
      UpdateUser(st', userId, upd) == (st', Success(r.value))
  {
    var id := Parse(userId).value;
    var u := CrudUser.GetUser(st, id).value;
    var rows := CrudBase.Update(st.users, UserId, id, Patcher(upd));
    var v := ApplyUserUpdate(u, upd);
    assert UpdateUser(st, userId, upd) == (st.(users := rows), Success(v)) by {
      UpdateUserAt(st, userId, upd, id, u);
    }
    var st' := st.(users := rows);
    assert !Collides(st', ApplyUserUpdate(v, upd)) by {
      UpdatedDoesNotCollide(st, id, upd, u);
    }
    assert UpdateUser(st', userId, upd) == (st'.(users := CrudBase.Update(rows, UserId, id, Patcher(upd))), Success(ApplyUserUpdate(v, upd))) by {
      UpdateUserThenGet(st, userId, upd);
      UpdateUserAt(st', userId, upd, id, v);
    }
    assert CrudBase.Update(rows, UserId, id, Patcher(upd)) == rows by {
      PatcherIdempotent(upd);
      CrudBase.UpdateIdempotent(st.users, UserId, id, Patcher(upd));
    }
    ApplyUserUpdateIdempotent(u, upd);
  }

  /**
   * `get_users`: a page of the accounts, optionally only those with the given activity flag,
   * and the total number matching. The search text is accepted and ignored.
   */
  function GetUsers(st: Store, skip: nat, limit: nat, search: Option<string>, isActive: Option<bool>)
    : (r: (seq<User>, nat))
    ensures |r.0| <= limit && |r.0| <= r.1 && r.1 <= |st.users|
    ensures forall x :: x in r.0 ==> x in st.users && (isActive.Some? ==> x.isActive == isActive.value)
    ensures isActive.None? ==> r == (Slice(st.users, skip, skip + limit), |st.users|)
  {
    var filters := CrudBase.ActiveFilter(isActive);
    CrudBase.ActiveFilterSelects(st.users, UserAttr, (x: User) => x.isActive, skip, limit, isActive);
    (CrudBase.GetMulti(st.users, UserAttr, filters, skip, limit), CrudBase.Count(st.users, UserAttr, filters))
  }

  /** The search text never changes the listing. */
  lemma GetUsersIgnoresSearch(st: Store, skip: nat, limit: nat, search: Option<string>, isActive: Option<bool>)
    ensures GetUsers(st, skip, limit, search, isActive) == GetUsers(st, skip, limit, None, isActive)
  {
  }

  /**
   * `change_password`: 404 for a missing account; 400 when the current password does not verify,
   * with nothing changed; otherwise the account's hash becomes the hash of the new password and
   * nothing else changes.
   */
  function ChangePassword(st: Store, hasher: PasswordHasher, userId: Uuid, current: string, newPassword: string)
    : (r: (Store, Result<User, HttpError>))
    ensures CrudUser.GetUser(st, userId).None? ==> r == (st, Failure(UserNotFound))
    ensures CrudUser.GetUser(st, userId).Some? && !hasher.verify(current, CrudUser.GetUser(st, userId).value.passwordHash) ==>
      r == (st, Failure(IncorrectCurrentPassword))
    ensures r.1.Success? <==>
      CrudUser.GetUser(st, userId).Some? && hasher.verify(current, CrudUser.GetUser(st, userId).value.passwordHash)
    ensures r.1.Success? ==>
      && r.1.value == CrudUser.GetUser(st, userId).value.(passwordHash := hasher.hash(newPassword))
      && r.0 == st.(users := r.0.users) && |r.0.users| == |st.users|
      && forall i :: 0 <= i < |st.users| ==>
           r.0.users[i] == if st.users[i].id == userId then st.users[i].(passwordHash := hasher.hash(newPassword)) else st.users[i]
  {
    match CrudUser.GetUser(st, userId)
    case None => (st, Failure(UserNotFound))
    case Some(u) =>
      if !hasher.verify(current, u.passwordHash) then (st, Failure(IncorrectCurrentPassword))
      else
        var rehash := (x: User) => x.(passwordHash := hasher.hash(newPassword));
        (st.(users := CrudBase.Update(st.users, (x: User) => x.id, userId, rehash)), Success(rehash(u)))
  }

  /** Replacing the account table by one with the same unique columns keeps the store consistent. */
  lemma ConsistentWithUsers(st: Store, users: seq<User>)
    requires Consistent(st)
    requires DistinctBy(users, (x: User) => x.id)
    requires DistinctBy(users, (x: User) => x.username)
    requires DistinctBy(users, (x: User) => x.email)
    ensures Consistent(st.(users := users))
  {
  }

  /** The table a password change leaves behind has the same unique columns, row by row. */
  lemma RehashKeepsKeys(st: Store, hasher: PasswordHasher, userId: Uuid, current: string, newPassword: string)
    requires ChangePassword(st, hasher, userId, current, newPassword).1.Success?
    ensures var st' := ChangePassword(st, hasher, userId, current, newPassword).0;
      && st' == st.(users := st'.users) && |st'.users| == |st.users|
      && forall i :: 0 <= i < |st.users| ==>
           st'.users[i].id == st.users[i].id && st'.users[i].username == st.users[i].username
           && st'.users[i].email == st.users[i].email
  {
  }

  /** A password change keeps the store consistent. */
  lemma ChangePasswordKeepsConsistent(st: Store, hasher: PasswordHasher, userId: Uuid, current: string, newPassword: string)
    requires Consistent(st)
    requires ChangePassword(st, hasher, userId, current, newPassword).1.Success?
    ensures Consistent(ChangePassword(st, hasher, userId, current, newPassword).0)
  {
    var st' := ChangePassword(st, hasher, userId, current, newPassword).0;
    RehashKeepsKeys(st, hasher, userId, current, newPassword);
    ConsistentWithUsers(st, st'.users);
  }

  /** After a password change the account signs in with the new password. */
  lemma ChangePasswordThenAuthenticate(st: Store, hasher: PasswordHasher, userId: Uuid, current: string, newPassword: string)
    requires DistinctBy(st.users, (x: User) => x.email) && SoundHasher(hasher)
    requires ChangePassword(st, hasher, userId, current, newPassword).1.Success?
    ensures var (st', r) := ChangePassword(st, hasher, userId, current, newPassword);
      CrudUser.Authenticate(st', hasher, r.value.email, newPassword) == Some(r.value)
  {
    var (st', r) := ChangePassword(st, hasher, userId, current, newPassword);
    assert DistinctBy(st'.users, (x: User) => x.email) by {
      RehashKeepsKeys(st, hasher, userId, current, newPassword);
    }
    assert r.value in st'.users by {
      var u := CrudUser.GetUser(st, userId).value;
      var j :| 0 <= j < |st.users| && st.users[j] == u;
      assert st'.users[j] == r.value;
    }
    FindFirstUnique(st'.users, (x: User) => x.email, r.value, (x: User) => x.email == r.value.email);
    assert hasher.verify(newPassword, r.value.passwordHash);
  }

  /**
   * The `delete_user` the users router calls is not defined by the service, so its result
   * `(store after, found)` is a parameter of the router. This is what the router relies on it
   * for: `found` exactly when the id names an account; nothing changed when it does not;
   * otherwise that account's row removed and every other table left alone.
   */
  predicate DeletesAccount(st: Store, userId: string, deleted: (Store, bool)) {
    && (deleted.1 <==> GetUser(st, userId).Some?)
    && (!deleted.1 ==> deleted.0 == st)
    && (deleted.1 ==> deleted.0 == st.(users := CrudBase.Remove(st.users, UserId, GetUser(st, userId).value.id).0))
  }

  /** A deletion as the router expects it keeps the store consistent, and the account is gone afterwards. */
  lemma DeleteUserThenGet(st: Store, userId: string, deleted: (Store, bool))
    requires Consistent(st)
    requires DeletesAccount(st, userId, deleted) && deleted.1
    ensures Consistent(deleted.0)
    ensures GetUser(deleted.0, userId).None?
    ensures forall u :: u in deleted.0.users <==> u in st.users && u.id != GetUser(st, userId).value.id
  {
    var id := GetUser(st, userId).value.id;
    CrudBase.RemovePreservesDistinct(st.users, UserId, id, (x: User) => x.id);
    CrudBase.RemovePreservesDistinct(st.users, UserId, id, (x: User) => x.username);
    CrudBase.RemovePreservesDistinct(st.users, UserId, id, (x: User) => x.email);
  }
}

=== FILE: users_router.dfy ===
/**
 * The account-management routes (`/api/v1/users`): every route takes the signed-in active
 * account and a `user.*` permission; refusals raised inside a handler are reported in the
 * envelope with their status and message, while the account and permission refusals are raised.
 */
module UsersRouter {
  import opened Wrappers
  import opened Uuids
  import opened Seqs
  import opened Models
  import opened Security
  import opened Common
  import opened UserSchemas
  import opened Routes
  import Dependencies
  import RbacService
  import UserService
  import CrudUser

  const ListedMessage: string := "获取用户列表成功"
  const CreatedMessage: string := "用户创建成功"
  const FetchedMessage: string := "获取用户信息成功"
  const UpdatedMessage: string := "用户信息更新成功"
  const DeletedMessage: string := "用户删除成功"
  const NoSuchUser: HttpError := HttpError(NotFound, "用户不存在")
  const CannotDeleteSelf: HttpError := HttpError(BadRequest, "不能删除自己")

  const ReadPermission: string := "user.read"
  const CreatePermission: string := "user.create"
  const UpdatePermission: string := "user.update"
  const DeletePermission: string := "user.delete"

  /** `UserListResponse`: one page of accounts, the number of accounts that match, and the page asked for. */
  datatype UserList = UserList(users: seq<UserResponse>, total: nat, skip: int, limit: int)

  /** A response is the rendering of an account in `pool` that passes the activity filter. */
  predicate RenderedFrom(x: UserResponse, pool: seq<User>, isActive: Option<bool>) {
    exists u :: u in pool && x == ToResponse(u) && (isActive.Some? ==> u.isActive == isActive.value)
  }

  /** Every response in the rendering of a page is the response of a stored account that passes the filter. */
  lemma ResponsesOf(page: seq<User>, pool: seq<User>, isActive: Option<bool>)
    requires forall u :: u in page ==> u in pool && (isActive.Some? ==> u.isActive == isActive.value)
    ensures forall x :: x in Map(page, ToResponse) ==> RenderedFrom(x, pool, isActive)
  {
    forall x | x in Map(page, ToResponse)
      ensures RenderedFrom(x, pool, isActive)
    {
      var i :| 0 <= i < |page| && Map(page, ToResponse)[i] == x;
      assert page[i] in page;
    }
  }

  // ---------------------------------------------------------------- GET /users

  /** `get_users`' handler: a success envelope with one page of accounts, echoing the query. */
  function ListUsers(st: Store, skip: int, limit: int, search: Option<string>, isActive: Option<bool>): (r: Reply<UserList>)
    ensures r.Envelope? && r.response == BaseResponse(true, 200, ListedMessage) && r.data.Some?
    ensures r.data.value.skip == skip && r.data.value.limit == limit
  {
    var page := UserService.GetUsers(st, PageParam(skip), PageParam(limit), search, isActive);
    Ok(ListedMessage, UserList(Map(page.0, ToResponse), page.1, skip, limit))
  }

  /**
   * The listed page holds at most `limit` accounts, each a stored account passing the activity
   * filter and rendered without its password hash; the total never exceeds the stored accounts;
   * with no filter the page is the stored accounts from `skip` on and the total counts them all.
   */
  lemma ListUsersFromStore(st: Store, skip: int, limit: int, search: Option<string>, isActive: Option<bool>)
    ensures var l := ListUsers(st, skip, limit, search, isActive).data.value;
      && |l.users| <= PageParam(limit) && l.total <= |st.users|
      && (forall x :: x in l.users ==> RenderedFrom(x, st.users, isActive))
      && (isActive.None? ==>
            l.users == Map(Slice(st.users, PageParam(skip), PageParam(skip) + PageParam(limit)), ToResponse)
            && l.total == |st.users|)
  {
    ListedPage(st, skip, limit, search, isActive);
    if isActive.None? {
      ListedUnfiltered(st, skip, limit, search);
    }
  }

  lemma ListedPage(st: Store, skip: int, limit: int, search: Option<string>, isActive: Option<bool>)
    ensures var l := ListUsers(st, skip, limit, search, isActive).data.value;
      && |l.users| <= PageParam(limit) && l.total <= |st.users|
      && (forall x :: x in l.users ==> RenderedFrom(x, st.users, isActive))
  {
    var page := UserService.GetUsers(st, PageParam(skip), PageParam(limit), search, isActive);
    ResponsesOf(page.0, st.users, isActive);
  }

  lemma ListedUnfiltered(st: Store, skip: int, limit: int, search: Option<string>)
    ensures var l := ListUsers(st, skip, limit, search, None).data.value;
      && l.users == Map(Slice(st.users, PageParam(skip), PageParam(skip) + PageParam(limit)), ToResponse)
      && l.total == |st.users|
  {
    var page := UserService.GetUsers(st, PageParam(skip), PageParam(limit), search, None);
    assert page == (Slice(st.users, PageParam(skip), PageParam(skip) + PageParam(limit)), |st.users|);
    assert ListUsers(st, skip, limit, search, None) == Ok(ListedMessage, UserList(Map(page.0, ToResponse), page.1, skip, limit));
  }

  function GetUsersHandler(st: Store, skip: int, limit: int, search: Option<string>, isActive: Option<bool>)
    : User -> (Store, Result<Reply<UserList>, HttpError>)
  {
    (caller: User) => (st, Success(ListUsers(st, skip, limit, search, isActive)))
  }

  function GetUsersRoute(st: Store, c: RbacService.PermissionCache, auth: Dependencies.Authentication,
                         skip: int, limit: int, search: Option<string>, isActive: Option<bool>,
                         now: int, faults: RbacService.CacheFaults): (r: Outcome<UserList>)
    ensures r.st == st
    ensures r.result.Success? ==> PageQueryValid(skip, limit) && r.result.value == ListUsers(st, skip, limit, search, isActive)
  {
    Guarded(st, c, auth, ActiveUser, PageQueryValid(skip, limit), Some(ReadPermission), now, faults,
            GetUsersHandler(st, skip, limit, search, isActive))
  }

  /**
   * The listing is answered exactly when the caller is an active account holding `user.read`
   * (or a superuser) and the page query is within bounds; it never writes.
   */
  lemma GetUsersRouteAdmits(st: Store, c: RbacService.PermissionCache, auth: Dependencies.Authentication,
                            skip: int, limit: int, search: Option<string>, isActive: Option<bool>,
                            now: int, faults: RbacService.CacheFaults)
    requires RbacService.Coherent(st, c, now)
    ensures var r := GetUsersRoute(st, c, auth, skip, limit, search, isActive, now, faults);
      && RbacService.Coherent(st, r.cache, now)
      && (r.result.Success? <==> Admitted(st, auth, ActiveUser, PageQueryValid(skip, limit), Some(ReadPermission), now))
  {
    GuardedAdmits(st, c, auth, ActiveUser, PageQueryValid(skip, limit), Some(ReadPermission), now, faults,
                  GetUsersHandler(st, skip, limit, search, isActive));
  }

  // ---------------------------------------------------------------- POST /users

  /**
   * `create_user`'s handler: a taken email or username is reported as a 400 in the envelope
   * with nothing written; otherwise the new account is appended and rendered, with every flag
   * the request carried, the superuser flag included.
   */
  function CreateUserReply(st: Store, obj: UserCreate, id: Uuid, hasher: PasswordHasher, now: int)
    : (r: (Store, Reply<UserResponse>))
    ensures r.1.Envelope?
    ensures r.1.response.success <==>
      CrudUser.GetByEmail(st, obj.email).None? && CrudUser.GetByUsername(st, obj.username).None?
    ensures !r.1.response.success ==> r.0 == st && r.1.response.code == BadRequest && r.1.data.None?
    ensures r.1.response.success ==>
      && r.1.response.message == CreatedMessage
      && r.1.data.Some? && r.1.data.value.id == Text(id)
      && r.1.data.value.username == obj.username && r.1.data.value.email == obj.email
      && r.1.data.value.isActive == obj.isActive && r.1.data.value.isSuperuser == obj.isSuperuser
      && r.0 == st.(users := st.users + [CrudUser.NewUser(obj, id, hasher, now)])
  {
    var (st', created) := UserService.CreateUser(st, obj, id, hasher, now);
    match created
    case Success(u) => (st', Ok(CreatedMessage, ToResponse(u)))
    case Failure(e) => (st', Refusal(e))
  }

  /**
   * `create_user`'s handler as written: a taken email or username is the same 400 envelope as
   * in `CreateUserReply`; for any other request the service's `IntegrityError` escapes the
   * handler, which catches only `HTTPException`, and the answer is a 500. Nothing is stored.
   */
  function CreateUserReplyAsWritten(st: Store, obj: UserCreate): (r: (Store, Result<Reply<UserResponse>, HttpError>))
    ensures r.0 == st
    ensures r.1.Failure? <==> CrudUser.GetByEmail(st, obj.email).None? && CrudUser.GetByUsername(st, obj.username).None?
    ensures r.1.Failure? ==> r.1.error == ServerError
    ensures r.1.Success? ==>
      r.1.value.Envelope? && !r.1.value.response.success && r.1.value.response.code == BadRequest && r.1.value.data.None?
  {
    var (st', created) := UserService.CreateUserAsWritten(st, obj);
    match created
    case Failure(Refused(e)) => (st', Success(Refusal(e)))
    case _ => (st', Failure(ServerError))
  }

  function CreateUserHandlerAsWritten(st: Store, obj: UserCreate): User -> (Store, Result<Reply<UserResponse>, HttpError>) {
    (caller: User) => CreateUserReplyAsWritten(st, obj)
  }

  function CreateUserHandler(st: Store, obj: UserCreate, id: Uuid, hasher: PasswordHasher, now: int)
    : User -> (Store, Result<Reply<UserResponse>, HttpError>)
  {
    (caller: User) => var r := CreateUserReply(st, obj, id, hasher, now); (r.0, Success(r.1))
  }

  function CreateUserRoute(st: Store, c: RbacService.PermissionCache, auth: Dependencies.Authentication,
                           obj: UserCreate, id: Uuid, hasher: PasswordHasher, now: int,
                           faults: RbacService.CacheFaults): (r: Outcome<UserResponse>)
    ensures r.result.Success? ==> (r.st, r.result.value) == CreateUserReply(st, obj, id, hasher, now)
    ensures r.result.Failure? ==> r.st == st
  {
    Guarded(st, c, auth, ActiveUser, true, Some(CreatePermission), now, faults, CreateUserHandler(st, obj, id, hasher, now))
  }

  function CreateUserRouteAsWritten(st: Store, c: RbacService.PermissionCache, auth: Dependencies.Authentication,
                                    obj: UserCreate, now: int, faults: RbacService.CacheFaults): (r: Outcome<UserResponse>)
    ensures r.st == st
  {
    Guarded(st, c, auth, ActiveUser, true, Some(CreatePermission), now, faults, CreateUserHandlerAsWritten(st, obj))
  }

  /**
   * As written, no request creates an account: an admitted creation with a free email and
   * username is a 500, one with a taken email or username gets the same 400 envelope as the
   * intended route, and the store is never changed.
   */
  lemma CreateUserRouteAsWrittenNeverCreates(st: Store, c: RbacService.PermissionCache, auth: Dependencies.Authentication,
                                             obj: UserCreate, id: Uuid, hasher: PasswordHasher, now: int,
                                             faults: RbacService.CacheFaults)
    requires RbacService.Coherent(st, c, now)
    requires Admitted(st, auth, ActiveUser, true, Some(CreatePermission), now)
    ensures var r := CreateUserRouteAsWritten(st, c, auth, obj, now, faults);
      && r.st == st
      && (CrudUser.GetByEmail(st, obj.email).None? && CrudUser.GetByUsername(st, obj.username).None? ==>
            r.result == Failure(ServerError))
      && (CrudUser.GetByEmail(st, obj.email).Some? || CrudUser.GetByUsername(st, obj.username).Some? ==>
            r.result == Success(CreateUserReply(st, obj, id, hasher, now).1))
  {
    GuardedAdmits(st, c, auth, ActiveUser, true, Some(CreatePermission), now, faults, CreateUserHandlerAsWritten(st, obj));
  }

  /**
   * An admitted creation is answered by the handler; one that is not admitted writes nothing.
   * The permission cache stays coherent with the store the route leaves, since creating an
   * account touches no assignment.
   */
  lemma CreateUserRouteAdmits(st: Store, c: RbacService.PermissionCache, auth: Dependencies.Authentication,
                              obj: UserCreate, id: Uuid, hasher: PasswordHasher, now: int,
                              faults: RbacService.CacheFaults)
    requires RbacService.Coherent(st, c, now)
    ensures var r := CreateUserRoute(st, c, auth, obj, id, hasher, now, faults);
      && RbacService.Coherent(r.st, r.cache, now)
      && (Admitted(st, auth, ActiveUser, true, Some(CreatePermission), now) <==> r.result.Success?)
      && (r.result.Success? ==> (r.st, r.result.value) == CreateUserReply(st, obj, id, hasher, now))
      && (r.result.Failure? ==> r.st == st)
  {
    var r := CreateUserRoute(st, c, auth, obj, id, hasher, now, faults);
    GuardedAdmits(st, c, auth, ActiveUser, true, Some(CreatePermission), now, faults, CreateUserHandler(st, obj, id, hasher, now));
    RbacService.CoherentAcrossOtherTables(st, r.st, r.cache, now);
  }

  /**
   * The route does not look at the superuser flag of the request: any holder of `user.create`
   * can create a superuser account, which then passes every permission check.
   */
  lemma CreateUserRouteMintsSuperuser(st: Store, c: RbacService.PermissionCache, auth: Dependencies.Authentication,
                                      obj: UserCreate, id: Uuid, hasher: PasswordHasher, now: int,
                                      faults: RbacService.CacheFaults)
    requires RbacService.Coherent(st, c, now)
    requires Admitted(st, auth, ActiveUser, true, Some(CreatePermission), now)
    requires CrudUser.GetByEmail(st, obj.email).None? && CrudUser.GetByUsername(st, obj.username).None?
    requires obj.isSuperuser && obj.isActive
    ensures var r := CreateUserRoute(st, c, auth, obj, id, hasher, now, faults);
      && r.result.Success? && r.result.value.data.value.isSuperuser
      && CrudUser.NewUser(obj, id, hasher, now) in r.st.users
      && CrudUser.NewUser(obj, id, hasher, now).isSuperuser && CrudUser.NewUser(obj, id, hasher, now).isActive
  {
    CreateUserRouteAdmits(st, c, auth, obj, id, hasher, now, faults);
  }

  // ---------------------------------------------------------------- GET /users/{user_id}

  /** `get_user`'s handler: a malformed or unknown id is a 404 in the envelope; otherwise the account, rendered. */
  function GetUserReply(st: Store, userId: string): (r: Reply<UserResponse>)
    ensures r.Envelope?
    ensures r.response.success <==> UserService.GetUser(st, userId).Some?
    ensures r.response.success ==> r == Ok(FetchedMessage, ToResponse(UserService.GetUser(st, userId).value))
    ensures !r.response.success ==> r == Refusal(NoSuchUser)
  {
    match UserService.GetUser(st, userId)
    case None => Refusal(NoSuchUser)
    case Some(u) => Ok(FetchedMessage, ToResponse(u))
  }

  function GetUserHandler(st: Store, userId: string): User -> (Store, Result<Reply<UserResponse>, HttpError>) {
    (caller: User) => (st, Success(GetUserReply(st, userId)))
  }

  function GetUserRoute(st: Store, c: RbacService.PermissionCache, auth: Dependencies.Authentication,
                        userId: string, now: int, faults: RbacService.CacheFaults): (r: Outcome<UserResponse>)
    ensures r.st == st
    ensures r.result.Success? ==> r.result.value == GetUserReply(st, userId)
  {
    Guarded(st, c, auth, ActiveUser, true, Some(ReadPermission), now, faults, GetUserHandler(st, userId))
  }

  /** An admitted caller with `user.read` gets the account, or a 404 envelope; the route never writes. */
  lemma GetUserRouteAdmits(st: Store, c: RbacService.PermissionCache, auth: Dependencies.Authentication,
                           userId: string, now: int, faults: RbacService.CacheFaults)
    requires RbacService.Coherent(st, c, now)
    ensures var r := GetUserRoute(st, c, auth, userId, now, faults);
      && RbacService.Coherent(st, r.cache, now)
      && (r.result.Success? <==> Admitted(st, auth, ActiveUser, true, Some(ReadPermission), now))
  {
    GuardedAdmits(st, c, auth, ActiveUser, true, Some(ReadPermission), now, faults, GetUserHandler(st, userId));
  }

  /**
   * An account created through the route is then fetched through the route by the text of its
   * id, by the same caller, and comes back as the creation answered it.
   */
  lemma CreatedUserFetched(st: Store, c: RbacService.PermissionCache, auth: Dependencies.Authentication,
                           obj: UserCreate, id: Uuid, hasher: PasswordHasher, now: int,
                           faults: RbacService.CacheFaults, faults': RbacService.CacheFaults)
    requires Consistent(st) && CrudUser.FreshUserId(st, id) && SoundHasher(hasher)
    requires RbacService.Coherent(st, c, now)
    requires Admitted(st, auth, ActiveUser, true, Some(CreatePermission), now)
    requires Admitted(st, auth, ActiveUser, true, Some(ReadPermission), now)
    requires CrudUser.GetByEmail(st, obj.email).None? && CrudUser.GetByUsername(st, obj.username).None?
    ensures var r := CreateUserRoute(st, c, auth, obj, id, hasher, now, faults);
      var r' := GetUserRoute(r.st, r.cache, auth, Text(id), now, faults');
      && r.result.Success? && r'.result.Success?
      && r'.result.value == Ok(FetchedMessage, r.result.value.data.value)
  {
    var r := CreateUserRoute(st, c, auth, obj, id, hasher, now, faults);
    CreateUserRouteAdmits(st, c, auth, obj, id, hasher, now, faults);
    UserService.CreateUserThenGet(st, obj, id, hasher, now);
    var created := UserService.CreateUser(st, obj, id, hasher, now);
    assert r.st == created.0;
    assert RbacService.EffectivePermissions(r.st, auth.user.value.id, None, now)
        == RbacService.EffectivePermissions(st, auth.user.value.id, None, now);
    GetUserRouteAdmits(r.st, r.cache, auth, Text(id), now, faults');
  }

  /** A malformed id is never an error of its own on this route: it is the same 404 as an unknown account. */
  lemma GetUserRouteMalformedIsNotFound(st: Store, c: RbacService.PermissionCache, auth: Dependencies.Authentication,
                                        userId: string, now: int, faults: RbacService.CacheFaults)
    requires RbacService.Coherent(st, c, now)
    requires Admitted(st, auth, ActiveUser, true, Some(ReadPermission), now)
    requires Parse(userId).None?
    ensures GetUserRoute(st, c, auth, userId, now, faults).result == Success(Refusal(NoSuchUser))
  {
    GetUserRouteAdmits(st, c, auth, userId, now, faults);
  }

  // ---------------------------------------------------------------- PUT /users/{user_id}

  /**
   * `update_user`'s handler: the service's 400 (malformed id) and 404 (unknown account) are
   * reported in the envelope with nothing written; the `IntegrityError` of an update that takes
   * another account's username or email escapes `except HTTPException` and becomes the
   * application's 500, again with nothing written; otherwise the updated account is rendered and
   * the store holds it.
   */
  function UpdateUserReply(st: Store, userId: string, upd: UserUpdate): (r: (Store, Result<Reply<UserResponse>, HttpError>))
    ensures r.1.Success? ==> r.1.value.Envelope?
    ensures Parse(userId).None? ==> r == (st, Success(Refusal(UserService.InvalidUserId)))
    ensures Parse(userId).Some? && UserService.GetUser(st, userId).None? ==> r == (st, Success(Refusal(UserService.UserNotFound)))
    ensures UserService.GetUser(st, userId).Some? && UserService.Collides(st, UserService.ApplyUserUpdate(UserService.GetUser(st, userId).value, upd)) ==>
      r == (st, Failure(ServerError))
    ensures r.1.Success? && r.1.value.response.success <==>
      UserService.GetUser(st, userId).Some? && !UserService.Collides(st, UserService.ApplyUserUpdate(UserService.GetUser(st, userId).value, upd))
    ensures r.1.Success? && r.1.value.response.success ==>
      && r.1.value.response.message == UpdatedMessage
      && r.1.value.data == Some(ToResponse(UserService.ApplyUserUpdate(UserService.GetUser(st, userId).value, upd)))
      && r.0 == UserService.UpdateUser(st, userId, upd).0
    ensures !(r.1.Success? && r.1.value.response.success) ==> r.0 == st
  {
    var (st', updated) := UserService.UpdateUser(st, userId, upd);
    match updated
    case Success(u) => (st', Success(Ok(UpdatedMessage, ToResponse(u))))
    case Failure(Refused(e)) => (st', Success(Refusal(e)))
    case Failure(IntegrityViolation) => (st', Failure(ServerError))
  }

  function UpdateUserHandler(st: Store, userId: string, upd: UserUpdate): User -> (Store, Result<Reply<UserResponse>, HttpError>) {
    (caller: User) => UpdateUserReply(st, userId, upd)
  }

  function UpdateUserRoute(st: Store, c: RbacService.PermissionCache, auth: Dependencies.Authentication,
                           userId: string, upd: UserUpdate, now: int, faults: RbacService.CacheFaults)
    : (r: Outcome<UserResponse>)
    ensures r.result.Success? ==> (r.st, r.result) == UpdateUserReply(st, userId, upd)
    ensures r.result.Failure? ==> r.st == st
  {
    Guarded(st, c, auth, ActiveUser, true, Some(UpdatePermission), now, faults, UpdateUserHandler(st, userId, upd))
  }

  /** The update the route would store collides with another account on a UNIQUE column. */
  predicate UpdateCollides(st: Store, userId: string, upd: UserUpdate) {
    UserService.GetUser(st, userId).Some? && UserService.Collides(st, UserService.ApplyUserUpdate(UserService.GetUser(st, userId).value, upd))
  }

  /**
   * An admitted update is answered by the handler unless it collides with another account's
   * username or email, which is a 500; a successful update is fetched again with the update
   * applied, and the store stays consistent; a request that is not answered writes nothing.
   */
  lemma UpdateUserRouteThenGet(st: Store, c: RbacService.PermissionCache, auth: Dependencies.Authentication,
                               userId: string, upd: UserUpdate, now: int, faults: RbacService.CacheFaults)
    requires Consistent(st)
    requires RbacService.Coherent(st, c, now)
    ensures var r := UpdateUserRoute(st, c, auth, userId, upd, now, faults);
      && RbacService.Coherent(r.st, r.cache, now)
      && Consistent(r.st)
      && (r.result.Success? <==> Admitted(st, auth, ActiveUser, true, Some(UpdatePermission), now) && !UpdateCollides(st, userId, upd))
      && (r.result.Failure? ==> r.st == st)
      && (r.result.Success? && r.result.value.response.success ==>
            GetUserReply(r.st, userId) == Ok(FetchedMessage, r.result.value.data.value))
  {
    var r := UpdateUserRoute(st, c, auth, userId, upd, now, faults);
    GuardedAdmits(st, c, auth, ActiveUser, true, Some(UpdatePermission), now, faults, UpdateUserHandler(st, userId, upd));
    RbacService.CoherentAcrossOtherTables(st, r.st, r.cache, now);
    UserService.UpdateUserKeepsConsistent(st, userId, upd);
    if r.result.Success? && r.result.value.response.success {
      UserService.UpdateUserThenGet(st, userId, upd);
    }
  }

  // ---------------------------------------------------------------- DELETE /users/{user_id}

  /**
   * `delete_user`'s handler as written: the self-deletion refusal is reported in the envelope;
   * for any other id the handler calls the service's `delete_user`, which the service does not
   * define, and the `AttributeError` escapes the handler's `except HTTPException`.
   */
  function DeleteUserReplyAsWritten(st: Store, caller: User, userId: string): (r: (Store, Result<Reply<string>, HttpError>))
    ensures r.0 == st
    ensures Text(caller.id) == userId ==> r.1 == Success(Refusal(CannotDeleteSelf))
    ensures Text(caller.id) != userId ==> r.1 == Failure(ServerError)
  {
    if Text(caller.id) == userId then (st, Success(Refusal(CannotDeleteSelf)))
    else (st, Failure(ServerError))
  }

  /**
   * `delete_user`'s handler as evidently intended, with the service's deletion as the oracle
   * result `deleted`: the caller's own id (compared as text) is refused before the deletion is
   * asked for; an unknown or malformed id is a 404 in the envelope; otherwise the deletion stands.
   */
  function DeleteUserReply(st: Store, caller: User, userId: string, deleted: (Store, bool)): (r: (Store, Result<Reply<string>, HttpError>))
    ensures r.1.Success? && r.1.value.Envelope?
    ensures Text(caller.id) == userId ==> r == (st, Success(Refusal(CannotDeleteSelf)))
    ensures Text(caller.id) != userId && UserService.DeletesAccount(st, userId, deleted) ==>
      && (r.1.value == Ok(DeletedMessage, "success") <==> UserService.GetUser(st, userId).Some?)
      && (UserService.GetUser(st, userId).None? ==> r == (st, Success(Refusal(NoSuchUser))))
      && r.0 == deleted.0
  {
    if Text(caller.id) == userId then (st, Success(Refusal(CannotDeleteSelf)))
    else
      var (st', found) := deleted;
      if found then (st', Success(Ok(DeletedMessage, "success")))
      else (st', Success(Refusal(NoSuchUser)))
  }

  function DeleteUserHandlerAsWritten(st: Store, userId: string): User -> (Store, Result<Reply<string>, HttpError>) {
    (caller: User) => DeleteUserReplyAsWritten(st, caller, userId)
  }

  function DeleteUserHandler(st: Store, userId: string, deleted: (Store, bool)): User -> (Store, Result<Reply<string>, HttpError>) {
    (caller: User) => DeleteUserReply(st, caller, userId, deleted)
  }

  function DeleteUserRouteAsWritten(st: Store, c: RbacService.PermissionCache, auth: Dependencies.Authentication,
                                    userId: string, now: int, faults: RbacService.CacheFaults): (r: Outcome<string>)
    ensures r.st == st
  {
    Guarded(st, c, auth, ActiveUser, true, Some(DeletePermission), now, faults, DeleteUserHandlerAsWritten(st, userId))
  }

  function DeleteUserRoute(st: Store, c: RbacService.PermissionCache, auth: Dependencies.Authentication,
                           userId: string, deleted: (Store, bool), now: int, faults: RbacService.CacheFaults): (r: Outcome<string>)
    ensures r.result.Success? ==> auth.user.Some? && (r.st, r.result) == DeleteUserReply(st, auth.user.value, userId, deleted)
    ensures r.result.Failure? ==> r.st == st
  {
    Guarded(st, c, auth, ActiveUser, true, Some(DeletePermission), now, faults, DeleteUserHandler(st, userId, deleted))
  }

  /**
   * As written, an admitted deletion of any account other than the caller's own is a 500 and
   * removes nothing: no account can be deleted through the route.
   */
  lemma DeleteUserRouteAsWrittenNeverDeletes(st: Store, c: RbacService.PermissionCache, auth: Dependencies.Authentication,
                                             userId: string, now: int, faults: RbacService.CacheFaults)
    requires RbacService.Coherent(st, c, now)
    requires Admitted(st, auth, ActiveUser, true, Some(DeletePermission), now)
    requires userId != Text(auth.user.value.id)
    ensures var r := DeleteUserRouteAsWritten(st, c, auth, userId, now, faults);
      r.st == st && r.result == Failure(ServerError)
  {
    GuardedAdmits(st, c, auth, ActiveUser, true, Some(DeletePermission), now, faults, DeleteUserHandlerAsWritten(st, userId));
  }

  /**
   * With the deletion the route evidently intends, an admitted caller deleting another existing
   * account succeeds, the store stays consistent, and the account is gone: fetching it is then a
   * 404 and deleting it again is a 404.
   */
  lemma DeleteUserRouteRemoves(st: Store, c: RbacService.PermissionCache, auth: Dependencies.Authentication,
                               userId: string, deleted: (Store, bool), again: (Store, bool), now: int,
                               faults: RbacService.CacheFaults)
    requires Consistent(st) && RbacService.Coherent(st, c, now)
    requires Admitted(st, auth, ActiveUser, true, Some(DeletePermission), now)
    requires userId != Text(auth.user.value.id)
    requires UserService.GetUser(st, userId).Some?
    requires UserService.DeletesAccount(st, userId, deleted) && UserService.DeletesAccount(deleted.0, userId, again)
    ensures var r := DeleteUserRoute(st, c, auth, userId, deleted, now, faults);
      && r.result == Success(Ok(DeletedMessage, "success"))
      && Consistent(r.st) && RbacService.Coherent(r.st, r.cache, now)
      && GetUserReply(r.st, userId) == Refusal(NoSuchUser)
      && DeleteUserReply(r.st, auth.user.value, userId, again) == (r.st, Success(Refusal(NoSuchUser)))
  {
    var r := DeleteUserRoute(st, c, auth, userId, deleted, now, faults);
    GuardedAdmits(st, c, auth, ActiveUser, true, Some(DeletePermission), now, faults, DeleteUserHandler(st, userId, deleted));
    UserService.DeleteUserThenGet(st, userId, deleted);
    RbacService.CoherentAcrossOtherTables(st, r.st, r.cache, now);
  }

  /**
   * The self-deletion guard compares texts, and the id parser also accepts the bare 32-digit
   * form: with the intended deletion, a caller naming their own id in that form deletes their
   * own account.
   */
  lemma SelfDeletionGuardIsTextual(st: Store, c: RbacService.PermissionCache, auth: Dependencies.Authentication,
                                   deleted: (Store, bool), now: int, faults: RbacService.CacheFaults)
    requires Consistent(st) && RbacService.Coherent(st, c, now)
    requires Admitted(st, auth, ActiveUser, true, Some(DeletePermission), now)
    requires auth.user.value in st.users
    requires UserService.DeletesAccount(st, auth.user.value.id.hex, deleted)
    ensures var r := DeleteUserRoute(st, c, auth, auth.user.value.id.hex, deleted, now, faults);
      && r.result == Success(Ok(DeletedMessage, "success"))
      && UserService.GetUser(r.st, Text(auth.user.value.id)).None?
  {
    var u := auth.user.value;
    var r := DeleteUserRoute(st, c, auth, u.id.hex, deleted, now, faults);
    ParseBareHex(u.id);
    ParseText(u.id);
    GuardedAdmits(st, c, auth, ActiveUser, true, Some(DeletePermission), now, faults, DeleteUserHandler(st, u.id.hex, deleted));
    UserService.GetUserByText(st, u);
    assert UserService.GetUser(st, u.id.hex) == Some(u);
    UserService.DeleteUserThenGet(st, u.id.hex, deleted);
    assert UserService.GetUser(r.st, u.id.hex).None?;
  }
}

=== FILE: uuids.dfy ===
/**
 * Record identifiers. Every row of the store carries a UUID; request handlers receive
 * identifiers as text and parse them with Python's `uuid.UUID(str)`, which raises
 * `ValueError` on malformed input.
 */
module Uuids {
  import opened Wrappers
  import opened Seqs

  predicate IsHexDigit(c: char) {
    ('0' <= c <= '9') || ('a' <= c <= 'f') || ('A' <= c <= 'F')
  }

  predicate IsLowerHexDigit(c: char) {
    ('0' <= c <= '9') || ('a' <= c <= 'f')
  }

  predicate IsLowerHex32(h: string) {
    |h| == 32 && forall i :: 0 <= i < |h| ==> IsLowerHexDigit(h[i])
  }

  datatype UuidValue = UuidValue(hex: string)

  /** A UUID: its 128 bits as 32 lower-case hexadecimal digits. */
  type Uuid = u: UuidValue | IsLowerHex32(u.hex)
    witness UuidValue("00000000000000000000000000000000")

  /** `str(uuid)`: the canonical 8-4-4-4-12 hyphenated form. */
  function Text(u: Uuid): (t: string)
    ensures |t| == 36
    ensures t[8] == '-' && t[13] == '-' && t[18] == '-' && t[23] == '-'
    ensures ':' !in t && '{' !in t && '}' !in t
    ensures RemoveChar(t, '-') == u.hex
  {
    var h := u.hex;
    var t := h[0..8] + "-" + h[8..12] + "-" + h[12..16] + "-" + h[16..20] + "-" + h[20..32];
    HyphenatedShape(h);
    t
  }

  /** The 8-4-4-4-12 form of 32 hexadecimal digits: hyphens in four fixed places, the digits back without them. */
  lemma HyphenatedShape(h: string)
    requires IsLowerHex32(h)
    ensures var t := h[0..8] + "-" + h[8..12] + "-" + h[12..16] + "-" + h[16..20] + "-" + h[20..32];
      && |t| == 36
      && t[8] == '-' && t[13] == '-' && t[18] == '-' && t[23] == '-'
      && ':' !in t && '{' !in t && '}' !in t
      && RemoveChar(t, '-') == h
  {
    var t := h[0..8] + "-" + h[8..12] + "-" + h[12..16] + "-" + h[16..20] + "-" + h[20..32];
    assert forall c :: c in t ==> c == '-' || IsLowerHexDigit(c);
    RemoveHyphensOfText(h);
  }

  lemma {:induction false} RemoveCharConcat(a: string, b: string, c: char)
    ensures RemoveChar(a + b, c) == RemoveChar(a, c) + RemoveChar(b, c)
  {
    if |a| == 0 {
      assert a + b == b;
    } else {
      assert (a + b)[1..] == a[1..] + b;
      RemoveCharConcat(a[1..], b, c);
    }
  }

  lemma {:induction false} RemoveCharAbsent(a: string, c: char)
    requires c !in a
    ensures RemoveChar(a, c) == a
  {
    if |a| > 0 {
      assert a == [a[0]] + a[1..];
      RemoveCharAbsent(a[1..], c);
    }
  }

  lemma AppendHyphenPart(acc: string, accDigits: string, part: string)
    requires RemoveChar(acc, '-') == accDigits && '-' !in part
    ensures RemoveChar(acc + "-" + part, '-') == accDigits + part
  {
    RemoveCharConcat(acc, "-", '-');
    assert RemoveChar("-", '-') == [];
    RemoveCharConcat(acc + "-", part, '-');
    RemoveCharAbsent(part, '-');
  }

  lemma RemoveHyphensOfText(h: string)
    requires IsLowerHex32(h)
    ensures RemoveChar(h[0..8] + "-" + h[8..12] + "-" + h[12..16] + "-" + h[16..20] + "-" + h[20..32], '-') == h
  {
    assert forall c :: c in h ==> c != '-';
    RemoveCharAbsent(h[0..8], '-');
    AppendHyphenPart(h[0..8], h[0..8], h[8..12]);
    AppendHyphenPart(h[0..8] + "-" + h[8..12], h[0..8] + h[8..12], h[12..16]);
    AppendHyphenPart(h[0..8] + "-" + h[8..12] + "-" + h[12..16], h[0..8] + h[8..12] + h[12..16], h[16..20]);
    AppendHyphenPart(h[0..8] + "-" + h[8..12] + "-" + h[12..16] + "-" + h[16..20],
      h[0..8] + h[8..12] + h[12..16] + h[16..20], h[20..32]);
    assert h == h[0..8] + h[8..12] + h[12..16] + h[16..20] + h[20..32];
  }

  /** Python's `s.replace(pat, "")`: every non-overlapping occurrence, left to right. */
  function RemoveAll(s: string, pat: string): (r: string)
    requires |pat| > 0
    ensures |r| <= |s|
    decreases |s|
  {
    if |s| < |pat| then s
    else if s[..|pat|] == pat then RemoveAll(s[|pat|..], pat)
    else [s[0]] + RemoveAll(s[1..], pat)
  }

  lemma {:induction false} RemoveAllAbsent(s: string, pat: string, c: char)
    requires |pat| > 0 && c in pat && c !in s
    ensures RemoveAll(s, pat) == s
    decreases |s|
  {
    if |s| >= |pat| {
      assert s[..|pat|] != pat by {
        var k :| 0 <= k < |pat| && pat[k] == c;
        assert s[..|pat|][k] == s[k];
      }
      RemoveAllAbsent(s[1..], pat, c);
      assert s == [s[0]] + s[1..];
    }
  }

  /** Python's `s.strip(chars)`: drop characters of `cs` from both ends. */
  function StripLeft(s: string, cs: set<char>): (r: string)
    ensures |r| <= |s|
    ensures |r| > 0 ==> r[0] !in cs
  {
    if |s| > 0 && s[0] in cs then StripLeft(s[1..], cs) else s
  }

  function StripRight(s: string, cs: set<char>): (r: string)
    ensures |r| <= |s|
    ensures |r| > 0 ==> r[|r| - 1] !in cs
  {
    if |s| > 0 && s[|s| - 1] in cs then StripRight(s[..|s| - 1], cs) else s
  }

  function Strip(s: string, cs: set<char>): string {
    StripRight(StripLeft(s, cs), cs)
  }

  function LowerHexDigit(c: char): (d: char)
    requires IsHexDigit(c)
    ensures IsLowerHexDigit(d)
  {
    if 'A' <= c <= 'F' then (c as int - 'A' as int + 'a' as int) as char else c
  }

  function LowerHex(s: string): (r: string)
    requires forall i :: 0 <= i < |s| ==> IsHexDigit(s[i])
    ensures |r| == |s|
    ensures forall i :: 0 <= i < |s| ==> r[i] == LowerHexDigit(s[i])
  {
    if |s| == 0 then [] else [LowerHexDigit(s[0])] + LowerHex(s[1..])
  }

  /** The 32 digits that `uuid.UUID(s)` would read, before the length and digit checks. */
  function Digits(s: string): string {
    RemoveChar(Strip(RemoveAll(RemoveAll(s, "urn:"), "uuid:"), {'{', '}'}), '-')
  }

  /**
   * `uuid.UUID(s)`: `None` where Python raises `ValueError`. Upper-case digits, braces,
   * missing hyphens and a `urn:uuid:` prefix are all accepted and normalised away.
   */
  function Parse(s: string): (r: Option<Uuid>)
    ensures r.Some? <==> |Digits(s)| == 32 && forall i :: 0 <= i < 32 ==> IsHexDigit(Digits(s)[i])
    ensures r.Some? ==> forall i :: 0 <= i < 32 ==> r.value.hex[i] == LowerHexDigit(Digits(s)[i])
  {
    var d := Digits(s);
    if |d| == 32 && forall i :: 0 <= i < 32 ==> IsHexDigit(d[i]) then
      var h := LowerHex(d);
      assert IsLowerHex32(h);
      Some(UuidValue(h))
    else None
  }

  /** The message of the `ValueError` that `uuid.UUID` raises where `Parse` answers `None`. */
  const BadUuidMessage: string := "badly formed hexadecimal UUID string"

  /** Printing an identifier and parsing it back yields the same identifier. */
  lemma ParseText(u: Uuid)
    ensures Parse(Text(u)) == Some(u)
  {
    var t := Text(u);
    RemoveAllAbsent(t, "urn:", ':');
    RemoveAllAbsent(t, "uuid:", ':');
    assert Strip(t, {'{', '}'}) == t;
    assert Digits(t) == u.hex;
    var h := LowerHex(u.hex);
    assert h == u.hex;
  }

  /** Distinct identifiers have distinct texts. */
  lemma TextInjective(u: Uuid, v: Uuid)
    requires Text(u) == Text(v)
    ensures u == v
  {
    assert RemoveChar(Text(u), '-') == u.hex;
    assert RemoveChar(Text(v), '-') == v.hex;
  }

  /** The digits `uuid.UUID` reads from the bare 32-digit form are those digits. */
  lemma DigitsOfBareHex(u: Uuid)
    ensures Digits(u.hex) == u.hex
  {
    var h := u.hex;
    assert ':' !in h && '-' !in h by {
      assert forall i :: 0 <= i < |h| ==> IsLowerHexDigit(h[i]);
    }
    RemoveAllAbsent(h, "urn:", ':');
    RemoveAllAbsent(h, "uuid:", ':');
    assert Strip(h, {'{', '}'}) == h by {
      assert StripLeft(h, {'{', '}'}) == h;
      assert StripRight(h, {'{', '}'}) == h;
    }
    RemoveCharAbsent(h, '-');
  }

  /**
   * The 32 digits without hyphens name the same identifier as the canonical text, yet are a
   * different string: a comparison of texts cannot tell that two ids are the same.
   */
  lemma ParseBareHex(u: Uuid)
    ensures Parse(u.hex) == Some(u)
    ensures u.hex != Text(u)
  {
    DigitsOfBareHex(u);
    assert LowerHex(u.hex) == u.hex;
  }
}

=== FILE: wrappers.dfy ===
/** Failure-compatible wrappers shared by every module of the model. */
module Wrappers {

  /** A value that may be absent; Python's `Optional[T]`. */
  datatype Option<+T> = None | Some(value: T) {

    function GetOr(default: T): T {
      match this
      case Some(v) => v
      case None => default
    }
  }

  /** The outcome of an operation that can raise; `Failure` carries what was raised. */
  datatype Result<+T, +E> = Success(value: T) | Failure(error: E) {

    predicate IsFailure() {
      Failure?
    }

    function PropagateFailure<U>(): Result<U, E>
      requires Failure?
    {
      Failure(error)
    }

    function Extract(): T
      requires Success?
    {
      value
    }
  }
}
